=== FILE: README.md ===
# email-test core, modelled in Dafny

This project models the core of a small mail-outreach system. A Python scraper collects company
records from an online directory, and a second script merges its page exports. A Next.js back
office then imports customers from spreadsheets, files approval requests for mailings, queues and
sends the approved emails through the Gmail API, and records unsubscriptions. Around these sit
the bulk job-creation script, the inbound-mail webhook, the charset handling of incoming mail,
the translation context and the text helpers of the front end.

Every table is a sequence of rows in the order the database returns it. Every network call, send,
database failure, clock reading and random value is a parameter (an oracle). Regular expressions
are hand-written matchers that follow JavaScript's backtracking semantics for the patterns
involved. One module per source file or concern:

| module | models |
|---|---|
| `Scraper` | `getCompanyInfo_stable.py`: link extraction, detail-page fields, retries, aggregation, CSV rows |
| `Merge` | `merge_pages.py`: file selection in name order, concatenation, de-duplication by `URL` |
| `EmailPattern` | the email format test and the address search of the import and unsubscribe routes |
| `FaxNumber` | the fax-number clean-up of the customer import |
| `ImportSheet` | the header resolution and row scan of `app/api/customers/bulk-upload/route.ts` |
| `BulkUpload` | the request checks, existing-address look-up, de-duplication and batched insert of the import |
| `MailStore` | users, bearer authentication, approval requests, the outgoing queue and one item's life cycle |
| `QueueRoutes` | `app/api/email-queue/route.ts` and `app/api/email-queue/process/route.ts` |
| `AutoProcess` | `app/api/email-queue/auto-process/route.ts` |
| `Approvals` | `app/api/email-approvals/route.ts` and `app/api/email-approvals/batch/route.ts` |
| `Paging` | the `.range(from, to)` window the admin listings read, and the ranges PostgREST refuses |
| `LikePattern` | the `ilike` filters of the approval and unsubscription listings, as PostgreSQL matches them |
| `Subscription` | `app/api/unsubscribe/route.ts` and `app/api/resubscribe/route.ts` |
| `Webhook` | `app/api/webhook/test-inbound/route.ts` |
| `Utf8`, `Base64`, `HeaderText`, `OutgoingMail` | the raw message built by the process route: RFC 2047 subject, CRLF header lines, base64url |
| `Charset` | `lib/encodingUtils.ts` |
| `HtmlText` | `textToHtml` and `htmlToText` of `lib/utils.ts` |
| `I18n` | `contexts/I18nContext.tsx` |
| `BatchJobs` | `scripts/batch-create-email-jobs.ts` |
| `EmailViewer` | the pure helpers of `app/components/EmailViewer.tsx` |
| `Text`, `Seqs`, `Sorting`, `Wrappers` | shared helpers: whitespace, trimming, case, search, split/join, chunks, dedup, stable sort |

## Model

| member | source | states |
|---|---|---|
| Scraper.Normalize | getCompanyInfo_stable.py:80-88 | a normalised link starts with `http`; a link already starting with `http` is unchanged, one starting with `/` gets the base URL prefixed, any other gets the base URL and `/` |
| Scraper.NormalizeIdempotent | getCompanyInfo_stable.py:80-88 | normalising a normalised link changes nothing |
| Scraper.NormalizeKeepsDetail | getCompanyInfo_stable.py:79-90 | a normalised detail link still contains `/kanri/` |
| Scraper.ContainerLinks | getCompanyInfo_stable.py:72-90 | a link is kept from one container exactly when it is the normalised form of one of its hrefs that contains `/kanri/` |
| Scraper.ContainerLinksInOrder | getCompanyInfo_stable.py:76-89 | the links of a container come in document order: those of anchors `a + b` are those of `a` followed by those of `b`, and one anchor gives its normalised link when it contains `/kanri/` and nothing otherwise |
| Scraper.PageLinks | getCompanyInfo_stable.py:69-90 | a link is collected from a page exactly when it is the normalised form of a detail href inside some `box_dantai_list` container; no containers gives no links |
| Scraper.ExtractLinks | getCompanyInfo_stable.py:69-93 | the result of a 200 page holds each collected link exactly once (the `set`), every one starting with `http` and containing `/kanri/` |
| Scraper.FetchLinks | getCompanyInfo_stable.py:46-102 | at most three attempts; every attempt before the last one made failed (exception or non-200); the last one, if it succeeded, gives that page's links, otherwise it was the third and the result is empty |
| Scraper.FetchLinksShape | getCompanyInfo_stable.py:46-102 | whatever the attempts produce, the links are distinct absolute detail links |
| Scraper.PairOf | getCompanyInfo_stable.py:122-150 | a `dl` gives a pair only when it has both `dt` and `dd`; the label is the stripped `dt` text; an address `dd` contributes only its direct strings |
| Scraper.AddressIgnoresNested | getCompanyInfo_stable.py:129-148 | the value of an address `dd` does not depend on text inside nested elements |
| Scraper.Pairs | getCompanyInfo_stable.py:115-126 | one pair at most per `dl`, in document order |
| Scraper.FirstIndex | getCompanyInfo_stable.py:152-169 | the position of the first pair with a property, with no earlier pair having it |
| Scraper.FirstValue | getCompanyInfo_stable.py:152-169 | a value is found exactly when some pair has the property |
| Scraper.ResolveKeeps | getCompanyInfo_stable.py:152-169 | a field once set is never overwritten by later pairs |
| Scraper.ResolveName | getCompanyInfo_stable.py:153-154 | the name is the value of the first pair whose label mentions 団体名, whatever else that label mentions |
| Scraper.ResolveAddress | getCompanyInfo_stable.py:156-163 | with one marker per label, the address is the value of the first 住所 pair that links to Google Maps; an earlier 住所 pair without the link neither sets nor blocks it |
| Scraper.ResolveFax | getCompanyInfo_stable.py:164-166 | with one marker per label, the fax is the value of the first FAX番号 pair |
| Scraper.ResolveMail | getCompanyInfo_stable.py:167-169 | with one marker per label, the mail is the value of the first メールアドレス pair |
| Scraper.BuildCompany | getCompanyInfo_stable.py:112-180 | the record keeps the URL and takes the first 団体名 value, or `""` when there is none |
| Scraper.NoAddressMarker | getCompanyInfo_stable.py:156-178 | a page whose labels never mention 住所 yields an empty address |
| Scraper.FirstPage | getCompanyInfo_stable.py:106-189 | the first attempt that does not raise, with all earlier attempts raising, or three when all raise |
| Scraper.FetchCompany | getCompanyInfo_stable.py:104-189 | no record exactly when all three attempts raise; otherwise the record built from the first page obtained, with its URL |
| Scraper.ProcessCompany | getCompanyInfo_stable.py:191-203 | a found record is appended and counted in the same step; a missing one changes nothing |
| Scraper.ProcessLinks | getCompanyInfo_stable.py:216-228 | the records only grow, by at most one per link, and the count stays equal to the number of records |
| Scraper.ProcessPage | getCompanyInfo_stable.py:205-231 | one page keeps the count equal to the records and never collects more records than the links added to the total |
| Scraper.ProcessPagesCounted | getCompanyInfo_stable.py:270-287 | over all pages, the processed count equals the number of records, records are never lost, and there are no more records than links found |
| Scraper.Cells | getCompanyInfo_stable.py:238-240 | a row has one cell per column, in the order 団体名, 住所, FAX番号, メールアドレス, URL |
| Scraper.SaveRows | getCompanyInfo_stable.py:233-249 | nothing is written without records; otherwise a header row in column order and one row per record, in collection order |
| Merge.PageFiles | merge_pages.py:10-11 | a file is selected exactly when it is in the directory and matches `gai-rou_companies_pages_*.csv` |
| Merge.ReadAll | merge_pages.py:31-38 | at most one table per file, and none at all exactly when every read fails |
| Merge.MergeFiles | merge_pages.py:40-55 | nothing is produced when there are no files or none can be read; otherwise the rows are the concatenation with later repeats of a `URL` dropped, `before` counts the concatenation, `after` the kept rows, every `URL` survives and no two kept rows share one |
| Merge.MergeIdempotent | merge_pages.py:49 | de-duplicating the merged rows again removes nothing |
| Merge.MergeKeepsFirst | merge_pages.py:49 | every kept row is the first row with its `URL` in the concatenation (`keep='first'`) |
| Merge.MergeAppend | merge_pages.py:31-49 | merging files `a` then `b` keeps the merge of `a` and adds only the rows of `b` whose `URL` `a` did not have |
| Merge.ReadAllAppend | merge_pages.py:31-38 | reading `a + b` reads `a`, then `b` |
| Merge.SortedPageFiles | merge_pages.py:10-20 | the page files in ascending name order, a permutation of the matches |
| Merge.MergePageFiles | merge_pages.py:6-55 | `merge_page_files` produces nothing exactly when no page file can be read, and otherwise merges the page files in name order |
| Merge.PatternFiles | merge_pages.py:85-95 | the files any pattern matches, each once, in ascending order |
| Merge.MergeSpecificFiles | merge_pages.py:83-126 | no matches produce nothing; otherwise the matched files, each once and sorted, are merged |
| Merge.OutputTable | merge_pages.py:57-59 | the header row in column order followed by one row per kept record, with the `URL` in the last column |
| EmailPattern.EmailFormatIff | app/api/unsubscribe/route.ts:53-54 | the positional test (no white space, one `@` not first, a `.` at least two places after it and before the last character) holds exactly when the text splits into three non-empty `[^\s@]` parts around `@` and `.`, as the anchored pattern requires |
| EmailPattern.FormatSplits | app/api/resubscribe/route.ts:34-35 | text that passes the format test has the split the pattern describes |
| EmailPattern.SplitFormats | app/api/customers/bulk-upload/route.ts:254-255 | text with the pattern's split passes the format test |
| EmailPattern.DotSearch | app/api/customers/bulk-upload/route.ts:238 | the backtracking over the domain run settles on a dot at least two places after the `@` and ends the match after two or more letters |
| EmailPattern.MatchAt | app/api/customers/bulk-upload/route.ts:238 | a match starting at a position is at least five characters long and lies inside the text |
| EmailPattern.FindEmail | app/api/customers/bulk-upload/route.ts:238 | a found address is a match at its start position, inside the text |
| EmailPattern.FindEmailLeftmost | app/api/customers/bulk-upload/route.ts:238 | the search returns the leftmost match: no earlier start has one, and when nothing is found no start has one |
| EmailPattern.MatchShape | app/api/customers/bulk-upload/route.ts:238 | every match is a local run, `@`, a domain run, `.` and at least two letters |
| EmailPattern.MatchSplit | app/api/customers/bulk-upload/route.ts:238 | the positions of the `@` and the `.` of a match, with the pattern's shape around them |
| EmailPattern.DotFound | app/api/customers/bulk-upload/route.ts:238 | the dot the search settles on is at least two places after the `@` and followed by the letter run that ends the match |
| EmailPattern.FoundEmailHasFormat | app/api/customers/bulk-upload/route.ts:238-258 | a found address, lower-cased, always passes the format test, so the second check at line 255 never rejects a row |
| EmailPattern.ShapedFormat | app/api/customers/bulk-upload/route.ts:250-255 | any text with the search pattern's shape passes the format test once lower-cased |
| FaxNumber.MatchWords | app/api/customers/bulk-upload/route.ts:213 | an alternative such as `fax\s*number` matches at a position only when its first word starts there, ignoring case, and the match ends inside the text after that word |
| FaxNumber.FirstAlt | app/api/customers/bulk-upload/route.ts:213 | the alternation matches exactly when some alternative does, and then ends where the first matching alternative in the written order ends |
| FaxNumber.StripLabel | app/api/customers/bulk-upload/route.ts:213 | the first replacement only removes a prefix, and removes nothing when no label matches |
| FaxNumber.StripStopsAt | app/api/customers/bulk-upload/route.ts:213 | after the label the optional spaces and colon are all that go: a label followed by another character leaves the rest from there |
| FaxNumber.StripShortLabel | app/api/customers/bulk-upload/route.ts:214 | the second replacement only removes a prefix, and nothing when no short label matches |
| FaxNumber.StripPlus | app/api/customers/bulk-upload/route.ts:215 | a prefix goes exactly when the text starts with `+` or `＋` |
| FaxNumber.StripCountryDash | app/api/customers/bulk-upload/route.ts:216 | a prefix goes exactly when the text starts with `81-` in any mix of ASCII and full-width digits and dash |
| FaxNumber.StripCountry | app/api/customers/bulk-upload/route.ts:217 | a prefix goes exactly when the text starts with `81` in ASCII or full-width digits |
| FaxNumber.StripPrefixes | app/api/customers/bulk-upload/route.ts:212-217 | the five replacements in turn leave a suffix of the value |
| FaxNumber.CleanFax | app/api/customers/bulk-upload/route.ts:210-222 | a non-empty value stays non-empty (the original comes back when nothing is left), and the result is always a contiguous piece of the value |
| FaxNumber.CleanFaxAsWritten | app/api/customers/bulk-upload/route.ts:210-222 | the clean-up with the alternatives in the written order: non-empty for a non-empty value and a piece of it |
| FaxNumber.CleanFaxCorrected | app/api/customers/bulk-upload/route.ts:210-222 | the clean-up with the label alternatives longest first: non-empty for a non-empty value and a piece of it |
| FaxNumber.ShadowedNeverChosen | app/api/customers/bulk-upload/route.ts:213 | alternatives placed after shorter ones that cover them never decide the alternation |
| FaxNumber.AsWrittenIgnoresLongLabels | app/api/customers/bulk-upload/route.ts:213 | as written, the first expression behaves as if `fax\s*number`, `FAX\s*NUMBER`, `Fax\s*Number`, `传真号码` and `ＦＡＸ番号` were absent |
| FaxNumber.AsWrittenKeepsLabelTail | app/api/customers/bulk-upload/route.ts:213 | as written, a value starting `ＦＡＸ番号` loses only `ＦＡＸ`, and what is left still starts with `番号` |
| FaxNumber.LongestFirstIsLongest | app/api/customers/bulk-upload/route.ts:213 | under a longest-first order the chosen alternative ends at least as far as any alternative that matches |
| FaxNumber.CorrectedOrderIsLongestFirst | app/api/customers/bulk-upload/route.ts:213 | the corrected order of the labels is longest-first |
| FaxNumber.CorrectedStripsLongestLabel | app/api/customers/bulk-upload/route.ts:213 | with the corrected order the label removed is the longest the value starts with |
| FaxNumber.CorrectedRemovesWholeLabel | app/api/customers/bulk-upload/route.ts:213 | with the corrected order all of `ＦＡＸ番号` goes |
| ImportSheet.KeyIndex | app/api/customers/bulk-upload/route.ts:112 | a key is found exactly when it is a header key, and then at its last position, as a `Map` built from entries keeps the last index of a repeated key |
| ImportSheet.ResolveColumn | app/api/customers/bulk-upload/route.ts:117-124 | a column is found exactly when some candidate, lower-cased, is a header key; it is the last index of the first such candidate in candidate order |
| ImportSheet.HeaderKeys | app/api/customers/bulk-upload/route.ts:111-112 | the keys exist exactly when every title is a string, and then each key is its title lower-cased |
| ImportSheet.ResolveColumns | app/api/customers/bulk-upload/route.ts:116-179 | the columns are resolved exactly when a company column is found; each of the four is resolved from its own candidate list |
| ImportSheet.CellText | app/api/customers/bulk-upload/route.ts:200-203 | a cell reads as text only when its column exists, the row is long enough and the cell is not empty |
| ImportSheet.RemoveSpaces | app/api/customers/bulk-upload/route.ts:240 | the result holds no white space and keeps every other character of the cell |
| ImportSheet.MentionsMailReduced | app/api/customers/bulk-upload/route.ts:240-241 | the three-word test for a mail-like cell is the same as testing for `メール` or `mail`, since `email` contains `mail` |
| ImportSheet.ExtractEmail | app/api/customers/bulk-upload/route.ts:238-251 | an extracted address is non-empty, passes the format test and is already lower case |
| ImportSheet.ExtractEmailFinds | app/api/customers/bulk-upload/route.ts:238-240 | an address is extracted exactly when the search pattern matches at some position of the cell |
| ImportSheet.AddError | app/api/customers/bulk-upload/route.ts:227-256 | recording a row error appends it and keeps the scan invariant |
| ImportSheet.AddCustomer | app/api/customers/bulk-upload/route.ts:274-282 | keeping a customer with a company, an address or fax, and a well-formed new address appends it and keeps the scan invariant |
| ImportSheet.AddDuplicate | app/api/customers/bulk-upload/route.ts:261-270 | a repeated address is listed with its own row and the row that first had it, keeping the scan invariant |
| ImportSheet.ScanRow | app/api/customers/bulk-upload/route.ts:196-283 | one row keeps the scan invariant and never removes an error; it stops exactly when the row has a company name and an email cell without an address that talks about mail, and then records that error and sets the invalid flag; a non-empty row without a company name records its error and changes nothing else |
| ImportSheet.Offered | app/api/customers/bulk-upload/route.ts:200-253 | an offered customer has a company name and an address or fax, carries the uploader, the group and the address cell, and its address, if any, passes the format test and is lower case |
| ImportSheet.ScanRowOffered | app/api/customers/bulk-upload/route.ts:226-283 | a row with a company name that does not abort is skipped without a trace when it offers nothing, and its customer is appended when it offers one without an address |
| ImportSheet.ScanRowKeepsNew | app/api/customers/bulk-upload/route.ts:262-283 | a row offering an address not seen before appends its customer and remembers the 0-based row for the address |
| ImportSheet.ScanRowRepeat | app/api/customers/bulk-upload/route.ts:262-271 | a row offering an address already seen only appends a repeat with its 1-based row and the first row, 1-based |
| ImportSheet.ScanEmail | app/api/customers/bulk-upload/route.ts:237-271 | for a filled email cell: no address and mail words stop the loop with that error; no address and no mail words skip the row unchanged; a found address goes to the address rule |
| ImportSheet.ScanAddress | app/api/customers/bulk-upload/route.ts:251-283 | a found address already seen appends a repeat naming the first row; a new one appends the customer with that address and remembers the row |
| ImportSheet.ScanFrom | app/api/customers/bulk-upload/route.ts:195-283 | the loop keeps the scan invariant to the end and never removes an error |
| ImportSheet.ScanSheet | app/api/customers/bulk-upload/route.ts:195-283 | kept customers have a company and an address or fax, their addresses pass the format test and are pairwise distinct, every duplicate names a kept address first seen on an earlier row, and an invalid address is always reported |
| ImportSheet.AbortRowFirst | app/api/customers/bulk-upload/route.ts:240-245 | the end of the scan is the first data row that aborts, or the end of the sheet when none does |
| ImportSheet.FirstRowFirst | app/api/customers/bulk-upload/route.ts:262-272 | the row an address is first offered on is the earliest data row offering it, and no row is given when none does |
| ImportSheet.OutcomeStep | app/api/customers/bulk-upload/route.ts:196-283 | each row moves the scan exactly as its own outcome (skipped, missing company, aborting, or offering a customer) says, given what was kept before it |
| ImportSheet.ScanFromOutcomes | app/api/customers/bulk-upload/route.ts:195-288 | the loop over the rows equals the same loop run over the rows' outcomes |
| ImportSheet.ScannedStep | app/api/customers/bulk-upload/route.ts:261-283 | a row that does not abort takes the row-by-row description of the scan one row on: the remembered addresses are exactly those offered so far, each with its first row |
| ImportSheet.ScanOutcomesByRows | app/api/customers/bulk-upload/route.ts:195-288 | from any row on, the loop ends as the row-by-row description says |
| ImportSheet.ScanSheetByRows | app/api/customers/bulk-upload/route.ts:195-288 | the scan stops at the first data row that aborts; before it the kept customers are the offered ones in row order, each address only from its first row; each later row with a kept address is a repeat with its 1-based row and the first row; the errors are the rows without a company name in row order, then the aborting row's error |
| ImportSheet.EmptyCompanyRecorded | app/api/customers/bulk-upload/route.ts:225-229 | a non-empty data row without a company name always leaves an error: its own, or the one that stopped the loop before it |
| ImportSheet.EmptyCompanyFrom | app/api/customers/bulk-upload/route.ts:195-229 | from any row on, such a row adds at least one error |
| BulkUpload.PreCheck | app/api/customers/bulk-upload/route.ts:16-90 | the checks pass exactly when the request is admissible; a missing bearer user is exactly the 401 case, a missing file after a user is exactly `FILE_NOT_FOUND`, a capacity error means a named group already holds 2000 customers, and every other failure is a 400 |
| BulkUpload.EmailList | app/api/customers/bulk-upload/route.ts:321-332 | the looked-up addresses are exactly the non-empty addresses of the customers |
| BulkUpload.Lookup | app/api/customers/bulk-upload/route.ts:330-348 | the look-up fails exactly when some batch query fails; otherwise it yields exactly the batch addresses that are stored |
| BulkUpload.ExistingEmails | app/api/customers/bulk-upload/route.ts:321-351 | the look-up in batches of 100 fails exactly when one of its batches fails, and otherwise is the set of the customers' addresses already stored |
| BulkUpload.SplitExisting | app/api/customers/bulk-upload/route.ts:356-380 | every customer is either kept or skipped as `email_duplicate`; the kept ones are exactly those without a stored address, and distinct addresses stay distinct |
| BulkUpload.Fresh | app/api/customers/bulk-upload/route.ts:356-380 | the customers whose address is not stored yet, in file order: exactly those without an address or with one the database lacks |
| BulkUpload.SplitExistingFresh | app/api/customers/bulk-upload/route.ts:356-380 | whenever the looked-up set decides conflicts as the database would, the first pass keeps exactly the fresh customers, in order |
| BulkUpload.ExistingFresh | app/api/customers/bulk-upload/route.ts:321-380 | looking up only the file's own addresses, the first pass keeps exactly the customers whose address the database lacks |
| BulkUpload.SecondPass | app/api/customers/bulk-upload/route.ts:396-413 | every customer is either kept or skipped, and the skipped ones are `file_internal_email_duplicate` |
| BulkUpload.SecondPassKeepsAll | app/api/customers/bulk-upload/route.ts:396-413 | on addresses already made distinct by the row scan, the second pass keeps every customer and skips none |
| BulkUpload.InsertRows | app/api/customers/bulk-upload/route.ts:457-486 | the row-by-row retry stores some of the batch's rows in their order and counts exactly those, skips only as `database_email_duplicate`, and stores all when every row insert succeeds |
| BulkUpload.InsertBatches | app/api/customers/bulk-upload/route.ts:433-498 | the rows stored are some of the batches' rows in their order and the count is their number; skips are database duplicates; when every batch is stored all rows are stored, in order, with no error |
| BulkUpload.InsertAll | app/api/customers/bulk-upload/route.ts:429-498 | inserting in batches of 50 stores some of the customers in their order, and all of them, with no error, when no batch fails |
| BulkUpload.InsertBatchesShape | app/api/customers/bulk-upload/route.ts:433-436 | batch `k` is the slice starting at `50k`, non-empty and at most 50 long, and the batches put back together are the customers |
| BulkUpload.ReadColumns | app/api/customers/bulk-upload/route.ts:103-134 | a sheet with fewer than two rows stops with `INSUFFICIENT_DATA`; a header with a title that is not a string stops with `PROCESSING_ERROR` (the `toLowerCase` throws into the catch at route.ts:553-560); otherwise it stops with `MISSING_COMPANY_COLUMN` exactly when no company-name column is found, and the columns are ready exactly when one is, with the resolved columns |
| BulkUpload.ImportScanned | app/api/customers/bulk-upload/route.ts:292-551 | any row error or invalid address fails with `VALIDATION_FAILED`; past validation, `NO_VALID_DATA` exactly when no customer is left, `CHECK_EXISTING_ERROR` exactly when customers remain and a look-up batch fails, `ALL_EMAILS_EXIST` exactly when the look-ups succeed and every customer's address is already stored, and a report exactly when some fresh customer remains; no other error code occurs; the file-duplicate count equals the duplicate rows listed, the database-duplicate count the skipped customers, the total skipped their sum, imported plus database duplicates are at most the customers, and nothing is skipped as a file-internal duplicate; the customers stored are fresh ones in file order, as many as `importedCount`; when no insert batch fails they are exactly the fresh customers and `importedCount` is the customers less the database duplicates |
| BulkUpload.Import | app/api/customers/bulk-upload/route.ts:5-561 | an inadmissible request fails with its first failing check; for an admissible one, a sheet with fewer than two rows fails with `INSUFFICIENT_DATA`, a non-string header title with `PROCESSING_ERROR`, and a header without a company-name column, and only that, with `MISSING_COMPANY_COLUMN`; past the pre-checks only the sheet and import error codes occur; a report only follows admissible requests, its counters add up, and `importedCount` is the number of customers stored |
| BulkUpload.EmptyCompanyFailsImport | app/api/customers/bulk-upload/route.ts:225-308 | a single non-empty data row without a company name fails the whole import with `VALIDATION_FAILED` |
| MailStore.FindUser | app/api/email-queue/process/route.ts:89-93 | a user is found exactly when some user has the id, and the one found has it |
| MailStore.Authenticate | app/api/email-queue/process/route.ts:77-100 | access is granted exactly when the header is present and non-empty and the id after `Bearer ` names a user, who is then the one granted; every refusal is a 401 |
| MailStore.AuthenticateAdmin | app/api/email-queue/process/route.ts:77-108 | access is granted exactly to an authenticated administrator; an authenticated non-administrator gets 403 and everyone else 401 |
| MailStore.Attempt | app/api/email-queue/process/route.ts:140-212 | a pending item goes through `processing` to a terminal status; it ends `sent` exactly when the send succeeded, the retry count grows by one exactly on failure, the processing time is stamped and nothing else changes |
| MailStore.CountDelivered | app/api/email-queue/process/route.ts:136-184 | the successes are at most the items attempted |
| MailStore.Run | app/api/email-queue/process/route.ts:135-213 | the loop keeps the queue's length, sends plus failures equal the items attempted, successes are those whose send succeeded, each attempted item gets its own attempt and no other item changes |
| MailStore.RunStep | app/api/email-queue/process/route.ts:140-213 | attempting the first item and then the rest touches exactly the given items, each once |
| MailStore.RunSettles | app/api/email-queue/process/route.ts:140-213 | a pass over pending items leaves each of them sent or failed by the allowed steps, and changes nothing else |
| MailStore.SelectOldest | app/api/email-queue/process/route.ts:111-117 | at most `limit` distinct eligible items (pending, at most three retries), oldest first, none younger than an eligible item left behind, and all eligible items when fewer than `limit` are chosen |
| MailStore.SelectedEligible | app/api/email-queue/process/route.ts:114-115 | whatever is chosen from the eligible items is eligible and duplicate-free |
| MailStore.SelectedOldestFirst | app/api/email-queue/process/route.ts:116-117 | the chosen items are in creation order and no item left behind is older than a chosen one |
| MailStore.LeftBehindNotOlder | app/api/email-queue/process/route.ts:116-117 | an eligible item that was not chosen is not older than any chosen item |
| MailStore.SelectedAll | app/api/email-queue/process/route.ts:117 | when fewer than `limit` items are chosen, every eligible item is among them |
| MailStore.CountStatus | app/api/email-queue/route.ts:173-176 | a status count is at most the number of items |
| MailStore.CountStatusAppend | app/api/email-queue/route.ts:173-176 | counting a status over two lists joined is adding the two counts |
| MailStore.CountStatusPermutation | app/api/email-queue/route.ts:173-176 | a status count depends only on which items there are, not on their order |
| MailStore.CountsCover | app/api/email-queue/route.ts:173-178 | the pending, processing, sent and failed counts add up to the total |
| QueueRoutes.NewItems | app/api/email-queue/route.ts:65-71 | one pending, eligible item per recipient, in recipient order, carrying the request's id, subject and content |
| QueueRoutes.Enqueue | app/api/email-queue/route.ts:5-117 | refusals (401/403 from authentication, 404 for an unknown request, 400 for one not awaiting review) change nothing; success happens exactly for an administrator, a request awaiting review and no failed write, and then appends the new items, marks the request approved by that administrator and reports one item per recipient; without success the requests are unchanged |
| QueueRoutes.EnqueueOnce | app/api/email-queue/route.ts:57-62 | after a successful queueing, queueing the same request again is refused with 400 and changes nothing |
| QueueRoutes.EnqueueRetryDuplicates | app/api/email-queue/route.ts:73-102 | when the status update fails after the insert, the request still awaits review and queueing it again puts a second copy of every email on the queue |
| QueueRoutes.Progress | app/api/email-queue/route.ts:177-178 | the progress is at most 100 when no more than the total completed, exactly 100 when all completed, and 0 when none did or the queue is empty |
| QueueRoutes.ProgressNearest | app/api/email-queue/route.ts:178 | the progress is the unique whole percentage `p` with `p - 1/2 <= 100 * completed / total < p + 1/2`: `Math.round` rounds half up |
| QueueRoutes.DivIff | app/api/email-queue/route.ts:178 | a quotient is characterised by the interval it bounds, in both directions |
| QueueRoutes.StatsOf | app/api/email-queue/route.ts:172-191 | each of pending, processing, sent and failed is the number of items in that status, the four add up to the total, completed is sent plus failed, and the progress is `Progress(completed, total)`, within 0 to 100, 100 when everything completed and 0 when nothing did |
| QueueRoutes.Pick | app/api/email-queue/route.ts:157-161 | the items with the given ids, in that order |
| QueueRoutes.ItemsOf | app/api/email-queue/route.ts:157-161 | exactly the items of the request, each as often as it is stored (the same multiset as picking them out of the table in stored order), in creation order |
| QueueRoutes.StatsIgnoreOrder | app/api/email-queue/route.ts:157-191 | the statistics of the request's items are the same whether they are listed in creation order or as stored |
| QueueRoutes.PickedMatches | app/api/email-queue/route.ts:157-161 | the items picked by a filter are exactly the queue items that satisfy it |
| QueueRoutes.CountAll | app/api/email-queue/route.ts:173-176 | when every item has a status, that status count is the total |
| QueueRoutes.QueueStatus | app/api/email-queue/route.ts:120-201 | an unauthenticated caller gets 401 and a missing request id 400; a report comes exactly for an authenticated caller with a request id and a working query, lists exactly that request's items in creation order (every stored item of the request appears), and its statistics are those of its items |
| QueueRoutes.Outcomes | app/api/email-queue/process/route.ts:165-190 | one result per attempted item, in order, with its id, recipient and send success |
| QueueRoutes.ProcessQueue | app/api/email-queue/process/route.ts:75-229 | refusals carry the authentication status, a failing query gives 500, processing happens exactly for an administrator and a working query, handles at most ten emails and is the sending loop over the ten oldest eligible ones |
| QueueRoutes.Deliver | app/api/email-queue/process/route.ts:135-220 | every selected item is attempted once and ends sent or failed; the counts add up, the successes are those that were delivered, each result reports its own item, and every other item is unchanged |
| QueueRoutes.DeliverTouches | app/api/email-queue/process/route.ts:140-213 | after the loop a selected item is settled and any other item is as it was |
| QueueRoutes.ProcessOldestFirst | app/api/email-queue/process/route.ts:111-213 | an email the route sent or failed was queued no later than any eligible email it left pending |
| QueueRoutes.EnqueueThenStatus | app/api/email-queue/route.ts:5-201 | right after a request is queued, its status report counts one email per recipient, all pending, with progress 0 |
| QueueRoutes.AppendedAllPending | app/api/email-queue/route.ts:65-173 | after a new request's pending items are appended, all of its items are pending |
| QueueRoutes.AppendedCount | app/api/email-queue/route.ts:65-172 | after a new request's items are appended, they are the only items it has |
| AutoProcess.Authorized | app/api/email-queue/auto-process/route.ts:9-28 | the call is let in exactly when a non-empty `x-webhook-key` equals the configured key or the bearer header names an administrator; without a configured key only an administrator gets in |
| AutoProcess.ResetStale | app/api/email-queue/auto-process/route.ts:52-60 | exactly the items claimed (`processing`) before the cut-off change, and each goes back to pending with no timestamp and nothing else changed |
| AutoProcess.Round | app/api/email-queue/auto-process/route.ts:47-156 | a round keeps the queue's length, handles at most fifty emails with sent plus failed equal to handled, ends the job only after a failed query or when nothing eligible is left (having handled none), and never touches a sent or failed item; after a successful query each of the oldest eligible emails (after stale claims are given back) is attempted once and every other item is as the reset left it |
| AutoProcess.SendOldest | app/api/email-queue/auto-process/route.ts:63-152 | the job goes on exactly when some email is eligible; otherwise the queue is unchanged and nothing was handled; at most fifty are handled and settled items are untouched; each selected email ends `sent` with its retry count kept when delivered and `failed` with the retry count raised by one otherwise, and every unselected item is unchanged |
| AutoProcess.RoundKeepsSettled | app/api/email-queue/auto-process/route.ts:66-152 | a pass over eligible items never changes an item that was already sent or failed |
| AutoProcess.Rounds | app/api/email-queue/auto-process/route.ts:39-156 | at most ten rounds; the totals only grow, by at most fifty per round, with processed equal to success plus failed; settled items stay as they were; stopping before the tenth round means a failed query or nothing eligible left |
| AutoProcess.AutoProcess | app/api/email-queue/auto-process/route.ts:6-178 | the job is refused with 401 exactly when the caller is not authorized; otherwise it runs one to ten rounds, processes at most 500 emails, keeps the queue's length and settled items, and stops early only on a failed query or an empty selection |
| AutoProcess.FirstCustomer | app/api/email-queue/auto-process/route.ts:184-188 | the first customer with the address, present exactly when one exists |
| AutoProcess.FindCustomer | app/api/email-queue/auto-process/route.ts:184-193 | `.single()` finds a customer exactly when one and only one has the address |
| AutoProcess.SentRecord | app/api/email-queue/auto-process/route.ts:180-241 | a record is written exactly when the recipient is one customer and the request exists; it is outbound, read, addressed to the recipient with the message id, from a non-empty sender, with the subject (or `无主题` for an empty one) and the content |
| Approvals.MatchingUsers | app/api/email-approvals/route.ts:43-57 | every user whose name matches the `ilike` pattern `%name%` (so `%`, `*` and `_` in the filter are wildcards, and case is ignored) is among the ids, and every id belongs to such a user |
| Approvals.Listing | app/api/email-approvals/route.ts:71-88 | a request is listed exactly when the caller may see it (administrator or applicant) and it passes the applicant filter; the list is newest first and as long as the filtered table |
| Approvals.ListApprovals | app/api/email-approvals/route.ts:5-118 | a missing or unknown caller gets 401; a failed user look-up gives 500; a name matching nobody gives an empty page with total 0 before any range is checked; otherwise a failed query or a range PostgREST refuses (page below one, negative size) gives 500, and the reply is the requested window of the listing filtered by the matching users (or unfiltered without a name) with its true total; a page only holds requests the caller may see and no more than the page size |
| Approvals.ListPage | app/api/email-approvals/route.ts:37-109 | the reply carries the page asked for, the total count of the listing and the window `(page-1)*size` onward of that listing, each entry visible to the caller |
| Approvals.CreateApproval | app/api/email-approvals/route.ts:121-216 | 401 for an unknown caller, 400 when subject, content or recipients are missing; a request is filed exactly when all are present and the insert succeeds, appended awaiting review in the caller's name with everything else unchanged |
| Approvals.CreateThenListed | app/api/email-approvals/route.ts:121-216 | after filing a request, the applicant's own unfiltered listing counts exactly one more |
| Approvals.EarliestAwaiting | app/api/email-approvals/batch/route.ts:41-47 | the request found is waiting and none waiting was created earlier; nothing is found exactly when no request waits |
| Approvals.BatchApprove | app/api/email-approvals/batch/route.ts:6-221 | refusals leave the store unchanged (401/403 from the administrator check, 500 on a failed query); "nothing awaiting" exactly when no request waits; otherwise the oldest waiting request is approved and sent |
| Approvals.ApproveAndSend | app/api/email-approvals/batch/route.ts:68-198 | the approval is written before the insert, so a failed insert returns 500 with the request already approved; on success one queue row per recipient is added, total is success plus failed, every pending email of the request ends sent or failed, and the applicant's statistics are raised exactly when something was sent; the `customer_emails` rows added are at most the successes, each outbound and read and addressed to a recipient of the request whose email was sent, and every sent email whose recipient is exactly one customer gets a row with its message id |
| Approvals.Records | app/api/email-approvals/batch/route.ts:133-137 | `recordSentEmail` (batch/route.ts:223-284, the same code as the automatic job's, so each row is `AutoProcess.SentRecord`) after each successful send, in send order: one row per delivered item whose recipient is exactly one customer, so no more rows than successes; each row is outbound and read and names a delivered recipient and its message id, and each such recipient has its row |
| Approvals.RecordsDescribeSent | app/api/email-approvals/batch/route.ts:133-148 | every row recorded describes an email of the request that the pass left `sent` |
| Approvals.BatchSendsEveryRecipient | app/api/email-approvals/batch/route.ts:86-188 | a request with nothing queued before gets exactly one send per recipient, and every new queue row ends sent or failed |
| Approvals.InsertFailureStrands | app/api/email-approvals/batch/route.ts:68-106 | when the queue insert fails the request stays approved with nothing queued: the queue route refuses it and the batch never picks it again |
| Paging.RangeAccepted | app/api/email-approvals/route.ts:38-39 | the range of page `page` of `size` rows has a non-negative offset `(page-1)*size` and a non-negative row count `size` |
| Paging.RangeAcceptedWhen | app/api/email-approvals/route.ts:38-39 | a page is accepted exactly when its size is zero, or positive with the page number at least one |
| LikePattern.StarsToPercents | app/api/email-approvals/route.ts:47 | the pattern PostgREST hands on has the same length and no `*`: each `*` is written as `%` and every other character is kept |
| LikePattern.ParseAfterRewrite | app/api/email-approvals/route.ts:47 | a pattern means what PostgreSQL makes of it after every `*`, escaped or not, is written as `%`, so `a\*b` finds the text `a%b` |
| LikePattern.WrappedParses | app/api/email-approvals/route.ts:47 | the pattern `%text%` is well formed for every text: a trailing backslash escapes the closing `%`, so the filter never makes the query fail |
| LikePattern.ClosedParses | app/api/unsubscribe/route.ts:224 | any text followed by `%` parses as a pattern |
| LikePattern.ParsePlain | app/api/email-approvals/route.ts:47 | a text without `%`, `*`, `_` or a backslash parses to its own characters as literals |
| LikePattern.PrefixMatch | app/api/email-approvals/route.ts:47 | literals followed by `%` match exactly the values starting with the literals |
| LikePattern.RunThen | app/api/email-approvals/route.ts:47 | a leading `%` matches exactly when the rest matches some suffix of the value |
| LikePattern.ContainsLikePlain | app/api/email-approvals/route.ts:47 | for a filter without pattern characters, `ilike '%text%'` holds exactly when the lower-cased value contains the lower-cased text |
| LikePattern.ContainsSomewhere | app/api/unsubscribe/route.ts:224 | containment is the same as starting with the text at some position |
| LikePattern.PercentMatchesAll | app/api/unsubscribe/route.ts:224 | a filter of `%` alone keeps every value, though few values contain `%` |
| LikePattern.UnderscoreMatchesAny | app/api/email-approvals/route.ts:47 | a filter of `_` keeps every non-empty value |
| Paging.Window | app/api/email-approvals/route.ts:38-91 | the rows `from..to` of the list, no more than `to - from + 1` of them, each equal to the row at its position, and exactly that many when the range lies inside the list |
| Paging.PagesTile | app/api/unsubscribe/route.ts:230-239 | read one after the other, the first `m` pages of size `n` are exactly the first `m*n` rows: no row shown twice, none skipped |
| Paging.WindowMembers | app/api/email-approvals/route.ts:91 | a window only holds rows of the list |
| Paging.NewestMatching | app/api/email-approvals/route.ts:71-88 | a row is listed exactly when the filter keeps it, once each, newest first |
| Paging.MatchingMembers | app/api/email-approvals/route.ts:81-88 | any reordering of the filtered positions lists exactly the kept rows |
| Paging.NewerFirstOrder | app/api/email-approvals/route.ts:78 | sorting by negated creation time lists later rows first |
| Subscription.OrNull | app/api/unsubscribe/route.ts:113-114 | an absent or empty company name or reason is stored as null, never as an empty string |
| Subscription.CountForOne | app/api/unsubscribe/route.ts:83-119 | while every address has at most one record, an address has one exactly when it is on the unsubscribed list and none otherwise |
| Subscription.Existing | app/api/unsubscribe/route.ts:83-87 | `.single()` yields a record exactly when the address has one and only one, and that record is in the table under the address |
| Subscription.FirstFor | app/api/unsubscribe/route.ts:83-87 | a record for the address is found exactly when it has any |
| Subscription.FormatIgnoresCase | app/api/unsubscribe/route.ts:53-86 | an address and its lower-cased key pass or fail the `^[^\s@]+@[^\s@]+\.[^\s@]+$` test together |
| Subscription.Unsubscribe | app/api/unsubscribe/route.ts:38-163 | 400 exactly for a missing, empty or malformed address; "already unsubscribed" exactly when the lower-cased address has one record; 500 exactly when the insert fails; otherwise one record is appended under the lower-cased address with the client's address and agent (or `unknown`), the address joins the list, and the matching customers are flagged unless that update fails, with no other customer changed |
| Subscription.UnsubscribeForm | app/api/unsubscribe/route.ts:109-119 | the company name and reason are stored exactly when given non-empty, and then as given |
| Subscription.UnsubscribeKeepsOnePerAddress | app/api/unsubscribe/route.ts:83-119 | an unsubscription never gives an address a second record |
| Subscription.UnsubscribeIdempotent | app/api/unsubscribe/route.ts:83-106 | after a successful unsubscription, asking again for the address in any letter case, with any other inputs, reports the earlier record and changes nothing |
| Subscription.UnsubscribeIgnoresCase | app/api/unsubscribe/route.ts:86-143 | two spellings of an address differing only in letter case get the same answer and the same store |
| Subscription.UnsubscribeGet | app/api/unsubscribe/route.ts:182-357 | without an authorization header the request is the link unsubscription with the fixed link reason and no company; with one, a non-administrator or unknown user gets 403, a failed query or a range PostgREST refuses 500, and an administrator the requested page of the filtered records, newest first, with the filtered count |
| Subscription.RecordPage | app/api/unsubscribe/route.ts:210-255 | the page holds only records passing the address filter (an `ilike` pattern `%email%`), start and end filters, at most the page size of them, the window of the newest-first listing, with the total of matching records |
| Subscription.Without | app/api/resubscribe/route.ts:73-76 | the delete keeps exactly the records of other addresses |
| Subscription.WithoutKeepsOnePerAddress | app/api/resubscribe/route.ts:73-76 | deleting an address's records keeps at most one record per address |
| Subscription.Resubscribe | app/api/resubscribe/route.ts:16-115 | 400 exactly for a missing or malformed address; "already subscribed" exactly when the address does not have one record; 500 exactly when the delete fails; otherwise the address leaves the list, every other record stays, and the matching customers are unflagged unless that update fails |
| Subscription.ResubscribeUndoesUnsubscribe | app/api/resubscribe/route.ts:55-93 | right after an unsubscription, resubscribing in any letter case succeeds and the list is back to what it was, without the address |
| Text.Decimal | app/api/webhook/test-inbound/route.ts:181-187 | a numeric field interpolated into a summary is written in decimal digits with no leading zero |
| Text.DecimalRoundTrip | app/api/webhook/test-inbound/route.ts:181-187 | reading the numeral back gives the number it was made from |
| Webhook.Pick | app/api/webhook/test-inbound/route.ts:181-199 | the summary shows the first truthy field of the chain, written as JavaScript interpolates it (arrays joined by commas, objects and files as `[object …]`), or `未知` when none is truthy |
| Webhook.CompositeStrings | app/api/webhook/test-inbound/route.ts:181-199 | an array field is truthy even when empty and interpolates as its elements joined by commas, `null` elements as nothing, so `[]` prints as the empty text; an uploaded file is truthy and interpolates as `[object File]` |
| Webhook.Analyze | app/api/webhook/test-inbound/route.ts:168-214 | the kind is decided by the first test that holds, in the order email fields (0.9), alert fields (0.8), lead fields (0.7), error fields or `status === 'error'` (0.8), a SendGrid agent (email, 0.6), a GitHub agent (alert, 0.6); otherwise unknown with confidence 0 and an empty summary, and every recognised kind has a summary |
| Webhook.EmailFieldsWin | app/api/webhook/test-inbound/route.ts:178-182 | a request with a truthy email field is an email at 0.9 whatever other fields it also carries |
| Webhook.Record | app/api/webhook/test-inbound/route.ts:85-90 | the new entry goes first, the earlier entries follow in order, and the history is cut to fifty |
| Webhook.ReplayNewestFirst | app/api/webhook/test-inbound/route.ts:85-90 | after any sequence of requests the history holds the last fifty (or all, when fewer), newest first |
| Webhook.Tally | app/api/webhook/test-inbound/route.ts:217-226 | each kind's count grows by the number of analysed entries of that kind, and only kinds that occur get a key |
| Webhook.Distribution | app/api/webhook/test-inbound/route.ts:217-226 | a kind has a count exactly when it occurs, the count is its number of entries, and the counts add up to the number of analysed entries |
| Webhook.CountsCover | app/api/webhook/test-inbound/route.ts:217-226 | the five kinds' counts add up to the number of analysed entries |
| Webhook.AllAnalysedCount | app/api/webhook/test-inbound/route.ts:75-85 | when every entry was analysed, their number is the history's length |
| Webhook.Post | app/api/webhook/test-inbound/route.ts:21-121 | a body that is missing, or that is declared JSON or a form but does not parse (the fallback `request.text()` then throws on the consumed body), fails with 500 and records nothing; otherwise the analysis is recorded first in the history, the reply counts the (at most fifty) entries and its distribution adds up to that count |
| Webhook.PostCorrected | app/api/webhook/test-inbound/route.ts:39-65 | with the fallback reading an unparsable body as a text without fields, only a missing body fails; every other request is recorded first in the history with its analysis, and requests that parse are handled exactly as by `Post` |
| Webhook.UnparsedBodyLost | app/api/webhook/test-inbound/route.ts:60-65 | a JSON or form body that does not parse fails with 500 and leaves the history unchanged, where the corrected handler records it |
| Webhook.UnparsedBodyRecorded | app/api/webhook/test-inbound/route.ts:60-65 | with the corrected fallback an unparsable body is answered and recorded first in the history, analysed from its headers alone, ahead of the earlier entries cut to fifty |
| Webhook.Inspect | app/api/webhook/test-inbound/route.ts:123-165 | `history` returns the history and its statistics unchanged, `clear` empties it, any other action only describes the endpoint |
| Utf8.EncodeChar | app/api/email-queue/process/route.ts:25-60 | one character takes one to four bytes, and one byte exactly when it is ASCII |
| Utf8.Encode | app/api/email-queue/process/route.ts:25-60 | the bytes number between one and four per character, and equal the characters in number exactly when the text is ASCII |
| Utf8.DecodeFirst | app/api/email-queue/process/route.ts:33 | a decoded character takes one to four of the available bytes |
| Utf8.DecodeEncodedChar | app/api/email-queue/process/route.ts:33 | a character's bytes, whatever follows them, decode first to that character, consuming exactly its bytes |
| Utf8.DecodedCharEncodes | app/api/email-queue/process/route.ts:33 | whatever the decoder reads first is the encoding of the character it returns |
| Utf8.DecodeEncode | app/api/email-queue/process/route.ts:33 | decoding undoes encoding for every string |
| Utf8.EncodeDecode | app/api/email-queue/process/route.ts:33 | the decoder only accepts bytes that are the encoding of what it returns |
| Utf8.EncodeIff | app/api/email-queue/process/route.ts:25-60 | `bs` is the encoding of `s` exactly when `bs` decodes to `s` |
| Utf8.EncodeAscii | app/api/email-queue/process/route.ts:25 | ASCII text encodes to its own character codes, byte for byte |
| Base64.ValueOf | app/api/email-queue/process/route.ts:25 | a character has a value exactly when it is a letter, a digit or one of the alphabet's two extra characters, and the value's character is that character |
| Base64.ValueOfSymbol | app/api/email-queue/process/route.ts:25 | every six-bit value has its own character, read back as that value |
| Base64.Pack | app/api/email-queue/process/route.ts:25-60 | `n` bytes regroup into `(4n+2)/3` six-bit values |
| Base64.UnpackPack | app/api/email-queue/process/route.ts:25-60 | regrouping bytes into six-bit values and back gives the bytes |
| Base64.PackUnpack | app/api/email-queue/process/route.ts:25-60 | six-bit values that unpack to bytes are exactly what those bytes regroup into |
| Base64.PackIff | app/api/email-queue/process/route.ts:25-60 | regrouping and unpacking are inverse in both directions |
| Base64.Values | app/api/email-queue/process/route.ts:25 | a string has values exactly when every character is in the alphabet, and the values spell the string back |
| Base64.ValuesOfSymbols | app/api/email-queue/process/route.ts:25 | reading back the characters of any values gives those values |
| Base64.SymbolsInAlphabet | app/api/email-queue/process/route.ts:25 | encoded characters are all in the alphabet and none is the pad |
| Base64.EncodeBodyIff | app/api/email-queue/process/route.ts:25 | the unpadded encoding and its decoder are inverse in both directions |
| Base64.Padding | app/api/email-queue/process/route.ts:25-60 | at most two `=`, bringing the encoded length to a multiple of four |
| Base64.Encode | app/api/email-queue/process/route.ts:25-60 | four characters for every three bytes or part of three, a multiple of four in all |
| Base64.EncodeUrl | app/api/email/route.ts:51 | the URL form has no `+`, `/` or `=` |
| Base64.EncodeChars | app/api/email-queue/process/route.ts:25-60 | every character of the padded encoding is from the standard table or the pad |
| Base64.UnpadTail | app/api/email-queue/process/route.ts:25 | dropping the pad removes at most two characters off the end |
| Base64.UnpadTailPadding | app/api/email-queue/process/route.ts:25 | what the decoder drops is exactly the padding the encoder adds |
| Base64.EncodeIff | app/api/email-queue/process/route.ts:25-60 | the padded encoding and its decoder are inverse in both directions |
| Base64.DecodeEncode | app/components/EmailViewer.tsx:68 | decoding an encoding gives back the bytes |
| Base64.EncodeDecode | app/components/EmailViewer.tsx:68 | a string that decodes is the encoding of what it decodes to |
| Base64.EncodeUrlIff | app/api/email/route.ts:51 | the URL-safe encoding and its decoder are inverse in both directions |
| HeaderText.FixedTextClean | app/api/email-queue/process/route.ts:43-51 | every fixed part of the header lines is non-empty and holds no carriage return or line feed |
| OutgoingMail.EncodeSubject | app/api/email-queue/process/route.ts:21-29 | an ASCII subject is kept as it is; any other becomes one `=?UTF-8?B?…?=` word whose length is that of the base64 text of its UTF-8 bytes plus the markers |
| OutgoingMail.EncodedTextIsToken | app/api/email-queue/process/route.ts:25 | between the markers the encoded word holds only base64 characters |
| OutgoingMail.EncodedWord | app/api/email-queue/process/route.ts:25 | a subject becomes the prefix, the padded base64 of its UTF-8 bytes and the suffix |
| OutgoingMail.SubjectRoundTrip | app/api/email-queue/process/route.ts:21-29 | a reader decoding the header shows the subject that was given, unless an ASCII subject itself looks like an encoded word |
| OutgoingMail.EncodeContent | app/api/email-queue/process/route.ts:32-34 | the round trip through UTF-8 leaves the content as it was |
| OutgoingMail.Message | app/api/email-queue/process/route.ts:42-57 | the message is the header lines joined by CRLF, then an empty line, then the body |
| OutgoingMail.JoinAppend | app/api/email-queue/process/route.ts:57 | joining two non-empty lists of lines is joining each and putting the separator between |
| OutgoingMail.MessageRoundTrip | app/api/email-queue/process/route.ts:42-57 | when sender, recipient, subject, id and date hold no line break, a reader splitting at the first blank line gets exactly the header lines and the body, whatever the body holds |
| OutgoingMail.HeaderLinesClean | app/api/email-queue/process/route.ts:42-51 | every header line is non-empty and free of line breaks |
| OutgoingMail.SplitAtBlankLine | app/api/email-queue/process/route.ts:52-57 | a header section whose carriage returns all separate lines is split off at the blank line that follows it |
| OutgoingMail.SubjectNoLineBreak | app/api/email-queue/process/route.ts:45 | encoding a subject without line breaks introduces none |
| OutgoingMail.CrInJoin | app/api/email-queue/process/route.ts:57 | in non-empty clean lines joined with CRLF, every carriage return is followed by a line feed and then by a line's first character |
| OutgoingMail.JoinFirst | app/api/email-queue/process/route.ts:57 | the join starts with the first line's first character |
| OutgoingMail.ReplaceAll | app/api/email-queue/process/route.ts:61-62 | each occurrence of the character is replaced and every other character kept, at the same place |
| OutgoingMail.TrimTrailing | app/api/email-queue/process/route.ts:63 | the longest run of the character at the end is removed and nothing else |
| OutgoingMail.Raw | app/api/email-queue/process/route.ts:59-64 | the `raw` value is the unpadded URL-safe base64 of the message's UTF-8 bytes, with no `+`, `/` or `=` |
| OutgoingMail.RawIsUrlSafe | app/api/email-queue/process/route.ts:60-63 | the three replacements turn the padded standard encoding into the unpadded URL-safe encoding |
| OutgoingMail.SymbolsSwap | app/api/email-queue/process/route.ts:61-62 | replacing `+` by `-` and `/` by `_` maps the standard alphabet onto the URL-safe one |
| OutgoingMail.TrimPadding | app/api/email-queue/process/route.ts:63 | trimming `=` off the end removes exactly the padding |
| OutgoingMail.RawRoundTrip | app/api/email-queue/process/route.ts:59-64 | the receiving side decodes `raw` back to the message's bytes and those to the message |
| Charset.DetectEncoding | lib/encodingUtils.ts:70-87 | ISO-2022-JP exactly when `$B` occurs; otherwise Shift_JIS exactly when a yen sign or a backslash occurs; otherwise EUC-JP exactly when a half-width corner bracket occurs; nothing exactly when none of these occurs |
| Charset.Last | lib/encodingUtils.ts:52-54 | a greedy run picks the last position of the range where the rest matches, and finds nothing exactly when no position matches |
| Charset.First | lib/encodingUtils.ts:58 | an unanchored match picks the first position of the range where the pattern matches |
| Charset.MetaCharsetAt | lib/encodingUtils.ts:52 | a `<meta … charset=` match starting here captures a whole run of name characters of the markup |
| Charset.MetaContentAt | lib/encodingUtils.ts:53 | a `<meta … content="…charset=` match starting here captures a whole run of name characters of the markup |
| Charset.HeaderCharsetAt | lib/encodingUtils.ts:54 | a `Content-Type: …; charset=` match starting here captures a whole run of name characters of the markup |
| Charset.DetectCharsetFromHtml | lib/encodingUtils.ts:50-65 | the charset is lower case and is a captured name in the markup lower-cased; nothing is found exactly when none of the three patterns matches |
| Charset.FirstAt | lib/encodingUtils.ts:58 | a matching position with none before it is the one the search picks |
| Charset.LastAt | lib/encodingUtils.ts:52-53 | a position with no match after it is the one a greedy run picks |
| Charset.MetaCharsetWins | lib/encodingUtils.ts:52-61 | the leftmost `<meta … charset=…>` declares the charset, lower-cased, whatever follows it |
| Charset.MetaContentWins | lib/encodingUtils.ts:53-61 | without such a tag, the leftmost `<meta … content="…charset=…">` declares it |
| Charset.HeaderCharsetWins | lib/encodingUtils.ts:54-61 | without either tag, the leftmost `Content-Type: …; charset=…` declares it |
| Charset.LeftmostMetaCharset | lib/encodingUtils.ts:52-58 | the first pattern's search returns the capture of its leftmost match |
| Charset.LeftmostMetaContent | lib/encodingUtils.ts:53-58 | the second pattern's search returns the capture of its leftmost match |
| Charset.LeftmostHeaderCharset | lib/encodingUtils.ts:54-58 | the third pattern's search returns the capture of its leftmost match |
| Charset.NoDeclaration | lib/encodingUtils.ts:50-65 | markup without `<meta` or `Content-Type:` anywhere, in any case, declares no charset |
| Charset.DispatchIgnoresCase | lib/encodingUtils.ts:103 | the conversion chosen for a name does not depend on its letter case |
| Charset.DetectedNamesConvert | lib/encodingUtils.ts:70-127 | every name the guess returns selects its own conversion, never the unchanged case |
| Charset.ConvertToUtf8 | lib/encodingUtils.ts:92-151 | UTF-8 and unknown names leave the content unchanged; a known name gives the library's output, or the content itself when the library throws |
| Charset.DecodeEmailContent | lib/encodingUtils.ts:9-45 | empty content is returned as is; a declared charset takes precedence over the guess, and with neither the content is unchanged |
| Charset.CleanHtmlContent | lib/encodingUtils.ts:156-183 | empty markup is returned as is, and the result neither starts nor ends with white space |
| Charset.ProcessHtmlEmailContent | lib/encodingUtils.ts:190-195 | HTML processing is the charset conversion and nothing more |
| Charset.ProcessEmailContent | lib/encodingUtils.ts:203-215 | empty content is returned as is; the converted text is cleaned exactly when clean-up is asked for and it holds both `<` and `>` |
| HtmlText.ReplaceAllMissing | lib/utils.ts:27-32 | a pattern with a character that does not occur in the text is never replaced |
| HtmlText.ReplaceCharAppend | lib/utils.ts:51 | replacing a one-character pattern distributes over concatenation |
| HtmlText.EscapeEach | lib/utils.ts:51 | the escaped line has no angle brackets, and every `&` in it starts `&amp;`, `&lt;` or `&gt;` |
| HtmlText.EscapeIsEach | lib/utils.ts:51 | since `&` is replaced first, the three chained replacements escape every character exactly once |
| HtmlText.EscapeOne | lib/utils.ts:51 | a single character escapes to its own entity, or to itself when it needs none |
| HtmlText.DecodeEscape | lib/utils.ts:27-51 | one decoding pass gives back any escaped line |
| HtmlText.DecodeEach | lib/utils.ts:27-51 | decoding the character-by-character escape gives the line back |
| HtmlText.DecodeStep | lib/utils.ts:27-32 | an escaped character decodes to that character, and decoding resumes right after it |
| HtmlText.PlainStep | lib/utils.ts:27-32 | a character other than `&` decodes to itself |
| HtmlText.DoubleDecoding | lib/utils.ts:28-51 | the line `&lt;` escapes to `&amp;lt;`, which the chained replacements turn into `<` where one pass gives `&lt;` |
| HtmlText.KeptLines | lib/utils.ts:48-50 | no more lines than the parts, each non-empty and already trimmed |
| HtmlText.TextToHtml | lib/utils.ts:44-53 | empty text gives empty markup; otherwise the paragraphs read back as exactly the trimmed non-blank lines of the text, in order |
| HtmlText.ReadBack | lib/utils.ts:51-52 | reading the joined paragraphs back gives the lines in order |
| HtmlText.ReadStep | lib/utils.ts:51 | a paragraph whose text has no `<` is read as its decoded text, and reading resumes after its closing tag |
| HtmlText.BlankLinesDropped | lib/utils.ts:49-50 | a text with only blank lines gives no paragraphs |
| HtmlText.HtmlToText | lib/utils.ts:6-37 | the source's `htmlToText`, with the chained entity replacements: empty markup gives empty text, and the text never starts or ends with white space |
| HtmlText.HtmlToTextCorrected | lib/utils.ts:6-37 | `htmlToText` with one decoding pass: empty markup gives empty text; the text never starts or ends with white space; markup holding the escape of a line comes back as that line, trimmed |
| HtmlText.HtmlToTextAgrees | lib/utils.ts:27-32 | when the tag pass leaves no `&`, the source's `htmlToText` and the one-pass version give the same text |
| HtmlText.DecodeWithoutAmp | lib/utils.ts:27-32 | a text without `&` is left alone by the decoding |
| HtmlText.HtmlToTextDecodesTwice | lib/utils.ts:27-51 | markup holding the escape of the line `&lt;` reads back as `<` in the source's `htmlToText` and as `&lt;` in the one-pass version |
| HtmlText.DecodeAllEscapes | lib/utils.ts:27-51 | for every line, one decoding pass undoes the escape |
| I18n.ArrayIndex | contexts/I18nContext.tsx:38 | `k in array` finds an element exactly for a non-empty run of digits without a leading zero |
| I18n.ArrayIndexIsDecimal | contexts/I18nContext.tsx:38-39 | the keys that step into an array are exactly the decimal numerals `String(i)` of the indices, and each names its own index |
| I18n.ArrayStep | contexts/I18nContext.tsx:37-42 | a step `String(i)` into an array continues from element `i` when the array has one, and leaves the dictionary past its end |
| I18n.LookupAppend | contexts/I18nContext.tsx:34-43 | walking a key path `a + b` is walking `a` and then `b` from where it ended, and stops wherever either walk leaves the dictionary |
| I18n.PlaceholderEnd | contexts/I18nContext.tsx:51 | a placeholder found at the start is `{`, one or more word characters, then `}` |
| I18n.Param | contexts/I18nContext.tsx:52 | `params[name]` is the caller's own parameter when there is one, else the member the object inherits from its prototype, and undefined exactly when neither has the name |
| I18n.PlaceholderReplaced | contexts/I18nContext.tsx:50-53 | a placeholder is replaced by its parameter (own or inherited), or kept as written when there is none, and substitution continues after it |
| I18n.InheritedFilled | contexts/I18nContext.tsx:50-53 | a placeholder naming an inherited member such as `toString` is filled with that member's text even when no parameter is given |
| I18n.SinglePass | contexts/I18nContext.tsx:50-53 | a parameter's value is not expanded again, even when it holds a placeholder itself |
| I18n.NoParamsUnchanged | contexts/I18nContext.tsx:50-53 | with no parameters every placeholder that does not name an inherited member stays, so such a text is unchanged |
| I18n.NoBraceUnchanged | contexts/I18nContext.tsx:50-53 | text without `{` is unchanged by substitution |
| I18n.TranslatePath | contexts/I18nContext.tsx:33-57 | the dot-joined path to a string in the locale's dictionary translates to that string when no parameters are given, and also with empty ones when none of its placeholders names an inherited member |
| I18n.MissingStep | contexts/I18nContext.tsx:37-42 | a key whose path leaves the dictionary at some step (a key an object lacks, an index past an array's end, or any step from a string or number) translates to the key itself, whatever follows |
| I18n.NonStringIsKey | contexts/I18nContext.tsx:45-47 | a key whose path ends on a nested group or any other non-string value translates to the key itself |
| I18n.StartLocale | contexts/I18nContext.tsx:23-31 | Japanese exactly when the saved item is `ja`; Chinese for `zh`, a missing item or anything else |
| I18n.SetLocale | contexts/I18nContext.tsx:59-62 | the new locale is the one chosen, and the saved name restores it at the next start-up |
| BatchJobs.Rows | scripts/batch-create-email-jobs.ts:52-56 | the query returns at most the table's rows, none with an empty address |
| BatchJobs.RowsAreListed | scripts/batch-create-email-jobs.ts:52-56 | a row is returned exactly for each customer with a non-null, non-empty address |
| BatchJobs.FetchPage | scripts/batch-create-email-jobs.ts:57 | at most a thousand rows; rows exactly when the offset is inside the table; a full page only when the table reaches its end, a short one only at the end of the table |
| BatchJobs.EmailsAppend | scripts/batch-create-email-jobs.ts:78 | the addresses of two row lists put together are the two address lists put together |
| BatchJobs.TotalBatchesCovers | scripts/batch-create-email-jobs.ts:72 | `Math.ceil(n / 100)` is the least number of hundred-row batches that covers `n` rows, and zero exactly for no rows |
| BatchJobs.BatchIsChunk | scripts/batch-create-email-jobs.ts:74-77 | batch `i` is the `i`-th hundred-row chunk of the page, non-empty and at most a hundred rows |
| BatchJobs.CreateJobs | scripts/batch-create-email-jobs.ts:74-98 | no more jobs than the remaining batches; each is a pending job of the administrator with the template's subject and content |
| BatchJobs.RecipientsAppend | scripts/batch-create-email-jobs.ts:87 | the recipients of two job lists put together are the two recipient lists put together |
| BatchJobs.OneJobPerBatch | scripts/batch-create-email-jobs.ts:74-98 | when no insert fails there is one job per batch, job `k` holding the addresses of batch `i + k` |
| BatchJobs.JobsCoverPage | scripts/batch-create-email-jobs.ts:74-98 | when no insert fails the jobs' addresses, in order, are the page's addresses from batch `i` on: nothing lost, nothing repeated |
| BatchJobs.FromStep | scripts/batch-create-email-jobs.ts:74-77 | the rows from batch `i` on are batch `i` followed by the rows from batch `i + 1` on |
| BatchJobs.Paging | scripts/batch-create-email-jobs.ts:45-107 | the loop reads at least the page it starts from |
| BatchJobs.PagingFullPages | scripts/batch-create-email-jobs.ts:64-106 | every page before the last one queried was a full thousand rows that was read |
| BatchJobs.PagingExits | scripts/batch-create-email-jobs.ts:59-62 | the script exits with failure exactly when its last page query failed |
| BatchJobs.PagingFinishes | scripts/batch-create-email-jobs.ts:64-106 | a normal finish follows an empty or short page, and the total then counts every row of every page read |
| BatchJobs.RestSplit | scripts/batch-create-email-jobs.ts:57-101 | after a full page, the rest of the table is that page followed by the rows from the next offset |
| BatchJobs.RestLast | scripts/batch-create-email-jobs.ts:57-106 | a short page is the whole rest of the table |
| BatchJobs.PagingReadsAll | scripts/batch-create-email-jobs.ts:45-107 | with no failing query the loop finishes, having counted every row from its starting page on exactly once |
| BatchJobs.PageRecipients | scripts/batch-create-email-jobs.ts:72-98 | with no failing insert, a page's jobs hold the page's addresses in order |
| BatchJobs.PagingRecipients | scripts/batch-create-email-jobs.ts:45-107 | with no failing query or insert, the jobs' addresses are the addresses of every row from the starting page on, in order |
| BatchJobs.PagingJobsShape | scripts/batch-create-email-jobs.ts:81-91 | every job the loop adds is a pending job of the administrator with a non-empty batch of at most a hundred addresses |
| BatchJobs.FindTemplate | scripts/batch-create-email-jobs.ts:20 | the template found has the id and is one of the templates; none is found exactly when no template has the id |
| BatchJobs.FindAdmin | scripts/batch-create-email-jobs.ts:28-38 | the user found is an administrator; none exactly when the query fails or there is no administrator |
| BatchJobs.BatchCreate | scripts/batch-create-email-jobs.ts:13-112 | without the template or an administrator the script exits with failure having created nothing; every job it creates belongs to the administrator, pending, with one batch |
| BatchJobs.EveryListedAddressOnce | scripts/batch-create-email-jobs.ts:13-112 | with every query and insert succeeding the script finishes having read every listed customer once, and the jobs' addresses, job after job, are the listed addresses in order |
| EmailViewer.HeaderValueFirst | app/components/EmailViewer.tsx:61-64 | the first header whose name matches, ignoring case, gives the value |
| EmailViewer.HeaderValueMissing | app/components/EmailViewer.tsx:61-64 | with no matching header the value is the empty string |
| EmailViewer.HeaderValueCaseInsensitive | app/components/EmailViewer.tsx:62 | the letter case of the name asked for does not change the answer |
| EmailViewer.FirstWithData | app/components/EmailViewer.tsx:79-85 | the part found has body data and no earlier part does; none is found exactly when no part has data |
| EmailViewer.Content | app/components/EmailViewer.tsx:74-88 | body data wins and is decoded; without it and without any part holding data, the snippet is shown |
| EmailViewer.ContentFromPart | app/components/EmailViewer.tsx:79-85 | without body data, the first part with data is decoded and shown, whatever later parts hold |
| EmailViewer.LabelName | app/components/EmailViewer.tsx:106-117 | a label the table names is shown by a non-empty name |
| EmailViewer.UnreadNameOnlyForUnread | app/components/EmailViewer.tsx:107 | only `UNREAD` is named `未读` |
| EmailViewer.KnownNames | app/components/EmailViewer.tsx:119-121 | no more names than labels, none of them empty |
| EmailViewer.KnownNamesAppend | app/components/EmailViewer.tsx:119-121 | the names of two label lists put together are their names put together |
| EmailViewer.KnownLabelShown | app/components/EmailViewer.tsx:119-121 | the name of every known label is shown |
| EmailViewer.ShownNameKnown | app/components/EmailViewer.tsx:119-121 | every name shown is the name of one of the labels |
| EmailViewer.LabelDisplayEmpty | app/components/EmailViewer.tsx:105-123 | the display is empty exactly when none of the labels is in the table |
| EmailViewer.UnreadShown | app/components/EmailViewer.tsx:105-127 | a message is unread exactly when its label display names the unread label |
| EmailViewer.CloseAt | app/components/EmailViewer.tsx:140 | the lazy `.+?>` ends at the first `>` from the position on, and fails when a line terminator comes first |
| EmailViewer.AngleAt | app/components/EmailViewer.tsx:140 | a match at a position starts with `<`, captures at least one character, and ends at a `>` |
| EmailViewer.AngleFrom | app/components/EmailViewer.tsx:140 | the captured text lies inside the input after the search start |
| EmailViewer.EmailAddress | app/components/EmailViewer.tsx:138-145 | the address is never longer than the header it is taken from |
| EmailViewer.AngleFromFirst | app/components/EmailViewer.tsx:140 | the search stops at the leftmost position where the pattern matches |
| EmailViewer.AngleFromNone | app/components/EmailViewer.tsx:140 | where the pattern matches at no position, the search finds nothing |
| EmailViewer.AddressIsLeftmostCapture | app/components/EmailViewer.tsx:138-145 | the address is the text the leftmost match captures: after a `<`, at least one character, up to the first `>` after its first character, with no line terminator before it |
| EmailViewer.AddressUnmatched | app/components/EmailViewer.tsx:141-144 | where the pattern matches nowhere the input comes back unchanged |
| EmailViewer.AngleFromSkips | app/components/EmailViewer.tsx:140 | positions without a `<` can be skipped: the search from before them finds what the search from after them finds |
| EmailViewer.NoAngleUnchanged | app/components/EmailViewer.tsx:138-145 | an input without `<` is its own address |
| EmailViewer.AddressOfNamed | app/components/EmailViewer.tsx:138-145 | the address of `Name <address>` is the address, when the name has no `<` and the address is one non-empty line without `>` |
| EmailViewer.CloseFinds | app/components/EmailViewer.tsx:140 | the close bracket is found at the first `>` when every character before it is plain |

## Left out

- HTTP sessions, retry adapters, timeouts and HTML parsing of the scraper: a fetch is an oracle per attempt, and a parsed page is a sequence of label/value pairs with the direct strings and a flag for a Google Maps link.
- The scraper's thread pool, lock and sleeps: aggregation is modelled as sequential appends, which is what the lock makes each append-and-count step look like.
- File and spreadsheet I/O (pandas CSV reading and writing, `glob`, XLSX parsing, template download): a file is a sequence of records or the sheet a sequence of rows of cells, and a read failure is a flag.
- Supabase, the Gmail API, SendGrid and Resend: every table is a sequence in the order the query returns it, and the outcome of every query, insert, update, delete or send whose error a route looks at is a parameter. The status writes whose errors the routes ignore are modelled as always taking effect; the lines below name them.
- MailStore.Attempt: the writes that claim an item and settle it as sent or failed (app/api/email-queue/process/route.ts:143-149, 156-162, 174-182, 195-203) always take effect here; the route ignores their errors, so a failed write would leave the row as it was while the counters still move.
- MailStore.Run: each item's writes always take effect, as for `MailStore.Attempt`.
- AutoProcess.ResetStale: the reset of stale claims (app/api/email-queue/auto-process/route.ts:52-60) always takes effect; its error is ignored by the route.
- Approvals.ApproveAndSend: the per-email status writes of the batch send (app/api/email-approvals/batch/route.ts:124-179) always take effect; their errors are ignored by the route. The `customer_emails` insert of `recordSentEmail` (batch/route.ts:260-271) is likewise taken to succeed: its failure is only logged.
- QueueItem error messages: the `error_message` a failed send writes is not kept in the model.
- The `encoding-japanese` conversions: `convert` in `Charset` stands for the library, with `None` for a conversion that throws.
- The replacement chains of `cleanHtmlContent` and the tag replacements and blank-line clean-up of `htmlToText`: they are the parameters `rewrite`, `tags` and `collapse`; only the edge behaviour around them (empty input, trimming, entity decoding) is modelled.
- The `Buffer` base64 decoding in the viewer: `EmailViewer.Content` takes it as the parameter `decode`. `Base64.Decode` is the strict decoder of the receiving side, not Node's lenient one.
- `Date.now()`, `Math.random()`, ISO timestamps and Message-IDs: they are parameters (`now`, `clock`, `id`).
- Paging.Window: an offset past the last row gives an empty page here; PostgREST's own answer to such a range on a counted query is not modelled.
- Approvals.ListApprovals: `page` and `pageSize` are the integers `parseInt` reads; a value it cannot read (`NaN`) is not modelled.
- Subscription.UnsubscribeGet: as for `Approvals.ListApprovals`, an unreadable `page` or `pageSize` is not modelled.
- Webhook.Pick: numbers are integers; a fractional JSON number, and the exponent form JavaScript prints for large ones, are not modelled.
- Floating point: webhook confidences are whole percentages (90 for 0.9), and `Math.round` on the progress is exact round-half-up on rationals.
- QueueRoutes.Progress: the floating-point quotient `completed / total * 100` can round a value that is exactly a half differently; the model rounds the exact rational.
- Letter case is mapped for ASCII only (plus the full-width Latin letters of the fax labels). JavaScript's `toLowerCase` maps all of Unicode, so addresses or header names with non-ASCII capitals are not modelled exactly.
- EmailViewer.LabelName: the table is the ten listed labels; keys that a JavaScript object inherits, such as `constructor`, are truthy in the source and are not modelled.
- `formatDate` and `getSenderName` of the viewer, and the React components around these helpers, are not part of this model.
- OutgoingMail.SubjectRoundTrip: strings are sequences of Unicode scalar values. A JavaScript string can hold a lone surrogate, which `Buffer.from(…, 'utf-8')` (app/api/email-queue/process/route.ts:25, 60) writes as the bytes of U+FFFD, so for such a subject the round trip does not hold; the same applies to OutgoingMail.RawRoundTrip and Utf8.DecodeEncode.
- The outer `try`/`catch` of each route, which turns an unexpected exception into a 500, is modelled only where a modelled step can fail.
- BatchJobs.Paging: the customer table is a finite sequence that does not change while the script pages through it, so the loop always ends; a table that keeps growing could keep the real loop going.
- BatchJobs.Paging: its own contract only says that at least one page is read; what the loop computes is stated by the `Paging…` lemmas.
- Charset.MetaCharsetAt: its contract says only that the capture is a whole run of name characters of the markup; which match decides is stated by `Charset.MetaCharsetWins`.
- Charset.MetaContentAt: as above; see `Charset.MetaContentWins`.
- Charset.HeaderCharsetAt: as above; see `Charset.HeaderCharsetWins`.
- EmailViewer.EmailAddress: its contract bounds the length only; the leftmost-capture meaning is stated by `EmailViewer.AddressIsLeftmostCapture` and `EmailViewer.AddressUnmatched`.
- EmailViewer.AngleFrom: its contract only places the capture inside the input; `EmailViewer.AngleFromFirst` and `EmailViewer.AngleFromNone` say which match it finds.
- OutgoingMail.EncodedTextIsToken: it states that the encoded text is base64 characters, which excludes `?`, space and line breaks, rather than restating the full token grammar of RFC 2047.
- The detail fetch of the scraper never looks at the response status (`get_company_info` parses whatever comes back); the model follows the code, although the documentation says a non-success status fails the fetch.
- `getEmailAddress` follows its regular expression `/<(.+?)>/`: the capture is at least one character and cannot cross a line terminator, so it is not always "the text between the first `<` and the next `>`".
- User interface pages, the thin CRUD and authentication routes, static templates and console or deployment scripts are outside the core.

## Findings

| source | as written | input that shows it | evidently intended | confidence | as-written member | corrected member |
|---|---|---|---|---|---|---|
| app/api/webhook/test-inbound/route.ts:60-65 | when `request.json()` or `request.formData()` throws, the fallback reads `request.text()` from a body the failed parse has already consumed, which throws in turn, so the outer handler answers 500 and nothing is recorded | a request declared `application/json` whose body is `{` | the unparsable body is kept as the request's raw text, which has none of the fields, and the request is recorded like any other | medium, not executed | Webhook.UnparsedBodyLost | Webhook.UnparsedBodyRecorded |
| app/api/customers/bulk-upload/route.ts:213 | the label alternation lists `fax`, `FAX`, `Fax`, `传真`, `ＦＡＸ` before the longer labels that start with them, so the longer ones can never match | the fax cell `ＦＡＸ番号:03-1234-5678` loses only `ＦＡＸ`, and `番号:03-1234-5678` goes on through the clean-up | the whole label is removed, as with the longer alternatives tried first | medium, not executed | FaxNumber.AsWrittenKeepsLabelTail | FaxNumber.CorrectedRemovesWholeLabel |
| lib/utils.ts:28-29 | `htmlToText` replaces `&amp;` before `&lt;` and `&gt;`, so an entity produced by the first replacement is decoded again | the line `&lt;` becomes `<p>&amp;lt;</p>` through `textToHtml` and comes back from `htmlToText` as `<` | one decoding pass, so that `htmlToText` undoes the escaping of `textToHtml` | medium, not executed | HtmlText.HtmlToTextDecodesTwice | HtmlText.HtmlToTextCorrected |

The import (`ImportSheet.RowFax`, and so `ImportSheet.ScanRow`), `HtmlText.HtmlToText` and `Webhook.Post` follow the code as written; the corrected definitions stand beside them with the intended property proved.

=== FILE: approvals.dfy ===
/**
  The approval routes. `GET /api/email-approvals` lists approval requests a page at a time,
  newest first; `POST /api/email-approvals` files a new request; `POST /api/email-approvals/batch`
  approves the oldest waiting request, queues its emails and sends them at once.
 */
module Approvals {
  import opened Wrappers
  import opened Text
  import opened Seqs
  import opened Sorting
  import opened MailStore
  import opened QueueRoutes
  import opened Paging
  import opened LikePattern
  import AutoProcess

  /* ---------------------------------------------------------------- GET /api/email-approvals */

  /** `.ilike('username', '%' + name + '%')`: the username matches the pattern built around the
      name, so `%`, `*`, `_` and `\` in the name act as pattern characters; a name without them
      matches the usernames that hold it, ignoring the case of ASCII letters
      (`LikePattern.ContainsLikePlain`). */
  predicate NameMatches(username: string, name: string) {
    ContainsLike(username, name)
  }

  /** The ids of the users whose username matches `name`. */
  function MatchingUsers(users: seq<User>, name: string): (r: seq<string>)
    ensures forall k :: 0 <= k < |users| && NameMatches(users[k].username, name) ==> users[k].id in r
    ensures forall id :: id in r ==> exists u :: u in users && u.id == id && NameMatches(u.username, name)
  {
    if |users| == 0 then []
    else
      var rest := MatchingUsers(users[1..], name);
      assert forall k :: 1 <= k < |users| ==> users[k] == users[1..][k - 1];
      (if NameMatches(users[0].username, name) then [users[0].id] else []) + rest
  }

  /** The filters of the list query: a non-administrator sees only their own requests, and a
      name filter keeps the requests of the matching users. */
  predicate Visible(a: Approval, caller: User, applicants: seq<string>) {
    (IsAdmin(caller) || a.applicant == caller.id) && (|applicants| == 0 || a.applicant in applicants)
  }

  function VisibleTo(caller: User, applicants: seq<string>): Approval -> bool {
    (a: Approval) => Visible(a, caller, applicants)
  }

  function CreationTime(a: Approval): int {
    a.createdAt
  }

  /** The ids of every request the query matches, newest first, before the range is applied. */
  function Listing(approvals: seq<Approval>, caller: User, applicants: seq<string>): (r: seq<nat>)
    ensures forall i: nat :: i in r <==> i < |approvals| && Visible(approvals[i], caller, applicants)
    ensures |r| == |Where(approvals, VisibleTo(caller, applicants), 0)|
    ensures forall k :: 0 <= k < |r| ==> r[k] < |approvals|
    ensures forall j, k :: 0 <= j < k < |r| ==> approvals[r[k]].createdAt <= approvals[r[j]].createdAt
  {
    NewestMatching(approvals, VisibleTo(caller, applicants), CreationTime)
  }

  datatype ListReply = ListRefused(status: int) | Listed(ids: seq<nat>, total: nat, page: int, pageSize: int)

  /** Lists one page of the requests the caller may see. A missing or empty `page` or `pageSize`
      takes its default; `applicantName` is `""` when absent. A range PostgREST refuses fails the
      query, but only once the name filter has found someone. */
  function ListApprovals(st: Store, header: Option<string>, page: Option<int>, pageSize: Option<int>,
                         applicantName: string, usersFail: bool, queryFails: bool): (r: ListReply)
    ensures Authenticate(st.users, header).Denied? ==> r == ListRefused(401)
    ensures r.Listed? ==> r.page == page.GetOr(DefaultPage) && r.pageSize == pageSize.GetOr(DefaultPageSize)
    ensures r.Listed? ==> forall k :: 0 <= k < |r.ids| ==> (r.ids[k] < |st.approvals| &&
      (IsAdmin(Authenticate(st.users, header).user) ||
       st.approvals[r.ids[k]].applicant == Authenticate(st.users, header).user.id))
    ensures r.Listed? ==> |r.ids| <= if r.pageSize < 0 then 0 else r.pageSize
    ensures Authenticate(st.users, header).Granted? && JsTrim(applicantName) == "" ==>
      (r == ListRefused(500) <==> queryFails || !RangeAccepted(page.GetOr(DefaultPage), pageSize.GetOr(DefaultPageSize)))
    ensures Authenticate(st.users, header).Granted? && JsTrim(applicantName) == "" && r.Listed? ==>
      var caller := Authenticate(st.users, header).user;
      r.total == |Listing(st.approvals, caller, [])| &&
      r.ids == Page(Listing(st.approvals, caller, []), r.page, r.pageSize)
    ensures (Authenticate(st.users, header).Granted? && JsTrim(applicantName) != "" && usersFail) ==> r == ListRefused(500)
    ensures (Authenticate(st.users, header).Granted? && JsTrim(applicantName) != "" && !usersFail &&
      MatchingUsers(st.users, JsTrim(applicantName)) == []) ==>
      r == Listed([], 0, page.GetOr(DefaultPage), pageSize.GetOr(DefaultPageSize))
    ensures (Authenticate(st.users, header).Granted? && JsTrim(applicantName) != "" && !usersFail &&
      MatchingUsers(st.users, JsTrim(applicantName)) != []) ==>
      if queryFails || !RangeAccepted(page.GetOr(DefaultPage), pageSize.GetOr(DefaultPageSize)) then r == ListRefused(500)
      else r == ListPage(st.approvals, Authenticate(st.users, header).user, MatchingUsers(st.users, JsTrim(applicantName)),
                         page.GetOr(DefaultPage), pageSize.GetOr(DefaultPageSize))
  {
    match Authenticate(st.users, header)
    case Denied(s) => ListRefused(s)
    case Granted(caller) =>
      var p := page.GetOr(DefaultPage);
      var n := pageSize.GetOr(DefaultPageSize);
      var name := JsTrim(applicantName);
      if name != "" && usersFail then ListRefused(500)
      else
        var applicants := if name == "" then [] else MatchingUsers(st.users, name);
        if name != "" && |applicants| == 0 then Listed([], 0, p, n)
        else if queryFails || !RangeAccepted(p, n) then ListRefused(500)
        else
          ListPage(st.approvals, caller, applicants, p, n)
  }

  /** The reply for one page of the matching requests and their total count. */
  function ListPage(approvals: seq<Approval>, caller: User, applicants: seq<string>, page: int, size: int): (r: ListReply)
    ensures r.Listed? && r.page == page && r.pageSize == size
    ensures r.total == |Listing(approvals, caller, applicants)|
    ensures r.ids == Page(Listing(approvals, caller, applicants), page, size)
    ensures forall k :: 0 <= k < |r.ids| ==>
      r.ids[k] < |approvals| && Visible(approvals[r.ids[k]], caller, applicants)
    ensures |r.ids| <= if size < 0 then 0 else size
  {
    var all := Listing(approvals, caller, applicants);
    var ids := Page(all, page, size);
    WindowMembers(all, (page - 1) * size, (page - 1) * size + size - 1);
    Listed(ids, |all|, page, size)
  }

  /* ---------------------------------------------------------------- POST /api/email-approvals */

  datatype CreateReply = CreateRefused(status: int) | Created(store: Store, id: nat)

  /** Files a request on behalf of the caller. An empty subject or content, or a missing or empty
      recipient list, is refused with 400; the new request awaits review. */
  function CreateApproval(st: Store, header: Option<string>, subject: string, content: string,
                          recipients: Option<seq<string>>, now: int, insertFails: bool): (r: CreateReply)
    ensures Authenticate(st.users, header).Denied? ==> r == CreateRefused(401)
    ensures (Authenticate(st.users, header).Granted? &&
      (subject == "" || content == "" || recipients.None? || |recipients.value| == 0)) ==> r == CreateRefused(400)
    ensures r.Created? <==> (Authenticate(st.users, header).Granted? &&
      subject != "" && content != "" && recipients.Some? && |recipients.value| > 0 && !insertFails)
    ensures r.Created? ==>
      r.id == |st.approvals| && r.store.users == st.users && r.store.queue == st.queue &&
      r.store.approvals == st.approvals +
        [Approval(Authenticate(st.users, header).user.id, None, subject, content, recipients.value, AwaitingReview, now)]
  {
    match Authenticate(st.users, header)
    case Denied(s) => CreateRefused(s)
    case Granted(caller) =>
      if subject == "" || content == "" || recipients.None? || |recipients.value| == 0 then CreateRefused(400)
      else if insertFails then CreateRefused(500)
      else
        var a := Approval(caller.id, None, subject, content, recipients.value, AwaitingReview, now);
        Created(st.(approvals := st.approvals + [a]), |st.approvals|)
  }

  /** Filing and listing agree: the applicant's own listing counts one request more afterwards. */
  lemma CreateThenListed(st: Store, header: Option<string>, subject: string, content: string,
                         recipients: Option<seq<string>>, now: int)
    requires CreateApproval(st, header, subject, content, recipients, now, false).Created?
    ensures var st' := CreateApproval(st, header, subject, content, recipients, now, false).store;
      ListApprovals(st', header, None, None, "", false, false).total ==
        ListApprovals(st, header, None, None, "", false, false).total + 1
  {
    var caller := Authenticate(st.users, header).user;
    var r := CreateApproval(st, header, subject, content, recipients, now, false);
    var a := Approval(caller.id, None, subject, content, recipients.value, AwaitingReview, now);
    assert r.store.approvals == st.approvals + [a];
    assert JsTrim("") == "";
    WhereAppend(st.approvals, a, VisibleTo(caller, []), 0);
    assert VisibleTo(caller, [])(a);
  }

  /* ---------------------------------------------------------------- POST /api/email-approvals/batch */

  /** `.eq('status', 'pending').order('created_at').limit(1)` over the requests from position
      `from` on: one with the earliest creation time, or nothing when none is waiting. */
  function EarliestAwaiting(approvals: seq<Approval>, from: nat): (r: Option<nat>)
    requires from <= |approvals|
    ensures r.Some? ==> from <= r.value < |approvals| && approvals[r.value].status == AwaitingReview
    ensures r.Some? ==> forall j :: from <= j < |approvals| && approvals[j].status == AwaitingReview ==>
      approvals[r.value].createdAt <= approvals[j].createdAt
    ensures r.None? <==> forall j :: from <= j < |approvals| ==> approvals[j].status != AwaitingReview
    decreases |approvals| - from
  {
    if from == |approvals| then None
    else
      var rest := EarliestAwaiting(approvals, from + 1);
      if approvals[from].status != AwaitingReview then rest
      else if rest.Some? && approvals[rest.value].createdAt < approvals[from].createdAt then rest
      else Some(from)
  }

  /** The filter `.eq('approval_id', id).eq('status', 'pending')`. */
  function PendingOf(id: nat): QueueItem -> bool {
    (it: QueueItem) => it.approval == id && it.status == Pending
  }

  /** The applicant's counters to raise: one more request sent, to `recipientCount` more
      recipients. */
  datatype StatsUpdate = StatsUpdate(user: string, sendCount: nat, recipientCount: nat)

  datatype BatchReply =
    | BatchRefused(status: int, store: Store)
    | NothingAwaiting
    | BatchDone(store: Store, approvalId: nat, total: nat, success: nat, failed: nat, statsUpdate: Option<StatsUpdate>,
                records: seq<AutoProcess.SentMail>)

  /** What `recordSentEmail` reads besides the three tables: the customers, the message id the mail
      service returns for each delivered queue item, and the configured sender address. */
  datatype Recording = Recording(customers: seq<AutoProcess.Customer>, messageId: nat -> string,
                                 configuredSender: Option<string>)

  /** Queue item `i` of `q` gets a `customer_emails` row: its send succeeded and its recipient is
      exactly one customer. */
  function RecordedBy(rec: Recording, q: seq<QueueItem>, delivered: nat -> bool): nat -> bool {
    (i: nat) => delivered(i) && i < |q| && AutoProcess.CountCustomers(rec.customers, q[i].recipient) == 1
  }

  /** `m` is an outbound, read row about a queue row of request `id` that ended `sent`. */
  predicate DescribesSent(m: AutoProcess.SentMail, queue: seq<QueueItem>, id: nat) {
    m.outbound && m.isRead &&
    exists i :: 0 <= i < |queue| && queue[i].approval == id && queue[i].status == Sent && queue[i].recipient == m.to
  }

  /** Some row of `records` is addressed to `to` with the message id `messageId`. */
  predicate HasRecord(records: seq<AutoProcess.SentMail>, to: string, messageId: string) {
    exists m :: m in records && m.to == to && m.messageId == messageId
  }

  /** `recordSentEmail` after each successful send of the items `ids`, in send order: the rows of
      `customer_emails` that request `approvalId` adds. The batch route's copy of `recordSentEmail`
      is the same code as the automatic job's, so one row is `AutoProcess.SentRecord`. */
  function Records(rec: Recording, st: Store, q: seq<QueueItem>, ids: seq<nat>, delivered: nat -> bool,
                   approvalId: nat): (r: seq<AutoProcess.SentMail>)
    requires forall k :: 0 <= k < |ids| ==> ids[k] < |q|
    requires approvalId < |st.approvals|
    ensures |r| == CountDelivered(ids, RecordedBy(rec, q, delivered))
    ensures |r| <= CountDelivered(ids, delivered)
    ensures forall m :: m in r ==>
      m.outbound && m.isRead &&
      exists k :: 0 <= k < |ids| && delivered(ids[k]) && m.to == q[ids[k]].recipient && m.messageId == rec.messageId(ids[k])
    ensures forall k :: 0 <= k < |ids| && RecordedBy(rec, q, delivered)(ids[k]) ==>
      HasRecord(r, q[ids[k]].recipient, rec.messageId(ids[k]))
    decreases |ids|
  {
    if |ids| == 0 then []
    else
      var i := ids[0];
      var rest := Records(rec, st, q, ids[1..], delivered, approvalId);
      assert forall k :: 1 <= k < |ids| ==> ids[k] == ids[1..][k - 1];
      var here := if delivered(i) then
          AutoProcess.SentRecord(rec.customers, st, q[i].recipient, q[i].subject, q[i].content, approvalId,
                                 rec.messageId(i), rec.configuredSender)
        else None;
      (if here.Some? then [here.value] else []) + rest
  }

  /** Approves the oldest waiting request for an administrator, queues one email per recipient and
      sends the request's pending emails in table order. The approval is written before the
      emails are queued, so a failed insert leaves an approved request with nothing queued. A
      failed re-read of the queue sends nothing; a failed statistics update is ignored. */
  function BatchApprove(st: Store, header: Option<string>, now: int, fetchFails: bool, updateFails: bool,
                        insertFails: bool, queueFetchFails: bool, delivered: nat -> bool, clock: nat -> int,
                        rec: Recording): (r: BatchReply)
    ensures AuthenticateAdmin(st.users, header).Denied? ==>
      r == BatchRefused(AuthenticateAdmin(st.users, header).status, st)
    ensures AuthenticateAdmin(st.users, header).Granted? && fetchFails ==> r == BatchRefused(500, st)
    ensures r.NothingAwaiting? <==> (AuthenticateAdmin(st.users, header).Granted? && !fetchFails &&
      forall j :: 0 <= j < |st.approvals| ==> st.approvals[j].status != AwaitingReview)
    ensures r.BatchDone? ==>
      var id := r.approvalId;
      id < |st.approvals| && st.approvals[id].status == AwaitingReview &&
      (forall j :: 0 <= j < |st.approvals| && st.approvals[j].status == AwaitingReview ==>
        st.approvals[id].createdAt <= st.approvals[j].createdAt) &&
      AuthenticateAdmin(st.users, header).Granted? &&
      r == ApproveAndSend(st, AuthenticateAdmin(st.users, header).user.id, id, now, false, queueFetchFails, delivered, clock, rec)
  {
    match AuthenticateAdmin(st.users, header)
    case Denied(s) => BatchRefused(s, st)
    case Granted(caller) =>
      if fetchFails then BatchRefused(500, st)
      else match EarliestAwaiting(st.approvals, 0)
        case None => NothingAwaiting
        case Some(id) =>
          if updateFails then BatchRefused(500, st)
          else ApproveAndSend(st, caller.id, id, now, insertFails, queueFetchFails, delivered, clock, rec)
  }

  /** The approval of request `id` by `approver`, then the queueing and sending of its emails. */
  function ApproveAndSend(st: Store, approver: string, id: nat, now: int, insertFails: bool, queueFetchFails: bool,
                          delivered: nat -> bool, clock: nat -> int, rec: Recording): (r: BatchReply)
    requires id < |st.approvals|
    ensures var approved := st.(approvals := st.approvals[id := ApprovedBy(st.approvals[id], approver)]);
      insertFails ==> r == BatchRefused(500, approved)
    ensures !insertFails ==> r.BatchDone? && r.approvalId == id
    ensures r.BatchDone? ==>
      r.store.users == st.users &&
      r.store.approvals == st.approvals[id := ApprovedBy(st.approvals[id], approver)] &&
      |r.store.queue| == |st.queue| + |st.approvals[id].recipients| &&
      r.total == r.success + r.failed &&
      (r.statsUpdate.Some? <==> r.success > 0) &&
      (r.statsUpdate.Some? ==> r.statsUpdate.value == StatsUpdate(st.approvals[id].applicant, 1, r.success))
    ensures r.BatchDone? && queueFetchFails ==> r.total == 0
    ensures r.BatchDone? && !queueFetchFails ==>
      var sent := Where(st.queue + NewItems(id, st.approvals[id], now), PendingOf(id), 0);
      r.total == |sent| && forall i :: i in sent ==> i < |r.store.queue| && Terminal(r.store.queue[i].status)
    ensures r.BatchDone? ==>
      |r.records| <= r.success && forall m :: m in r.records ==> DescribesSent(m, r.store.queue, id)
    ensures r.BatchDone? && !queueFetchFails ==>
      var sent := Where(st.queue + NewItems(id, st.approvals[id], now), PendingOf(id), 0);
      forall i :: (i in sent && delivered(i) &&
                   AutoProcess.CountCustomers(rec.customers, r.store.queue[i].recipient) == 1) ==>
        HasRecord(r.records, r.store.queue[i].recipient, rec.messageId(i))
  {
    var a := st.approvals[id];
    var approved := st.(approvals := st.approvals[id := ApprovedBy(a, approver)]);
    if insertFails then BatchRefused(500, approved)
    else
      var q := st.queue + NewItems(id, a, now);
      var ids := if queueFetchFails then [] else Where(q, PendingOf(id), 0);
      AscendingDistinct(ids);
      var pass := Run(q, ids, delivered, clock);
      var records := Records(rec, approved, q, ids, delivered, id);
      RecordsDescribeSent(rec, approved, q, ids, delivered, clock, id, pass.queue);
      BatchDone(approved.(queue := pass.queue), id, |ids|, pass.sent, pass.failed,
        if pass.sent > 0 then Some(StatsUpdate(a.applicant, 1, pass.sent)) else None, records)
  }

  /** Every record describes an email of request `id` that the pass sent. */
  lemma RecordsDescribeSent(rec: Recording, st: Store, q: seq<QueueItem>, ids: seq<nat>, delivered: nat -> bool,
                            clock: nat -> int, id: nat, after: seq<QueueItem>)
    requires forall k :: 0 <= k < |ids| ==> ids[k] < |q| && q[ids[k]].approval == id
    requires id < |st.approvals| && |after| == |q|
    requires forall k :: 0 <= k < |ids| ==> after[ids[k]] == Attempt(q[ids[k]], delivered(ids[k]), clock(ids[k]))
    ensures forall m :: m in Records(rec, st, q, ids, delivered, id) ==> DescribesSent(m, after, id)
  {
    forall m | m in Records(rec, st, q, ids, delivered, id) ensures DescribesSent(m, after, id) {
      var k :| 0 <= k < |ids| && delivered(ids[k]) && m.to == q[ids[k]].recipient;
      assert after[ids[k]].status == Sent;
    }
  }

  /** When the request had nothing queued before, the batch sends exactly one email per
      recipient, and every one of them ends sent or failed. */
  lemma BatchSendsEveryRecipient(st: Store, header: Option<string>, now: int, delivered: nat -> bool, clock: nat -> int, rec: Recording)
    ensures var r := BatchApprove(st, header, now, false, false, false, false, delivered, clock, rec);
      r.BatchDone? && (forall it :: it in st.queue ==> it.approval != r.approvalId) ==>
        r.total == |st.approvals[r.approvalId].recipients| &&
        forall i :: |st.queue| <= i < |r.store.queue| ==> Terminal(r.store.queue[i].status)
  {
    var r := BatchApprove(st, header, now, false, false, false, false, delivered, clock, rec);
    if r.BatchDone? && (forall it :: it in st.queue ==> it.approval != r.approvalId) {
      var id := r.approvalId;
      var added := NewItems(id, st.approvals[id], now);
      assert forall it :: it in added ==> PendingOf(id)(it);
      WhereOfAppended(st.queue, added, PendingOf(id));
    }
  }

  /** A failed insert strands the request: it is approved, so neither this route nor
      `POST /api/email-queue` will take it again, and none of its emails were queued. */
  lemma InsertFailureStrands(st: Store, header: Option<string>, now: int, now': int, delivered: nat -> bool, clock: nat -> int, rec: Recording)
    requires AuthenticateAdmin(st.users, header).Granted?
    requires EarliestAwaiting(st.approvals, 0).Some?
    ensures var id := EarliestAwaiting(st.approvals, 0).value;
      var r := BatchApprove(st, header, now, false, false, true, false, delivered, clock, rec);
      r.BatchRefused? && r.status == 500 && r.store.queue == st.queue &&
      r.store.approvals[id].status == Approved &&
      Enqueue(r.store, header, id, now', false, false).status == 400 &&
      (EarliestAwaiting(r.store.approvals, 0).Some? ==> EarliestAwaiting(r.store.approvals, 0).value != id)
  {
    var id := EarliestAwaiting(st.approvals, 0).value;
    var r := BatchApprove(st, header, now, false, false, true, false, delivered, clock, rec);
    assert r.store.users == st.users;
    assert r.store.approvals[id].status == Approved;
  }
}

=== FILE: auto_process.dfy ===
/**
  `POST /api/email-queue/auto-process`: the background job that drains the queue. It is let in by
  a webhook key or an administrator; it then repeats, at most ten times, a round that gives back
  claims older than five minutes and sends the fifty oldest pending emails. A successful send is
  also recorded in the recipient customer's mailbox.
 */
module AutoProcess {
  import opened Wrappers
  import opened Seqs
  import opened MailStore

  /* ---------------------------------------------------------------- who may start it */

  /** A non-empty `x-webhook-key` equal to the configured key lets the call in; otherwise the
      bearer header must name an administrator. */
  function Authorized(users: seq<User>, header: Option<string>, webhookKey: Option<string>, configuredKey: Option<string>): (r: bool)
    ensures r <==>
      (webhookKey.Some? && webhookKey.value != "" && configuredKey == webhookKey) ||
      AuthenticateAdmin(users, header).Granted?
    ensures configuredKey.None? && !AuthenticateAdmin(users, header).Granted? ==> !r
  {
    if webhookKey.Some? && webhookKey.value != "" && configuredKey == Some(webhookKey.value) then true
    else if header.None? || header.value == "" then false
    else
      match FindUser(users, ClaimedId(header.value))
      case None => false
      case Some(u) => IsAdmin(u)
  }

  /* ---------------------------------------------------------------- giving back stale claims */

  /** How long a claim may last, in milliseconds, before the job gives the item back. */
  const StaleAfter := 5 * 60 * 1000

  /** `.eq('status', 'processing').lt('processed_at', cutoff)`; an item without a timestamp never
      matches, as `null < cutoff` is not true in SQL. */
  predicate Stale(it: QueueItem, cutoff: int) {
    it.status == Processing && it.processedAt.Some? && it.processedAt.value < cutoff
  }

  /** Gives every stale claim back to the queue: pending again, with no timestamp. */
  function ResetStale(q: seq<QueueItem>, cutoff: int): (r: seq<QueueItem>)
    ensures |r| == |q|
    ensures forall i :: 0 <= i < |q| ==> (r[i] != q[i] <==> Stale(q[i], cutoff))
    ensures forall i :: 0 <= i < |q| && Stale(q[i], cutoff) ==>
      Step(q[i].status, r[i].status) && r[i] == q[i].(status := Pending, processedAt := None)
  {
    seq(|q|, i requires 0 <= i < |q| =>
      if Stale(q[i], cutoff) then q[i].(status := Pending, processedAt := None) else q[i])
  }

  /* ---------------------------------------------------------------- the rounds */

  const MaxIterations := 10

  /** How many emails one round takes at most. */
  const RoundLimit := 50

  datatype Totals = Totals(processed: nat, success: nat, failed: nat)

  /** The queue when the job stops, its totals and the number of rounds begun. */
  datatype AutoRun = AutoRun(queue: seq<QueueItem>, totals: Totals, iterations: nat)

  /** What one round leaves: the queue, whether the job goes on, and the round's counts. */
  datatype RoundResult = RoundResult(queue: seq<QueueItem>, more: bool, processed: nat, sent: nat, failed: nat)

  /** Round `n`: give back the claims older than five minutes before `now`, then send the oldest
      eligible emails, fifty at most. A failed query or an empty selection ends the job. */
  function Round(q: seq<QueueItem>, now: int, fetchFails: bool, delivered: nat -> bool, clock: nat -> int): (r: RoundResult)
    ensures |r.queue| == |q|
    ensures r.sent + r.failed == r.processed <= RoundLimit
    ensures !r.more ==> r.processed == 0
    ensures !r.more ==> fetchFails || forall i :: 0 <= i < |r.queue| ==> !Eligible(r.queue[i])
    ensures forall i :: 0 <= i < |q| && Terminal(q[i].status) ==> r.queue[i] == q[i]
    ensures !fetchFails ==> var q1 := ResetStale(q, now - StaleAfter);
      forall i :: 0 <= i < |q| ==>
        r.queue[i] == if i in SelectOldest(q1, RoundLimit) then Attempt(q1[i], delivered(i), clock(i)) else q1[i]
  {
    var q1 := ResetStale(q, now - StaleAfter);
    if fetchFails then RoundResult(q1, false, 0, 0, 0)
    else SendOldest(q1, delivered, clock)
  }

  /** The sending half of a round: the oldest eligible emails, fifty at most, each attempted
      once; the job goes on exactly when there was one to send. */
  function SendOldest(q: seq<QueueItem>, delivered: nat -> bool, clock: nat -> int): (r: RoundResult)
    ensures |r.queue| == |q|
    ensures r.sent + r.failed == r.processed <= RoundLimit
    ensures !r.more ==> r.processed == 0 && r.queue == q
    ensures !r.more <==> forall i :: 0 <= i < |q| ==> !Eligible(q[i])
    ensures forall i :: 0 <= i < |q| && Terminal(q[i].status) ==> r.queue[i] == q[i]
    ensures forall i :: 0 <= i < |q| && i !in SelectOldest(q, RoundLimit) ==> r.queue[i] == q[i]
    ensures forall i :: 0 <= i < |q| && i in SelectOldest(q, RoundLimit) ==>
      r.queue[i] == Attempt(q[i], delivered(i), clock(i))
    ensures forall i :: 0 <= i < |q| && i in SelectOldest(q, RoundLimit) ==>
      (r.queue[i].status == Sent && delivered(i) && r.queue[i].retryCount == q[i].retryCount) ||
      (r.queue[i].status == Failed && !delivered(i) && r.queue[i].retryCount == q[i].retryCount + 1)
  {
    var ids := SelectOldest(q, RoundLimit);
    if |ids| == 0 then RoundResult(q, false, 0, 0, 0)
    else
      var pass := Run(q, ids, delivered, clock);
      RoundKeepsSettled(q, ids, pass);
      RoundResult(pass.queue, true, |ids|, pass.sent, pass.failed)
  }

  lemma RoundKeepsSettled(q: seq<QueueItem>, ids: seq<nat>, pass: Pass)
    requires |q| == |pass.queue|
    requires forall k :: 0 <= k < |ids| ==> ids[k] < |q| && Eligible(q[ids[k]])
    requires forall i :: 0 <= i < |q| && i !in ids ==> pass.queue[i] == q[i]
    ensures forall i :: 0 <= i < |q| && Terminal(q[i].status) ==> pass.queue[i] == q[i]
  {
    forall i | 0 <= i < |q| && Terminal(q[i].status) ensures pass.queue[i] == q[i] {
      assert i !in ids;
    }
  }

  /** The rounds from round `iteration + 1` on. Round `n` reads the clock as `now(n)` and its
      query fails when `fetchFails(n)`; item `i` is sent successfully exactly when `delivered(i)`,
      at the time `clock(i)`. */
  function Rounds(q: seq<QueueItem>, iteration: nat, totals: Totals, now: nat -> int, fetchFails: nat -> bool,
                  delivered: nat -> bool, clock: nat -> int): (r: AutoRun)
    requires iteration <= MaxIterations
    requires totals.processed == totals.success + totals.failed
    ensures iteration <= r.iterations <= MaxIterations
    ensures |r.queue| == |q|
    ensures r.totals.processed == r.totals.success + r.totals.failed
    ensures totals.processed <= r.totals.processed <= totals.processed + (r.iterations - iteration) * RoundLimit
    ensures totals.success <= r.totals.success && totals.failed <= r.totals.failed
    ensures forall i :: 0 <= i < |q| && Terminal(q[i].status) ==> r.queue[i] == q[i]
    ensures r.iterations < MaxIterations ==>
      fetchFails(r.iterations) || forall i :: 0 <= i < |r.queue| ==> !Eligible(r.queue[i])
    decreases MaxIterations - iteration
  {
    if iteration == MaxIterations then AutoRun(q, totals, iteration)
    else
      var n := iteration + 1;
      var o := Round(q, now(n), fetchFails(n), delivered, clock);
      if !o.more then AutoRun(o.queue, totals, n)
      else
        var totals' := Totals(totals.processed + o.processed, totals.success + o.sent, totals.failed + o.failed);
        Rounds(o.queue, n, totals', now, fetchFails, delivered, clock)
  }

  datatype AutoReply = AutoRefused(status: int) | AutoDone(run: AutoRun)

  function AutoProcess(st: Store, header: Option<string>, webhookKey: Option<string>, configuredKey: Option<string>,
                       now: nat -> int, fetchFails: nat -> bool, delivered: nat -> bool, clock: nat -> int): (r: AutoReply)
    ensures r.AutoRefused? <==> !Authorized(st.users, header, webhookKey, configuredKey)
    ensures r.AutoRefused? ==> r.status == 401
    ensures r.AutoDone? ==>
      1 <= r.run.iterations <= MaxIterations &&
      r.run.totals.processed == r.run.totals.success + r.run.totals.failed &&
      r.run.totals.processed <= MaxIterations * RoundLimit &&
      |r.run.queue| == |st.queue|
    ensures r.AutoDone? ==> forall i :: 0 <= i < |st.queue| && Terminal(st.queue[i].status) ==> r.run.queue[i] == st.queue[i]
    ensures r.AutoDone? && r.run.iterations < MaxIterations ==>
      fetchFails(r.run.iterations) || forall i :: 0 <= i < |r.run.queue| ==> !Eligible(r.run.queue[i])
  {
    if !Authorized(st.users, header, webhookKey, configuredKey) then AutoRefused(401)
    else AutoDone(Rounds(st.queue, 0, Totals(0, 0, 0), now, fetchFails, delivered, clock))
  }

  /* ---------------------------------------------------------------- the mailbox record */

  datatype Customer = Customer(id: nat, email: string)

  /** A row of `customer_emails` describing an email the job sent. */
  datatype SentMail = SentMail(customer: nat, from: string, to: string, subject: string, content: string,
                               messageId: string, isRead: bool, outbound: bool)

  /** Used when the approval has no subject. */
  const NoSubject := "无主题"

  /** Used when neither the applicant nor the configuration names a sender address. */
  const FallbackSender := "noreply@example.com"

  /** How many customers have the address `email`. */
  function CountCustomers(customers: seq<Customer>, email: string): nat {
    if |customers| == 0 then 0
    else (if customers[0].email == email then 1 else 0) + CountCustomers(customers[1..], email)
  }

  /** The first customer with the address `email`. */
  function FirstCustomer(customers: seq<Customer>, email: string): (r: Option<Customer>)
    ensures r.Some? ==> r.value in customers && r.value.email == email
    ensures r.None? <==> CountCustomers(customers, email) == 0
  {
    if |customers| == 0 then None
    else if customers[0].email == email then Some(customers[0])
    else FirstCustomer(customers[1..], email)
  }

  /** `.from('customers').eq('email', to).single()`: the customer, when exactly one has that
      address. */
  function FindCustomer(customers: seq<Customer>, email: string): (r: Option<Customer>)
    ensures r.Some? <==> CountCustomers(customers, email) == 1
    ensures r.Some? ==> r.value in customers && r.value.email == email
  {
    if CountCustomers(customers, email) == 1 then FirstCustomer(customers, email) else None
  }

  /** `recordSentEmail`: the row describing a sent email, or nothing when the recipient is not
      exactly one customer or the approval is missing. The insert's own failure is only logged,
      and nothing here can raise, so recording never turns a sent email into a failed one. */
  function SentRecord(customers: seq<Customer>, st: Store, to: string, subject: string, content: string,
                      approvalId: nat, messageId: string, configuredSender: Option<string>): (r: Option<SentMail>)
    ensures r.Some? <==> CountCustomers(customers, to) == 1 && approvalId < |st.approvals|
    ensures r.Some? ==>
      r.value.to == to && r.value.messageId == messageId && r.value.isRead && r.value.outbound &&
      r.value.from != "" && r.value.subject != "" && (subject != "" ==> r.value.subject == subject) &&
      r.value.content == content && FindCustomer(customers, to) == Some(Customer(r.value.customer, to))
  {
    match FindCustomer(customers, to)
    case None => None
    case Some(c) =>
      if approvalId >= |st.approvals| then None
      else
        var sender := FindUser(st.users, st.approvals[approvalId].applicant);
        var from :=
          if sender.Some? && sender.value.email != "" then sender.value.email
          else if configuredSender.Some? && configuredSender.value != "" then configuredSender.value
          else FallbackSender;
        Some(SentMail(c.id, from, to, if subject == "" then NoSubject else subject, content, messageId, true, true))
  }
}

=== FILE: base64.dfy ===
/**
  Base64 (RFC 4648): the padded encoding of section 4 that `Buffer.toString('base64')`
  produces, and the unpadded URL-safe variant of section 5 that the mail API expects in `raw`.
  Each encoder has a strict decoder, and the two are inverse in both directions.
 */
module Base64 {
  import opened Wrappers
  import opened Utf8

  /** A six-bit group, the value one base64 character carries. */
  type sextet = x: int | 0 <= x < 64

  /** An alphabet: Table 1 of RFC 4648 with the characters for the values 62 and 63 as
      parameters. */
  datatype Alphabet = Alphabet(c62: char, c63: char)

  /** Table 1 (section 4). */
  const Standard: Alphabet := Alphabet('+', '/')
  /** Table 2, the "URL and Filename safe" alphabet (section 5). */
  const UrlSafe: Alphabet := Alphabet('-', '_')

  const Pad: char := '='

  predicate IsAlnum(c: char) {
    ('A' <= c <= 'Z') || ('a' <= c <= 'z') || ('0' <= c <= '9')
  }

  /** The two extra characters differ, and neither is a letter, a digit or the pad. */
  predicate ValidAlphabet(a: Alphabet) {
    a.c62 != a.c63 && !IsAlnum(a.c62) && !IsAlnum(a.c63) && a.c62 != Pad && a.c63 != Pad
  }

  function Symbol(a: Alphabet, v: sextet): char {
    if v < 26 then ('A' as int + v) as char
    else if v < 52 then ('a' as int + (v - 26)) as char
    else if v < 62 then ('0' as int + (v - 52)) as char
    else if v == 62 then a.c62
    else a.c63
  }

  /** The value a character stands for in the alphabet, if it is one of its characters. */
  function ValueOf(a: Alphabet, c: char): (r: Option<sextet>)
    requires ValidAlphabet(a)
    ensures r.Some? <==> IsAlnum(c) || c == a.c62 || c == a.c63
    ensures r.Some? ==> Symbol(a, r.value) == c
  {
    if 'A' <= c <= 'Z' then Some(c as int - 'A' as int)
    else if 'a' <= c <= 'z' then Some(c as int - 'a' as int + 26)
    else if '0' <= c <= '9' then Some(c as int - '0' as int + 52)
    else if c == a.c62 then Some(62)
    else if c == a.c63 then Some(63)
    else None
  }

  /** Every value has a distinct character. */
  lemma ValueOfSymbol(a: Alphabet, v: sextet)
    requires ValidAlphabet(a)
    ensures ValueOf(a, Symbol(a, v)) == Some(v)
  {
  }

  // ---------------------------------------------------------------------------------------------
  // Regrouping eight-bit bytes into six-bit values

  /** The bytes regrouped into six-bit values, most significant bits first (section 4): three
      bytes make four values, and a final one or two bytes make two or three values, filled with
      zero bits. */
  function Pack(bs: seq<byte>): (r: seq<sextet>)
    ensures |r| == (4 * |bs| + 2) / 3
    decreases |bs|
  {
    if |bs| == 0 then []
    else if |bs| == 1 then [bs[0] / 4, bs[0] % 4 * 16]
    else if |bs| == 2 then [bs[0] / 4, bs[0] % 4 * 16 + bs[1] / 16, bs[1] % 16 * 4]
    else PackGroup(bs[0], bs[1], bs[2]) + Pack(bs[3..])
  }

  /** The bytes six-bit values carry: nothing for a single trailing value or for fill bits that
      are not zero. */
  function Unpack(vs: seq<sextet>): (r: Option<seq<byte>>)
    decreases |vs|
  {
    if |vs| == 0 then Some([])
    else if |vs| == 1 then None
    else if |vs| == 2 then
      if vs[1] % 16 == 0 then Some([First(vs[0], vs[1])]) else None
    else if |vs| == 3 then
      if vs[2] % 4 == 0 then Some([First(vs[0], vs[1]), Second(vs[1], vs[2])]) else None
    else match Unpack(vs[4..])
      case None => None
      case Some(rest) => Some([First(vs[0], vs[1]), Second(vs[1], vs[2]), Third(vs[2], vs[3])] + rest)
  }

  /** The first, second and third byte of a group, from the values that carry their bits. */
  function First(w: sextet, x: sextet): byte {
    w as int * 4 + x as int / 16
  }

  function Second(x: sextet, y: sextet): byte {
    x as int % 16 * 16 + y as int / 4
  }

  function Third(y: sextet, z: sextet): byte {
    y as int % 4 * 64 + z as int
  }

  /** A group of three bytes survives regrouping. */
  lemma GroupRoundTrip(b0: byte, b1: byte, b2: byte)
    ensures First(b0 / 4, b0 % 4 * 16 + b1 / 16) == b0
    ensures Second(b0 % 4 * 16 + b1 / 16, b1 % 16 * 4 + b2 / 64) == b1
    ensures Third(b1 % 16 * 4 + b2 / 64, b2 % 64) == b2
  {
  }

  /** Four values survive being packed into bytes and split again. */
  lemma ValuesRoundTrip(w: sextet, x: sextet, y: sextet, z: sextet)
    ensures First(w, x) / 4 == w && First(w, x) % 4 * 16 + Second(x, y) / 16 == x
    ensures Second(x, y) % 16 * 4 + Third(y, z) / 64 == y && Third(y, z) % 64 == z
  {
  }

  lemma {:induction false} UnpackPack(bs: seq<byte>)
    ensures Unpack(Pack(bs)) == Some(bs)
    decreases |bs|
  {
    if |bs| >= 3 {
      UnpackPack(bs[3..]);
      UnpackPackGroup(bs);
    } else {
      UnpackPackShort(bs);
    }
  }

  /** Three bytes in front of bytes that survive regrouping survive it too. */
  lemma UnpackPackGroup(bs: seq<byte>)
    requires |bs| >= 3
    requires Unpack(Pack(bs[3..])) == Some(bs[3..])
    ensures Unpack(Pack(bs)) == Some(bs)
  {
    SplitGroup(bs);
    PackGroupFirst(bs);
    UnpackPackedGroup(bs[0], bs[1], bs[2], Pack(bs[3..]));
  }

  lemma SplitGroup(bs: seq<byte>)
    requires |bs| >= 3
    ensures bs == [bs[0], bs[1], bs[2]] + bs[3..]
  {
  }

  lemma PackGroupFirst(bs: seq<byte>)
    requires |bs| >= 3
    ensures Pack(bs) == PackGroup(bs[0], bs[1], bs[2]) + Pack(bs[3..])
  {
  }

  /** The four values of three bytes unpack to those bytes, in front of whatever follows. */
  lemma UnpackPackedGroup(b0: byte, b1: byte, b2: byte, rest: seq<sextet>)
    ensures Unpack(PackGroup(b0, b1, b2) + rest) == match Unpack(rest)
      case None => None
      case Some(bs) => Some([b0, b1, b2] + bs)
  {
    var g := PackGroup(b0, b1, b2);
    UnpackGroup(g, rest);
    GroupRoundTrip(b0, b1, b2);
  }

  /** The four values three bytes regroup into. */
  function PackGroup(b0: byte, b1: byte, b2: byte): (g: seq<sextet>)
    ensures |g| == 4
  {
    [b0 / 4, b0 % 4 * 16 + b1 / 16, b1 % 16 * 4 + b2 / 64, b2 % 64]
  }

  /** Fewer than three bytes survive regrouping. */
  lemma UnpackPackShort(bs: seq<byte>)
    requires |bs| < 3
    ensures Unpack(Pack(bs)) == Some(bs)
  {
    if |bs| == 2 {
      PairRoundTrip(bs);
    } else if |bs| == 1 {
      SingleRoundTrip(bs);
    }
  }

  /** Two trailing bytes survive regrouping: their fill bits are zero. */
  lemma PairRoundTrip(bs: seq<byte>)
    requires |bs| == 2
    ensures Unpack(Pack(bs)) == Some(bs)
  {
    var b0, b1 := bs[0], bs[1];
    var v: seq<sextet> := [b0 / 4, b0 % 4 * 16 + b1 / 16, b1 % 16 * 4];
    assert Pack(bs) == v;
    PairBits(b0, b1);
    UnpackThree(v[0], v[1], v[2]);
    assert v == [v[0], v[1], v[2]];
    assert bs == [b0, b1];
  }

  /** One trailing byte survives regrouping: its fill bits are zero. */
  lemma SingleRoundTrip(bs: seq<byte>)
    requires |bs| == 1
    ensures Unpack(Pack(bs)) == Some(bs)
  {
    var b0 := bs[0];
    SingleBits(b0);
    UnpackTwo(b0 / 4, b0 % 4 * 16);
    assert bs == [b0];
  }

  /** The arithmetic behind two trailing bytes. */
  lemma PairBits(b0: byte, b1: byte)
    ensures (b1 % 16 * 4) % 4 == 0
    ensures First(b0 / 4, b0 % 4 * 16 + b1 / 16) == b0
    ensures Second(b0 % 4 * 16 + b1 / 16, b1 % 16 * 4) == b1
  {
  }

  /** The arithmetic behind one trailing byte. */
  lemma SingleBits(b0: byte)
    ensures (b0 % 4 * 16) % 16 == 0
    ensures First(b0 / 4, b0 % 4 * 16) == b0
  {
  }

  lemma UnpackTwo(w: sextet, x: sextet)
    ensures Unpack([w, x]) == if x % 16 == 0 then Some([First(w, x)]) else None
  {
  }

  lemma UnpackThree(w: sextet, x: sextet, y: sextet)
    ensures Unpack([w, x, y]) == if y % 4 == 0 then Some([First(w, x), Second(x, y)]) else None
  {
  }

  /** A group of four values in front unpacks to its three bytes in front. */
  lemma UnpackGroup(g: seq<sextet>, rest: seq<sextet>)
    requires |g| == 4
    ensures Unpack(g + rest) == match Unpack(rest)
      case None => None
      case Some(bs) => Some([First(g[0], g[1]), Second(g[1], g[2]), Third(g[2], g[3])] + bs)
  {
    assert (g + rest)[4..] == rest;
  }

  lemma {:induction false} PackUnpack(vs: seq<sextet>, bs: seq<byte>)
    requires Unpack(vs) == Some(bs)
    ensures Pack(bs) == vs
    decreases |vs|
  {
    if |vs| >= 4 {
      var rest := Unpack(vs[4..]).value;
      PackUnpack(vs[4..], rest);
      assert bs[3..] == rest;
      ValuesRoundTrip(vs[0], vs[1], vs[2], vs[3]);
      assert vs == [vs[0], vs[1], vs[2], vs[3]] + vs[4..];
    } else if |vs| == 3 {
      ValuesRoundTrip(vs[0], vs[1], vs[2], 0);
      assert vs == [vs[0], vs[1], vs[2]];
    } else if |vs| == 2 {
      ValuesRoundTrip(vs[0], vs[1], 0, 0);
      assert vs == [vs[0], vs[1]];
    }
  }

  /** Regrouping is a bijection between byte strings and the six-bit strings whose length is
      not one more than a multiple of four and whose fill bits are zero. */
  lemma PackIff(bs: seq<byte>, vs: seq<sextet>)
    ensures Pack(bs) == vs <==> Unpack(vs) == Some(bs)
  {
    if Pack(bs) == vs {
      UnpackPack(bs);
    }
    if Unpack(vs) == Some(bs) {
      PackUnpack(vs, bs);
    }
  }

  // ---------------------------------------------------------------------------------------------
  // Characters

  function Symbols(a: Alphabet, vs: seq<sextet>): (r: string)
    ensures |r| == |vs|
    decreases |vs|
  {
    if |vs| == 0 then "" else [Symbol(a, vs[0])] + Symbols(a, vs[1..])
  }

  /** The values of a string of the alphabet's characters; nothing if another character
      occurs. */
  function Values(a: Alphabet, s: string): (r: Option<seq<sextet>>)
    requires ValidAlphabet(a)
    ensures r.Some? ==> Symbols(a, r.value) == s
    ensures r.None? <==> exists i :: 0 <= i < |s| && ValueOf(a, s[i]).None?
    decreases |s|
  {
    if |s| == 0 then Some([])
    else
      assert forall i :: 1 <= i < |s| ==> s[1..][i - 1] == s[i];
      match ValueOf(a, s[0])
      case None => None
      case Some(v) =>
        match Values(a, s[1..])
        case None => None
        case Some(rest) =>
          assert ([v] + rest)[1..] == rest;
          Some([v] + rest)
  }

  lemma {:induction false} ValuesOfSymbols(a: Alphabet, vs: seq<sextet>)
    requires ValidAlphabet(a)
    ensures Values(a, Symbols(a, vs)) == Some(vs)
    decreases |vs|
  {
    if |vs| > 0 {
      ValueOfSymbol(a, vs[0]);
      assert Symbols(a, vs)[1..] == Symbols(a, vs[1..]);
      ValuesOfSymbols(a, vs[1..]);
      assert vs == [vs[0]] + vs[1..];
    }
  }

  /** An encoded string holds only alphabet characters, never the pad. */
  lemma {:induction false} SymbolsInAlphabet(a: Alphabet, vs: seq<sextet>)
    requires ValidAlphabet(a)
    ensures forall i :: 0 <= i < |vs| ==> ValueOf(a, Symbols(a, vs)[i]).Some? && Symbols(a, vs)[i] != Pad
    decreases |vs|
  {
    if |vs| > 0 {
      SymbolsInAlphabet(a, vs[1..]);
      assert forall i :: 1 <= i < |vs| ==> Symbols(a, vs)[i] == Symbols(a, vs[1..])[i - 1];
    }
  }

  // ---------------------------------------------------------------------------------------------
  // The encodings

  /** The encoding without padding. */
  function EncodeBody(a: Alphabet, bs: seq<byte>): (r: string)
    ensures |r| == (4 * |bs| + 2) / 3
  {
    Symbols(a, Pack(bs))
  }

  function DecodeBody(a: Alphabet, s: string): (r: Option<seq<byte>>)
    requires ValidAlphabet(a)
  {
    match Values(a, s)
    case None => None
    case Some(vs) => Unpack(vs)
  }

  /** The unpadded encoding and its decoder are inverse, in both directions. */
  lemma EncodeBodyIff(a: Alphabet, bs: seq<byte>, s: string)
    requires ValidAlphabet(a)
    ensures EncodeBody(a, bs) == s <==> DecodeBody(a, s) == Some(bs)
  {
    if EncodeBody(a, bs) == s {
      ValuesOfSymbols(a, Pack(bs));
      UnpackPack(bs);
    }
    if DecodeBody(a, s) == Some(bs) {
      var vs := Values(a, s).value;
      PackUnpack(vs, bs);
    }
  }

  /** The pad characters that bring the encoding of `n` bytes to a multiple of four
      (section 4). */
  function Padding(n: nat): (r: string)
    ensures ((4 * n + 2) / 3 + |r|) % 4 == 0
    ensures |r| <= 2
    ensures forall i :: 0 <= i < |r| ==> r[i] == Pad
  {
    PackedLength(n);
    if n % 3 == 1 then "==" else if n % 3 == 2 then "=" else ""
  }

  /** The number of values `n` bytes regroup into: four per whole group of three, and two or
      three for a final one or two. */
  lemma PackedLength(n: nat)
    ensures n % 3 == 0 ==> (4 * n + 2) / 3 == 4 * (n / 3)
    ensures n % 3 == 1 ==> (4 * n + 2) / 3 == 4 * (n / 3) + 2
    ensures n % 3 == 2 ==> (4 * n + 2) / 3 == 4 * (n / 3) + 3
  {
    var q, m := n / 3, n % 3;
    assert 4 * n + 2 == 3 * (4 * q + m) + (m + 2);
  }

  /** `Buffer.from(bytes).toString('base64')`: the Table 1 encoding, padded. */
  function Encode(bs: seq<byte>): (r: string)
    ensures |r| % 4 == 0 && |r| == 4 * ((|bs| + 2) / 3)
  {
    PackedLength(|bs|);
    EncodeBody(Standard, bs) + Padding(|bs|)
  }

  /** The base64url encoding without padding (section 5, and section 3.2 on omitting the
      pad). */
  function EncodeUrl(bs: seq<byte>): (r: string)
    ensures |r| == (4 * |bs| + 2) / 3
    ensures forall i :: 0 <= i < |r| ==> r[i] != '+' && r[i] != '/' && r[i] != Pad
  {
    SymbolsInAlphabet(UrlSafe, Pack(bs));
    EncodeBody(UrlSafe, bs)
  }

  /** A Table 1 character or the pad. */
  predicate IsStandardChar(c: char) {
    IsAlnum(c) || c == '+' || c == '/' || c == Pad
  }

  /** Every character of the padded encoding is a Table 1 character or the pad. */
  lemma EncodeChars(bs: seq<byte>)
    ensures forall k :: 0 <= k < |Encode(bs)| ==> IsStandardChar(Encode(bs)[k])
  {
    var body := EncodeBody(Standard, bs);
    var pad := Padding(|bs|);
    SymbolsInAlphabet(Standard, Pack(bs));
    forall k | 0 <= k < |Encode(bs)| ensures IsStandardChar(Encode(bs)[k]) {
      if k < |body| {
        assert Encode(bs)[k] == body[k];
        assert ValueOf(Standard, body[k]).Some?;
      } else {
        assert Encode(bs)[k] == pad[k - |body|];
      }
    }
  }

  /** A decoder for the padded encoding: the length is a multiple of four, and up to two
      trailing pad characters are dropped before decoding. */
  function Decode(s: string): (r: Option<seq<byte>>)
  {
    if |s| % 4 != 0 then None
    else DecodeBody(Standard, UnpadTail(s))
  }

  function UnpadTail(s: string): (r: string)
    ensures |s| - 2 <= |r| <= |s| && r == s[..|r|]
  {
    if |s| >= 2 && s[|s| - 2] == Pad && s[|s| - 1] == Pad then s[..|s| - 2]
    else if |s| >= 1 && s[|s| - 1] == Pad then s[..|s| - 1]
    else s
  }

  function DecodeUrl(s: string): (r: Option<seq<byte>>)
  {
    DecodeBody(UrlSafe, s)
  }

  /** The padded encoding and its decoder are inverse, in both directions. */
  lemma EncodeIff(bs: seq<byte>, s: string)
    ensures Encode(bs) == s <==> Decode(s) == Some(bs)
  {
    if Encode(bs) == s {
      DecodeEncode(bs);
    }
    if Decode(s) == Some(bs) {
      EncodeDecode(bs, s);
    }
  }

  /** Decoding an encoding gives back the bytes. */
  lemma DecodeEncode(bs: seq<byte>)
    ensures Decode(Encode(bs)) == Some(bs)
  {
    var body := EncodeBody(Standard, bs);
    var s := Encode(bs);
    SymbolsInAlphabet(Standard, Pack(bs));
    EncodeBodyIff(Standard, bs, body);
    assert UnpadTail(s) == body by {
      if |bs| % 3 == 1 {
        assert s == body + "==";
      } else if |bs| % 3 == 2 {
        assert s == body + "=";
      } else {
        assert s == body;
      }
    }
  }

  /** A string that decodes is the encoding of what it decodes to. */
  lemma EncodeDecode(bs: seq<byte>, s: string)
    requires Decode(s) == Some(bs)
    ensures Encode(bs) == s
  {
    var body := EncodeBody(Standard, bs);
    SymbolsInAlphabet(Standard, Pack(bs));
    var u := UnpadTail(s);
    EncodeBodyIff(Standard, bs, u);
    assert body == u;
    UnpadTailPadding(s, u, |bs|);
  }

  /** What the decoder dropped is exactly the padding the encoder adds. */
  lemma UnpadTailPadding(s: string, u: string, n: nat)
    requires |s| % 4 == 0 && u == UnpadTail(s) && |u| == (4 * n + 2) / 3
    requires forall i :: 0 <= i < |u| ==> u[i] != Pad
    ensures s == u + Padding(n)
  {
    if |u| == |s| - 2 {
      assert s == u + [s[|s| - 2], s[|s| - 1]];
    } else if |u| == |s| - 1 {
      assert s == u + [s[|s| - 1]];
      if |u| > 0 {
        assert u[|u| - 1] == s[|s| - 2];
      }
    } else {
      assert s == u;
      if |u| > 0 {
        assert u[|u| - 1] == s[|s| - 1];
      }
    }
  }

  /** The URL-safe encoding and its decoder are inverse, in both directions. */
  lemma EncodeUrlIff(bs: seq<byte>, s: string)
    ensures EncodeUrl(bs) == s <==> DecodeUrl(s) == Some(bs)
  {
    EncodeBodyIff(UrlSafe, bs, s);
  }
}

=== FILE: batch_jobs.dfy ===
/**
  `scripts/batch-create-email-jobs.ts`: a one-off script that turns every customer with an
  address into pending approval jobs. It reads the customers a thousand at a time, cuts each
  page into batches of a hundred, and inserts one job per batch, with the `family` template and
  the first administrator as applicant.

  The database is the customers table in the order the query returns it; a failing page query
  and a failing insert are oracles.
 */
module BatchJobs {
  import opened Wrappers
  import opened Seqs

  const BatchSize: nat := 100
  const PageSize: nat := 1000
  const TemplateId := "family"

  /** The exit status of `process.exit(1)`. */
  const ExitFailure := 1

  datatype Template = Template(id: string, name: string, subject: string, content: string)

  datatype User = User(id: string, email: string, role: string)

  /** A row of `customers`; `None` is a `null` address. */
  datatype Customer = Customer(email: Option<string>, companyName: string)

  /** A row the query returns: `select('email, company_name')`. */
  datatype Row = Row(email: string, companyName: string)

  /** The row inserted into `email_approvals`. */
  datatype Job = Job(applicantId: string, subject: string, content: string, recipients: seq<string>, status: string)

  /** How the script ends: `process.exit(1)` after creating `jobs`, or normally; `pages` counts
      the page queries made. */
  datatype Outcome =
    | Exited(code: int, jobs: seq<Job>, pages: nat)
    | Finished(jobs: seq<Job>, totalProcessed: nat, pages: nat)

  // ---------------------------------------------------------------------------------------------
  // The query

  /** `.not('email', 'is', null).neq('email', '')` */
  predicate Listed(c: Customer) {
    c.email.Some? && c.email.value != ""
  }

  /** The rows the query can return, in table order. */
  function Rows(table: seq<Customer>): (r: seq<Row>)
    ensures |r| <= |table|
    ensures forall k :: 0 <= k < |r| ==> r[k].email != ""
    decreases |table|
  {
    if |table| == 0 then []
    else
      var rest := Rows(table[1..]);
      if Listed(table[0]) then [Row(table[0].email.value, table[0].companyName)] + rest else rest
  }

  /** A row is returned exactly for each listed customer. */
  lemma {:induction false} RowsAreListed(table: seq<Customer>, e: string, name: string)
    ensures Row(e, name) in Rows(table) <==> Customer(Some(e), name) in table && e != ""
    decreases |table|
  {
    if |table| > 0 {
      RowsAreListed(table[1..], e, name);
      assert table == [table[0]] + table[1..];
    }
  }

  /** `.range(offset, offset + PAGE_SIZE - 1)`: both ends inclusive, cut at the end of the
      rows. */
  function FetchPage(rows: seq<Row>, offset: nat): (r: seq<Row>)
    ensures |r| <= PageSize
    ensures offset < |rows| <==> |r| > 0
    ensures |r| == PageSize ==> offset + PageSize <= |rows|
    ensures |r| < PageSize ==> offset + |r| >= |rows|
  {
    if offset >= |rows| then [] else rows[offset..Min(offset + PageSize, |rows|)]
  }

  /** `batch.map(c => c.email)` */
  function Emails(rows: seq<Row>): (r: seq<string>)
    ensures |r| == |rows|
  {
    seq(|rows|, k requires 0 <= k < |rows| => rows[k].email)
  }

  lemma EmailsAppend(a: seq<Row>, b: seq<Row>)
    ensures Emails(a + b) == Emails(a) + Emails(b)
  {
  }

  // ---------------------------------------------------------------------------------------------
  // One page

  /** `Math.ceil(customers.length / BATCH_SIZE)` */
  function TotalBatches(n: nat): nat {
    CeilDiv(n, BatchSize)
  }

  /** The number of batches is the least that covers the page. */
  lemma TotalBatchesCovers(n: nat)
    ensures TotalBatches(n) * BatchSize >= n
    ensures n > 0 ==> (TotalBatches(n) - 1) * BatchSize < n
    ensures n == 0 <==> TotalBatches(n) == 0
  {
    CeilDivBounds(n, BatchSize);
  }

  /** `customers.slice(i * BATCH_SIZE, i * BATCH_SIZE + BATCH_SIZE)`; the slice stops at the end
      of the page. */
  function BatchAt(page: seq<Row>, i: nat): (r: seq<Row>)
    requires i < TotalBatches(|page|)
  {
    ChunkAt(page, BatchSize, i);
    page[i * BatchSize..Min(i * BatchSize + BatchSize, |page|)]
  }

  /** Batch `i` is the `i`-th chunk of the page: non-empty and at most a hundred rows. */
  lemma BatchIsChunk(page: seq<Row>, i: nat)
    requires i < TotalBatches(|page|)
    ensures i < |Chunk(page, BatchSize)| && BatchAt(page, i) == Chunk(page, BatchSize)[i]
    ensures 0 < |BatchAt(page, i)| <= BatchSize
  {
    ChunkAt(page, BatchSize, i);
  }

  /** The rows of the page from batch `i` on. */
  function From(page: seq<Row>, i: nat): seq<Row> {
    page[Min(i * BatchSize, |page|)..]
  }

  /** The job for one batch. */
  function NewJob(admin: User, t: Template, recipients: seq<string>): Job {
    Job(admin.id, t.subject, t.content, recipients, "pending")
  }

  /** The loop over batches `i`, `i + 1`, … of a page; a failed insert is logged and skipped. */
  function CreateJobs(page: seq<Row>, i: nat, admin: User, t: Template, insertFails: nat -> bool): (r: seq<Job>)
    requires i <= TotalBatches(|page|)
    ensures |r| <= TotalBatches(|page|) - i
    ensures forall k :: 0 <= k < |r| ==>
      r[k].applicantId == admin.id && r[k].status == "pending" && r[k].subject == t.subject &&
      r[k].content == t.content && 0 < |r[k].recipients| <= BatchSize
    decreases TotalBatches(|page|) - i
  {
    if i == TotalBatches(|page|) then []
    else
      var batch := BatchAt(page, i);
      BatchIsChunk(page, i);
      var rest := CreateJobs(page, i + 1, admin, t, insertFails);
      if insertFails(i) then rest else [NewJob(admin, t, Emails(batch))] + rest
  }

  /** The addresses of the jobs, job after job. */
  function Recipients(jobs: seq<Job>): seq<string> {
    if |jobs| == 0 then [] else jobs[0].recipients + Recipients(jobs[1..])
  }

  lemma {:induction false} RecipientsAppend(a: seq<Job>, b: seq<Job>)
    ensures Recipients(a + b) == Recipients(a) + Recipients(b)
    decreases |a|
  {
    if |a| == 0 {
      assert a + b == b;
    } else {
      assert (a + b)[1..] == a[1..] + b;
      RecipientsAppend(a[1..], b);
    }
  }

  /** When every insert succeeds there is one job per batch, and job `k` holds the addresses of
      batch `i + k`. */
  lemma {:induction false} OneJobPerBatch(page: seq<Row>, i: nat, admin: User, t: Template, insertFails: nat -> bool)
    requires i <= TotalBatches(|page|)
    requires forall j :: i <= j < TotalBatches(|page|) ==> !insertFails(j)
    ensures |CreateJobs(page, i, admin, t, insertFails)| == TotalBatches(|page|) - i
    ensures forall k :: 0 <= k < TotalBatches(|page|) - i ==>
      CreateJobs(page, i, admin, t, insertFails)[k].recipients == Emails(Chunk(page, BatchSize)[i + k])
    decreases TotalBatches(|page|) - i
  {
    if i < TotalBatches(|page|) {
      OneJobPerBatch(page, i + 1, admin, t, insertFails);
      BatchIsChunk(page, i);
      var r := CreateJobs(page, i, admin, t, insertFails);
      var rest := CreateJobs(page, i + 1, admin, t, insertFails);
      assert r == [NewJob(admin, t, Emails(BatchAt(page, i)))] + rest;
      forall k | 0 <= k < TotalBatches(|page|) - i
        ensures r[k].recipients == Emails(Chunk(page, BatchSize)[i + k])
      {
        if k > 0 {
          assert r[k] == rest[k - 1];
        }
      }
    }
  }

  /** When every insert succeeds the jobs' addresses, in order, are the page's addresses from
      batch `i` on: nothing lost, nothing repeated. */
  lemma {:induction false} JobsCoverPage(page: seq<Row>, i: nat, admin: User, t: Template, insertFails: nat -> bool)
    requires i <= TotalBatches(|page|)
    requires forall j :: i <= j < TotalBatches(|page|) ==> !insertFails(j)
    ensures Recipients(CreateJobs(page, i, admin, t, insertFails)) == Emails(From(page, i))
    decreases TotalBatches(|page|) - i
  {
    TotalBatchesCovers(|page|);
    if i == TotalBatches(|page|) {
      assert From(page, i) == [];
    } else {
      JobsCoverPage(page, i + 1, admin, t, insertFails);
      var batch := BatchAt(page, i);
      BatchIsChunk(page, i);
      var rest := CreateJobs(page, i + 1, admin, t, insertFails);
      assert CreateJobs(page, i, admin, t, insertFails) == [NewJob(admin, t, Emails(batch))] + rest;
      RecipientsAppend([NewJob(admin, t, Emails(batch))], rest);
      FromStep(page, i);
      EmailsAppend(batch, From(page, i + 1));
    }
  }

  /** The rows from batch `i` on are batch `i` and then the rows from batch `i + 1` on. */
  lemma FromStep(page: seq<Row>, i: nat)
    requires i < TotalBatches(|page|)
    ensures From(page, i) == BatchAt(page, i) + From(page, i + 1)
  {
    BatchIsChunk(page, i);
    ChunkAt(page, BatchSize, i);
    var a := i * BatchSize;
    var b := Min(a + BatchSize, |page|);
    assert (i + 1) * BatchSize == a + BatchSize;
    assert From(page, i + 1) == page[b..];
    assert page[a..] == page[a..b] + page[b..];
  }

  // ---------------------------------------------------------------------------------------------
  // The paging loop

  /** The offset of page `k`: the offset starts at zero and grows by a thousand per page. */
  function OffsetOf(k: nat): nat {
    k * PageSize
  }

  /** The insert failures of the page at `offset`, by batch. */
  function PageFails(insertFails: (nat, nat) -> bool, offset: nat): nat -> bool {
    (i: nat) => insertFails(offset, i)
  }

  /** The rows of the first `n` pages, counted. */
  function PagesSize(rows: seq<Row>, n: nat): nat {
    if n == 0 then 0 else PagesSize(rows, n - 1) + |FetchPage(rows, OffsetOf(n - 1))|
  }

  /** `while (hasMore)` from page `k`, after the pages before it produced `jobs` and `total`
      rows. The loop stops after an empty page or a page shorter than a thousand rows, and exits
      the process when a page query fails. The outcome counts the page queries made. */
  function Paging(rows: seq<Row>, k: nat, admin: User, t: Template, fetchFails: nat -> bool,
                  insertFails: (nat, nat) -> bool, jobs: seq<Job>, total: nat): (r: Outcome)
    ensures r.pages > k
    decreases |rows| - OffsetOf(k)
  {
    var offset := OffsetOf(k);
    if fetchFails(offset) then Exited(ExitFailure, jobs, k + 1)
    else
      var page := FetchPage(rows, offset);
      if |page| == 0 then Finished(jobs, total, k + 1)
      else
        var jobs' := jobs + CreateJobs(page, 0, admin, t, PageFails(insertFails, offset));
        if |page| < PageSize then Finished(jobs', total + |page|, k + 1)
        else Paging(rows, k + 1, admin, t, fetchFails, insertFails, jobs', total + |page|)
  }

  /** A page the loop reads in full: its query succeeded and it held a thousand rows. */
  predicate FullPage(rows: seq<Row>, fetchFails: nat -> bool, j: nat) {
    !fetchFails(OffsetOf(j)) && |FetchPage(rows, OffsetOf(j))| == PageSize
  }

  /** Every page before the last one the loop queries was read in full. */
  lemma {:induction false} PagingFullPages(rows: seq<Row>, k: nat, admin: User, t: Template, fetchFails: nat -> bool,
                                           insertFails: (nat, nat) -> bool, jobs: seq<Job>, total: nat)
    ensures var r := Paging(rows, k, admin, t, fetchFails, insertFails, jobs, total);
      forall j: nat :: k <= j < r.pages - 1 ==> FullPage(rows, fetchFails, j)
    decreases |rows| - OffsetOf(k)
  {
    if FullPage(rows, fetchFails, k) {
      var offset := OffsetOf(k);
      var page := FetchPage(rows, offset);
      var jobs' := jobs + CreateJobs(page, 0, admin, t, PageFails(insertFails, offset));
      PagingFullPages(rows, k + 1, admin, t, fetchFails, insertFails, jobs', total + |page|);
    }
  }

  /** The loop exits the process exactly when its last query failed. */
  lemma {:induction false} PagingExits(rows: seq<Row>, k: nat, admin: User, t: Template, fetchFails: nat -> bool,
                                       insertFails: (nat, nat) -> bool, jobs: seq<Job>, total: nat)
    ensures var r := Paging(rows, k, admin, t, fetchFails, insertFails, jobs, total);
      r.Exited? <==> fetchFails(OffsetOf(r.pages - 1))
    ensures var r := Paging(rows, k, admin, t, fetchFails, insertFails, jobs, total);
      r.Exited? ==> r.code == ExitFailure
    decreases |rows| - OffsetOf(k)
  {
    if FullPage(rows, fetchFails, k) {
      var offset := OffsetOf(k);
      var page := FetchPage(rows, offset);
      var jobs' := jobs + CreateJobs(page, 0, admin, t, PageFails(insertFails, offset));
      PagingExits(rows, k + 1, admin, t, fetchFails, insertFails, jobs', total + |page|);
    }
  }

  /** A normal finish follows an empty or short page, and the total then counts every row of
      every page read. */
  lemma {:induction false} PagingFinishes(rows: seq<Row>, k: nat, admin: User, t: Template, fetchFails: nat -> bool,
                                          insertFails: (nat, nat) -> bool, jobs: seq<Job>, total: nat)
    requires total == PagesSize(rows, k)
    ensures var r := Paging(rows, k, admin, t, fetchFails, insertFails, jobs, total);
      r.Finished? ==> |FetchPage(rows, OffsetOf(r.pages - 1))| < PageSize && r.totalProcessed == PagesSize(rows, r.pages)
    decreases |rows| - OffsetOf(k)
  {
    if FullPage(rows, fetchFails, k) {
      var offset := OffsetOf(k);
      var page := FetchPage(rows, offset);
      var jobs' := jobs + CreateJobs(page, 0, admin, t, PageFails(insertFails, offset));
      assert PagesSize(rows, k + 1) == total + |page|;
      PagingFinishes(rows, k + 1, admin, t, fetchFails, insertFails, jobs', total + |page|);
    } else if !fetchFails(OffsetOf(k)) {
      assert PagesSize(rows, k + 1) == total + |FetchPage(rows, OffsetOf(k))|;
    }
  }

  /** The rows from page `k` on are that page and the rows from page `k + 1` on. */
  lemma RestSplit(rows: seq<Row>, k: nat)
    requires |FetchPage(rows, OffsetOf(k))| == PageSize
    ensures rows[Min(OffsetOf(k), |rows|)..] == FetchPage(rows, OffsetOf(k)) + rows[Min(OffsetOf(k + 1), |rows|)..]
  {
    assert OffsetOf(k + 1) == OffsetOf(k) + PageSize;
  }

  /** The last page the loop reads is the rest of the rows. */
  lemma RestLast(rows: seq<Row>, k: nat)
    requires |FetchPage(rows, OffsetOf(k))| < PageSize
    ensures rows[Min(OffsetOf(k), |rows|)..] == FetchPage(rows, OffsetOf(k))
  {
  }

  /** With no failing query the loop reads every row once: the total counts the rows from
      page `k` on. */
  lemma {:induction false} PagingReadsAll(rows: seq<Row>, k: nat, admin: User, t: Template, fetchFails: nat -> bool,
                                          insertFails: (nat, nat) -> bool, jobs: seq<Job>, total: nat)
    requires forall o :: !fetchFails(o)
    ensures var r := Paging(rows, k, admin, t, fetchFails, insertFails, jobs, total);
      r.Finished? && r.totalProcessed == total + |rows[Min(OffsetOf(k), |rows|)..]|
    decreases |rows| - OffsetOf(k)
  {
    var offset := OffsetOf(k);
    var page := FetchPage(rows, offset);
    if |page| < PageSize {
      RestLast(rows, k);
    } else {
      var jobs' := jobs + CreateJobs(page, 0, admin, t, PageFails(insertFails, offset));
      PagingReadsAll(rows, k + 1, admin, t, fetchFails, insertFails, jobs', total + |page|);
      RestSplit(rows, k);
    }
  }

  /** The jobs of one page, when no insert fails, hold the page's addresses in order. */
  lemma PageRecipients(rows: seq<Row>, k: nat, admin: User, t: Template, insertFails: (nat, nat) -> bool, jobs: seq<Job>)
    requires forall o, i :: !insertFails(o, i)
    ensures var page := FetchPage(rows, OffsetOf(k));
      Recipients(jobs + CreateJobs(page, 0, admin, t, PageFails(insertFails, OffsetOf(k)))) == Recipients(jobs) + Emails(page)
  {
    var page := FetchPage(rows, OffsetOf(k));
    var created := CreateJobs(page, 0, admin, t, PageFails(insertFails, OffsetOf(k)));
    JobsCoverPage(page, 0, admin, t, PageFails(insertFails, OffsetOf(k)));
    assert From(page, 0) == page;
    RecipientsAppend(jobs, created);
  }

  /** With no failing query and no failing insert, the jobs' addresses are the addresses of the
      rows from page `k` on, in order. */
  lemma {:induction false} PagingRecipients(rows: seq<Row>, k: nat, admin: User, t: Template, fetchFails: nat -> bool,
                                            insertFails: (nat, nat) -> bool, jobs: seq<Job>, total: nat)
    requires forall o :: !fetchFails(o)
    requires forall o, i :: !insertFails(o, i)
    ensures Recipients(Paging(rows, k, admin, t, fetchFails, insertFails, jobs, total).jobs)
      == Recipients(jobs) + Emails(rows[Min(OffsetOf(k), |rows|)..])
    decreases |rows| - OffsetOf(k)
  {
    var offset := OffsetOf(k);
    var page := FetchPage(rows, offset);
    var jobs' := jobs + CreateJobs(page, 0, admin, t, PageFails(insertFails, offset));
    PageRecipients(rows, k, admin, t, insertFails, jobs);
    if |page| == 0 {
      RestLast(rows, k);
      assert Emails(page) == [];
      assert Recipients(jobs') == Recipients(jobs) + [];
    } else if |page| < PageSize {
      RestLast(rows, k);
    } else {
      PagingRecipients(rows, k + 1, admin, t, fetchFails, insertFails, jobs', total + |page|);
      RestSplit(rows, k);
      EmailsAppend(page, rows[Min(OffsetOf(k + 1), |rows|)..]);
    }
  }

  /** Every job the loop creates is a pending job of the administrator with one batch. */
  lemma {:induction false} PagingJobsShape(rows: seq<Row>, k: nat, admin: User, t: Template, fetchFails: nat -> bool,
                                           insertFails: (nat, nat) -> bool, jobs: seq<Job>, total: nat)
    requires AllWellFormed(jobs, admin)
    ensures AllWellFormed(Paging(rows, k, admin, t, fetchFails, insertFails, jobs, total).jobs, admin)
    decreases |rows| - OffsetOf(k)
  {
    var offset := OffsetOf(k);
    var page := FetchPage(rows, offset);
    if !fetchFails(offset) && |page| > 0 {
      var created := CreateJobs(page, 0, admin, t, PageFails(insertFails, offset));
      var jobs' := jobs + created;
      assert AllWellFormed(jobs', admin) by {
        forall j | 0 <= j < |jobs'| ensures WellFormed(jobs'[j], admin) {
          if j >= |jobs| {
            assert jobs'[j] == created[j - |jobs|];
          }
        }
      }
      if |page| == PageSize {
        PagingJobsShape(rows, k + 1, admin, t, fetchFails, insertFails, jobs', total + |page|);
        assert Paging(rows, k, admin, t, fetchFails, insertFails, jobs, total)
            == Paging(rows, k + 1, admin, t, fetchFails, insertFails, jobs', total + |page|);
      }
    }
  }

  /** A job of the administrator, pending, for one batch. */
  predicate WellFormed(j: Job, admin: User) {
    j.applicantId == admin.id && j.status == "pending" && 0 < |j.recipients| <= BatchSize
  }

  /** Every job is well formed. */
  predicate AllWellFormed(jobs: seq<Job>, admin: User) {
    forall j :: 0 <= j < |jobs| ==> WellFormed(jobs[j], admin)
  }

  // ---------------------------------------------------------------------------------------------
  // The script

  /** `EMAIL_TEMPLATES.find(t => t.id === TEMPLATE_ID)` */
  function FindTemplate(templates: seq<Template>, id: string): (r: Option<Template>)
    ensures r.Some? ==> r.value in templates && r.value.id == id
    ensures r.None? <==> forall k :: 0 <= k < |templates| ==> templates[k].id != id
    decreases |templates|
  {
    if |templates| == 0 then None
    else if templates[0].id == id then Some(templates[0])
    else FindTemplate(templates[1..], id)
  }

  /** `.eq('role', 'admin').limit(1).single()`: the first administrator; none, or an error when
      the query fails. */
  function FindAdmin(users: seq<User>, queryFails: bool): (r: Option<User>)
    ensures r.Some? ==> r.value in users && r.value.role == "admin"
    ensures r.None? <==> queryFails || forall k :: 0 <= k < |users| ==> users[k].role != "admin"
    decreases |users|
  {
    if queryFails || |users| == 0 then None
    else if users[0].role == "admin" then Some(users[0])
    else FindAdmin(users[1..], false)
  }

  /** `batchCreateEmailJobs()`: the template and the administrator first, then the pages. */
  function BatchCreate(templates: seq<Template>, users: seq<User>, adminQueryFails: bool, table: seq<Customer>,
                       fetchFails: nat -> bool, insertFails: (nat, nat) -> bool): (r: Outcome)
    ensures FindTemplate(templates, TemplateId).None? ==> r == Exited(ExitFailure, [], 0)
    ensures FindAdmin(users, adminQueryFails).None? ==> r == Exited(ExitFailure, [], 0)
    ensures r.jobs != [] ==> FindTemplate(templates, TemplateId).Some? && FindAdmin(users, adminQueryFails).Some?
    ensures r.jobs != [] ==> AllWellFormed(r.jobs, FindAdmin(users, adminQueryFails).value)
  {
    match FindTemplate(templates, TemplateId)
    case None => Exited(ExitFailure, [], 0)
    case Some(t) =>
      match FindAdmin(users, adminQueryFails)
      case None => Exited(ExitFailure, [], 0)
      case Some(admin) =>
        PagingJobsShape(Rows(table), 0, admin, t, fetchFails, insertFails, [], 0);
        Paging(Rows(table), 0, admin, t, fetchFails, insertFails, [], 0)
  }

  /** With every query and insert succeeding, the script finishes having read every listed
      customer once, and the jobs' addresses, job after job, are the listed addresses in
      order. */
  lemma EveryListedAddressOnce(templates: seq<Template>, users: seq<User>, table: seq<Customer>,
                               fetchFails: nat -> bool, insertFails: (nat, nat) -> bool)
    requires FindTemplate(templates, TemplateId).Some? && FindAdmin(users, false).Some?
    requires forall o :: !fetchFails(o)
    requires forall o, i :: !insertFails(o, i)
    ensures var r := BatchCreate(templates, users, false, table, fetchFails, insertFails);
      r.Finished? && r.totalProcessed == |Rows(table)| && Recipients(r.jobs) == Emails(Rows(table))
  {
    var t := FindTemplate(templates, TemplateId).value;
    var admin := FindAdmin(users, false).value;
    PagingReadsAll(Rows(table), 0, admin, t, fetchFails, insertFails, [], 0);
    PagingRecipients(Rows(table), 0, admin, t, fetchFails, insertFails, [], 0);
    assert Rows(table)[Min(0, |Rows(table)|)..] == Rows(table);
  }
}

=== FILE: bulk_upload.dfy ===
/**
  The customer import request (`POST /api/customers/bulk-upload`): the checks made before the
  spreadsheet is read, the sheet scan, the look-up of addresses already in the database in
  batches of 100, the two deduplication passes, the insert in batches of 50 with a row-by-row
  retry after a unique-address violation, and the counters of the report.

  The database is a parameter: which groups exist and their sizes, the set of stored addresses,
  and the outcome of each look-up and insert.
 */
module BulkUpload {
  import opened Wrappers
  import opened Text
  import opened Seqs
  import opened ImportSheet

  /** The uploaded file; the workbook's first sheet as `sheet_to_json(…, { header: 1 })` rows. */
  datatype Upload = Upload(size: int, mime: string, name: string, sheet: seq<seq<Cell>>)

  /** The request: the `Authorization` header, the form's `file`, and its `groupId` (empty when
      absent). */
  datatype Request = Request(authorization: Option<string>, file: Option<Upload>, groupId: string)

  /** How a batch insert ends: all rows stored, a violation of `customers_email_key` (code
      23505), or another error. */
  datatype BatchOutcome = BatchStored | BatchEmailConflict | BatchFailed

  /** How a single-row insert ends. */
  datatype RowOutcome = RowStored | RowEmailConflict | RowFailed

  /** The database as the import sees it. `lookupFails(b)` and `insertBatch(b)` give the outcome
      for the `b`-th batch; `insertRow(b, k)` for the `k`-th row of batch `b` on retry. */
  datatype Database = Database(
    groupExists: string -> bool,
    groupSize: string -> Option<nat>,
    emails: set<string>,
    lookupFails: nat -> bool,
    insertBatch: nat -> BatchOutcome,
    insertRow: (nat, nat) -> RowOutcome)

  datatype ErrorCode =
    | AuthRequired | FileNotFound | FileTooLarge | InvalidFileType | GroupNotFound | GroupCapacityExceeded
    | InsufficientData | ProcessingError | MissingCompanyColumn | ValidationFailed | NoValidData
    | CheckExistingError | AllEmailsExist

  /** The HTTP status each error code is sent with. */
  function Status(e: ErrorCode): int {
    match e
    case AuthRequired => 401
    case CheckExistingError => 500
    case ProcessingError => 500
    case _ => 400
  }

  /** Why a customer was not inserted. */
  datatype SkipReason = EmailDuplicate | FileInternalEmailDuplicate | DatabaseEmailDuplicate
  datatype Skipped = Skipped(customer: Customer, reason: SkipReason)

  datatype InsertError = BatchConflict(count: nat) | BatchError(count: nat) | RowError(company: string)

  datatype Report = Report(
    importedCount: nat, fileDuplicateCount: nat, dbDuplicateCount: nat, totalSkipped: nat,
    insertErrors: seq<InsertError>, duplicateRows: seq<DuplicateRow>, skipped: seq<Skipped>)

  /** A report, and the customers the inserts stored, in the order they were stored. */
  datatype Outcome = Failed(code: ErrorCode) | Imported(report: Report, stored: seq<Customer>)

  // ---------------------------------------------------------------------------------------------
  // Checks before the sheet is read

  const MaxFileSize: int := 10 * 1024 * 1024
  const GroupCapacity: nat := 2000
  const AllowedTypes: seq<string> := [
    "application/vnd.openxmlformats-officedocument.spreadsheetml.sheet",
    "application/vnd.ms-excel",
    "application/octet-stream"
  ]

  /** `authHeader?.replace('Bearer ', '')`. */
  function UserId(authorization: Option<string>): Option<string> {
    match authorization
    case None => None
    case Some(h) => Some(ReplaceFirst(h, "Bearer ", ""))
  }

  /** An allowed MIME type, or a name matching `/\.(xlsx|xls)$/`. */
  predicate TypeAccepted(f: Upload) {
    f.mime in AllowedTypes || EndsWith(f.name, ".xlsx") || EndsWith(f.name, ".xls")
  }

  /** The group already holds its capacity (a missing count passes). */
  predicate GroupFull(db: Database, group: string) {
    db.groupSize(group).Some? && db.groupSize(group).value >= GroupCapacity
  }

  /** The request passes every check made before the sheet is read. */
  predicate Admissible(req: Request, db: Database) {
    Truthy(UserId(req.authorization)) && req.file.Some? && req.file.value.size <= MaxFileSize
    && TypeAccepted(req.file.value) && (req.groupId == "" || (db.groupExists(req.groupId) && !GroupFull(db, req.groupId)))
  }

  /** The first failing check, in the source's order. */
  function PreCheck(req: Request, db: Database): (r: Option<ErrorCode>)
    ensures r.None? <==> Admissible(req, db)
    ensures r == Some(AuthRequired) <==> !Truthy(UserId(req.authorization))
    ensures r == Some(FileNotFound) <==> Truthy(UserId(req.authorization)) && req.file.None?
    ensures r == Some(GroupCapacityExceeded) ==> req.groupId != "" && GroupFull(db, req.groupId)
    ensures r.Some? ==> Status(r.value) == if r.value == AuthRequired then 401 else 400
  {
    if !Truthy(UserId(req.authorization)) then Some(AuthRequired)
    else if req.file.None? then Some(FileNotFound)
    else if req.file.value.size > MaxFileSize then Some(FileTooLarge)
    else if !TypeAccepted(req.file.value) then Some(InvalidFileType)
    else if req.groupId != "" && !db.groupExists(req.groupId) then Some(GroupNotFound)
    else if req.groupId != "" && GroupFull(db, req.groupId) then Some(GroupCapacityExceeded)
    else None
  }

  // ---------------------------------------------------------------------------------------------
  // Addresses already in the database

  /** The non-empty addresses of `cs`, in order (`customers.filter(c => c.email)`). */
  function EmailList(cs: seq<Customer>): (r: seq<string>)
    ensures forall e :: e in r <==> e in Emails(cs)
  {
    if |cs| == 0 then []
    else
      var rest := EmailList(cs[1..]);
      assert forall c :: c in cs <==> c == cs[0] || c in cs[1..];
      if cs[0].email != "" then [cs[0].email] + rest else rest
  }

  /** The look-ups from batch number `first` on: nothing if one fails, otherwise the stored
      addresses among those asked for. */
  function Lookup(batches: seq<seq<string>>, first: nat, db: Database): (r: Option<set<string>>)
    ensures r.None? <==> exists b :: first <= b < first + |batches| && db.lookupFails(b)
    ensures r.Some? ==> forall e :: e in r.value <==> e in db.emails && e in Flatten(batches)
  {
    if |batches| == 0 then Some({})
    else if db.lookupFails(first) then None
    else
      var rest := Lookup(batches[1..], first + 1, db);
      FlattenCons(batches);
      match rest
      case None => None
      case Some(found) => Some((set e | e in batches[0] && e in db.emails) + found)
  }

  lemma FlattenCons<T>(ss: seq<seq<T>>)
    requires |ss| > 0
    ensures forall x :: x in Flatten(ss) <==> x in ss[0] || x in Flatten(ss[1..])
  {
    assert ss == [ss[0]] + ss[1..];
    FlattenAppend([ss[0]], ss[1..]);
    assert Flatten([ss[0]]) == ss[0] + Flatten([]);
  }

  const LookupBatch: nat := 100

  /** The stored addresses among the customers', asked for 100 at a time; nothing when a
      look-up fails (`CHECK_EXISTING_ERROR`). */
  function ExistingEmails(cs: seq<Customer>, db: Database): (r: Option<set<string>>)
    ensures r.None? <==> exists b :: 0 <= b < CeilDiv(|EmailList(cs)|, LookupBatch) && db.lookupFails(b)
    ensures r.Some? ==> r.value == Emails(cs) * db.emails
  {
    var batches := Chunk(EmailList(cs), LookupBatch);
    ChunkFlatten(EmailList(cs), LookupBatch);
    Lookup(batches, 0, db)
  }

  // ---------------------------------------------------------------------------------------------
  // The two deduplication passes

  /** A customer whose address is already stored. */
  predicate Conflicts(c: Customer, existing: set<string>) {
    c.email != "" && c.email in existing
  }

  /** Customers without a conflict go on, in order; the others are skipped as
      `email_duplicate`. */
  function SplitExisting(cs: seq<Customer>, existing: set<string>): (r: (seq<Customer>, seq<Skipped>))
    ensures |r.0| + |r.1| == |cs|
    ensures forall c :: c in r.0 <==> c in cs && !Conflicts(c, existing)
    ensures forall s :: s in r.1 ==> s.customer in cs && Conflicts(s.customer, existing) && s.reason == EmailDuplicate
    ensures DistinctEmails(cs) ==> DistinctEmails(r.0)
  {
    if |cs| == 0 then ([], [])
    else
      var rest := SplitExisting(cs[1..], existing);
      assert forall c :: c in cs <==> c == cs[0] || c in cs[1..];
      assert DistinctEmails(cs) ==> DistinctEmails(cs[1..]) by {
        if DistinctEmails(cs) {
          forall i, j | 0 <= i < j < |cs[1..]| && cs[1..][i].email != "" ensures cs[1..][i].email != cs[1..][j].email {
            assert cs[1..][i] == cs[i + 1] && cs[1..][j] == cs[j + 1];
          }
        }
      }
      if Conflicts(cs[0], existing) then (rest.0, [Skipped(cs[0], EmailDuplicate)] + rest.1)
      else
        var kept := [cs[0]] + rest.0;
        assert DistinctEmails(cs) ==> DistinctEmails(kept) by {
          if DistinctEmails(cs) {
            DistinctConsFromSource(cs, rest.0);
          }
        }
        (kept, rest.1)
  }

  lemma DistinctConsFromSource(cs: seq<Customer>, kept: seq<Customer>)
    requires |cs| > 0 && DistinctEmails(cs) && DistinctEmails(kept)
    requires forall c :: c in kept ==> c in cs[1..]
    ensures DistinctEmails([cs[0]] + kept)
  {
    var k := [cs[0]] + kept;
    forall i, j | 0 <= i < j < |k| && k[i].email != "" ensures k[i].email != k[j].email {
      if i == 0 {
        assert k[j] == kept[j - 1] && k[j] in cs[1..];
        var m :| 0 <= m < |cs[1..]| && cs[1..][m] == k[j];
        assert cs[m + 1] == k[j];
      } else {
        assert k[i] == kept[i - 1] && k[j] == kept[j - 1];
      }
    }
  }

  /** The customers whose address is not stored yet, in order: what an import that meets no
      failure puts into the table. */
  function Fresh(cs: seq<Customer>, stored: set<string>): (r: seq<Customer>)
    ensures IsSubseq(r, cs)
    ensures forall c :: c in r <==> c in cs && (c.email == "" || c.email !in stored)
  {
    if |cs| == 0 then []
    else
      var rest := Fresh(cs[1..], stored);
      SubseqCons(cs[0], rest, cs[1..]);
      assert [cs[0]] + cs[1..] == cs;
      assert forall c :: c in cs <==> c == cs[0] || c in cs[1..];
      if cs[0].email != "" && cs[0].email in stored then rest else [cs[0]] + rest
  }

  /** The first pass keeps exactly the fresh customers: asking the database only about the
      file's own addresses decides the same as asking about every stored one. */
  lemma {:induction false} SplitExistingFresh(cs: seq<Customer>, existing: set<string>, stored: set<string>)
    requires forall c :: c in cs ==> (Conflicts(c, existing) <==> c.email != "" && c.email in stored)
    ensures SplitExisting(cs, existing).0 == Fresh(cs, stored)
    decreases |cs|
  {
    if |cs| > 0 {
      assert cs[0] in cs;
      assert forall c :: c in cs[1..] ==> c in cs;
      SplitExistingFresh(cs[1..], existing, stored);
    }
  }

  /** The second pass over the customers left: one whose address an earlier one had is skipped
      as `file_internal_email_duplicate`. */
  function SecondPass(cs: seq<Customer>, seen: set<string>): (r: (seq<Customer>, seq<Skipped>))
    ensures |r.0| + |r.1| == |cs|
    ensures forall s :: s in r.1 ==> s.reason == FileInternalEmailDuplicate
  {
    if |cs| == 0 then ([], [])
    else if cs[0].email != "" && cs[0].email in seen then
      var rest := SecondPass(cs[1..], seen);
      (rest.0, [Skipped(cs[0], FileInternalEmailDuplicate)] + rest.1)
    else
      var rest := SecondPass(cs[1..], if cs[0].email != "" then seen + {cs[0].email} else seen);
      ([cs[0]] + rest.0, rest.1)
  }

  /** When the addresses are already pairwise distinct the second pass skips nothing. */
  lemma {:induction false} SecondPassKeepsAll(cs: seq<Customer>, seen: set<string>)
    requires DistinctEmails(cs)
    requires forall c :: c in cs && c.email != "" ==> c.email !in seen
    ensures SecondPass(cs, seen) == (cs, [])
    decreases |cs|
  {
    if |cs| > 0 {
      var seen' := if cs[0].email != "" then seen + {cs[0].email} else seen;
      assert DistinctEmails(cs[1..]) by {
        forall i, j | 0 <= i < j < |cs[1..]| && cs[1..][i].email != "" ensures cs[1..][i].email != cs[1..][j].email {
          assert cs[1..][i] == cs[i + 1] && cs[1..][j] == cs[j + 1];
        }
      }
      forall c | c in cs[1..] && c.email != "" ensures c.email !in seen' {
        var m :| 0 <= m < |cs[1..]| && cs[1..][m] == c;
        assert cs[m + 1] == c;
      }
      SecondPassKeepsAll(cs[1..], seen');
      assert cs == [cs[0]] + cs[1..];
    }
  }

  // ---------------------------------------------------------------------------------------------
  // Insertion

  /** What the inserts produced: the rows stored, in order, and how many; errors; and rows
      refused as already stored. */
  datatype Inserted = Inserted(count: nat, errors: seq<InsertError>, conflicts: seq<Skipped>, stored: seq<Customer>)

  /** The row-by-row retry of batch `b` from its `k`-th row. */
  function InsertRows(rows: seq<Customer>, b: nat, k: nat, db: Database): (r: Inserted)
    ensures r.count == |r.stored| && IsSubseq(r.stored, rows)
    ensures r.count + |r.conflicts| <= |rows|
    ensures forall s :: s in r.conflicts ==> s.reason == DatabaseEmailDuplicate && s.customer in rows
    ensures (forall j :: k <= j < k + |rows| ==> db.insertRow(b, j) == RowStored) ==> r == Inserted(|rows|, [], [], rows)
    decreases |rows|
  {
    if |rows| == 0 then Inserted(0, [], [], [])
    else
      var rest := InsertRows(rows[1..], b, k + 1, db);
      SubseqCons(rows[0], rest.stored, rows[1..]);
      assert [rows[0]] + rows[1..] == rows;
      match db.insertRow(b, k)
      case RowStored => rest.(count := rest.count + 1, stored := [rows[0]] + rest.stored)
      case RowEmailConflict => rest.(conflicts := [Skipped(rows[0], DatabaseEmailDuplicate)] + rest.conflicts)
      case RowFailed => rest.(errors := [RowError(rows[0].company)] + rest.errors)
  }

  /** The batch inserts from batch number `b` on, in order. */
  function InsertBatches(batches: seq<seq<Customer>>, b: nat, db: Database): (r: Inserted)
    ensures r.count == |r.stored| && IsSubseq(r.stored, Flatten(batches))
    ensures r.count + |r.conflicts| <= |Flatten(batches)|
    ensures forall s :: s in r.conflicts ==> s.reason == DatabaseEmailDuplicate
    ensures (forall j :: b <= j < b + |batches| ==> db.insertBatch(j) == BatchStored) ==>
      r == Inserted(|Flatten(batches)|, [], [], Flatten(batches))
    decreases |batches|
  {
    if |batches| == 0 then Inserted(0, [], [], [])
    else
      var rest := InsertBatches(batches[1..], b + 1, db);
      assert Flatten(batches) == batches[0] + Flatten(batches[1..]) by {
        assert batches == [batches[0]] + batches[1..];
        FlattenAppend([batches[0]], batches[1..]);
        assert Flatten([batches[0]]) == batches[0] + Flatten([]);
      }
      var batch := batches[0];
      match db.insertBatch(b)
      case BatchStored =>
        SubseqRefl(batch);
        SubseqAppend(batch, batch, rest.stored, Flatten(batches[1..]));
        rest.(count := rest.count + |batch|, stored := batch + rest.stored)
      case BatchFailed =>
        var none: seq<Customer> := [];
        SubseqAppend(none, batch, rest.stored, Flatten(batches[1..]));
        assert none + rest.stored == rest.stored;
        rest.(errors := [BatchError(|batch|)] + rest.errors)
      case BatchEmailConflict =>
        var one := InsertRows(batch, b, 0, db);
        SubseqAppend(one.stored, batch, rest.stored, Flatten(batches[1..]));
        Inserted(one.count + rest.count, [BatchConflict(|batch|)] + one.errors + rest.errors, one.conflicts + rest.conflicts,
                 one.stored + rest.stored)
  }

  const InsertBatch: nat := 50

  /** Every insert batch up to the `n`-th is stored whole. */
  predicate BatchesStored(db: Database, n: nat) {
    forall j :: 0 <= j < n ==> db.insertBatch(j) == BatchStored
  }

  /** The final customers inserted 50 at a time, in order. */
  function InsertAll(cs: seq<Customer>, db: Database): (r: Inserted)
    ensures r.count == |r.stored| && IsSubseq(r.stored, cs)
    ensures r.count + |r.conflicts| <= |cs|
    ensures forall s :: s in r.conflicts ==> s.reason == DatabaseEmailDuplicate
    ensures BatchesStored(db, CeilDiv(|cs|, InsertBatch)) ==> r == Inserted(|cs|, [], [], cs)
  {
    var batches := Chunk(cs, InsertBatch);
    ChunkFlatten(cs, InsertBatch);
    InsertBatches(batches, 0, db)
  }

  /** Every insert batch holds at most 50 customers, and the batches in order are exactly the
      customers in order. */
  lemma InsertBatchesShape(cs: seq<Customer>, k: nat)
    requires k < |Chunk(cs, InsertBatch)|
    ensures k * InsertBatch < |cs|
    ensures 0 < |Chunk(cs, InsertBatch)[k]| <= InsertBatch
    ensures Chunk(cs, InsertBatch)[k] == cs[k * InsertBatch..Min(k * InsertBatch + InsertBatch, |cs|)]
    ensures Flatten(Chunk(cs, InsertBatch)) == cs
  {
    ChunkAt(cs, InsertBatch, k);
    ChunkFlatten(cs, InsertBatch);
  }

  // ---------------------------------------------------------------------------------------------
  // The whole request

  /** The sheet read into columns: too few rows, a header that is not all strings, or no company
      column stop the import. */
  function ReadColumns(sheet: seq<seq<Cell>>): (r: Result)
    ensures |sheet| < 2 ==> r == Stopped(InsufficientData)
    ensures |sheet| >= 2 && HeaderKeys(sheet[0]).None? ==> r == Stopped(ProcessingError)
    ensures |sheet| >= 2 && HeaderKeys(sheet[0]).Some? ==>
      (r == Stopped(MissingCompanyColumn) <==> ResolveColumns(HeaderKeys(sheet[0]).value).None?)
    ensures r.Ready? <==> |sheet| >= 2 && HeaderKeys(sheet[0]).Some? && ResolveColumns(HeaderKeys(sheet[0]).value).Some?
    ensures r.Ready? ==> r.cols == ResolveColumns(HeaderKeys(sheet[0]).value).value
  {
    if |sheet| < 2 then Stopped(InsufficientData)
    else match HeaderKeys(sheet[0])
      case None => Stopped(ProcessingError)
      case Some(keys) =>
        match ResolveColumns(keys)
        case None => Stopped(MissingCompanyColumn)
        case Some(cols) => Ready(cols)
  }

  datatype Result = Stopped(code: ErrorCode) | Ready(cols: Columns)

  /** The request from the scanned rows on. */
  function ImportScanned(scan: Scan, db: Database): (r: Outcome)
    requires DistinctEmails(scan.customers)
    ensures r.Imported? ==> r.report.importedCount == |r.stored| && IsSubseq(r.stored, Fresh(scan.customers, db.emails))
    ensures r.Imported? && BatchesStored(db, CeilDiv(|Fresh(scan.customers, db.emails)|, InsertBatch)) ==>
      r.stored == Fresh(scan.customers, db.emails) && r.report.insertErrors == [] &&
      r.report.importedCount == |scan.customers| - r.report.dbDuplicateCount
    ensures scan.invalidEmail || |scan.errors| > 0 ==> r == Failed(ValidationFailed)
    ensures r.Imported? ==> |scan.errors| == 0 && |scan.customers| > 0
    ensures !scan.invalidEmail && |scan.errors| == 0 ==>
      (r == Failed(NoValidData) <==> |scan.customers| == 0)
    ensures !scan.invalidEmail && |scan.errors| == 0 ==>
      (r == Failed(CheckExistingError) <==> |scan.customers| > 0 && ExistingEmails(scan.customers, db).None?)
    ensures !scan.invalidEmail && |scan.errors| == 0 ==>
      (r == Failed(AllEmailsExist) <==>
        |scan.customers| > 0 && ExistingEmails(scan.customers, db).Some? && |Fresh(scan.customers, db.emails)| == 0)
    ensures r.Imported? <==>
      (!scan.invalidEmail && |scan.errors| == 0 && |scan.customers| > 0 &&
       ExistingEmails(scan.customers, db).Some? && |Fresh(scan.customers, db.emails)| > 0)
    ensures r.Failed? ==> r.code in {ValidationFailed, NoValidData, CheckExistingError, AllEmailsExist}
    ensures r.Imported? ==> r.report.fileDuplicateCount == |scan.duplicates| == |r.report.duplicateRows|
    ensures r.Imported? ==> r.report.dbDuplicateCount == |r.report.skipped|
    ensures r.Imported? ==> r.report.totalSkipped == r.report.dbDuplicateCount + r.report.fileDuplicateCount
    ensures r.Imported? ==> r.report.importedCount + r.report.dbDuplicateCount <= |scan.customers|
    ensures r.Imported? ==> forall s :: s in r.report.skipped ==> s.reason != FileInternalEmailDuplicate
  {
    if scan.invalidEmail || |scan.errors| > 0 then Failed(ValidationFailed)
    else if |scan.customers| == 0 then Failed(NoValidData)
    else match ExistingEmails(scan.customers, db)
      case None => Failed(CheckExistingError)
      case Some(existing) =>
        var (processed, skipped) := SplitExisting(scan.customers, existing);
        ExistingFresh(scan.customers, existing, db.emails);
        if |processed| == 0 then Failed(AllEmailsExist)
        else
          SecondPassKeepsAll(processed, {});
          var (final, internal) := SecondPass(processed, {});
          if |final| == 0 then Failed(NoValidData)
          else
            var ins := InsertAll(final, db);
            var allSkipped := skipped + internal + ins.conflicts;
            Imported(Report(
              ins.count, |scan.duplicates|, |allSkipped|, |allSkipped| + |scan.duplicates|,
              ins.errors, scan.duplicates, allSkipped), ins.stored)
  }

  lemma ExistingFresh(cs: seq<Customer>, existing: set<string>, stored: set<string>)
    requires existing == Emails(cs) * stored
    ensures SplitExisting(cs, existing).0 == Fresh(cs, stored)
  {
    forall c | c in cs ensures Conflicts(c, existing) <==> c.email != "" && c.email in stored {
      if c.email != "" {
        assert c.email in Emails(cs);
      }
    }
    SplitExistingFresh(cs, existing, stored);
  }

  /** `POST /api/customers/bulk-upload`. */
  function Import(req: Request, db: Database): (r: Outcome)
    ensures !Admissible(req, db) ==> r == Failed(PreCheck(req, db).value)
    ensures Admissible(req, db) && |req.file.value.sheet| < 2 ==> r == Failed(InsufficientData)
    ensures Admissible(req, db) && |req.file.value.sheet| >= 2 && HeaderKeys(req.file.value.sheet[0]).None? ==>
      r == Failed(ProcessingError)
    ensures Admissible(req, db) && |req.file.value.sheet| >= 2 && HeaderKeys(req.file.value.sheet[0]).Some? ==>
      (r == Failed(MissingCompanyColumn) <==> ResolveColumns(HeaderKeys(req.file.value.sheet[0]).value).None?)
    ensures Admissible(req, db) && r.Failed? ==>
      r.code in {InsufficientData, ProcessingError, MissingCompanyColumn, ValidationFailed, NoValidData,
                 CheckExistingError, AllEmailsExist}
    ensures r.Imported? ==> Admissible(req, db)
    ensures r.Imported? ==> r.report.totalSkipped == r.report.dbDuplicateCount + r.report.fileDuplicateCount
    ensures r.Imported? ==> r.report.fileDuplicateCount == |r.report.duplicateRows|
    ensures r.Imported? ==> r.report.importedCount == |r.stored|
  {
    match PreCheck(req, db)
    case Some(code) => Failed(code)
    case None =>
      var sheet := req.file.value.sheet;
      match ReadColumns(sheet)
      case Stopped(code) => Failed(code)
      case Ready(cols) =>
        ImportScanned(ScanSheet(sheet, cols, UserId(req.authorization).value, req.groupId), db)
  }

  /** A non-empty data row without a company name fails the whole admissible import with
      `VALIDATION_FAILED`, whatever the other rows hold. */
  lemma EmptyCompanyFailsImport(req: Request, db: Database, k: nat)
    ensures Admissible(req, db) && ReadColumns(req.file.value.sheet).Ready? &&
      (var sheet := req.file.value.sheet;
       1 <= k < |sheet| && |sheet[k]| > 0 && !Truthy(CellText(sheet[k], Some(ReadColumns(sheet).cols.company))))
      ==> Import(req, db) == Failed(ValidationFailed)
  {
    if Admissible(req, db) && ReadColumns(req.file.value.sheet).Ready? {
      var sheet := req.file.value.sheet;
      if 1 <= k < |sheet| && |sheet[k]| > 0 && !Truthy(CellText(sheet[k], Some(ReadColumns(sheet).cols.company))) {
        EmptyCompanyRecorded(sheet, ReadColumns(sheet).cols, UserId(req.authorization).value, req.groupId, k);
      }
    }
  }
}

=== FILE: charset.dfy ===
/**
  Charset handling of incoming mail (`lib/encodingUtils.ts`): a declared charset is read from
  the markup with three patterns, a Japanese encoding is otherwise guessed from marker
  characters, and the name found selects one of three conversions or none. The conversions
  themselves and the markup clean-up are parameters.
 */
module Charset {
  import opened Wrappers
  import opened Text

  /* ---------------------------------------------------------------- auto-detection */

  const Iso2022Jp: string := "ISO-2022-JP"
  const ShiftJis: string := "Shift_JIS"
  const EucJp: string := "EUC-JP"

  /** `detectEncoding`: the ISO-2022-JP escape `$B` wins, then the yen sign or a backslash,
      then the half-width corner brackets; anything else is not recognised. */
  function DetectEncoding(content: string): (r: Option<string>)
    ensures r == Some(Iso2022Jp) <==> Contains(content, "$B")
    ensures r == Some(ShiftJis) <==> !Contains(content, "$B") && ('¥' in content || '\\' in content)
    ensures r == Some(EucJp) <==>
      !Contains(content, "$B") && '¥' !in content && '\\' !in content
      && ('｢' in content || '｣' in content)
    ensures r.None? <==>
      !Contains(content, "$B") && '¥' !in content && '\\' !in content
      && '｢' !in content && '｣' !in content
  {
    ContainsChar(content, '¥');
    ContainsChar(content, '\\');
    ContainsChar(content, '｢');
    ContainsChar(content, '｣');
    if Contains(content, "$B") then Some(Iso2022Jp)
    else if Contains(content, "¥") || Contains(content, "\\") then Some(ShiftJis)
    else if Contains(content, "｢") || Contains(content, "｣") then Some(EucJp)
    else None
  }

  /* ---------------------------------------------------------------- pattern matching */

  predicate IsQuote(c: char) {
    c == '"' || c == '\''
  }

  /** The characters of a charset name: `[^"'>\s]`. */
  predicate IsNameChar(c: char) {
    !IsQuote(c) && c != '>' && !IsJsSpace(c)
  }

  predicate NotGt(c: char) {
    c != '>'
  }

  predicate NotQuote(c: char) {
    !IsQuote(c)
  }

  predicate NotSemicolon(c: char) {
    c != ';'
  }

  /** `p` (lower case) matches at `i` under the `i` flag, which folds ASCII letters only. */
  predicate MatchCi(s: string, i: nat, p: string) {
    i + |p| <= |s| && Lower(s[i..i + |p|]) == p
  }

  /** `v` is a maximal run of name characters starting at `k`: what a greedy `([^"'>\s]+)`
      captures there. */
  predicate NameAt(s: string, k: nat, v: string) {
    |v| > 0 && k + |v| <= |s| && s[k..k + |v|] == v
    && (forall m :: 0 <= m < |v| ==> IsNameChar(v[m]))
    && (k + |v| == |s| || !IsNameChar(s[k + |v|]))
  }

  /** The capture `([^"'>\s]+)` at `i`. */
  function Name(s: string, i: nat): (r: Option<string>)
    ensures r.Some? ==> NameAt(s, i, r.value)
    ensures r.None? ==> i >= |s| || !IsNameChar(s[i])
  {
    if i > |s| then None
    else
      var j := RunEnd(s, i, IsNameChar);
      if j == i then None else Some(s[i..j])
  }

  /** `\s*` at `i`. */
  function Spaces(s: string, i: nat): (j: nat)
    ensures i <= |s| ==> i <= j <= |s|
  {
    if i > |s| then i else RunEnd(s, i, IsJsSpace)
  }

  /** `\s*=\s*` at `i`: where the text after the equals sign starts. White space cannot be an
      equals sign, so the greedy runs never give characters back. */
  function Equals(s: string, i: nat): (r: Option<nat>)
    ensures r.Some? ==> r.value <= |s|
  {
    var j := Spaces(s, i);
    if i <= j < |s| && s[j] == '=' then Some(Spaces(s, j + 1)) else None
  }

  /** `\s*=\s*["']?([^"'>\s]+)` at `i`. When an opening quote is not followed by a name, the
      optional quote is given back, but then the capture would start at the quote and fails
      as well. */
  function QuotedName(s: string, i: nat): (r: Option<string>)
    ensures r.Some? ==> exists k :: NameAt(s, k, r.value)
  {
    match Equals(s, i)
    case None => None
    case Some(j) => if j < |s| && IsQuote(s[j]) then Name(s, j + 1) else Name(s, j)
  }

  /** The value of `f` at the last position of `[lo, hi)` where it has one: how a greedy
      `[…]*` picks among the places where the rest of the pattern could match. */
  function Last<T>(lo: nat, hi: nat, f: nat -> Option<T>): (r: Option<T>)
    ensures r.None? <==> forall j :: lo <= j < hi ==> f(j).None?
    ensures r.Some? ==> exists j :: lo <= j < hi && f(j) == r && forall k :: j < k < hi ==> f(k).None?
    decreases hi
  {
    if hi <= lo then None
    else if f(hi - 1).Some? then f(hi - 1)
    else Last(lo, hi - 1, f)
  }

  /** The value of `f` at the first position of `[lo, hi)` where it has one: how a regular
      expression without anchors picks the leftmost match. */
  function First<T>(lo: nat, hi: nat, f: nat -> Option<T>): (r: Option<T>)
    ensures r.None? <==> forall j :: lo <= j < hi ==> f(j).None?
    ensures r.Some? ==> exists j :: lo <= j < hi && f(j) == r && forall k :: lo <= k < j ==> f(k).None?
    decreases hi - lo
  {
    if hi <= lo then None
    else if f(lo).Some? then f(lo)
    else First(lo + 1, hi, f)
  }

  /** `charset\s*=\s*["']?([^"'>\s]+)` at `j`. */
  function CharsetAt(s: string, j: nat): (r: Option<string>)
    ensures r.Some? ==> exists k :: NameAt(s, k, r.value)
  {
    if MatchCi(s, j, "charset") then QuotedName(s, j + 7) else None
  }

  /** `charset\s*=\s*([^"'>\s]+)` at `m`, inside a quoted attribute value. */
  function UnquotedAt(s: string, m: nat): (r: Option<string>)
    ensures r.Some? ==> exists k :: NameAt(s, k, r.value)
  {
    if !MatchCi(s, m, "charset") then None
    else match Equals(s, m + 7)
      case None => None
      case Some(v) => Name(s, v)
  }

  /* The per-position matchers as functions of the position, for the searches. */

  function CharsetFrom(s: string): nat -> Option<string> {
    (j: nat) => CharsetAt(s, j)
  }

  function UnquotedFrom(s: string): nat -> Option<string> {
    (j: nat) => UnquotedAt(s, j)
  }

  function ContentFrom(s: string): nat -> Option<string> {
    (j: nat) => ContentAt(s, j)
  }

  function MetaCharsetFrom(s: string): nat -> Option<string> {
    (j: nat) => MetaCharsetAt(s, j)
  }

  function MetaContentFrom(s: string): nat -> Option<string> {
    (j: nat) => MetaContentAt(s, j)
  }

  function HeaderCharsetFrom(s: string): nat -> Option<string> {
    (j: nat) => HeaderCharsetAt(s, j)
  }

  /** `<meta[^>]*charset\s*=\s*["']?([^"'>\s]+)` with the match starting at `i`: the last
      `charset` inside the tag that is followed by a name wins. */
  function MetaCharsetAt(s: string, i: nat): (r: Option<string>)
    ensures r.Some? ==> exists k :: NameAt(s, k, r.value)
  {
    if !MatchCi(s, i, "<meta") then None
    else
      var e := RunEnd(s, i + 5, NotGt);
      Last(i + 5, e + 1, CharsetFrom(s))
  }

  /** `[^"']*charset\s*=\s*([^"'>\s]+)` inside a quoted attribute value starting at `q`: the
      last `charset` before the closing quote that is followed by a name wins. */
  function QuotedCharset(s: string, q: nat): (r: Option<string>)
    ensures r.Some? ==> exists k :: NameAt(s, k, r.value)
  {
    if q > |s| then None
    else
      var e := RunEnd(s, q, NotQuote);
      Last(q, e + 1, UnquotedFrom(s))
  }

  /** `content\s*=\s*["'][^"']*charset\s*=\s*([^"'>\s]+)` at `j`. */
  function ContentAt(s: string, j: nat): (r: Option<string>)
    ensures r.Some? ==> exists k :: NameAt(s, k, r.value)
  {
    if !MatchCi(s, j, "content") then None
    else match Equals(s, j + 7)
      case None => None
      case Some(q) => if q < |s| && IsQuote(s[q]) then QuotedCharset(s, q + 1) else None
  }

  /** `<meta[^>]*content\s*=\s*["'][^"']*charset\s*=\s*([^"'>\s]+)` with the match starting
      at `i`: the last `content` attribute inside the tag whose quoted value declares a charset
      wins. */
  function MetaContentAt(s: string, i: nat): (r: Option<string>)
    ensures r.Some? ==> exists k :: NameAt(s, k, r.value)
  {
    if !MatchCi(s, i, "<meta") then None
    else
      var e := RunEnd(s, i + 5, NotGt);
      Last(i + 5, e + 1, ContentFrom(s))
  }

  /** `Content-Type:\s*[^;]*;\s*charset\s*=\s*["']?([^"'>\s]+)` with the match starting at `i`:
      only the first `;` after the header name can end `[^;]*`. */
  function HeaderCharsetAt(s: string, i: nat): (r: Option<string>)
    ensures r.Some? ==> exists k :: NameAt(s, k, r.value)
  {
    if !MatchCi(s, i, "content-type:") then None
    else
      var semi := RunEnd(s, i + 13, NotSemicolon);
      if semi == |s| then None
      else
        var k := Spaces(s, semi + 1);
        CharsetAt(s, k)
  }

  /** `html.match(pattern)` for each pattern: the leftmost start that matches. */
  function MetaCharset(s: string): (r: Option<string>)
    ensures r.Some? ==> exists k :: NameAt(s, k, r.value)
  {
    First(0, |s| + 1, MetaCharsetFrom(s))
  }

  function MetaContent(s: string): (r: Option<string>)
    ensures r.Some? ==> exists k :: NameAt(s, k, r.value)
  {
    First(0, |s| + 1, MetaContentFrom(s))
  }

  function HeaderCharset(s: string): (r: Option<string>)
    ensures r.Some? ==> exists k :: NameAt(s, k, r.value)
  {
    First(0, |s| + 1, HeaderCharsetFrom(s))
  }

  /** `detectCharsetFromHtml`: the first pattern that matches gives the charset, lower-cased.
      The charset is a non-empty lower-case run of name characters that occurs in the markup
      as a whole capture. */
  function DetectCharsetFromHtml(html: string): (r: Option<string>)
    ensures r.Some? ==> Lower(r.value) == r.value
    ensures r.Some? ==> exists k, v :: NameAt(html, k, v) && r.value == Lower(v)
    ensures r.None? <==> MetaCharset(html).None? && MetaContent(html).None? && HeaderCharset(html).None?
  {
    match MetaCharset(html)
    case Some(v) => LowerIdempotent(v); Some(Lower(v))
    case None =>
      match MetaContent(html)
      case Some(v) => LowerIdempotent(v); Some(Lower(v))
      case None =>
        match HeaderCharset(html)
        case Some(v) => LowerIdempotent(v); Some(Lower(v))
        case None => None
  }

  /** A position where `f` has a value, with none before it, is the one `First` picks. */
  lemma FirstAt<T>(lo: nat, hi: nat, f: nat -> Option<T>, j: nat)
    requires lo <= j < hi && f(j).Some?
    requires forall k :: lo <= k < j ==> f(k).None?
    ensures First(lo, hi, f) == f(j)
  {
    var r := First(lo, hi, f);
    var w :| lo <= w < hi && f(w) == r && forall k :: lo <= k < w ==> f(k).None?;
    assert !(w < j) && !(j < w);
  }

  /** A position where `f` has a value, with none after it, is the one `Last` picks. */
  lemma LastAt<T>(lo: nat, hi: nat, f: nat -> Option<T>, j: nat)
    requires lo <= j < hi && f(j).Some?
    requires forall k :: j < k < hi ==> f(k).None?
    ensures Last(lo, hi, f) == f(j)
  {
    var r := Last(lo, hi, f);
    var w :| lo <= w < hi && f(w) == r && forall k :: w < k < hi ==> f(k).None?;
    assert !(w < j) && !(j < w);
  }

  /** The leftmost `<meta … charset=…>` declares the charset, whatever follows it. */
  lemma MetaCharsetWins(html: string, p: nat)
    requires MetaCharsetFrom(html)(p).Some?
    requires forall i: nat :: i < p ==> MetaCharsetFrom(html)(i).None?
    ensures DetectCharsetFromHtml(html) == Some(Lower(MetaCharsetAt(html, p).value))
  {
    LeftmostMetaCharset(html, p);
  }

  /** Without such a tag the leftmost `<meta … content="…charset=…">` declares it. */
  lemma MetaContentWins(html: string, p: nat)
    requires MetaCharset(html).None?
    requires MetaContentFrom(html)(p).Some?
    requires forall i: nat :: i < p ==> MetaContentFrom(html)(i).None?
    ensures DetectCharsetFromHtml(html) == Some(Lower(MetaContentAt(html, p).value))
  {
    LeftmostMetaContent(html, p);
  }

  /** Without either tag the leftmost `Content-Type: …; charset=…` header declares it. */
  lemma HeaderCharsetWins(html: string, p: nat)
    requires MetaCharset(html).None? && MetaContent(html).None?
    requires HeaderCharsetFrom(html)(p).Some?
    requires forall i: nat :: i < p ==> HeaderCharsetFrom(html)(i).None?
    ensures DetectCharsetFromHtml(html) == Some(Lower(HeaderCharsetAt(html, p).value))
  {
    LeftmostHeaderCharset(html, p);
  }

  /** The three searches pick the leftmost start. */
  lemma LeftmostMetaCharset(html: string, p: nat)
    requires MetaCharsetFrom(html)(p).Some?
    requires forall i: nat :: i < p ==> MetaCharsetFrom(html)(i).None?
    ensures MetaCharset(html) == MetaCharsetAt(html, p)
  {
    assert p <= |html|;
    FirstAt(0, |html| + 1, MetaCharsetFrom(html), p);
  }

  lemma LeftmostMetaContent(html: string, p: nat)
    requires MetaContentFrom(html)(p).Some?
    requires forall i: nat :: i < p ==> MetaContentFrom(html)(i).None?
    ensures MetaContent(html) == MetaContentAt(html, p)
  {
    assert p <= |html|;
    FirstAt(0, |html| + 1, MetaContentFrom(html), p);
  }

  lemma LeftmostHeaderCharset(html: string, p: nat)
    requires HeaderCharsetFrom(html)(p).Some?
    requires forall i: nat :: i < p ==> HeaderCharsetFrom(html)(i).None?
    ensures HeaderCharset(html) == HeaderCharsetAt(html, p)
  {
    assert p <= |html|;
    FirstAt(0, |html| + 1, HeaderCharsetFrom(html), p);
  }

  /** Markup with neither a `<meta` nor a `Content-Type:` anywhere declares nothing. */
  lemma NoDeclaration(html: string)
    requires forall i :: !MatchCi(html, i, "<meta") && !MatchCi(html, i, "content-type:")
    ensures DetectCharsetFromHtml(html).None?
  {
    forall i: nat ensures MetaCharsetFrom(html)(i).None? && MetaContentFrom(html)(i).None?
      && HeaderCharsetFrom(html)(i).None? {
      assert !MatchCi(html, i, "<meta") && !MatchCi(html, i, "content-type:");
    }
  }

  /* ---------------------------------------------------------------- conversion */

  /** The conversions `convertToUtf8` can ask the encoding library for. */
  datatype Conversion = FromIso2022Jp | FromShiftJis | FromEucJp | Unchanged

  /** The `switch` on the lower-cased charset name; `utf-8`, `utf8` and every unlisted name
      leave the content unchanged. */
  function Dispatch(name: string): Conversion {
    var n := Lower(name);
    if n == "iso-2022-jp" || n == "iso2022jp" then FromIso2022Jp
    else if n == "shift_jis" || n == "shift-jis" || n == "sjis" then FromShiftJis
    else if n == "euc-jp" || n == "eucjp" then FromEucJp
    else Unchanged
  }

  /** The dispatch ignores ASCII case. */
  lemma DispatchIgnoresCase(name: string)
    ensures Dispatch(Lower(name)) == Dispatch(name)
  {
    LowerIdempotent(name);
  }

  /** Every name the auto-detection returns selects its own conversion. */
  lemma DetectedNamesConvert(content: string)
    ensures DetectEncoding(content) == Some(Iso2022Jp) ==> Dispatch(Iso2022Jp) == FromIso2022Jp
    ensures DetectEncoding(content) == Some(ShiftJis) ==> Dispatch(ShiftJis) == FromShiftJis
    ensures DetectEncoding(content) == Some(EucJp) ==> Dispatch(EucJp) == FromEucJp
    ensures DetectEncoding(content).Some? ==> Dispatch(DetectEncoding(content).value) != Unchanged
  {
    assert Lower(Iso2022Jp) == "iso-2022-jp";
    assert Lower(ShiftJis) == "shift_jis";
    assert Lower(EucJp) == "euc-jp";
  }

  /** `convertToUtf8`: `convert` stands for the encoding library and gives `None` when it
      throws, in which case the content comes back unchanged. */
  function ConvertToUtf8(content: string, name: string, convert: (Conversion, string) -> Option<string>): (r: string)
    ensures Dispatch(name) == Unchanged ==> r == content
    ensures Dispatch(name) != Unchanged && convert(Dispatch(name), content).Some? ==>
      r == convert(Dispatch(name), content).value
    ensures convert(Dispatch(name), content).None? ==> r == content
  {
    var c := Dispatch(name);
    if c == Unchanged then content
    else match convert(c, content)
      case None => content
      case Some(out) => out
  }

  /** `decodeEmailContent`: empty content is returned as is; a declared charset is used when
      there is one, the guessed encoding otherwise, and with neither the content is unchanged. */
  function DecodeEmailContent(content: string, convert: (Conversion, string) -> Option<string>): (r: string)
    ensures content == "" ==> r == content
    ensures content != "" && DetectCharsetFromHtml(content).Some? ==>
      r == ConvertToUtf8(content, DetectCharsetFromHtml(content).value, convert)
    ensures content != "" && DetectCharsetFromHtml(content).None? && DetectEncoding(content).Some? ==>
      r == ConvertToUtf8(content, DetectEncoding(content).value, convert)
    ensures DetectCharsetFromHtml(content).None? && DetectEncoding(content).None? ==> r == content
  {
    if content == "" then content
    else match DetectCharsetFromHtml(content)
      case Some(charset) => ConvertToUtf8(content, charset, convert)
      case None =>
        match DetectEncoding(content)
        case Some(guess) => ConvertToUtf8(content, guess, convert)
        case None => content
  }

  /* ---------------------------------------------------------------- processing */

  /** `cleanHtmlContent`: the replacement chain is `rewrite`; empty markup is returned as is
      and the result is trimmed. */
  function CleanHtmlContent(html: string, rewrite: string -> string): (r: string)
    ensures html == "" ==> r == html
    ensures |r| > 0 ==> !IsJsSpace(r[0]) && !IsJsSpace(r[|r| - 1])
  {
    if html == "" then html else JsTrim(rewrite(html))
  }

  /** `processHtmlEmailContent`: conversion only. */
  function ProcessHtmlEmailContent(content: string, convert: (Conversion, string) -> Option<string>): (r: string)
    ensures r == DecodeEmailContent(content, convert)
  {
    if content == "" then content else DecodeEmailContent(content, convert)
  }

  /** `processEmailContent`: conversion, then clean-up when asked for and the converted text
      contains both `<` and `>`. */
  function ProcessEmailContent(
    content: string, cleanHtml: bool,
    convert: (Conversion, string) -> Option<string>, rewrite: string -> string): (r: string)
    ensures content == "" ==> r == content
    ensures var d := DecodeEmailContent(content, convert);
      r == if cleanHtml && '<' in d && '>' in d then CleanHtmlContent(d, rewrite) else d
  {
    if content == "" then content
    else
      var d := DecodeEmailContent(content, convert);
      ContainsChar(d, '<');
      ContainsChar(d, '>');
      if cleanHtml && Contains(d, "<") && Contains(d, ">") then CleanHtmlContent(d, rewrite) else d
  }

  /** Without clean-up the two entry points agree, and so they do on text that has no tag
      brackets. */
  lemma NoCleanIsHtmlProcessing(
    content: string, cleanHtml: bool,
    convert: (Conversion, string) -> Option<string>, rewrite: string -> string)
    requires !cleanHtml || '<' !in DecodeEmailContent(content, convert)
    ensures ProcessEmailContent(content, cleanHtml, convert, rewrite) == ProcessHtmlEmailContent(content, convert)
  {
  }
}

=== FILE: email_pattern.dfy ===
/**
  The two email regular expressions of the application, as matchers with JavaScript's
  backtracking semantics worked out by hand:

  - the format predicate `^[^\s@]+@[^\s@]+\.[^\s@]+$` used by the unsubscribe, resubscribe and
    import routes, and
  - the search `/[a-zA-Z0-9._%+-]+@[a-zA-Z0-9.-]+\.[a-zA-Z]{2,}/` the import uses to pull an
    address out of a cell (leftmost match, greedy quantifiers).
 */
module EmailPattern {
  import opened Wrappers
  import opened Text

  // ---------------------------------------------------------------------------------------------
  // The format predicate

  /** Neither white space nor `@`: the class `[^\s@]`. */
  predicate IsPlainChar(c: char) {
    !IsJsSpace(c) && c != '@'
  }

  /** A non-empty run of `[^\s@]`. */
  predicate IsPlain(s: string) {
    |s| > 0 && forall j :: 0 <= j < |s| ==> IsPlainChar(s[j])
  }

  /** The regular expression read as a grammar: `s` splits at an `@` at `a` and a `.` at `k` into
      three plain, non-empty parts. */
  predicate EmailFormatSplit(s: string) {
    exists a, k :: 0 < a && a + 1 < k && k + 1 < |s| && s[a] == '@' && s[k] == '.'
      && IsPlain(s[..a]) && IsPlain(s[a + 1..k]) && IsPlain(s[k + 1..])
  }

  /** `/^[^\s@]+@[^\s@]+\.[^\s@]+$/.test(s)`, decided by position: no white space, exactly one
      `@`, not first, and a `.` at least two places after it and before the last character. */
  predicate IsEmailFormat(s: string) {
    (forall j :: 0 <= j < |s| ==> !IsJsSpace(s[j]))
    && match IndexOfChar(s, '@')
       case None => false
       case Some(a) => 0 < a && a + 3 < |s| && '@' !in s[a + 1..] && '.' in s[a + 2..|s| - 1]
  }

  /** The positional decision agrees with the grammar, in both directions. */
  lemma EmailFormatIff(s: string)
    ensures IsEmailFormat(s) <==> EmailFormatSplit(s)
  {
    if IsEmailFormat(s) {
      FormatSplits(s);
    }
    if EmailFormatSplit(s) {
      var a, k :| 0 < a && a + 1 < k && k + 1 < |s| && s[a] == '@' && s[k] == '.'
        && IsPlain(s[..a]) && IsPlain(s[a + 1..k]) && IsPlain(s[k + 1..]);
      SplitFormats(s, a, k);
    }
  }

  lemma FormatSplits(s: string)
    requires IsEmailFormat(s)
    ensures EmailFormatSplit(s)
  {
    var a := IndexOfChar(s, '@').value;
    var t := s[a + 2..|s| - 1];
    var d :| 0 <= d < |t| && t[d] == '.';
    var k := a + 2 + d;
    assert s[k] == '.';
    forall j | 0 <= j < |s| && j != a ensures s[j] != '@' {
      if j > a {
        assert s[j] == s[a + 1..][j - a - 1];
      } else {
        assert s[j] == s[..a][j];
      }
    }
    PlainSlice(s, 0, a);
    PlainSlice(s, a + 1, k);
    PlainSlice(s, k + 1, |s|);
    assert s[..a] == s[0..a] && s[k + 1..] == s[k + 1..|s|];
  }

  lemma SplitFormats(s: string, a: nat, k: nat)
    requires 0 < a && a + 1 < k && k + 1 < |s| && s[a] == '@' && s[k] == '.'
    requires IsPlain(s[..a]) && IsPlain(s[a + 1..k]) && IsPlain(s[k + 1..])
    ensures IsEmailFormat(s)
  {
    forall j | 0 <= j < |s| ensures !IsJsSpace(s[j]) && (s[j] == '@' ==> j == a) {
      if j < a {
        assert s[j] == s[..a][j];
      } else if a < j < k {
        assert s[j] == s[a + 1..k][j - a - 1];
      } else if j > k {
        assert s[j] == s[k + 1..][j - k - 1];
      }
    }
    assert '@' !in s[..a];
    assert s[a] in s;
    assert IndexOfChar(s, '@') == Some(a);
    assert '@' !in s[a + 1..];
    assert s[a + 2..|s| - 1][k - a - 2] == '.';
  }

  /** Characters that are plain on every position of `w[i..j]` make a plain slice. */
  lemma PlainSlice(w: string, i: nat, j: nat)
    requires i < j <= |w|
    requires forall m :: i <= m < j ==> IsPlainChar(w[m])
    ensures IsPlain(w[i..j])
  {
    assert forall m :: 0 <= m < j - i ==> w[i..j][m] == w[i + m];
  }

  // ---------------------------------------------------------------------------------------------
  // The search

  /** `[a-zA-Z0-9._%+-]` */
  predicate IsLocalChar(c: char) {
    ('a' <= c <= 'z') || ('A' <= c <= 'Z') || ('0' <= c <= '9') || c == '.' || c == '_' || c == '%' || c == '+' || c == '-'
  }

  /** `[a-zA-Z0-9.-]` */
  predicate IsDomainChar(c: char) {
    ('a' <= c <= 'z') || ('A' <= c <= 'Z') || ('0' <= c <= '9') || c == '.' || c == '-'
  }

  /** `[a-zA-Z]` */
  predicate IsAlpha(c: char) {
    ('a' <= c <= 'z') || ('A' <= c <= 'Z')
  }

  /** Backtracking of `[a-zA-Z0-9.-]+\.[a-zA-Z]{2,}` over the domain run `(at, q)`: the dot is
      tried at `k`, `k - 1`, … down to `at + 2`; the first dot followed by two or more letters
      ends the match after its longest letter run. */
  function DotSearch(t: string, at: nat, k: nat): (r: Option<nat>)
    requires at + 2 <= k + 1 && k <= |t|
    ensures r.Some? ==> at + 5 <= r.value <= |t|
    decreases k
  {
    if k < at + 2 then None
    else if k < |t| && t[k] == '.' && RunEnd(t, k + 1, IsAlpha) >= k + 3 then Some(RunEnd(t, k + 1, IsAlpha))
    else if k == at + 2 then None
    else DotSearch(t, at, k - 1)
  }

  /** The end of the match that starts at `s`, if one does. */
  function MatchAt(t: string, s: nat): (r: Option<nat>)
    requires s <= |t|
    ensures r.Some? ==> s + 5 <= r.value <= |t|
  {
    if s == |t| || !IsLocalChar(t[s]) then None
    else
      var at := RunEnd(t, s, IsLocalChar);
      if at == |t| || t[at] != '@' || at + 2 > |t| then None
      else
        var q := RunEnd(t, at + 1, IsDomainChar);
        if q < at + 2 then None else DotSearch(t, at, q - 1)
  }

  /** `t.match(/[a-zA-Z0-9._%+-]+@[a-zA-Z0-9.-]+\.[a-zA-Z]{2,}/)`: the leftmost start that has a
      match, and that match's end. */
  function FindEmail(t: string, from: nat): (r: Option<(nat, nat)>)
    requires from <= |t|
    ensures r.Some? ==> from <= r.value.0 < r.value.1 <= |t| && MatchAt(t, r.value.0) == Some(r.value.1)
    decreases |t| - from
  {
    match MatchAt(t, from)
    case Some(e) => Some((from, e))
    case None => if from == |t| then None else FindEmail(t, from + 1)
  }

  /** The search finds the leftmost match: no start before the one found has a match, and when
      nothing is found no start has one. */
  lemma FindEmailLeftmost(t: string, from: nat)
    requires from <= |t|
    ensures FindEmail(t, from).Some? ==> forall s :: from <= s < FindEmail(t, from).value.0 ==> MatchAt(t, s).None?
    ensures FindEmail(t, from).None? ==> forall s :: from <= s <= |t| ==> MatchAt(t, s).None?
  {
    if FindEmail(t, from).Some? {
      NothingBeforeFound(t, from, FindEmail(t, from).value.0);
    } else {
      NothingFound(t, from);
    }
  }

  lemma NothingBeforeFound(t: string, from: nat, found: nat)
    requires from <= |t| && FindEmail(t, from).Some? && FindEmail(t, from).value.0 == found
    ensures forall s :: from <= s < found ==> MatchAt(t, s).None?
  {
    forall s | from <= s < found ensures MatchAt(t, s).None? {
      NoMatchBefore(t, from, s);
    }
  }

  /** A start before the one found has no match. */
  lemma {:induction false} NoMatchBefore(t: string, from: nat, s: nat)
    requires from <= s <= |t| && FindEmail(t, from).Some? && s < FindEmail(t, from).value.0
    ensures MatchAt(t, s).None?
    decreases s - from
  {
    if s > from {
      assert FindEmail(t, from) == FindEmail(t, from + 1);
      NoMatchBefore(t, from + 1, s);
    }
  }

  lemma NothingFound(t: string, from: nat)
    requires from <= |t| && FindEmail(t, from).None?
    ensures forall s :: from <= s <= |t| ==> MatchAt(t, s).None?
  {
    forall s | from <= s <= |t| ensures MatchAt(t, s).None? {
      NoMatchAt(t, from, s);
    }
  }

  /** When the search finds nothing, no start from where it began has a match. */
  lemma {:induction false} NoMatchAt(t: string, from: nat, s: nat)
    requires from <= s <= |t| && FindEmail(t, from).None?
    ensures MatchAt(t, s).None?
    decreases s - from
  {
    if s > from {
      assert FindEmail(t, from) == FindEmail(t, from + 1);
      NoMatchAt(t, from + 1, s);
    }
  }

  /** `t[s..e]` is a local part `t[s..a]`, `@`, a domain part `t[a + 1..k]`, `.` and two or more
      letters `t[k + 1..e]`. */
  predicate Shaped(t: string, s: nat, e: nat, a: nat, k: nat) {
    s < a && a + 1 < k && k + 2 < e <= |t| && t[a] == '@' && t[k] == '.'
    && (forall m :: s <= m < a ==> IsLocalChar(t[m]))
    && (forall m :: a < m < k ==> IsDomainChar(t[m]))
    && (forall m :: k < m < e ==> IsAlpha(t[m]))
  }

  /** Every match has the pattern's shape. */
  lemma MatchShape(t: string, s: nat, e: nat)
    requires s <= |t| && MatchAt(t, s) == Some(e)
    ensures exists a, k :: Shaped(t, s, e, a, k)
  {
    var a, k := MatchSplit(t, s, e);
  }

  /** The `@` and the `.` of a match. */
  lemma MatchSplit(t: string, s: nat, e: nat) returns (a: nat, k: nat)
    requires s <= |t| && MatchAt(t, s) == Some(e)
    ensures Shaped(t, s, e, a, k)
  {
    var q;
    a, q := MatchParts(t, s, e);
    k := DotFound(t, a, q - 1, e);
    assert forall m :: s <= m < a ==> IsLocalChar(t[m]);
    assert forall m :: a < m < k ==> IsDomainChar(t[m]);
    assert forall m :: k < m < e ==> IsAlpha(t[m]);
  }

  /** A match is a local run ending at an `@`, a domain run after it, and a successful dot
      search over that run. */
  lemma MatchParts(t: string, s: nat, e: nat) returns (a: nat, q: nat)
    requires s <= |t| && MatchAt(t, s) == Some(e)
    ensures s < a < |t| && t[a] == '@' && a + 2 <= q <= |t|
    ensures a == RunEnd(t, s, IsLocalChar) && q == RunEnd(t, a + 1, IsDomainChar)
    ensures DotSearch(t, a, q - 1) == Some(e)
  {
    a := RunEnd(t, s, IsLocalChar);
    q := RunEnd(t, a + 1, IsDomainChar);
  }

  /** The dot the search settled on: at least two places after the `@`, followed by the letter
      run that ends the match. */
  lemma {:induction false} DotFound(t: string, at: nat, k: nat, e: nat) returns (d: nat)
    requires at + 2 <= k + 1 && k <= |t| && DotSearch(t, at, k) == Some(e)
    ensures at + 2 <= d <= k && d < |t| && t[d] == '.' && e == RunEnd(t, d + 1, IsAlpha) && e >= d + 3
    decreases k
  {
    if k < |t| && t[k] == '.' && RunEnd(t, k + 1, IsAlpha) >= k + 3 {
      d := k;
    } else {
      d := DotFound(t, at, k - 1, e);
    }
  }

  /** A found address, lower-cased, always passes the format predicate, so the import's second
      check never rejects it. */
  lemma FoundEmailHasFormat(t: string, s: nat, e: nat)
    requires s <= |t| && MatchAt(t, s) == Some(e)
    ensures IsEmailFormat(Lower(t[s..e]))
  {
    MatchShape(t, s, e);
    var a, k :| Shaped(t, s, e, a, k);
    ShapedFormat(t, s, e, a, k);
  }

  lemma ShapedFormat(t: string, s: nat, e: nat, a: nat, k: nat)
    requires Shaped(t, s, e, a, k)
    ensures IsEmailFormat(Lower(t[s..e]))
  {
    var l := Lower(t[s..e]);
    var a', k' := a - s, k - s;
    LowerShaped(t, s, e, a, k);
    PlainSlice(l, 0, a');
    PlainSlice(l, a' + 1, k');
    PlainSlice(l, k' + 1, |l|);
    assert l[..a'] == l[0..a'] && l[k' + 1..] == l[k' + 1..|l|];
    SplitFormats(l, a', k');
  }

  /** Lower-casing keeps the `@`, the `.` and the plainness of every other character. */
  lemma LowerShaped(t: string, s: nat, e: nat, a: nat, k: nat)
    requires Shaped(t, s, e, a, k)
    ensures Lower(t[s..e])[a - s] == '@' && Lower(t[s..e])[k - s] == '.'
    ensures forall m :: 0 <= m < e - s && m != a - s && m != k - s ==> IsPlainChar(Lower(t[s..e])[m])
  {
    var l := Lower(t[s..e]);
    assert forall m :: 0 <= m < |l| ==> l[m] == LowerChar(t[s + m]);
  }
}

=== FILE: email_viewer.dfy ===
/**
  The pure helpers of `app/components/EmailViewer.tsx`: picking a header, picking the text to
  show, naming the labels, the unread flag and the address inside a `From` header.

  The base64 decoding of a body (`Buffer.from(data, 'base64').toString('utf-8')`) is a
  parameter.
 */
module EmailViewer {
  import opened Wrappers
  import opened Text

  datatype Header = Header(name: string, value: string)

  /** A message body; `data` is absent on bodies stored as attachments. */
  datatype Body = Body(data: Option<string>)

  datatype Part = Part(partId: string, mimeType: string, body: Body)

  /** The payload of a Gmail message; a missing `parts` list reads as the empty one, which the
      loop over parts treats the same way. */
  datatype Payload = Payload(headers: seq<Header>, body: Option<Body>, parts: seq<Part>)

  datatype Email = Email(id: string, threadId: string, labelIds: seq<string>, snippet: string, payload: Payload)

  // ---------------------------------------------------------------------------------------------
  // getHeaderValue

  /** `h.name.toLowerCase() === name.toLowerCase()` */
  predicate NameMatches(h: Header, name: string) {
    Lower(h.name) == Lower(name)
  }

  /** `getHeaderValue`: the value of the first header whose name matches, or `''`. A matching
      header with an empty value gives `''` too (`header?.value || ''`). */
  function HeaderValue(headers: seq<Header>, name: string): (r: string)
    decreases |headers|
  {
    if |headers| == 0 then ""
    else if NameMatches(headers[0], name) then headers[0].value
    else HeaderValue(headers[1..], name)
  }

  /** When header `i` is the first whose name matches, its value is the answer. */
  lemma {:induction false} HeaderValueFirst(headers: seq<Header>, name: string, i: nat)
    requires i < |headers| && NameMatches(headers[i], name)
    requires forall j :: 0 <= j < i ==> !NameMatches(headers[j], name)
    ensures HeaderValue(headers, name) == headers[i].value
    decreases i
  {
    if i > 0 {
      assert !NameMatches(headers[0], name);
      HeaderValueFirst(headers[1..], name, i - 1);
    }
  }

  /** When no header name matches, the answer is the empty string. */
  lemma {:induction false} HeaderValueMissing(headers: seq<Header>, name: string)
    requires forall j :: 0 <= j < |headers| ==> !NameMatches(headers[j], name)
    ensures HeaderValue(headers, name) == ""
    decreases |headers|
  {
    if |headers| > 0 {
      assert !NameMatches(headers[0], name);
      HeaderValueMissing(headers[1..], name);
    }
  }

  /** The case of the name asked for does not matter. */
  lemma {:induction false} HeaderValueCaseInsensitive(headers: seq<Header>, name: string)
    ensures HeaderValue(headers, Lower(name)) == HeaderValue(headers, name)
    decreases |headers|
  {
    LowerIdempotent(name);
    if |headers| > 0 {
      HeaderValueCaseInsensitive(headers[1..], name);
    }
  }

  // ---------------------------------------------------------------------------------------------
  // getEmailContent

  /** `email.payload.body?.data` is truthy: present and not empty. */
  predicate BodyHasData(b: Option<Body>) {
    b.Some? && b.value.data.Some? && b.value.data.value != ""
  }

  /** `part.body?.data` is truthy. */
  predicate PartHasData(p: Part) {
    BodyHasData(Some(p.body))
  }

  /** The loop over parts: the first part with body data. */
  function FirstWithData(parts: seq<Part>): (r: Option<nat>)
    ensures r.Some? ==> r.value < |parts| && PartHasData(parts[r.value])
    ensures r.Some? ==> forall j :: 0 <= j < r.value ==> !PartHasData(parts[j])
    ensures r.None? <==> forall j :: 0 <= j < |parts| ==> !PartHasData(parts[j])
    decreases |parts|
  {
    if |parts| == 0 then None
    else if PartHasData(parts[0]) then Some(0)
    else
      match FirstWithData(parts[1..])
      case None => None
      case Some(k) => Some(k + 1)
  }

  /** `getEmailContent`: the decoded body data, else the decoded data of the first part that
      has some, else the snippet. */
  function Content(e: Email, decode: string -> string): (r: string)
    ensures BodyHasData(e.payload.body) ==> r == decode(e.payload.body.value.data.value)
    ensures !BodyHasData(e.payload.body) && (forall j :: 0 <= j < |e.payload.parts| ==> !PartHasData(e.payload.parts[j]))
            ==> r == e.snippet
  {
    if BodyHasData(e.payload.body) then decode(e.payload.body.value.data.value)
    else
      match FirstWithData(e.payload.parts)
      case Some(i) => decode(e.payload.parts[i].body.data.value)
      case None => e.snippet
  }

  /** Without body data, the first part with data is the one shown, whatever the later parts
      hold. */
  lemma ContentFromPart(e: Email, decode: string -> string, i: nat)
    requires !BodyHasData(e.payload.body)
    requires i < |e.payload.parts| && PartHasData(e.payload.parts[i])
    requires forall j :: 0 <= j < i ==> !PartHasData(e.payload.parts[j])
    ensures Content(e, decode) == decode(e.payload.parts[i].body.data.value)
  {
    var f := FirstWithData(e.payload.parts);
    assert f.Some?;
    assert !(f.value < i);
    assert !(i < f.value);
  }

  // ---------------------------------------------------------------------------------------------
  // getLabelDisplay and isUnread

  const UnreadName := "未读"

  /** `labelMap[label]`: the Chinese name of a system label. */
  function LabelName(id: string): (r: Option<string>)
    ensures r.Some? ==> r.value != ""
  {
    if id == "UNREAD" then Some(UnreadName)
    else if id == "INBOX" then Some("收件箱")
    else if id == "SENT" then Some("已发送")
    else if id == "IMPORTANT" then Some("重要")
    else if id == "CATEGORY_PERSONAL" then Some("个人")
    else if id == "CATEGORY_UPDATES" then Some("更新")
    else if id == "CATEGORY_PROMOTIONS" then Some("推广")
    else if id == "CATEGORY_SOCIAL" then Some("社交")
    else if id == "TRASH" then Some("垃圾箱")
    else if id == "SPAM" then Some("垃圾邮件")
    else None
  }

  /** Only `UNREAD` is shown as the unread name. */
  lemma UnreadNameOnlyForUnread(id: string)
    ensures LabelName(id) == Some(UnreadName) <==> id == "UNREAD"
  {
  }

  /** `.filter(label => labelMap[label]).map(label => labelMap[label])` */
  function KnownNames(labels: seq<string>): (r: seq<string>)
    ensures |r| <= |labels|
    ensures forall k :: 0 <= k < |r| ==> r[k] != ""
    decreases |labels|
  {
    if |labels| == 0 then []
    else
      match LabelName(labels[0])
      case None => KnownNames(labels[1..])
      case Some(v) => [v] + KnownNames(labels[1..])
  }

  /** The names keep the order of the labels. */
  lemma {:induction false} KnownNamesAppend(a: seq<string>, b: seq<string>)
    ensures KnownNames(a + b) == KnownNames(a) + KnownNames(b)
    decreases |a|
  {
    if |a| == 0 {
      assert a + b == b;
    } else {
      assert (a + b)[1..] == a[1..] + b;
      KnownNamesAppend(a[1..], b);
    }
  }

  /** The name of every known label is shown. */
  lemma {:induction false} KnownLabelShown(labels: seq<string>, i: nat)
    requires i < |labels| && LabelName(labels[i]).Some?
    ensures LabelName(labels[i]).value in KnownNames(labels)
    decreases i
  {
    if i > 0 {
      assert labels[i] == labels[1..][i - 1];
      KnownLabelShown(labels[1..], i - 1);
    }
  }

  /** Every name shown is the name of one of the labels. */
  lemma {:induction false} ShownNameKnown(labels: seq<string>, v: string) returns (i: nat)
    requires v in KnownNames(labels)
    ensures i < |labels| && LabelName(labels[i]) == Some(v)
    decreases |labels|
  {
    if LabelName(labels[0]) == Some(v) {
      i := 0;
    } else {
      var k := ShownNameKnown(labels[1..], v);
      i := k + 1;
    }
  }

  /** `getLabelDisplay`: the names joined with `', '`. */
  function LabelDisplay(labels: seq<string>): string {
    Join(KnownNames(labels), ", ")
  }

  /** The display is empty exactly when no label is in the table. */
  lemma LabelDisplayEmpty(labels: seq<string>)
    ensures LabelDisplay(labels) == "" <==> forall k :: 0 <= k < |labels| ==> LabelName(labels[k]).None?
  {
    var names := KnownNames(labels);
    if names != [] {
      var i := ShownNameKnown(labels, names[0]);
      assert LabelName(labels[i]).Some?;
      assert |Join(names, ", ")| > 0 by {
        if |names| > 1 {
          assert Join(names, ", ") == names[0] + ", " + Join(names[1..], ", ");
        }
      }
    } else {
      forall k | 0 <= k < |labels|
        ensures LabelName(labels[k]).None?
      {
        if LabelName(labels[k]).Some? {
          KnownLabelShown(labels, k);
        }
      }
    }
  }

  /** `isUnread` */
  function IsUnread(labels: seq<string>): bool {
    "UNREAD" in labels
  }

  /** A message is unread exactly when its label display names the unread label. */
  lemma UnreadShown(labels: seq<string>)
    ensures IsUnread(labels) <==> UnreadName in KnownNames(labels)
  {
    if IsUnread(labels) {
      var i :| 0 <= i < |labels| && labels[i] == "UNREAD";
      KnownLabelShown(labels, i);
    }
    if UnreadName in KnownNames(labels) {
      var i := ShownNameKnown(labels, UnreadName);
      UnreadNameOnlyForUnread(labels[i]);
    }
  }

  // ---------------------------------------------------------------------------------------------
  // getEmailAddress

  /** The characters `.` does not match in a JavaScript regular expression. */
  predicate IsLineTerminator(c: char) {
    c == '\n' || c == '\r' || c == '\U{2028}' || c == '\U{2029}'
  }

  /** The lazy `.+?>` after the first body character: the first `>` at or after `i`, unless a
      line terminator comes first. */
  function CloseAt(s: string, i: nat): (r: Option<nat>)
    ensures r.Some? ==> i <= r.value < |s| && s[r.value] == '>'
    ensures r.Some? ==> forall j :: i <= j < r.value ==> s[j] != '>' && !IsLineTerminator(s[j])
    decreases |s| - i
  {
    if i >= |s| then None
    else if s[i] == '>' then Some(i)
    else if IsLineTerminator(s[i]) then None
    else CloseAt(s, i + 1)
  }

  /** `/<(.+?)>/` tried at position `p`: the end of the captured text. */
  function AngleAt(s: string, p: nat): (r: Option<nat>)
    ensures r.Some? ==> p + 2 <= r.value < |s| && s[p] == '<' && s[r.value] == '>'
  {
    if p + 1 < |s| && s[p] == '<' && !IsLineTerminator(s[p + 1]) then CloseAt(s, p + 2) else None
  }

  /** A match of `/<(.+?)>/` from `p` on, at the leftmost position where one starts: the start
      and the end of the captured text. */
  function AngleFrom(s: string, p: nat): (r: Option<(nat, nat)>)
    ensures r.Some? ==> p < r.value.0 < r.value.1 < |s|
    decreases |s| - p
  {
    if p >= |s| then None
    else
      match AngleAt(s, p)
      case Some(q) => Some((p + 1, q))
      case None => AngleFrom(s, p + 1)
  }

  /** `getEmailAddress`: the text captured by `/<(.+?)>/`, or the input when it does not
      match. */
  function EmailAddress(from: string): (r: string)
    ensures |r| <= |from|
  {
    match AngleFrom(from, 0)
    case Some((a, b)) => from[a..b]
    case None => from
  }

  /** The leftmost position from `p` on where the pattern matches is where the search stops. */
  lemma {:induction false} AngleFromFirst(s: string, p: nat, m: nat)
    requires p <= m < |s| && AngleAt(s, m).Some?
    requires forall j :: p <= j < m ==> AngleAt(s, j).None?
    ensures AngleFrom(s, p) == Some((m + 1, AngleAt(s, m).value))
    decreases m - p
  {
    if p < m {
      assert AngleAt(s, p).None?;
      AngleFromFirst(s, p + 1, m);
    }
  }

  /** Where the pattern matches nowhere from `p` on, the search finds nothing. */
  lemma {:induction false} AngleFromNone(s: string, p: nat)
    requires forall j :: p <= j < |s| ==> AngleAt(s, j).None?
    ensures AngleFrom(s, p).None?
    decreases |s| - p
  {
    if p < |s| {
      assert AngleAt(s, p).None?;
      AngleFromNone(s, p + 1);
    }
  }

  /** The address is the text the leftmost match captures: it follows a `<`, is at least one
      character long, and runs up to the first `>` after its first character with no line
      break before it. */
  lemma AddressIsLeftmostCapture(from: string, m: nat)
    requires m < |from| && AngleAt(from, m).Some?
    requires forall j :: 0 <= j < m ==> AngleAt(from, j).None?
    ensures var q := AngleAt(from, m).value;
      m + 2 <= q < |from| && from[m] == '<' && from[q] == '>' && EmailAddress(from) == from[m + 1..q]
  {
    AngleFromFirst(from, 0, m);
  }

  /** Where the pattern matches nowhere, the input comes back unchanged. */
  lemma AddressUnmatched(from: string)
    requires forall j :: 0 <= j < |from| ==> AngleAt(from, j).None?
    ensures EmailAddress(from) == from
  {
    AngleFromNone(from, 0);
  }

  /** No `<` at positions `p` to `q - 1`. */
  predicate NoOpenBetween(s: string, p: nat, q: nat)
    requires p <= q <= |s|
  {
    forall j :: p <= j < q ==> s[j] != '<'
  }

  /** No match starts before `q` when no `<` does. */
  lemma {:induction false} AngleFromSkips(s: string, p: nat, q: nat)
    requires p <= q <= |s|
    requires NoOpenBetween(s, p, q)
    ensures AngleFrom(s, p) == AngleFrom(s, q)
    decreases q - p
  {
    if p < q {
      assert s[p] != '<';
      assert NoOpenBetween(s, p + 1, q);
      AngleFromStep(s, p);
      AngleFromSkips(s, p + 1, q);
    }
  }

  /** No match starts at a character other than `<`. */
  lemma AngleFromStep(s: string, p: nat)
    requires p < |s| && s[p] != '<'
    ensures AngleFrom(s, p) == AngleFrom(s, p + 1)
  {
    assert AngleAt(s, p) == None;
  }

  /** Without a `<` the input comes back unchanged. */
  lemma NoAngleUnchanged(from: string)
    requires '<' !in from
    ensures EmailAddress(from) == from
  {
    AngleFromSkips(from, 0, |from|);
  }

  /** The address of a well-formed `Name <address>` header is the address, when the name holds
      no `<` and the address is one line without `>`. */
  lemma AddressOfNamed(name: string, address: string)
    requires '<' !in name
    requires address != [] && '>' !in address
    requires forall k :: 0 <= k < |address| ==> !IsLineTerminator(address[k])
    ensures EmailAddress(name + "<" + address + ">") == address
  {
    var s := name + "<" + address + ">";
    var p := |name|;
    AngleFromSkips(s, 0, p);
    CloseFinds(s, p + 2, p + 1 + |address|);
    assert s[p + 1..p + 1 + |address|] == address;
  }

  /** The close bracket is found at `q` when every character from `i` up to it is plain. */
  lemma {:induction false} CloseFinds(s: string, i: nat, q: nat)
    requires i <= q < |s| && s[q] == '>'
    requires forall j :: i <= j < q ==> s[j] != '>' && !IsLineTerminator(s[j])
    ensures CloseAt(s, i) == Some(q)
    decreases q - i
  {
    if i < q {
      CloseFinds(s, i + 1, q);
    }
  }
}

=== FILE: fax.dfy ===
/**
  The fax-number clean-up of the customer import: five anchored regular expressions applied in
  turn (a label such as `FAX:` or `传真`, a repeated short label, a leading `+`, the country code
  `81-` or `81`), then `trim`, and the original value kept if nothing is left.

  The first expression is an ordered alternation under the `i` flag followed by `\s*[:：]?\s*`.
  Because the tail after the alternation can always match, JavaScript settles on the first
  alternative that matches; an alternative is a list of literal words separated by `\s*`.
 */
module FaxNumber {
  import opened Wrappers
  import opened Text

  /** The canonical form the `i` flag compares: ASCII and full-width Latin letters upper-cased.
      Only these letters, and characters without case, occur in the labels, and no other
      character canonicalises to one of them, so this is exact for the labels. */
  function UpperCi(c: char): char {
    if 'a' <= c <= 'z' then (c as int - 32) as char
    else if 'ａ' <= c <= 'ｚ' then (c as int - 32) as char
    else c
  }

  predicate SameCi(c: char, d: char) {
    UpperCi(c) == UpperCi(d)
  }

  /** The word `w` occurs at `i` in `s`, ignoring case. */
  predicate PrefixCi(s: string, i: nat, w: string)
    decreases |w|
  {
    |w| == 0 || (i < |s| && SameCi(s[i], w[0]) && PrefixCi(s, i + 1, w[1..]))
  }

  /** One alternative: literal words, consecutive ones separated by `\s*`. */
  datatype Alt = Alt(words: seq<string>)

  /** The end of the alternative's match at `i`, if it matches there. `\s*` is greedy, and since
      every word starts with a character that is not white space, backtracking into it never
      helps. */
  function MatchWords(words: seq<string>, s: string, i: nat): (r: Option<nat>)
    requires i <= |s|
    ensures r.Some? ==> i <= r.value <= |s|
    ensures r.Some? && |words| > 0 ==> PrefixCi(s, i, words[0]) && i + |words[0]| <= r.value
    decreases |words|
  {
    if |words| == 0 then Some(i)
    else if !PrefixCi(s, i, words[0]) then None
    else
      PrefixCiBound(s, i, words[0]);
      if |words| == 1 then Some(i + |words[0]|)
      else MatchWords(words[1..], s, RunEnd(s, i + |words[0]|, IsJsSpace))
  }

  lemma {:induction false} PrefixCiBound(s: string, i: nat, w: string)
    requires i <= |s| && PrefixCi(s, i, w)
    ensures i + |w| <= |s|
    decreases |w|
  {
    if |w| > 0 {
      assert i < |s| && PrefixCi(s, i + 1, w[1..]);
      PrefixCiBound(s, i + 1, w[1..]);
    }
  }

  function MatchAlt(a: Alt, s: string): (r: Option<nat>)
    ensures r.Some? ==> r.value <= |s|
  {
    MatchWords(a.words, s, 0)
  }

  /** The ordered alternation: the end of the first alternative that matches at the start. */
  function FirstAlt(alts: seq<Alt>, s: string): (r: Option<nat>)
    ensures r.Some? <==> exists i :: 0 <= i < |alts| && MatchAlt(alts[i], s).Some?
    ensures r.Some? ==> exists i :: (0 <= i < |alts| && MatchAlt(alts[i], s) == r
      && forall j :: 0 <= j < i ==> MatchAlt(alts[j], s).None?)
  {
    if |alts| == 0 then None
    else
      match MatchAlt(alts[0], s)
      case Some(e) => Some(e)
      case None =>
        var r := FirstAlt(alts[1..], s);
        assert forall i :: 1 <= i < |alts| ==> alts[i] == alts[1..][i - 1];
        r
  }

  /** An alternation of `a` then `b` is `a`, or `b` when nothing in `a` matches. */
  lemma {:induction false} FirstAltAppend(a: seq<Alt>, b: seq<Alt>, s: string)
    ensures FirstAlt(a + b, s) == if FirstAlt(a, s).Some? then FirstAlt(a, s) else FirstAlt(b, s)
    decreases |a|
  {
    if |a| == 0 {
      assert a + b == b;
    } else {
      assert (a + b)[1..] == a[1..] + b;
      FirstAltAppend(a[1..], b, s);
    }
  }

  // ---------------------------------------------------------------------------------------------
  // The labels

  /** `fax|FAX|Fax|传真|ＦＡＸ|Ｆａｘ`: the second expression's whole alternation, and the first
      six alternatives of the first. */
  const ShortLabels: seq<Alt> := [
    Alt(["fax"]), Alt(["FAX"]), Alt(["Fax"]), Alt(["传真"]), Alt(["ＦＡＸ"]), Alt(["Ｆａｘ"])
  ]

  /** `fax\s*number|FAX\s*NUMBER|Fax\s*Number|传真号码|ＦＡＸ番号`: the rest of the first. */
  const LongLabels: seq<Alt> := [
    Alt(["fax", "number"]), Alt(["FAX", "NUMBER"]), Alt(["Fax", "Number"]), Alt(["传真号码"]), Alt(["ＦＡＸ番号"])
  ]

  /** The first expression's alternatives in the order the source writes them. */
  const LabelsAsWritten: seq<Alt> := ShortLabels + LongLabels

  /** The same alternatives, longest first. */
  const LabelsLongestFirst: seq<Alt> := LongLabels + ShortLabels

  predicate IsColon(c: char) {
    c == ':' || c == '：'
  }

  // `s.replace(/^(labels)\s*[:：]?\s*/gi, '')`. The anchor allows one replacement only.
  function StripLabel(labels: seq<Alt>, s: string): (r: string)
    ensures IsSuffix(r, s)
    ensures FirstAlt(labels, s).None? ==> r == s
  {
    match FirstAlt(labels, s)
    case None => s
    case Some(e) =>
      var e2 := RunEnd(s, e, IsJsSpace);
      var e3 := if e2 < |s| && IsColon(s[e2]) then e2 + 1 else e2;
      s[RunEnd(s, e3, IsJsSpace)..]
  }

  // `s.replace(/^(fax|FAX|Fax|传真|ＦＡＸ|Ｆａｘ)\s*/gi, '')`.
  function StripShortLabel(s: string): (r: string)
    ensures IsSuffix(r, s)
    ensures FirstAlt(ShortLabels, s).None? ==> r == s
  {
    match FirstAlt(ShortLabels, s)
    case None => s
    case Some(e) => s[RunEnd(s, e, IsJsSpace)..]
  }

  // `s.replace(/^[+＋]\s*/, '')`.
  function StripPlus(s: string): (r: string)
    ensures IsSuffix(r, s)
    ensures r != s <==> |s| > 0 && (s[0] == '+' || s[0] == '＋')
  {
    if |s| > 0 && (s[0] == '+' || s[0] == '＋') then s[RunEnd(s, 1, IsJsSpace)..] else s
  }

  predicate IsEight(c: char) { c == '8' || c == '８' }
  predicate IsOne(c: char) { c == '1' || c == '１' }
  predicate IsDash(c: char) { c == '-' || c == '－' }

  // `s.replace(/^[8８][1１][-－]\s*/, '')`.
  function StripCountryDash(s: string): (r: string)
    ensures IsSuffix(r, s)
    ensures r != s <==> |s| >= 3 && IsEight(s[0]) && IsOne(s[1]) && IsDash(s[2])
  {
    if |s| >= 3 && IsEight(s[0]) && IsOne(s[1]) && IsDash(s[2]) then s[RunEnd(s, 3, IsJsSpace)..] else s
  }

  // `s.replace(/^[8８][1１]\s*/, '')`.
  function StripCountry(s: string): (r: string)
    ensures IsSuffix(r, s)
    ensures r != s <==> |s| >= 2 && IsEight(s[0]) && IsOne(s[1])
  {
    if |s| >= 2 && IsEight(s[0]) && IsOne(s[1]) then s[RunEnd(s, 2, IsJsSpace)..] else s
  }

  /** `r` is what is left of `s` after cutting text from its front. */
  predicate IsSuffix(r: string, s: string) {
    |r| <= |s| && r == s[|s| - |r|..]
  }

  /** An infix of `s`: what is left after cutting text from both ends. */
  predicate IsInfix(r: string, s: string) {
    exists i, j :: 0 <= i <= j <= |s| && r == s[i..j]
  }

  /** The whole clean-up with the first expression's alternatives in the order `labels`: the
      five replacements, `trim`, and the original value when nothing is left. The result is
      never empty for a non-empty value and only ever removes text from the two ends. */
  function CleanFax(labels: seq<Alt>, s: string): (r: string)
    ensures s != "" ==> r != ""
    ensures IsInfix(r, s)
  {
    var t := StripPrefixes(labels, s);
    var trimmed := JsTrim(t);
    var r := if trimmed == "" && s != "" then s else trimmed;
    TrimmedInfix(t);
    InfixOfSuffix(r, t, s);
    r
  }

  /** The five replacements in order; each removes a prefix. */
  function StripPrefixes(labels: seq<Alt>, s: string): (r: string)
    ensures IsSuffix(r, s)
  {
    var a := StripLabel(labels, s);
    var b := StripShortLabel(a);
    var c := StripPlus(b);
    var d := StripCountryDash(c);
    var e := StripCountry(d);
    SuffixTrans(b, a, s);
    SuffixTrans(c, b, s);
    SuffixTrans(d, c, s);
    SuffixTrans(e, d, s);
    e
  }

  lemma SuffixTrans(r: string, t: string, s: string)
    requires |t| <= |s| && t == s[|s| - |t|..]
    requires |r| <= |t| && r == t[|t| - |r|..]
    ensures IsSuffix(r, s)
  {
  }

  lemma TrimmedInfix(t: string)
    ensures IsInfix(JsTrim(t), t)
  {
    var a := TrimStart(t, IsJsSpace);
    var b := TrimEnd(a, IsJsSpace);
    var i := |t| - |a|;
    assert b == a[..|b|] && a == t[i..];
    assert b == t[i..i + |b|];
  }

  lemma InfixOfSuffix(r: string, t: string, s: string)
    requires IsSuffix(t, s)
    requires IsInfix(r, t) || r == s
    ensures IsInfix(r, s)
  {
    if r == s {
      assert r == s[0..|s|];
    } else {
      var i, j :| 0 <= i <= j <= |t| && r == t[i..j];
      var o := |s| - |t|;
      assert r == s[o + i..o + j];
    }
  }

  /** The clean-up as the source writes it. */
  function CleanFaxAsWritten(s: string): (r: string)
    ensures s != "" ==> r != ""
    ensures IsInfix(r, s)
  {
    CleanFax(LabelsAsWritten, s)
  }

  /** The clean-up with the label alternatives longest first, which the written order evidently
      means; the import itself runs `CleanFaxAsWritten`. */
  function CleanFaxCorrected(s: string): (r: string)
    ensures s != "" ==> r != ""
    ensures IsInfix(r, s)
  {
    CleanFax(LabelsLongestFirst, s)
  }

  // ---------------------------------------------------------------------------------------------
  // Shadowing: which alternative can win

  /** Static facts about two alternatives `x` before `y` that make `x` at least as long a match
      as `y` whenever both match: their first characters differ ignoring case (never both
      match), or `y` is one word that `x`'s first word begins with, ignoring case. */
  predicate Covers(x: Alt, y: Alt) {
    |x.words| > 0 && |y.words| > 0 && |x.words[0]| > 0 && |y.words[0]| > 0
    && (!SameCi(x.words[0][0], y.words[0][0])
        || (|y.words| == 1 && WordStartsCi(x.words[0], y.words[0])))
  }

  /** `w` begins with `p`, ignoring case. */
  predicate WordStartsCi(w: string, p: string) {
    |p| <= |w| && forall k :: 0 <= k < |p| ==> SameCi(w[k], p[k])
  }

  /** Every earlier alternative covers every later one. */
  predicate LongestFirstOrder(alts: seq<Alt>) {
    forall i, j :: 0 <= i < j < |alts| ==> Covers(alts[i], alts[j]) || SameAlt(alts[i], alts[j])
  }

  /** The alternatives are the same words up to case. */
  predicate SameAlt(x: Alt, y: Alt) {
    |x.words| == |y.words| && forall k :: 0 <= k < |x.words| ==> |x.words[k]| == |y.words[k]| && WordStartsCi(x.words[k], y.words[k])
  }

  lemma {:induction false} PrefixCiChars(s: string, i: nat, w: string, k: nat)
    requires PrefixCi(s, i, w) && k < |w|
    ensures i + k < |s| && SameCi(s[i + k], w[k])
    decreases k
  {
    if k > 0 {
      PrefixCiChars(s, i + 1, w[1..], k - 1);
    }
  }

  lemma {:induction false} PrefixCiFromChars(s: string, i: nat, w: string)
    requires i + |w| <= |s| && forall k :: 0 <= k < |w| ==> SameCi(s[i + k], w[k])
    ensures PrefixCi(s, i, w)
    decreases |w|
  {
    if |w| > 0 {
      assert forall k :: 0 <= k < |w| - 1 ==> SameCi(s[i + 1 + k], w[1..][k]) by {
        forall k | 0 <= k < |w| - 1 ensures SameCi(s[i + 1 + k], w[1..][k]) {
          assert SameCi(s[i + (k + 1)], w[k + 1]);
        }
      }
      PrefixCiFromChars(s, i + 1, w[1..]);
    }
  }

  /** A word the text starts with, ignoring case, starts the text with its every prefix. */
  lemma PrefixCiShorter(s: string, i: nat, w: string, p: string)
    requires i <= |s| && PrefixCi(s, i, w) && WordStartsCi(w, p)
    ensures PrefixCi(s, i, p)
  {
    PrefixCiBound(s, i, w);
    forall k | 0 <= k < |p| ensures SameCi(s[i + k], p[k]) {
      PrefixCiChars(s, i, w, k);
    }
    PrefixCiFromChars(s, i, p);
  }

  lemma {:induction false} MatchWordsSame(xs: seq<string>, ys: seq<string>, s: string, i: nat)
    requires i <= |s| && |xs| == |ys|
    requires forall k :: 0 <= k < |xs| ==> |xs[k]| == |ys[k]| && WordStartsCi(xs[k], ys[k])
    ensures MatchWords(xs, s, i) == MatchWords(ys, s, i)
    decreases |xs|
  {
    if |xs| > 0 {
      var px := PrefixCi(s, i, xs[0]);
      var py := PrefixCi(s, i, ys[0]);
      if px {
        PrefixCiShorter(s, i, xs[0], ys[0]);
      }
      if py {
        assert WordStartsCi(ys[0], xs[0]);
        PrefixCiShorter(s, i, ys[0], xs[0]);
      }
      if px && |xs| > 1 {
        PrefixCiBound(s, i, xs[0]);
        MatchWordsSame(xs[1..], ys[1..], s, RunEnd(s, i + |xs[0]|, IsJsSpace));
      }
    }
  }

  /** `Covers` and `SameAlt` mean what they say about matches. */
  lemma CoversMatches(x: Alt, y: Alt, s: string)
    requires Covers(x, y) || SameAlt(x, y)
    requires MatchAlt(x, s).Some? && MatchAlt(y, s).Some?
    ensures MatchAlt(x, s).value >= MatchAlt(y, s).value
  {
    if SameAlt(x, y) {
      MatchWordsSame(x.words, y.words, s, 0);
    } else {
      PrefixCiChars(s, 0, x.words[0], 0);
      PrefixCiChars(s, 0, y.words[0], 0);
    }
  }

  /** Under a longest-first order, the chosen alternative is a longest match: no alternative
      that matches ends later. */
  lemma LongestFirstIsLongest(alts: seq<Alt>, s: string, j: nat)
    requires LongestFirstOrder(alts) && j < |alts| && MatchAlt(alts[j], s).Some?
    ensures FirstAlt(alts, s).Some? && FirstAlt(alts, s).value >= MatchAlt(alts[j], s).value
  {
    assert FirstAlt(alts, s).Some?;
    var i :| 0 <= i < |alts| && MatchAlt(alts[i], s) == FirstAlt(alts, s)
      && forall k :: 0 <= k < i ==> MatchAlt(alts[k], s).None?;
    if i < j {
      CoversMatches(alts[i], alts[j], s);
    }
  }

  /** An alternative a single-word alternative covers is shadowed by it: whenever the later one
      matches, the earlier one does too. */
  lemma ShadowedMatches(y: Alt, x: Alt, s: string)
    requires |y.words| == 1 && |x.words| > 0 && WordStartsCi(x.words[0], y.words[0])
    requires MatchAlt(x, s).Some?
    ensures MatchAlt(y, s).Some?
  {
    PrefixCiShorter(s, 0, x.words[0], y.words[0]);
  }

  /** The source's order is not longest-first: each longer alternative comes after a shorter one
      that begins it. */
  predicate Shadowed(short: seq<Alt>, long: seq<Alt>) {
    forall j :: 0 <= j < |long| ==> exists i :: (0 <= i < |short| && |short[i].words| == 1
      && |long[j].words| > 0 && WordStartsCi(long[j].words[0], short[i].words[0]))
  }

  /** With shadowed alternatives after the shorter ones, the longer alternatives never decide
      anything: the alternation behaves as if they were absent. */
  lemma ShadowedNeverChosen(short: seq<Alt>, long: seq<Alt>, s: string)
    requires Shadowed(short, long)
    ensures FirstAlt(short + long, s) == FirstAlt(short, s)
  {
    FirstAltAppend(short, long, s);
    if FirstAlt(short, s).None? && FirstAlt(long, s).Some? {
      var j :| 0 <= j < |long| && MatchAlt(long[j], s).Some?;
      var i :| 0 <= i < |short| && |short[i].words| == 1
        && |long[j].words| > 0 && WordStartsCi(long[j].words[0], short[i].words[0]);
      ShadowedMatches(short[i], long[j], s);
      assert false;
    }
  }

  /** As written, the first expression behaves as if `fax\s*number`, `FAX\s*NUMBER`,
      `Fax\s*Number`, `传真号码` and `ＦＡＸ番号` were not there. */
  lemma AsWrittenIgnoresLongLabels(s: string)
    ensures FirstAlt(LabelsAsWritten, s) == FirstAlt(ShortLabels, s)
    ensures StripLabel(LabelsAsWritten, s) == StripLabel(ShortLabels, s)
  {
    assert WordStartsCi("fax", "fax");
    assert WordStartsCi("FAX", "FAX");
    assert WordStartsCi("Fax", "Fax");
    assert WordStartsCi("传真号码", "传真");
    assert WordStartsCi("ＦＡＸ番号", "ＦＡＸ");
    assert Shadowed(ShortLabels, LongLabels) by {
      assert ShortLabels[0].words[0] == "fax" && ShortLabels[1].words[0] == "FAX" && ShortLabels[2].words[0] == "Fax";
      assert ShortLabels[3].words[0] == "传真" && ShortLabels[4].words[0] == "ＦＡＸ";
    }
    ShadowedNeverChosen(ShortLabels, LongLabels, s);
  }

  /** The corrected order is longest-first. */
  lemma CorrectedOrderIsLongestFirst()
    ensures LongestFirstOrder(LabelsLongestFirst)
  {
    LongLabelsOrdered();
    ShortLabelsOrdered();
    forall x, y | x in LongLabels && y in ShortLabels ensures Covers(x, y) || SameAlt(x, y) {
      LongCoversShort(x, y);
    }
    OrderAppend(LongLabels, ShortLabels);
  }

  /** Two longest-first lists, each of whose elements of the first covers each of the second,
      make a longest-first list. */
  lemma OrderAppend(a: seq<Alt>, b: seq<Alt>)
    requires LongestFirstOrder(a) && LongestFirstOrder(b)
    requires forall x, y :: x in a && y in b ==> Covers(x, y) || SameAlt(x, y)
    ensures LongestFirstOrder(a + b)
  {
    var c := a + b;
    forall i, j | 0 <= i < j < |c| ensures Covers(c[i], c[j]) || SameAlt(c[i], c[j]) {
      if j < |a| {
        assert c[i] == a[i] && c[j] == a[j];
      } else if i < |a| {
        assert c[i] == a[i] && c[j] == b[j - |a|];
        assert a[i] in a && b[j - |a|] in b;
      } else {
        assert c[i] == b[i - |a|] && c[j] == b[j - |a|];
      }
    }
  }

  /** A list stays longest-first when an alternative that covers all of it goes in front. */
  lemma OrderCons(x: Alt, rest: seq<Alt>)
    requires LongestFirstOrder(rest)
    requires forall y :: y in rest ==> Covers(x, y) || SameAlt(x, y)
    ensures LongestFirstOrder([x] + rest)
  {
    var c := [x] + rest;
    forall i, j | 0 <= i < j < |c| ensures Covers(c[i], c[j]) || SameAlt(c[i], c[j]) {
      assert c[j] == rest[j - 1] && rest[j - 1] in rest;
      if i > 0 {
        assert c[i] == rest[i - 1];
      }
    }
  }

  lemma LongLabelsOrdered()
    ensures LongestFirstOrder(LongLabels)
  {
    var a0, a1, a2 := Alt(["fax", "number"]), Alt(["FAX", "NUMBER"]), Alt(["Fax", "Number"]);
    var a3, a4 := Alt(["传真号码"]), Alt(["ＦＡＸ番号"]);
    LatinWordsSame("fax", "FAX");
    LatinWordsSame("fax", "Fax");
    LatinWordsSame("FAX", "Fax");
    LatinWordsSame("number", "NUMBER");
    LatinWordsSame("number", "Number");
    LatinWordsSame("NUMBER", "Number");
    var l3 := [a3] + [a4];
    OrderCons(a3, [a4]);
    var l2 := [a2] + l3;
    OrderCons(a2, l3);
    var l1 := [a1] + l2;
    OrderCons(a1, l2);
    OrderCons(a0, l1);
    assert LongLabels == [a0] + l1;
  }

  lemma ShortLabelsOrdered()
    ensures LongestFirstOrder(ShortLabels)
  {
    var a0, a1, a2 := Alt(["fax"]), Alt(["FAX"]), Alt(["Fax"]);
    var a3, a4, a5 := Alt(["传真"]), Alt(["ＦＡＸ"]), Alt(["Ｆａｘ"]);
    LatinWordsSame("fax", "FAX");
    LatinWordsSame("fax", "Fax");
    LatinWordsSame("FAX", "Fax");
    assert WordStartsCi("ＦＡＸ", "Ｆａｘ");
    var l4 := [a4] + [a5];
    OrderCons(a4, [a5]);
    var l3 := [a3] + l4;
    OrderCons(a3, l4);
    var l2 := [a2] + l3;
    OrderCons(a2, l3);
    var l1 := [a1] + l2;
    OrderCons(a1, l2);
    OrderCons(a0, l1);
    assert ShortLabels == [a0] + l1;
  }

  /** Two spellings of an ASCII word that differ only in case. */
  lemma LatinWordsSame(w: string, p: string)
    requires |w| == |p| && forall k :: 0 <= k < |w| ==> 'A' <= UpperCi(w[k]) <= 'Z' && UpperCi(w[k]) == UpperCi(p[k])
    ensures WordStartsCi(w, p) && WordStartsCi(p, w)
  {
  }

  lemma LongCoversShort(x: Alt, y: Alt)
    requires x in LongLabels && y in ShortLabels
    ensures Covers(x, y) || SameAlt(x, y)
  {
    assert WordStartsCi("fax", "fax") && WordStartsCi("fax", "FAX") && WordStartsCi("fax", "Fax");
    assert WordStartsCi("FAX", "fax") && WordStartsCi("FAX", "FAX") && WordStartsCi("FAX", "Fax");
    assert WordStartsCi("Fax", "fax") && WordStartsCi("Fax", "FAX") && WordStartsCi("Fax", "Fax");
    assert WordStartsCi("传真号码", "传真") && WordStartsCi("ＦＡＸ番号", "ＦＡＸ") && WordStartsCi("ＦＡＸ番号", "Ｆａｘ");
  }

  /** With the corrected order the label removed is always the longest label the value starts
      with. */
  lemma CorrectedStripsLongestLabel(s: string, j: nat)
    requires j < |LabelsLongestFirst| && MatchAlt(LabelsLongestFirst[j], s).Some?
    ensures FirstAlt(LabelsLongestFirst, s).Some?
    ensures FirstAlt(LabelsLongestFirst, s).value >= MatchAlt(LabelsLongestFirst[j], s).value
  {
    CorrectedOrderIsLongestFirst();
    LongestFirstIsLongest(LabelsLongestFirst, s, j);
  }

  // ---------------------------------------------------------------------------------------------
  // The label `ＦＡＸ番号`

  /** The first alternative that matches decides the alternation. */
  lemma FirstAltIs(alts: seq<Alt>, s: string, i: nat)
    requires i < |alts| && MatchAlt(alts[i], s).Some?
    requires forall j :: 0 <= j < i ==> MatchAlt(alts[j], s).None?
    ensures FirstAlt(alts, s) == MatchAlt(alts[i], s)
  {
    assert FirstAlt(alts, s).Some?;
    var k :| 0 <= k < |alts| && MatchAlt(alts[k], s) == FirstAlt(alts, s)
      && forall j :: 0 <= j < k ==> MatchAlt(alts[j], s).None?;
    assert k == i;
  }

  /** An exact occurrence is an occurrence ignoring case. */
  lemma {:induction false} PrefixCiExact(s: string, i: nat, w: string)
    requires i + |w| <= |s| && s[i..i + |w|] == w
    ensures PrefixCi(s, i, w)
    decreases |w|
  {
    if |w| > 0 {
      assert s[i] == w[0];
      assert s[i + 1..i + 1 + |w[1..]|] == w[1..];
      PrefixCiExact(s, i + 1, w[1..]);
    }
  }

  /** A value starting `ＦＡＸ番号` loses only `ＦＡＸ` to the first expression as written: what is
      left still starts with `番号`. */
  lemma AsWrittenKeepsLabelTail(s: string)
    requires |s| >= 5 && s[..5] == "ＦＡＸ番号"
    ensures StripLabel(LabelsAsWritten, s) == s[3..]
    ensures StartsWith(StripLabel(LabelsAsWritten, s), "番号")
  {
    AsWrittenChoosesShort(s);
    LabelChars(s);
    StripStopsAt(LabelsAsWritten, s, 3);
    TailStartsWith(s);
  }

  /** A label followed by neither white space nor a colon is all that goes. */
  lemma StripStopsAt(labels: seq<Alt>, s: string, e: nat)
    requires FirstAlt(labels, s) == Some(e) && e < |s| && !IsJsSpace(s[e]) && !IsColon(s[e])
    ensures StripLabel(labels, s) == s[e..]
  {
    assert RunEnd(s, e, IsJsSpace) == e;
  }

  lemma AsWrittenChoosesShort(s: string)
    requires |s| >= 5 && s[..5] == "ＦＡＸ番号"
    ensures FirstAlt(LabelsAsWritten, s) == Some(3)
  {
    ShortLabelsChoose(s);
    AsWrittenIgnoresLongLabels(s);
  }

  lemma ShortLabelsChoose(s: string)
    requires |s| >= 5 && s[..5] == "ＦＡＸ番号"
    ensures FirstAlt(ShortLabels, s) == Some(3)
  {
    FullWidthFaxMatches(s);
    EarlierShortLabelsFail(s);
    FirstAltIs(ShortLabels, s, 4);
  }

  /** `ＦＡＸ` matches the first three characters of `ＦＡＸ番号`. */
  lemma FullWidthFaxMatches(s: string)
    requires |s| >= 5 && s[..5] == "ＦＡＸ番号"
    ensures MatchAlt(ShortLabels[4], s) == Some(3)
  {
    LabelChars(s);
    PrefixCiExact(s, 0, "ＦＡＸ番号");
    assert WordStartsCi("ＦＡＸ番号", "ＦＡＸ");
    PrefixCiShorter(s, 0, "ＦＡＸ番号", "ＦＡＸ");
    assert ShortLabels[4] == Alt(["ＦＡＸ"]);
  }

  /** The short labels before `ＦＡＸ` do not match a text that starts with `Ｆ`. */
  lemma EarlierShortLabelsFail(s: string)
    requires |s| > 0 && s[0] == 'Ｆ'
    ensures forall j :: 0 <= j < 4 ==> MatchAlt(ShortLabels[j], s).None?
  {
    NoWordMatch("fax", s);
    NoWordMatch("FAX", s);
    NoWordMatch("Fax", s);
    NoWordMatch("传真", s);
    assert ShortLabels[..4] == [Alt(["fax"]), Alt(["FAX"]), Alt(["Fax"]), Alt(["传真"])];
  }

  /** The characters of a value that starts `ＦＡＸ番号`. */
  lemma LabelChars(s: string)
    requires |s| >= 5 && s[..5] == "ＦＡＸ番号"
    ensures s[0] == 'Ｆ' && s[3] == '番' && s[4] == '号'
  {
    assert s[..5][0] == s[0] && s[..5][3] == s[3] && s[..5][4] == s[4];
  }

  lemma TailStartsWith(s: string)
    requires |s| >= 5 && s[..5] == "ＦＡＸ番号"
    ensures StartsWith(s[3..], "番号")
  {
    LabelChars(s);
    var t := s[3..];
    assert t[0] == '番' && t[1] == '号';
    assert t[..2] == "番号";
  }

  /** A one-word alternative whose first character differs, ignoring case, from the text's
      does not match. */
  lemma NoWordMatch(w: string, s: string)
    requires |w| > 0 && |s| > 0 && !SameCi(s[0], w[0])
    ensures MatchAlt(Alt([w]), s).None?
  {
  }

  /** With the corrected order the whole of `ＦＡＸ番号` goes. */
  lemma CorrectedRemovesWholeLabel(s: string)
    requires |s| >= 5 && s[..5] == "ＦＡＸ番号"
    ensures |StripLabel(LabelsLongestFirst, s)| <= |s| - 5
  {
    LabelChars(s);
    PrefixCiExact(s, 0, "ＦＡＸ番号");
    assert LabelsLongestFirst[4] == Alt(["ＦＡＸ番号"]);
    assert MatchAlt(LabelsLongestFirst[4], s) == Some(5);
    assert LabelsLongestFirst[0].words[0][0] == 'f' && LabelsLongestFirst[1].words[0][0] == 'F' && LabelsLongestFirst[2].words[0][0] == 'F';
    assert LabelsLongestFirst[3].words[0][0] == '传';
    FirstAltIs(LabelsLongestFirst, s, 4);
  }
}

=== FILE: header_text.dfy ===
/**
  The fixed text of the header lines the queue writes, and the line-break test that decides
  where a header line ends.
 */
module HeaderText {
  /** Neither a carriage return nor a line feed occurs in `s`. */
  predicate NoLineBreak(s: string) {
    '\r' !in s && '\n' !in s
  }

  const FromName: string := "From: "
  const ToName: string := "To: "
  const SubjectName: string := "Subject: "
  const MessageIdName: string := "Message-ID: "
  const DateName: string := "Date: "
  const MimeVersion: string := "MIME-Version: 1.0"
  const Mailer: string := "X-Mailer: Email-Test-App"
  const ContentType: string := "Content-Type: text/html; charset=UTF-8"
  const TransferEncoding: string := "Content-Transfer-Encoding: 8bit"

  /** The fixed parts of the header lines are non-empty and hold no line break. */
  lemma FixedTextClean()
    ensures NoLineBreak(FromName) && NoLineBreak(ToName) && NoLineBreak(SubjectName)
    ensures NoLineBreak(MessageIdName) && NoLineBreak(DateName) && NoLineBreak(MimeVersion)
    ensures NoLineBreak(Mailer) && NoLineBreak(ContentType) && NoLineBreak(TransferEncoding)
    ensures |FromName| > 0 && |ToName| > 0 && |SubjectName| > 0 && |MessageIdName| > 0 && |DateName| > 0
    ensures |MimeVersion| > 0 && |Mailer| > 0 && |ContentType| > 0 && |TransferEncoding| > 0
  {
    CleanFromName();
    CleanToName();
    CleanSubjectName();
    CleanMessageIdName();
    CleanDateName();
    CleanMimeVersion();
    CleanMailer();
    CleanContentType();
    CleanTransferEncoding();
  }

  lemma CleanFromName() ensures |FromName| > 0 && NoLineBreak(FromName) {}
  lemma CleanToName() ensures |ToName| > 0 && NoLineBreak(ToName) {}
  lemma CleanSubjectName() ensures |SubjectName| > 0 && NoLineBreak(SubjectName) {}
  lemma CleanMessageIdName() ensures |MessageIdName| > 0 && NoLineBreak(MessageIdName) {}
  lemma CleanDateName() ensures |DateName| > 0 && NoLineBreak(DateName) {}
  lemma CleanMimeVersion() ensures |MimeVersion| > 0 && NoLineBreak(MimeVersion) {}
  lemma CleanMailer() ensures |Mailer| > 0 && NoLineBreak(Mailer) {}
  lemma CleanContentType() ensures |ContentType| > 0 && NoLineBreak(ContentType) {}
  lemma CleanTransferEncoding() ensures |TransferEncoding| > 0 && NoLineBreak(TransferEncoding) {}
}

=== FILE: html_text.dfy ===
/**
  The text helpers of `lib/utils.ts`: `textToHtml` turns plain text into one escaped paragraph
  per non-blank line, and `htmlToText` turns markup into trimmed plain text.
 */
module HtmlText {
  import opened Wrappers
  import opened Text

  /* ---------------------------------------------------------------- literal replacement */

  /** `s.replace(/p/g, rep)` for a literal pattern: occurrences are replaced left to right and
      the scan resumes after each one, so replacements never overlap. */
  function ReplaceAll(s: string, p: string, rep: string): (r: string)
    requires |p| > 0
    decreases |s|
  {
    if |s| == 0 then ""
    else if StartsWith(s, p) then rep + ReplaceAll(s[|p|..], p, rep)
    else [s[0]] + ReplaceAll(s[1..], p, rep)
  }

  /** A pattern one of whose characters does not occur is never found. */
  lemma {:induction false} ReplaceAllMissing(s: string, p: string, rep: string, k: nat)
    requires k < |p| && p[k] !in s
    ensures ReplaceAll(s, p, rep) == s
    decreases |s|
  {
    if |s| > 0 {
      if |p| <= |s| {
        assert s[..|p|][k] == s[k];
      }
      assert forall x :: x in s[1..] ==> x in s;
      ReplaceAllMissing(s[1..], p, rep, k);
      assert [s[0]] + s[1..] == s;
    }
  }

  /** With a one-character pattern the replacement distributes over concatenation. */
  lemma {:induction false} ReplaceCharAppend(a: string, b: string, p: string, rep: string)
    requires |p| == 1
    ensures ReplaceAll(a + b, p, rep) == ReplaceAll(a, p, rep) + ReplaceAll(b, p, rep)
  {
    if |a| == 0 {
      assert a + b == b;
    } else {
      assert (a + b)[0] == a[0];
      assert (a + b)[1..] == a[1..] + b;
      assert StartsWith(a + b, p) <==> StartsWith(a, p);
      ReplaceCharAppend(a[1..], b, p, rep);
    }
  }

  /* ---------------------------------------------------------------- escaping */

  /** The three replacements of a paragraph line, `&` first. */
  function Escape(s: string): string {
    ReplaceAll(ReplaceAll(ReplaceAll(s, "&", "&amp;"), "<", "&lt;"), ">", "&gt;")
  }

  /** The escape of one character. */
  function EscapeChar(c: char): string {
    if c == '&' then "&amp;" else if c == '<' then "&lt;" else if c == '>' then "&gt;" else [c]
  }

  /** An entity `&amp;`, `&lt;` or `&gt;` starts at position `i`. */
  predicate EntityAt(r: string, i: nat)
    requires i <= |r|
  {
    StartsWith(r[i..], "&amp;") || StartsWith(r[i..], "&lt;") || StartsWith(r[i..], "&gt;")
  }

  /** Escaping character by character: the result has no angle brackets, and every `&` in it
      starts one of the three entities. */
  function EscapeEach(s: string): (r: string)
    ensures '<' !in r && '>' !in r
    ensures forall i :: 0 <= i < |r| && r[i] == '&' ==> EntityAt(r, i)
  {
    if |s| == 0 then ""
    else
      var e := EscapeChar(s[0]);
      var rest := EscapeEach(s[1..]);
      EscapeEntities(e, rest);
      e + rest
  }

  lemma EscapeEntities(e: string, rest: string)
    requires e in {"&amp;", "&lt;", "&gt;"} || (|e| == 1 && e[0] != '&')
    requires forall i :: 0 <= i < |rest| && rest[i] == '&' ==> EntityAt(rest, i)
    ensures forall i :: 0 <= i < |e + rest| && (e + rest)[i] == '&' ==> EntityAt(e + rest, i)
  {
    var r := e + rest;
    forall i | 0 <= i < |r| && r[i] == '&' ensures EntityAt(r, i) {
      if i < |e| {
        assert i == 0 && r[i..][..|e|] == e;
      } else {
        assert r[i] == rest[i - |e|];
        assert r[i..] == rest[i - |e|..];
      }
    }
  }

  /** Because `&` goes first, the chained replacements escape every character exactly once:
      the entities the later passes add are not escaped again. */
  lemma {:induction false} EscapeIsEach(s: string)
    ensures Escape(s) == EscapeEach(s)
  {
    if |s| > 0 {
      EscapeIsEach(s[1..]);
      var x := [s[0]];
      assert s == x + s[1..];
      ReplaceCharAppend(x, s[1..], "&", "&amp;");
      var a1, a2 := ReplaceAll(x, "&", "&amp;"), ReplaceAll(s[1..], "&", "&amp;");
      ReplaceCharAppend(a1, a2, "<", "&lt;");
      var b1, b2 := ReplaceAll(a1, "<", "&lt;"), ReplaceAll(a2, "<", "&lt;");
      ReplaceCharAppend(b1, b2, ">", "&gt;");
      EscapeOne(s[0]);
    }
  }

  lemma EscapeOne(c: char)
    ensures Escape([c]) == EscapeChar(c)
  {
    var x := [c];
    assert x[1..] == "";
    assert ReplaceAll(x, "&", "&amp;") == if c == '&' then "&amp;" else x;
    if c == '&' {
      ReplaceAllMissing("&amp;", "<", "&lt;", 0);
      ReplaceAllMissing("&amp;", ">", "&gt;", 0);
    } else if c == '<' {
      assert ReplaceAll(x, "<", "&lt;") == "&lt;";
      ReplaceAllMissing("&lt;", ">", "&gt;", 0);
    } else {
      assert ReplaceAll(x, "<", "&lt;") == x;
      assert ReplaceAll(x, ">", "&gt;") == EscapeChar(c);
    }
  }

  /* ---------------------------------------------------------------- entity decoding */

  /** One left-to-right pass over the six entities `htmlToText` knows: each entity of the
      input is decoded once, and the text a decoded entity produces is not looked at again. */
  function DecodeEntities(s: string): string
    decreases |s|
  {
    if |s| == 0 then ""
    else if StartsWith(s, "&nbsp;") then " " + DecodeEntities(s[6..])
    else if StartsWith(s, "&amp;") then "&" + DecodeEntities(s[5..])
    else if StartsWith(s, "&lt;") then "<" + DecodeEntities(s[4..])
    else if StartsWith(s, "&gt;") then ">" + DecodeEntities(s[4..])
    else if StartsWith(s, "&quot;") then "\"" + DecodeEntities(s[6..])
    else if StartsWith(s, "&#39;") then "'" + DecodeEntities(s[5..])
    else [s[0]] + DecodeEntities(s[1..])
  }

  /** The entity replacements of `htmlToText` as chained: `&amp;` is decoded before `&lt;`,
      `&gt;`, `&quot;` and `&#39;`, so an `&` it produces can start an entity of a later
      pass. */
  function DecodeEntitiesAsWritten(s: string): string {
    var a := ReplaceAll(s, "&nbsp;", " ");
    var b := ReplaceAll(a, "&amp;", "&");
    var c := ReplaceAll(b, "&lt;", "<");
    var d := ReplaceAll(c, "&gt;", ">");
    var e := ReplaceAll(d, "&quot;", "\"");
    ReplaceAll(e, "&#39;", "'")
  }

  /** Escaping loses nothing: one decoding pass gives the line back. */
  lemma {:induction false} DecodeEscape(s: string)
    ensures DecodeEntities(Escape(s)) == s
  {
    EscapeIsEach(s);
    DecodeEach(s);
  }

  lemma {:induction false} DecodeEach(s: string)
    ensures DecodeEntities(EscapeEach(s)) == s
  {
    if |s| > 0 {
      DecodeEach(s[1..]);
      DecodeStep(s[0], EscapeEach(s[1..]));
      assert [s[0]] + s[1..] == s;
    }
  }

  /** Decoding an escaped character gives the character and resumes right after it. */
  lemma DecodeStep(c: char, rest: string)
    ensures DecodeEntities(EscapeChar(c) + rest) == [c] + DecodeEntities(rest)
  {
    var e := EscapeChar(c);
    var r := e + rest;
    assert r[..|e|] == e;
    assert r[|e|..] == rest;
    if c == '&' {
      NotStartsWith(r, "&nbsp;", 1);
      assert StartsWith(r, "&amp;");
    } else if c == '<' {
      NotStartsWith(r, "&nbsp;", 1);
      NotStartsWith(r, "&amp;", 1);
      assert StartsWith(r, "&lt;");
    } else if c == '>' {
      NotStartsWith(r, "&nbsp;", 1);
      NotStartsWith(r, "&amp;", 1);
      NotStartsWith(r, "&lt;", 1);
      assert StartsWith(r, "&gt;");
    } else {
      PlainStep(c, rest);
    }
  }

  lemma PlainStep(c: char, rest: string)
    requires c != '&'
    ensures DecodeEntities([c] + rest) == [c] + DecodeEntities(rest)
  {
    var r := [c] + rest;
    assert r[1..] == rest;
    NotStartsWith(r, "&nbsp;", 0);
    NotStartsWith(r, "&amp;", 0);
    NotStartsWith(r, "&lt;", 0);
    NotStartsWith(r, "&gt;", 0);
    NotStartsWith(r, "&quot;", 0);
    NotStartsWith(r, "&#39;", 0);
  }

  /** The chained replacements decode twice: the line `&lt;`, escaped by `textToHtml` to
      `&amp;lt;`, comes back as `<`, where a single pass gives `&lt;` back. */
  lemma DoubleDecoding()
    ensures Escape("&lt;") == "&amp;lt;"
    ensures DecodeEntitiesAsWritten("&amp;lt;") == "<"
    ensures DecodeEntities("&amp;lt;") == "&lt;"
  {
    EscapeLt();
    ChainLt();
    DecodeStep('&', "lt;");
    assert "&amp;" + "lt;" == "&amp;lt;";
    DecodeLetters();
  }

  lemma EscapeLt()
    ensures Escape("&lt;") == "&amp;lt;"
  {
    EscapeIsEach("&lt;");
    assert "&lt;"[1..] == "lt;" && "lt;"[1..] == "t;" && "t;"[1..] == ";" && ";"[1..] == "";
  }

  lemma ChainLt()
    ensures DecodeEntitiesAsWritten("&amp;lt;") == "<"
  {
    ReplaceAllMissing("&amp;lt;", "&nbsp;", " ", 1);
    AmpPass();
    LtPass();
    ReplaceAllMissing("<", "&gt;", ">", 0);
    ReplaceAllMissing("<", "&quot;", "\"", 0);
    ReplaceAllMissing("<", "&#39;", "'", 0);
  }

  lemma AmpPass()
    ensures ReplaceAll("&amp;lt;", "&amp;", "&") == "&lt;"
  {
    var s := "&amp;lt;";
    assert s[..5] == "&amp;";
    assert s[5..] == "lt;";
    ReplaceAllMissing("lt;", "&amp;", "&", 0);
  }

  lemma LtPass()
    ensures ReplaceAll("&lt;", "&lt;", "<") == "<"
  {
    var s := "&lt;";
    assert s[..4] == "&lt;";
    assert s[4..] == "";
  }

  lemma DecodeLetters()
    ensures DecodeEntities("lt;") == "lt;"
  {
    PlainStep('l', "t;");
    PlainStep('t', ";");
    PlainStep(';', "");
    assert ['l'] + "t;" == "lt;" && ['t'] + ";" == "t;" && [';'] + "" == ";";
  }

  /* ---------------------------------------------------------------- textToHtml */

  /** `.map(line => line.trim()).filter(line => line.length > 0)`. */
  function KeptLines(parts: seq<string>): (r: seq<string>)
    ensures |r| <= |parts|
    ensures forall k :: 0 <= k < |r| ==> r[k] != "" && JsTrim(r[k]) == r[k]
  {
    if |parts| == 0 then []
    else
      var t := JsTrim(parts[0]);
      StripIdempotent(parts[0], IsJsSpace);
      (if t != "" then [t] else []) + KeptLines(parts[1..])
  }

  /** One kept line wrapped as an escaped paragraph. */
  function Paragraph(line: string): string {
    "<p>" + Escape(line) + "</p>"
  }

  /** `.join('')` of the paragraphs. */
  function Paragraphs(lines: seq<string>): string {
    if |lines| == 0 then "" else Paragraph(lines[0]) + Paragraphs(lines[1..])
  }

  /** Reads `<p>…</p>` paragraphs back into lines: a paragraph ends at the first `<` after its
      opening tag, and its text is decoded once. */
  function ReadParagraphs(s: string): Option<seq<string>>
    decreases |s|
  {
    if |s| == 0 then Some([])
    else if !StartsWith(s, "<p>") then None
    else match IndexOfChar(s[3..], '<')
      case None => None
      case Some(k) =>
        if !StartsWith(s[3 + k..], "</p>") then None
        else match ReadParagraphs(s[3 + k + 4..])
          case None => None
          case Some(rest) => Some([DecodeEntities(s[3..3 + k])] + rest)
  }

  /** `textToHtml`: empty text gives empty markup, and otherwise the markup reads back as
      exactly the trimmed non-blank lines of the text, in order. */
  function TextToHtml(text: string): (r: string)
    ensures text == "" ==> r == ""
    ensures ReadParagraphs(r) == Some(if text == "" then [] else KeptLines(Split(text, '\n')))
  {
    if text == "" then ""
    else
      var lines := KeptLines(Split(text, '\n'));
      ReadBack(lines);
      Paragraphs(lines)
  }

  /** The paragraphs are the lines: reading them back gives the lines in order. */
  lemma {:induction false} ReadBack(lines: seq<string>)
    ensures ReadParagraphs(Paragraphs(lines)) == Some(lines)
  {
    if |lines| > 0 {
      ReadBack(lines[1..]);
      assert Paragraphs(lines) == "<p>" + Escape(lines[0]) + "</p>" + Paragraphs(lines[1..]);
      assert lines == [lines[0]] + lines[1..];
      EscapeIsEach(lines[0]);
      ReadStep(Escape(lines[0]), Paragraphs(lines[1..]));
      DecodeEscape(lines[0]);
    }
  }

  /** One paragraph whose text has no `<` is read, and reading resumes after its closing tag. */
  lemma ReadStep(e: string, tail: string)
    requires '<' !in e
    ensures ReadParagraphs("<p>" + e + "</p>" + tail) ==
      match ReadParagraphs(tail)
      case None => None
      case Some(rest) => Some([DecodeEntities(e)] + rest)
  {
    var s := "<p>" + e + "</p>" + tail;
    assert s[..3] == "<p>";
    assert s[3..] == e + ['<'] + ("/p>" + tail);
    IndexOfCharAfter(e, '<', "/p>" + tail);
    assert s[3 + |e|..] == "</p>" + tail;
    assert s[3 + |e|..][..4] == "</p>";
    assert s[3 + |e| + 4..] == tail;
    assert s[3..3 + |e|] == e;
  }

  /** A blank text, one with no visible character on any line, gives empty markup. */
  lemma {:induction false} BlankLinesDropped(parts: seq<string>)
    requires forall k :: 0 <= k < |parts| ==> JsTrim(parts[k]) == ""
    ensures KeptLines(parts) == []
  {
    if |parts| > 0 {
      BlankLinesDropped(parts[1..]);
    }
  }

  /* ---------------------------------------------------------------- htmlToText */

  /** `htmlToText` as written: the tag replacements (`tags`) and the blank-line cleanup
      (`collapse`) are left abstract; the entities are decoded by the chained replacements and
      the result is trimmed. Empty input gives empty output, and the output never starts or
      ends with white space. */
  function HtmlToText(html: string, tags: string -> string, collapse: string -> string): (r: string)
    ensures html == "" ==> r == ""
    ensures |r| > 0 ==> !IsJsSpace(r[0]) && !IsJsSpace(r[|r| - 1])
  {
    if html == "" then "" else JsTrim(collapse(DecodeEntitiesAsWritten(tags(html))))
  }

  /** `htmlToText` with the entities decoded in one pass, as the escaping of `textToHtml`
      needs: the text of a line escaped by `textToHtml` comes back unchanged when the tag pass
      leaves it alone. */
  function HtmlToTextCorrected(html: string, tags: string -> string, collapse: string -> string): (r: string)
    ensures html == "" ==> r == ""
    ensures |r| > 0 ==> !IsJsSpace(r[0]) && !IsJsSpace(r[|r| - 1])
    ensures forall line :: (
      html != "" && tags(html) == Escape(line) && collapse(line) == line ==> r == JsTrim(line))
  {
    if html == "" then ""
    else
      var d := DecodeEntities(tags(html));
      DecodeAllEscapes();
      JsTrim(collapse(d))
  }

  /** The two decodings only differ on entities: when the tag pass leaves no `&`, the source's
      `htmlToText` and the one-pass version give the same text. */
  lemma HtmlToTextAgrees(html: string, tags: string -> string, collapse: string -> string)
    requires '&' !in tags(html)
    ensures HtmlToText(html, tags, collapse) == HtmlToTextCorrected(html, tags, collapse)
  {
    if html != "" {
      var t := tags(html);
      DecodeWithoutAmp(t);
      var a := ReplaceAll(t, "&nbsp;", " ");
      ReplaceAllMissing(t, "&nbsp;", " ", 0);
      ReplaceAllMissing(t, "&amp;", "&", 0);
      ReplaceAllMissing(t, "&lt;", "<", 0);
      ReplaceAllMissing(t, "&gt;", ">", 0);
      ReplaceAllMissing(t, "&quot;", "\"", 0);
      ReplaceAllMissing(t, "&#39;", "'", 0);
    }
  }

  /** A text without `&` holds no entity, so one decoding pass leaves it alone. */
  lemma {:induction false} DecodeWithoutAmp(s: string)
    requires '&' !in s
    ensures DecodeEntities(s) == s
    decreases |s|
  {
    if |s| > 0 {
      assert s[0] != '&';
      PlainStep(s[0], s[1..]);
      assert s == [s[0]] + s[1..];
      DecodeWithoutAmp(s[1..]);
    }
  }

  /** The source's `htmlToText` reads the escape of the line `&lt;` back as `<`, where the
      one-pass version gives `&lt;`. */
  lemma HtmlToTextDecodesTwice(html: string, tags: string -> string, collapse: string -> string)
    requires html != "" && tags(html) == Escape("&lt;")
    requires collapse("<") == "<" && collapse("&lt;") == "&lt;"
    ensures HtmlToText(html, tags, collapse) == "<"
    ensures HtmlToTextCorrected(html, tags, collapse) == "&lt;"
  {
    DoubleDecoding();
    TrimmedEntities();
    var t := tags(html);
    assert t == "&amp;lt;";
    assert HtmlToText(html, tags, collapse) == JsTrim(collapse(DecodeEntitiesAsWritten(t)));
    assert HtmlToTextCorrected(html, tags, collapse) == JsTrim(collapse(DecodeEntities(t)));
  }

  lemma TrimmedEntities()
    ensures JsTrim("<") == "<" && JsTrim("&lt;") == "&lt;"
  {
    var a, b := "<", "&lt;";
    assert a[0] == '<' && |a| == 1;
    assert b[0] == '&' && b[|b| - 1] == ';';
    assert !IsJsSpace('<') && !IsJsSpace('&') && !IsJsSpace(';');
    NoSpaceEnds(a);
    NoSpaceEnds(b);
  }

  /** A text that neither starts nor ends with white space is its own trim. */
  lemma NoSpaceEnds(s: string)
    requires |s| > 0 && !IsJsSpace(s[0]) && !IsJsSpace(s[|s| - 1])
    ensures JsTrim(s) == s
  {
    assert TrimStart(s, IsJsSpace) == s;
    assert TrimEnd(s, IsJsSpace) == s;
  }

  lemma DecodeAllEscapes()
    ensures forall line :: DecodeEntities(Escape(line)) == line
  {
    forall line ensures DecodeEntities(Escape(line)) == line {
      DecodeEscape(line);
    }
  }
}

=== FILE: i18n.dfy ===
/**
  The translation context of the front end: `t(key, params)` walks the current locale's nested
  dictionary along the dot-separated key and fills `{name}` placeholders from `params`; the
  locale is Chinese unless a saved choice of Japanese is found, and a new choice is saved.
 */
module I18n {
  import opened Wrappers
  import opened Text

  /* ---------------------------------------------------------------- dictionaries */

  /** A JSON value of a locale file: a string, an object, an array, or anything else (numbers,
      booleans, `null`). */
  datatype Json = JStr(s: string) | JObj(fields: map<string, Json>) | JArr(elems: seq<Json>) | JOther

  /** The keys under which `k in a` finds an element of an array: the decimal numerals without
      leading zeros, read as the element's index. */
  function ArrayIndex(k: string): (r: Option<nat>)
    ensures r.Some? <==> |k| > 0 && (forall i :: 0 <= i < |k| ==> IsDigitChar(k[i])) && (k[0] != '0' || |k| == 1)
  {
    if |k| > 0 && (forall i :: 0 <= i < |k| ==> IsDigitChar(k[i])) && (k[0] != '0' || |k| == 1)
    then Some(ParseDecimal(k))
    else None
  }

  /** The value at the end of the path, when every step finds its key: an own key of an object,
      or an element's index in an array. An array's `length` is found too, but is a number, so
      no further step leads anywhere from it. */
  function Lookup(j: Json, path: seq<string>): Option<Json> {
    if |path| == 0 then Some(j)
    else match j
      case JObj(m) => if path[0] in m then Lookup(m[path[0]], path[1..]) else None
      case JArr(a) =>
        (match ArrayIndex(path[0])
         case Some(i) => if i < |a| then Lookup(a[i], path[1..]) else None
         case None => if path[0] == "length" && |path| == 1 then Some(JOther) else None)
      case _ => None
  }

  /** A numeral without leading zeros that starts with a non-zero digit names a positive number. */
  lemma {:induction false} LeadingDigitPositive(k: string)
    requires |k| > 0 && (forall i :: 0 <= i < |k| ==> IsDigitChar(k[i])) && k[0] != '0'
    ensures ParseDecimal(k) > 0
    decreases |k|
  {
    if |k| > 1 {
      LeadingDigitPositive(k[..|k| - 1]);
    }
  }

  /** Reading a numeral without leading zeros and writing the number again gives the numeral. */
  lemma {:induction false} CanonicalNumeral(k: string)
    requires |k| > 0 && (forall i :: 0 <= i < |k| ==> IsDigitChar(k[i])) && (k[0] != '0' || |k| == 1)
    ensures Decimal(ParseDecimal(k)) == k
    decreases |k|
  {
    var init := k[..|k| - 1];
    var d := k[|k| - 1] as int - '0' as int;
    if |k| > 1 {
      CanonicalNumeral(init);
      LeadingDigitPositive(init);
      var n := ParseDecimal(k);
      assert n / 10 == ParseDecimal(init) && n % 10 == d;
      assert k == init + [DigitChar(d)];
    }
  }

  /** The keys that reach into an array are exactly the numerals `String(i)` writes: `"01"` or
      `"+1"` do not name an element. */
  lemma ArrayIndexIsDecimal(k: string, i: nat)
    ensures ArrayIndex(k) == Some(i) <==> k == Decimal(i)
  {
    if ArrayIndex(k) == Some(i) {
      CanonicalNumeral(k);
    }
    if k == Decimal(i) {
      DecimalRoundTrip(i);
    }
  }

  /** A step `String(i)` into an array of more than `i` elements continues from element `i`;
      past the end the key is not found. */
  lemma ArrayStep(a: seq<Json>, i: nat, rest: seq<string>)
    ensures i < |a| ==> Lookup(JArr(a), [Decimal(i)] + rest) == Lookup(a[i], rest)
    ensures i >= |a| ==> Lookup(JArr(a), [Decimal(i)] + rest).None?
  {
    ArrayIndexIsDecimal(Decimal(i), i);
    assert ([Decimal(i)] + rest)[1..] == rest;
  }

  /** A walk along `a + b` is a walk along `a` and then along `b`. */
  lemma {:induction false} LookupAppend(j: Json, a: seq<string>, b: seq<string>)
    ensures Lookup(j, a + b) == match Lookup(j, a) case None => None case Some(x) => Lookup(x, b)
    decreases |a|
  {
    if |a| > 0 {
      assert (a + b)[0] == a[0];
      assert (a + b)[1..] == a[1..] + b;
      match j
      case JObj(m) =>
        if a[0] in m {
          LookupAppend(m[a[0]], a[1..], b);
        }
      case JArr(e) =>
        if ArrayIndex(a[0]).Some? && ArrayIndex(a[0]).value < |e| {
          LookupAppend(e[ArrayIndex(a[0]).value], a[1..], b);
        }
      case _ =>
    } else {
      assert a + b == b;
    }
  }

  datatype Locale = Zh | Ja

  datatype Dictionaries = Dictionaries(zh: Json, ja: Json)

  function Dictionary(d: Dictionaries, l: Locale): Json {
    match l
    case Zh => d.zh
    case Ja => d.ja
  }

  /* ---------------------------------------------------------------- placeholders */

  /** The class `\w`. */
  predicate IsWordChar(c: char) {
    ('a' <= c <= 'z') || ('A' <= c <= 'Z') || ('0' <= c <= '9') || c == '_'
  }

  predicate IsWord(s: string) {
    |s| > 0 && forall i :: 0 <= i < |s| ==> IsWordChar(s[i])
  }

  /** Where `\{(\w+)\}` matches at the start of `s`: the position of the closing brace. */
  function PlaceholderEnd(s: string): (r: Option<nat>)
    ensures r.Some? ==> 1 < r.value < |s| && s[0] == '{' && s[r.value] == '}' && IsWord(s[1..r.value])
  {
    if |s| < 3 || s[0] != '{' then None
    else
      var j := RunEnd(s, 1, IsWordChar);
      if 1 < j < |s| && s[j] == '}' then Some(j) else None
  }

  /** The members every object inherits from `Object.prototype`, with the text `replace` makes of
      each: a native function prints as its source, the prototype as `[object Object]`. The
      model takes the prototype as a parameter `proto` of the substitution. */
  const ObjectPrototype: map<string, string> := map[
    "constructor" := "function Object() { [native code] }",
    "__proto__" := "[object Object]",
    "hasOwnProperty" := "function hasOwnProperty() { [native code] }",
    "isPrototypeOf" := "function isPrototypeOf() { [native code] }",
    "propertyIsEnumerable" := "function propertyIsEnumerable() { [native code] }",
    "toLocaleString" := "function toLocaleString() { [native code] }",
    "toString" := "function toString() { [native code] }",
    "valueOf" := "function valueOf() { [native code] }",
    "__defineGetter__" := "function __defineGetter__() { [native code] }",
    "__defineSetter__" := "function __defineSetter__() { [native code] }",
    "__lookupGetter__" := "function __lookupGetter__() { [native code] }",
    "__lookupSetter__" := "function __lookupSetter__() { [native code] }"]

  /** `params[name] !== undefined ? params[name] : match`, with the value as `replace` turns it
      into text: an own parameter, else an inherited member, else nothing. */
  function Param(params: map<string, string>, proto: map<string, string>, name: string): (r: Option<string>)
    ensures r.None? <==> name !in params && name !in proto
    ensures name in params ==> r == Some(params[name])
    ensures name !in params && name in proto ==> r == Some(proto[name])
  {
    if name in params then Some(params[name])
    else if name in proto then Some(proto[name])
    else None
  }

  /** `value.replace(/\{(\w+)\}/g, …)`: each placeholder whose name has a parameter becomes the
      parameter; the others stay as they are. */
  function Interpolate(s: string, params: map<string, string>, proto: map<string, string>): string
    decreases |s|
  {
    if |s| == 0 then ""
    else match PlaceholderEnd(s)
      case Some(j) =>
        var name := s[1..j];
        Param(params, proto, name).GetOr(s[..j + 1]) + Interpolate(s[j + 1..], params, proto)
      case None => [s[0]] + Interpolate(s[1..], params, proto)
  }

  /** Every placeholder of `s`, read as `Interpolate` reads them, names something other than a
      member of `proto`. */
  predicate OwnPlaceholders(s: string, proto: map<string, string>)
    decreases |s|
  {
    if |s| == 0 then true
    else match PlaceholderEnd(s)
      case Some(j) => s[1..j] !in proto && OwnPlaceholders(s[j + 1..], proto)
      case None => OwnPlaceholders(s[1..], proto)
  }

  /** A placeholder is replaced by its parameter, or kept when there is none. */
  lemma PlaceholderReplaced(name: string, rest: string, params: map<string, string>, proto: map<string, string>)
    requires IsWord(name)
    ensures Interpolate("{" + name + "}" + rest, params, proto) ==
      Param(params, proto, name).GetOr("{" + name + "}") + Interpolate(rest, params, proto)
  {
    var s := "{" + name + "}" + rest;
    var e := |name| + 1;
    assert s[e] == '}' && !IsWordChar(s[e]);
    assert forall m :: 1 <= m < e ==> s[m] == name[m - 1];
    assert RunEnd(s, 1, IsWordChar) == e;
    assert s[1..e] == name;
    assert s[..e + 1] == "{" + name + "}";
    assert s[e + 1..] == rest;
  }

  /** Substitution is one pass: a parameter's text is not expanded again, even when it holds a
      placeholder itself. */
  lemma SinglePass(name: string, params: map<string, string>, proto: map<string, string>)
    requires IsWord(name) && name in params
    ensures Interpolate("{" + name + "}", params, proto) == params[name]
  {
    PlaceholderReplaced(name, "", params, proto);
    assert "{" + name + "}" + "" == "{" + name + "}";
  }

  /** Without parameters every placeholder stays, so the text is unchanged, as long as no
      placeholder names an inherited member. */
  lemma {:induction false} NoParamsUnchanged(s: string, proto: map<string, string>)
    requires OwnPlaceholders(s, proto)
    ensures Interpolate(s, map[], proto) == s
    decreases |s|
  {
    if |s| > 0 {
      match PlaceholderEnd(s)
      case Some(j) =>
        NoParamsUnchanged(s[j + 1..], proto);
        assert s[..j + 1] + s[j + 1..] == s;
      case None =>
        NoParamsUnchanged(s[1..], proto);
        assert [s[0]] + s[1..] == s;
    }
  }

  /** An inherited name is filled in even without parameters: `{toString}` becomes the text of
      the prototype's `toString`, not the placeholder. */
  lemma InheritedFilled(name: string, rest: string, proto: map<string, string>)
    requires IsWord(name) && name in proto
    ensures Interpolate("{" + name + "}" + rest, map[], proto) == proto[name] + Interpolate(rest, map[], proto)
  {
    PlaceholderReplaced(name, rest, map[], proto);
  }

  /** Text without `{` has no placeholder and is unchanged. */
  lemma {:induction false} NoBraceUnchanged(s: string, params: map<string, string>, proto: map<string, string>)
    requires '{' !in s
    ensures Interpolate(s, params, proto) == s
    decreases |s|
  {
    if |s| > 0 {
      assert s[0] in s;
      assert forall c :: c in s[1..] ==> c in s;
      NoBraceUnchanged(s[1..], params, proto);
      assert [s[0]] + s[1..] == s;
    }
  }

  /* ---------------------------------------------------------------- translating */

  /** `t(key, params)`. A key whose walk misses a step or ends on something other than a string
      translates to itself; a string is returned as it is without `params` and with its
      placeholders filled otherwise. The walk's `k in value` also finds the members an object
      or an array inherits, but none of them is a string or leads to one, so for them the key
      comes back just as for a missing step. */
  function Translate(d: Dictionaries, l: Locale, key: string, params: Option<map<string, string>>,
                     proto: map<string, string>): string
  {
    match Lookup(Dictionary(d, l), Split(key, '.'))
    case Some(JStr(v)) => if params.Some? then Interpolate(v, params.value, proto) else v
    case _ => key
  }

  /** A key written as the dot-joined path to a string translates to that string, with no
      placeholders filled when the parameters are empty. */
  lemma TranslatePath(d: Dictionaries, l: Locale, path: seq<string>, v: string, proto: map<string, string>)
    requires |path| >= 1 && forall i :: 0 <= i < |path| ==> '.' !in path[i]
    requires Lookup(Dictionary(d, l), path) == Some(JStr(v))
    ensures Translate(d, l, Join(path, "."), None, proto) == v
    ensures OwnPlaceholders(v, proto) ==> Translate(d, l, Join(path, "."), Some(map[]), proto) == v
  {
    var key := Join(path, ".");
    SplitJoin(path, '.');
    assert Lookup(Dictionary(d, l), Split(key, '.')) == Some(JStr(v));
    assert Translate(d, l, key, None, proto) == v;
    if OwnPlaceholders(v, proto) {
      NoParamsUnchanged(v, proto);
    }
    assert Translate(d, l, key, Some(map[]), proto) == Interpolate(v, map[], proto);
  }

  /** A key whose path leaves the dictionary at some step translates to itself, whatever
      follows that step. */
  lemma MissingStep(d: Dictionaries, l: Locale, path: seq<string>, k: nat, params: Option<map<string, string>>,
                    proto: map<string, string>)
    requires k < |path| && forall i :: 0 <= i < |path| ==> '.' !in path[i]
    requires Lookup(Dictionary(d, l), path[..k + 1]).None?
    ensures Translate(d, l, Join(path, "."), params, proto) == Join(path, ".")
  {
    SplitJoin(path, '.');
    LookupAppend(Dictionary(d, l), path[..k + 1], path[k + 1..]);
    assert path[..k + 1] + path[k + 1..] == path;
    assert Lookup(Dictionary(d, l), Split(Join(path, "."), '.')).None?;
  }

  /** A key whose path ends on something other than a string, such as a nested group,
      translates to itself. */
  lemma NonStringIsKey(d: Dictionaries, l: Locale, path: seq<string>, params: Option<map<string, string>>,
                       proto: map<string, string>)
    requires |path| >= 1 && forall i :: 0 <= i < |path| ==> '.' !in path[i]
    requires Lookup(Dictionary(d, l), path).Some? && !Lookup(Dictionary(d, l), path).value.JStr?
    ensures Translate(d, l, Join(path, "."), params, proto) == Join(path, ".")
  {
    SplitJoin(path, '.');
  }

  /* ---------------------------------------------------------------- the locale */

  const DefaultLocale := Zh

  function LocaleName(l: Locale): string {
    match l
    case Zh => "zh"
    case Ja => "ja"
  }

  /** The locale after start-up: the saved `locale` item when it is `"zh"` or `"ja"`, the
      default otherwise. */
  function StartLocale(saved: Option<string>): (r: Locale)
    ensures r == Ja <==> saved == Some("ja")
    ensures saved != Some("ja") ==> r == DefaultLocale
  {
    if saved == Some("zh") then Zh
    else if saved == Some("ja") then Ja
    else DefaultLocale
  }

  /** `setLocale`: switch to `l` and save its name. */
  function SetLocale(l: Locale): (r: (Locale, string))
    ensures r.0 == l
    ensures StartLocale(Some(r.1)) == l
  {
    (l, LocaleName(l))
  }
}

=== FILE: import_sheet.dfy ===
/**
  The spreadsheet half of the customer import (`app/api/customers/bulk-upload/route.ts`): the
  header row resolved to columns, and the scan over the data rows that validates each row,
  cleans its fax number, extracts its email address and drops later rows that repeat an address.
 */
module ImportSheet {
  import opened Wrappers
  import opened Text
  import opened EmailPattern
  import opened FaxNumber

  /** A cell as `sheet_to_json(sheet, { header: 1 })` yields it: missing, a string, or another
      value (number, boolean, date) shown by its `toString`. */
  datatype Cell = Blank | Str(text: string) | Other(shown: string)

  // ---------------------------------------------------------------------------------------------
  // Header row

  /** `new Map(headers.map((h, i) => [h.toLowerCase(), i])).get(key)`: a map built from entries
      keeps the last index of a repeated key. */
  function KeyIndex(keys: seq<string>, key: string): (r: Option<nat>)
    ensures r.Some? <==> key in keys
    ensures r.Some? ==> r.value < |keys| && keys[r.value] == key
    ensures r.Some? ==> forall j :: r.value < j < |keys| ==> keys[j] != key
  {
    if |keys| == 0 then None
    else if keys[|keys| - 1] == key then Some(|keys| - 1)
    else
      var r := KeyIndex(keys[..|keys| - 1], key);
      assert keys == keys[..|keys| - 1] + [keys[|keys| - 1]];
      r
  }

  /** The candidate loop: the first candidate whose lower-cased form is a header key decides the
      column, and the column is that key's last index. */
  function ResolveColumn(keys: seq<string>, candidates: seq<string>): (r: Option<nat>)
    ensures r.Some? <==> exists j :: 0 <= j < |candidates| && Lower(candidates[j]) in keys
    ensures r.Some? ==> exists j :: (0 <= j < |candidates| && Lower(candidates[j]) in keys
      && (forall m :: 0 <= m < j ==> Lower(candidates[m]) !in keys)
      && r == KeyIndex(keys, Lower(candidates[j])))
  {
    if |candidates| == 0 then None
    else if Lower(candidates[0]) in keys then KeyIndex(keys, Lower(candidates[0]))
    else
      var r := ResolveColumn(keys, candidates[1..]);
      assert forall j :: 1 <= j < |candidates| ==> candidates[j] == candidates[1..][j - 1];
      r
  }

  const CompanyHeaders: seq<string> := ["公司名称", "会社名", "法人名", "company name", "company", "name"]
  const EmailHeaders: seq<string> := ["邮箱", "e-mail", "E-Mail", "E-mail", "e-Mail", "メール", "email", "mail", "Email", "EMAIL", "MAIL"]
  const FaxHeaders: seq<string> := ["传真", "FAX", "fax", "fax number"]
  const AddressHeaders: seq<string> := ["地址", "Address", "address", "住所", "location"]

  /** The resolved columns; only the company column is required. */
  datatype Columns = Columns(company: nat, email: Option<nat>, fax: Option<nat>, address: Option<nat>)

  /** The header keys, or nothing when a title is not a string (`toLowerCase` then throws). */
  function HeaderKeys(headers: seq<Cell>): (r: Option<seq<string>>)
    ensures r.Some? <==> forall j :: 0 <= j < |headers| ==> headers[j].Str?
    ensures r.Some? ==> (|r.value| == |headers|
      && forall j :: 0 <= j < |headers| ==> r.value[j] == Lower(headers[j].text))
  {
    if forall j :: 0 <= j < |headers| ==> headers[j].Str? then
      Some(seq(|headers|, j requires 0 <= j < |headers| => Lower(headers[j].text)))
    else None
  }

  /** All four columns, or nothing when no company column is found. */
  function ResolveColumns(keys: seq<string>): (r: Option<Columns>)
    ensures r.None? <==> ResolveColumn(keys, CompanyHeaders).None?
    ensures r.Some? ==> (Some(r.value.company) == ResolveColumn(keys, CompanyHeaders)
      && r.value.email == ResolveColumn(keys, EmailHeaders)
      && r.value.fax == ResolveColumn(keys, FaxHeaders)
      && r.value.address == ResolveColumn(keys, AddressHeaders))
  {
    match ResolveColumn(keys, CompanyHeaders)
    case None => None
    case Some(c) =>
      Some(Columns(c, ResolveColumn(keys, EmailHeaders), ResolveColumn(keys, FaxHeaders), ResolveColumn(keys, AddressHeaders)))
  }

  // ---------------------------------------------------------------------------------------------
  // Cell values

  /** `row[col]?.toString().trim()`; a missing column (`-1`) or a short row reads `undefined`. */
  function CellText(row: seq<Cell>, col: Option<nat>): (r: Option<string>)
    ensures r.Some? ==> col.Some? && col.value < |row| && !row[col.value].Blank?
  {
    match col
    case None => None
    case Some(k) =>
      if k >= |row| then None
      else match row[k]
        case Blank => None
        case Str(t) => Some(JsTrim(t))
        case Other(t) => Some(JsTrim(t))
  }

  /** JavaScript truthiness of a string that may be `undefined`. */
  predicate Truthy(o: Option<string>) {
    o.Some? && o.value != ""
  }

  function TextOf(o: Option<string>): string {
    if o.Some? then o.value else ""
  }

  /** `s.replace(/\s+/g, '')`. */
  function RemoveSpaces(s: string): (r: string)
    ensures |r| <= |s|
    ensures forall j :: 0 <= j < |r| ==> !IsJsSpace(r[j])
    ensures forall c :: c in s && !IsJsSpace(c) ==> c in r
  {
    if |s| == 0 then ""
    else
      var rest := RemoveSpaces(s[1..]);
      assert forall c :: c in s ==> c == s[0] || c in s[1..];
      if IsJsSpace(s[0]) then rest else [s[0]] + rest
  }

  /** The cell talks about email without holding an address: the white-space-free, lower-cased
      text contains `email`, `メール` or `mail`. */
  predicate MentionsMail(s: string) {
    var c := Lower(RemoveSpaces(s));
    Contains(c, "email") || Contains(c, "メール") || Contains(c, "mail")
  }

  /** The `email` test is subsumed by the `mail` test. */
  lemma MentionsMailReduced(s: string)
    ensures MentionsMail(s) <==> Contains(Lower(RemoveSpaces(s)), "メール") || Contains(Lower(RemoveSpaces(s)), "mail")
  {
    var c := Lower(RemoveSpaces(s));
    if Contains(c, "email") {
      var i := IndexOf(c, "email").value;
      assert StartsWith(c[i..], "email");
      assert c[i..][..5] == "email";
      assert c[i + 1..i + 5] == c[i..][..5][1..];
      assert c[i + 1..i + 5] == "mail";
      ContainsAt(c, "mail", i + 1);
    }
  }

  /** `email.match(…)[0].toLowerCase()`, or nothing when the cell holds no address. */
  function ExtractEmail(s: string): (r: Option<string>)
    ensures r.Some? ==> IsEmailFormat(r.value) && r.value != ""
    ensures r.Some? ==> Lower(r.value) == r.value
  {
    match FindEmail(s, 0)
    case None => None
    case Some(m) =>
      FoundEmailHasFormat(s, m.0, m.1);
      LowerIdempotent(s[m.0..m.1]);
      Some(Lower(s[m.0..m.1]))
  }

  /** An address is extracted exactly when the pattern matches somewhere in the cell. */
  lemma ExtractEmailFinds(s: string)
    ensures ExtractEmail(s).Some? <==> exists k :: 0 <= k <= |s| && MatchAt(s, k).Some?
  {
    FindEmailLeftmost(s, 0);
  }

  // ---------------------------------------------------------------------------------------------
  // The row scan

  /** A customer as the import builds it; an empty string stands for a missing (`null`) value. */
  datatype Customer = Customer(company: string, email: string, fax: string, address: string, createdBy: string, groupId: string)

  /** `fax_status`: a customer with a fax number starts out `inactive`. */
  function FaxStatus(c: Customer): Option<string> {
    if c.fax != "" then Some("inactive") else None
  }

  /** The errors a row can record, with its 1-based spreadsheet row number. (The source has a
      third, for an address failing the format check, that no row can produce.) */
  datatype RowError = EmptyCompany(row: nat) | MailWordsWithoutAddress(row: nat)

  /** A row whose address an earlier row already had. */
  datatype DuplicateRow = DuplicateRow(row: nat, email: string, firstRow: nat)

  /** The loop's state: the customers kept, the errors recorded, whether the loop was aborted,
      the 0-based row of each kept address, and the repeated rows. */
  datatype Scan = Scan(customers: seq<Customer>, errors: seq<RowError>, invalidEmail: bool, seen: map<string, nat>, duplicates: seq<DuplicateRow>)

  /** One row either lets the loop go on or aborts it (`break`). */
  datatype Step = Next(scan: Scan) | Stop(scan: Scan)

  /** The non-empty addresses of `cs`. */
  function Emails(cs: seq<Customer>): set<string> {
    set c | c in cs && c.email != "" :: c.email
  }

  /** Kept customers never share a non-empty address. */
  predicate DistinctEmails(cs: seq<Customer>) {
    forall i, j :: 0 <= i < j < |cs| && cs[i].email != "" ==> cs[i].email != cs[j].email
  }

  /** What holds of the scan state before row `i` is read. */
  predicate ScanInvariant(st: Scan, i: nat) {
    (forall c :: c in st.customers ==> c.company != "" && (c.email != "" || c.fax != ""))
    && (forall c :: c in st.customers && c.email != "" ==> IsEmailFormat(c.email))
    && DistinctEmails(st.customers)
    && st.seen.Keys == Emails(st.customers)
    && (forall e :: e in st.seen ==> st.seen[e] < i)
    && (forall d :: d in st.duplicates ==> d.email in st.seen && d.firstRow < d.row)
    && (st.invalidEmail ==> |st.errors| > 0)
  }

  /** Recording an error keeps the invariant. */
  function AddError(st: Scan, e: RowError, i: nat): (r: Scan)
    requires ScanInvariant(st, i)
    ensures ScanInvariant(r, i + 1) && r.errors == st.errors + [e]
  {
    st.(errors := st.errors + [e])
  }

  /** Keeping a customer whose address (if any) is well-formed and new keeps the invariant. */
  function AddCustomer(st: Scan, c: Customer, i: nat): (r: Scan)
    requires ScanInvariant(st, i)
    requires c.company != "" && (c.email != "" || c.fax != "")
    requires c.email != "" ==> IsEmailFormat(c.email) && c.email !in st.seen
    ensures ScanInvariant(r, i + 1) && r.errors == st.errors
    ensures r.customers == st.customers + [c]
  {
    var cs := st.customers + [c];
    if c.email == "" then
      assert Emails(cs) == Emails(st.customers);
      st.(customers := cs)
    else
      assert Emails(cs) == Emails(st.customers) + {c.email};
      st.(seen := st.seen[c.email := i], customers := cs)
  }

  /** Listing a repeated row keeps the invariant. */
  function AddDuplicate(st: Scan, addr: string, i: nat): (r: Scan)
    requires addr in st.seen
    ensures ScanInvariant(st, i) ==> ScanInvariant(r, i + 1)
    ensures r.errors == st.errors
    ensures r == st.(duplicates := st.duplicates + [DuplicateRow(i + 1, addr, st.seen[addr] + 1)])
  {
    st.(duplicates := st.duplicates + [DuplicateRow(i + 1, addr, st.seen[addr] + 1)])
  }

  /** The fax value as the row reads it: `''` without a fax column, otherwise the cell, cleaned
      up when it is non-empty. */
  function RowFax(row: seq<Cell>, cols: Columns): (r: Option<string>)
    ensures Truthy(r) <==> cols.fax.Some? && Truthy(CellText(row, cols.fax))
  {
    var fax0 := if cols.fax.None? then Some("") else CellText(row, cols.fax);
    if Truthy(fax0) then Some(CleanFaxAsWritten(fax0.value)) else fax0
  }

  /** The address value as the customer stores it; `''` stands for a missing one. */
  function AddressCell(row: seq<Cell>, cols: Columns): string {
    if cols.address.None? then "" else TextOf(CellText(row, cols.address))
  }

  /** A non-empty row without a company name: recorded as an error and skipped. */
  predicate NoCompany(row: seq<Cell>, cols: Columns) {
    |row| > 0 && !Truthy(CellText(row, Some(cols.company)))
  }

  /** A row with a company name whose email cell holds no address but talks about mail: it
      aborts the loop. */
  predicate Aborts(row: seq<Cell>, cols: Columns) {
    var email := CellText(row, cols.email);
    |row| > 0 && Truthy(CellText(row, Some(cols.company))) && Truthy(email)
    && ExtractEmail(email.value).None? && MentionsMail(email.value)
  }

  /** The customer a row offers before repeated addresses are considered: it needs a company name,
      and either an email cell in which an address is found or, with the email cell empty, a fax
      value. A filled email cell without an address offers nothing, whatever the fax cell holds. */
  function Offered(row: seq<Cell>, cols: Columns, user: string, group: string): (r: Option<Customer>)
    ensures r.Some? ==> r.value.company != "" && (r.value.email != "" || r.value.fax != "")
    ensures r.Some? ==> r.value.createdBy == user && r.value.groupId == group && r.value.address == AddressCell(row, cols)
    ensures r.Some? && r.value.email != "" ==> IsEmailFormat(r.value.email) && Lower(r.value.email) == r.value.email
  {
    var company := CellText(row, Some(cols.company));
    var email := CellText(row, cols.email);
    var fax := RowFax(row, cols);
    if |row| == 0 || !Truthy(company) then None
    else if Truthy(email) then
      match ExtractEmail(email.value)
      case None => None
      case Some(a) => Some(Customer(company.value, a, TextOf(fax), AddressCell(row, cols), user, group))
    else if Truthy(fax) then Some(Customer(company.value, "", fax.value, AddressCell(row, cols), user, group))
    else None
  }

  /** The rule for one row at 0-based index `i` (spreadsheet row `i + 1`): an empty row is
      skipped; a row without a company name records an error; a row whose email cell holds no
      address aborts the loop when the cell talks about mail and is skipped otherwise; a row
      offering neither address nor fax is skipped; an offered address already kept makes the row
      a repeat; any other offered customer is kept. */
  function ScanRow(row: seq<Cell>, i: nat, cols: Columns, user: string, group: string, st: Scan): (r: Step)
    requires ScanInvariant(st, i)
    ensures ScanInvariant(r.scan, i + 1)
    ensures |r.scan.errors| >= |st.errors|
    ensures r.Stop? <==> Aborts(row, cols)
    ensures r.Stop? ==> r.scan == st.(errors := st.errors + [MailWordsWithoutAddress(i + 1)], invalidEmail := true)
    ensures NoCompany(row, cols) ==> r == Next(st.(errors := st.errors + [EmptyCompany(i + 1)]))
  {
    if |row| == 0 then Next(st)
    else
      var company := CellText(row, Some(cols.company));
      var email := CellText(row, cols.email);
      var fax := RowFax(row, cols);
      var c := Customer(TextOf(company), "", TextOf(fax), AddressCell(row, cols), user, group);
      if !Truthy(company) then Next(AddError(st, EmptyCompany(i + 1), i))
      else if !Truthy(email) && !Truthy(fax) then Next(st)
      else if !Truthy(email) then Next(AddCustomer(st, c, i))
      else ScanEmail(email.value, c, i, st)
  }

  /** A row that neither aborts nor lacks a company name and offers no customer is skipped
      without a trace; a customer it offers without an address is kept. */
  lemma ScanRowOffered(row: seq<Cell>, i: nat, cols: Columns, user: string, group: string, st: Scan)
    requires ScanInvariant(st, i) && !Aborts(row, cols) && !NoCompany(row, cols)
    ensures Offered(row, cols, user, group).None? ==> ScanRow(row, i, cols, user, group, st) == Next(st)
    ensures var o := Offered(row, cols, user, group);
      o.Some? && o.value.email == "" ==>
        ScanRow(row, i, cols, user, group, st) == Next(st.(customers := st.customers + [o.value]))
  {
    if |row| > 0 {
      var email := CellText(row, cols.email);
      var c := Customer(TextOf(CellText(row, Some(cols.company))), "", TextOf(RowFax(row, cols)), AddressCell(row, cols), user, group);
      if !Truthy(email) {
        FaxOnlyRow(row, i, cols, user, group, st);
      } else {
        EmailRow(row, i, cols, user, group, st, email.value, c);
      }
    }
  }

  /** A customer offered with an address not kept before is kept, and the 0-based row of the
      address remembered. */
  lemma ScanRowKeepsNew(row: seq<Cell>, i: nat, cols: Columns, user: string, group: string, st: Scan)
    requires ScanInvariant(st, i)
    requires Offered(row, cols, user, group).Some?
    requires Offered(row, cols, user, group).value.email != ""
    requires Offered(row, cols, user, group).value.email !in st.seen
    ensures var c := Offered(row, cols, user, group).value;
      ScanRow(row, i, cols, user, group, st) == Next(st.(customers := st.customers + [c], seen := st.seen[c.email := i]))
  {
    AddressRow(row, i, cols, user, group, st);
  }

  /** A customer offered with an address already kept is not kept: the row is listed as a repeat
      with its 1-based row and the 1-based row that kept the address first. */
  lemma ScanRowRepeat(row: seq<Cell>, i: nat, cols: Columns, user: string, group: string, st: Scan)
    requires ScanInvariant(st, i)
    requires Offered(row, cols, user, group).Some?
    requires Offered(row, cols, user, group).value.email in st.seen
    ensures ScanRow(row, i, cols, user, group, st) == Next(AddDuplicate(st, Offered(row, cols, user, group).value.email, i))
  {
    NothingSeenEmpty(st, i);
    AddressRow(row, i, cols, user, group, st);
  }

  lemma NothingSeenEmpty(st: Scan, i: nat)
    requires ScanInvariant(st, i)
    ensures "" !in st.seen
  {
    assert "" !in Emails(st.customers);
  }

  /** A row offering an address is scanned by the address rule on that address. */
  lemma AddressRow(row: seq<Cell>, i: nat, cols: Columns, user: string, group: string, st: Scan)
    requires ScanInvariant(st, i)
    requires Offered(row, cols, user, group).Some? && Offered(row, cols, user, group).value.email != ""
    ensures var o := Offered(row, cols, user, group);
      IsEmailFormat(o.value.email) && o.value.company != ""
      && ScanRow(row, i, cols, user, group, st) == ScanAddress(o.value.email, o.value.(email := ""), i, st)
  {
    var o := Offered(row, cols, user, group);
    var email := CellText(row, cols.email);
    var c := Customer(TextOf(CellText(row, Some(cols.company))), "", TextOf(RowFax(row, cols)), AddressCell(row, cols), user, group);
    assert |row| > 0 && Truthy(email);
    EmailRow(row, i, cols, user, group, st, email.value, c);
    assert o.value == c.(email := o.value.email);
  }

  lemma FaxOnlyRow(row: seq<Cell>, i: nat, cols: Columns, user: string, group: string, st: Scan)
    requires ScanInvariant(st, i) && |row| > 0 && Truthy(CellText(row, Some(cols.company)))
    requires !Truthy(CellText(row, cols.email))
    ensures var o := Offered(row, cols, user, group);
      ScanRow(row, i, cols, user, group, st) == if o.Some? then Next(st.(customers := st.customers + [o.value])) else Next(st)
    ensures Offered(row, cols, user, group).Some? ==> Offered(row, cols, user, group).value.email == ""
  {
  }

  lemma EmailRow(row: seq<Cell>, i: nat, cols: Columns, user: string, group: string, st: Scan, cell: string, c: Customer)
    requires ScanInvariant(st, i) && |row| > 0 && Truthy(CellText(row, Some(cols.company)))
    requires CellText(row, cols.email) == Some(cell) && cell != ""
    requires c == Customer(TextOf(CellText(row, Some(cols.company))), "", TextOf(RowFax(row, cols)), AddressCell(row, cols), user, group)
    ensures ScanRow(row, i, cols, user, group, st) == ScanEmail(cell, c, i, st)
    ensures Offered(row, cols, user, group) == if ExtractEmail(cell).Some? then Some(c.(email := ExtractEmail(cell).value)) else None
  {
  }

  /** The address part of the rule, for a row with a company name and a non-empty email cell;
      `c` is the customer the row makes, still without its address. */
  function ScanEmail(cell: string, c: Customer, i: nat, st: Scan): (r: Step)
    requires ScanInvariant(st, i) && c.company != "" && cell != ""
    ensures ScanInvariant(r.scan, i + 1)
    ensures |r.scan.errors| >= |st.errors|
    ensures r.Stop? <==> ExtractEmail(cell).None? && MentionsMail(cell)
    ensures r.Stop? ==> r.scan == st.(errors := st.errors + [MailWordsWithoutAddress(i + 1)], invalidEmail := true)
    ensures ExtractEmail(cell).None? && !MentionsMail(cell) ==> r == Next(st)
    ensures ExtractEmail(cell).Some? ==> r == ScanAddress(ExtractEmail(cell).value, c, i, st)
  {
    var a := ExtractEmail(cell);
    if a.None? then
      if MentionsMail(cell) then Stop(AddError(st, MailWordsWithoutAddress(i + 1), i).(invalidEmail := true))
      else Next(st)
    else ScanAddress(a.value, c, i, st)
  }

  /** A found address: a repeat of a kept one lists the row, a new one keeps the customer. The
      source re-checks the address with the format predicate and records an error when it fails;
      an extracted address always passes (`ExtractEmail`), so that branch cannot be taken. */
  function ScanAddress(addr: string, c: Customer, i: nat, st: Scan): (r: Step)
    requires ScanInvariant(st, i) && c.company != "" && IsEmailFormat(addr) && addr != ""
    ensures ScanInvariant(r.scan, i + 1)
    ensures addr in st.seen ==> r == Next(st.(duplicates := st.duplicates + [DuplicateRow(i + 1, addr, st.seen[addr] + 1)]))
    ensures addr !in st.seen ==> r == Next(st.(customers := st.customers + [c.(email := addr)], seen := st.seen[addr := i]))
  {
    if addr in st.seen then Next(AddDuplicate(st, addr, i))
    else Next(AddCustomer(st, c.(email := addr), i))
  }

  /** The loop `for (let i = from; i < rows.length; i++)`. */
  function ScanFrom(sheet: seq<seq<Cell>>, i: nat, cols: Columns, user: string, group: string, st: Scan): (r: Scan)
    requires ScanInvariant(st, i)
    ensures ScanInvariant(r, if i < |sheet| then |sheet| else i)
    ensures |r.errors| >= |st.errors|
    decreases |sheet| - i
  {
    if i >= |sheet| then st
    else
      match ScanRow(sheet[i], i, cols, user, group, st)
      case Stop(s) => ScanInvariantLater(s, i + 1, |sheet|); s
      case Next(s) => ScanFrom(sheet, i + 1, cols, user, group, s)
  }

  lemma ScanInvariantLater(st: Scan, i: nat, j: nat)
    requires ScanInvariant(st, i) && i <= j
    ensures ScanInvariant(st, j)
  {
  }

  const EmptyScan: Scan := Scan([], [], false, map[], [])

  /** The data rows scanned, from the second spreadsheet row on. Kept customers have a company
      name and an address or fax number, their addresses pass the format check and are pairwise
      distinct, every repeated row names a kept address and a strictly earlier first row, and an
      aborted scan has recorded an error. */
  function ScanSheet(sheet: seq<seq<Cell>>, cols: Columns, user: string, group: string): (r: Scan)
    ensures forall c :: c in r.customers ==> c.company != "" && (c.email != "" || c.fax != "")
    ensures forall c :: c in r.customers && c.email != "" ==> IsEmailFormat(c.email)
    ensures DistinctEmails(r.customers)
    ensures forall d :: d in r.duplicates ==> d.email in Emails(r.customers) && d.firstRow < d.row
    ensures r.invalidEmail ==> |r.errors| > 0
  {
    ScanFrom(sheet, 1, cols, user, group, EmptyScan)
  }

  /** A non-empty data row without a company name always leaves an error behind: its own, or
      the one that aborted the loop before it. */
  lemma EmptyCompanyRecorded(sheet: seq<seq<Cell>>, cols: Columns, user: string, group: string, k: nat)
    requires 1 <= k < |sheet| && |sheet[k]| > 0 && !Truthy(CellText(sheet[k], Some(cols.company)))
    ensures |ScanSheet(sheet, cols, user, group).errors| > 0
  {
    EmptyCompanyFrom(sheet, 1, cols, user, group, EmptyScan, k);
  }

  lemma {:induction false} EmptyCompanyFrom(sheet: seq<seq<Cell>>, i: nat, cols: Columns, user: string, group: string, st: Scan, k: nat)
    requires ScanInvariant(st, i)
    requires i <= k < |sheet| && |sheet[k]| > 0 && !Truthy(CellText(sheet[k], Some(cols.company)))
    ensures |ScanFrom(sheet, i, cols, user, group, st).errors| > |st.errors|
    decreases |sheet| - i
  {
    match ScanRow(sheet[i], i, cols, user, group, st)
    case Stop(s) =>
    case Next(s) =>
      if i < k {
        EmptyCompanyFrom(sheet, i + 1, cols, user, group, s, k);
      }
  }

  // ---------------------------------------------------------------------------------------------
  // The scan described row by row

  /** What a data row is on its own, before the rows around it are considered. */
  datatype RowOutcome = Unused | MissingCompany | Aborting | Offers(customer: Customer)

  function Outcome(row: seq<Cell>, cols: Columns, user: string, group: string): RowOutcome {
    if NoCompany(row, cols) then MissingCompany
    else if Aborts(row, cols) then Aborting
    else match Offered(row, cols, user, group)
      case None => Unused
      case Some(c) => Offers(c)
  }

  /** The outcome of every row of the sheet, the header row included. */
  function Outcomes(sheet: seq<seq<Cell>>, cols: Columns, user: string, group: string): (r: seq<RowOutcome>)
    ensures |r| == |sheet|
    ensures forall j :: 0 <= j < |sheet| ==> r[j] == Outcome(sheet[j], cols, user, group)
  {
    seq(|sheet|, j requires 0 <= j < |sheet| => Outcome(sheet[j], cols, user, group))
  }

  /** Outcome `o` offers a customer with the address `a`. */
  predicate HasEmail(o: RowOutcome, a: string) {
    o.Offers? && a != "" && o.customer.email == a
  }

  /** The first row at or after `k` that aborts the loop; `|outs|` when none does. */
  function AbortRow(outs: seq<RowOutcome>, k: nat): (e: nat)
    requires k <= |outs|
    ensures k <= e <= |outs|
    decreases |outs| - k
  {
    if k == |outs| || outs[k].Aborting? then k else AbortRow(outs, k + 1)
  }

  /** `AbortRow` finds the first aborting row at or after `k`. */
  lemma {:induction false} AbortRowFirst(outs: seq<RowOutcome>, k: nat)
    requires k <= |outs|
    ensures forall j :: k <= j < AbortRow(outs, k) ==> !outs[j].Aborting?
    ensures AbortRow(outs, k) < |outs| ==> outs[AbortRow(outs, k)].Aborting?
    decreases |outs| - k
  {
    if k < |outs| && !outs[k].Aborting? {
      AbortRowFirst(outs, k + 1);
    }
  }

  /** The first data row before row `k` that offers the address `a`. */
  function FirstRow(outs: seq<RowOutcome>, a: string, k: nat): (r: Option<nat>)
    requires k <= |outs|
    ensures r.Some? ==> 1 <= r.value < k && HasEmail(outs[r.value], a)
  {
    if k <= 1 then None
    else
      var f := FirstRow(outs, a, k - 1);
      if f.Some? then f
      else if HasEmail(outs[k - 1], a) then Some(k - 1)
      else None
  }

  /** `FirstRow` finds the first data row offering the address, and no row when none does. */
  lemma {:induction false} FirstRowFirst(outs: seq<RowOutcome>, a: string, k: nat)
    requires k <= |outs|
    ensures FirstRow(outs, a, k).Some? ==> forall j :: 1 <= j < FirstRow(outs, a, k).value ==> !HasEmail(outs[j], a)
    ensures FirstRow(outs, a, k).None? ==> forall j :: 1 <= j < k ==> !HasEmail(outs[j], a)
  {
    if k > 1 {
      FirstRowFirst(outs, a, k - 1);
    }
  }

  /** What row `k` adds to the kept customers: the customer it offers, unless an earlier row
      offered the same address. */
  function NewOffer(outs: seq<RowOutcome>, k: nat): seq<Customer>
    requires 1 <= k < |outs|
  {
    var o := outs[k];
    if o.Offers? && (o.customer.email == "" || FirstRow(outs, o.customer.email, k).None?) then [o.customer] else []
  }

  /** What row `k` adds to the repeated rows: itself, when an earlier row offered its address. */
  function NewRepeat(outs: seq<RowOutcome>, k: nat): seq<DuplicateRow>
    requires 1 <= k < |outs|
  {
    var o := outs[k];
    if o.Offers? && o.customer.email != "" && FirstRow(outs, o.customer.email, k).Some? then
      [DuplicateRow(k + 1, o.customer.email, FirstRow(outs, o.customer.email, k).value + 1)]
    else []
  }

  function NewError(outs: seq<RowOutcome>, k: nat): seq<RowError>
    requires 1 <= k < |outs|
  {
    if outs[k].MissingCompany? then [EmptyCompany(k + 1)] else []
  }

  /** The customers kept from the data rows before row `k`: the offered ones, in row order,
      each address only from the first row that offers it. */
  function FirstOffers(outs: seq<RowOutcome>, k: nat): seq<Customer>
    requires k <= |outs|
  {
    if k <= 1 then [] else FirstOffers(outs, k - 1) + NewOffer(outs, k - 1)
  }

  /** The repeated rows before row `k`, in row order. */
  function Repeats(outs: seq<RowOutcome>, k: nat): seq<DuplicateRow>
    requires k <= |outs|
  {
    if k <= 1 then [] else Repeats(outs, k - 1) + NewRepeat(outs, k - 1)
  }

  /** The rows without a company name before row `k`, in row order. */
  function RowErrors(outs: seq<RowOutcome>, k: nat): seq<RowError>
    requires k <= |outs|
  {
    if k <= 1 then [] else RowErrors(outs, k - 1) + NewError(outs, k - 1)
  }

  /** The remembered addresses are those offered before row `k`, each with its first row. */
  ghost predicate SeenMatches(outs: seq<RowOutcome>, k: nat, seen: map<string, nat>)
    requires k <= |outs|
  {
    forall a :: (a in seen <==> FirstRow(outs, a, k).Some?)
      && (a in seen ==> seen[a] == FirstRow(outs, a, k).value)
  }

  /** The scan state before row `k` as the row-by-row description gives it. */
  ghost predicate ScannedTo(outs: seq<RowOutcome>, k: nat, st: Scan)
    requires k <= |outs|
  {
    !st.invalidEmail && SeenMatches(outs, k, st.seen)
    && st.customers == FirstOffers(outs, k)
    && st.duplicates == Repeats(outs, k)
    && st.errors == RowErrors(outs, k)
  }

  /** Row `i` becomes the first row of the address it offers when no earlier row offered it. */
  lemma SeenStep(outs: seq<RowOutcome>, i: nat, seen: map<string, nat>, seen1: map<string, nat>)
    requires 1 <= i < |outs| && SeenMatches(outs, i, seen)
    requires !(outs[i].Offers? && outs[i].customer.email != "") ==> seen1 == seen
    requires outs[i].Offers? && outs[i].customer.email in seen ==> seen1 == seen
    requires outs[i].Offers? && outs[i].customer.email != "" && outs[i].customer.email !in seen ==>
      seen1 == seen[outs[i].customer.email := i]
    ensures SeenMatches(outs, i + 1, seen1)
  {
    forall a ensures (a in seen1 <==> FirstRow(outs, a, i + 1).Some?)
      && (a in seen1 ==> seen1[a] == FirstRow(outs, a, i + 1).value)
    {
      assert FirstRow(outs, a, i + 1) ==
        if FirstRow(outs, a, i).Some? then FirstRow(outs, a, i)
        else if HasEmail(outs[i], a) then Some(i) else None;
    }
  }

  /** The row rule stated on the row's outcome alone. */
  function Apply(o: RowOutcome, i: nat, st: Scan): Step {
    match o
    case Unused => Next(st)
    case MissingCompany => Next(st.(errors := st.errors + [EmptyCompany(i + 1)]))
    case Aborting => Stop(st.(errors := st.errors + [MailWordsWithoutAddress(i + 1)], invalidEmail := true))
    case Offers(c) =>
      if c.email == "" then Next(st.(customers := st.customers + [c]))
      else if c.email in st.seen then Next(AddDuplicate(st, c.email, i))
      else Next(st.(customers := st.customers + [c], seen := st.seen[c.email := i]))
  }

  /** A row moves the scan exactly as its outcome says. */
  lemma OutcomeStep(row: seq<Cell>, i: nat, cols: Columns, user: string, group: string, st: Scan)
    requires ScanInvariant(st, i)
    ensures ScanRow(row, i, cols, user, group, st) == Apply(Outcome(row, cols, user, group), i, st)
  {
    var out := Outcome(row, cols, user, group);
    if NoCompany(row, cols) {
      assert out == MissingCompany;
    } else if Aborts(row, cols) {
      assert out == Aborting;
    } else if Offered(row, cols, user, group).None? {
      assert out == Unused;
      ScanRowOffered(row, i, cols, user, group, st);
    } else {
      assert out == Offers(Offered(row, cols, user, group).value);
      OffersStep(row, i, cols, user, group, st);
    }
  }

  lemma OffersStep(row: seq<Cell>, i: nat, cols: Columns, user: string, group: string, st: Scan)
    requires ScanInvariant(st, i) && !Aborts(row, cols) && !NoCompany(row, cols)
    requires Offered(row, cols, user, group).Some?
    ensures ScanRow(row, i, cols, user, group, st) == Apply(Offers(Offered(row, cols, user, group).value), i, st)
  {
    var c := Offered(row, cols, user, group).value;
    if c.email == "" {
      ScanRowOffered(row, i, cols, user, group, st);
      ApplyFax(c, i, st);
    } else if c.email !in st.seen {
      ScanRowKeepsNew(row, i, cols, user, group, st);
      ApplyNew(c, i, st);
    } else {
      NothingSeenEmpty(st, i);
      ScanRowRepeat(row, i, cols, user, group, st);
      ApplyRepeat(c, i, st);
    }
  }

  lemma ApplyFax(c: Customer, i: nat, st: Scan)
    requires c.email == ""
    ensures Apply(Offers(c), i, st) == Next(st.(customers := st.customers + [c]))
  {
  }

  lemma ApplyNew(c: Customer, i: nat, st: Scan)
    requires c.email != "" && c.email !in st.seen
    ensures Apply(Offers(c), i, st) == Next(st.(customers := st.customers + [c], seen := st.seen[c.email := i]))
  {
  }

  lemma ApplyRepeat(c: Customer, i: nat, st: Scan)
    requires c.email in st.seen && c.email != ""
    ensures Apply(Offers(c), i, st) == Next(AddDuplicate(st, c.email, i))
  {
  }

  /** The scan loop run on the outcomes of the rows. */
  function ScanOutcomes(outs: seq<RowOutcome>, i: nat, st: Scan): Scan
    decreases |outs| - i
  {
    if i >= |outs| then st
    else match Apply(outs[i], i, st)
      case Stop(s) => s
      case Next(s) => ScanOutcomes(outs, i + 1, s)
  }

  /** The loop over the rows is the loop over their outcomes. */
  lemma {:induction false} ScanFromOutcomes(sheet: seq<seq<Cell>>, i: nat, cols: Columns, user: string, group: string, st: Scan)
    requires ScanInvariant(st, i)
    ensures ScanFrom(sheet, i, cols, user, group, st) == ScanOutcomes(Outcomes(sheet, cols, user, group), i, st)
    decreases |sheet| - i
  {
    if i < |sheet| {
      OutcomeStep(sheet[i], i, cols, user, group, st);
      var n := ScanRow(sheet[i], i, cols, user, group, st);
      if n.Next? {
        ScanFromOutcomes(sheet, i + 1, cols, user, group, n.scan);
      }
    }
  }

  lemma RepeatedRow(outs: seq<RowOutcome>, i: nat, n: nat)
    requires 1 <= i < |outs| && outs[i].Offers? && outs[i].customer.email != ""
    requires FirstRow(outs, outs[i].customer.email, i).Some? && FirstRow(outs, outs[i].customer.email, i).value == n
    ensures NewRepeat(outs, i) == [DuplicateRow(i + 1, outs[i].customer.email, n + 1)]
    ensures NewOffer(outs, i) == [] && NewError(outs, i) == []
  {
  }

  lemma FirstOrNoRow(outs: seq<RowOutcome>, i: nat)
    requires 1 <= i < |outs|
    requires outs[i].Offers? && outs[i].customer.email != "" ==> FirstRow(outs, outs[i].customer.email, i).None?
    ensures NewRepeat(outs, i) == []
    ensures NewOffer(outs, i) == if outs[i].Offers? then [outs[i].customer] else []
    ensures NewError(outs, i) == if outs[i].MissingCompany? then [EmptyCompany(i + 1)] else []
  {
  }

  /** What a row that does not abort adds to the kept customers, the repeats and the errors. */
  lemma StepLists(outs: seq<RowOutcome>, i: nat, st: Scan)
    requires 1 <= i < |outs| && SeenMatches(outs, i, st.seen) && !outs[i].Aborting?
    ensures Apply(outs[i], i, st).Next?
    ensures Apply(outs[i], i, st).scan.customers == st.customers + NewOffer(outs, i)
    ensures Apply(outs[i], i, st).scan.duplicates == st.duplicates + NewRepeat(outs, i)
    ensures Apply(outs[i], i, st).scan.errors == st.errors + NewError(outs, i)
    ensures Apply(outs[i], i, st).scan.invalidEmail == st.invalidEmail
  {
    var o := outs[i];
    if o.Offers? && o.customer.email in st.seen {
      var a := o.customer.email;
      assert FirstRow(outs, "", i).None?;
      assert FirstRow(outs, a, i).Some? && st.seen[a] == FirstRow(outs, a, i).value;
      RepeatedRow(outs, i, st.seen[a]);
    } else {
      assert o.Offers? && o.customer.email != "" ==> FirstRow(outs, o.customer.email, i).None?;
      FirstOrNoRow(outs, i);
    }
  }

  /** A row that does not abort takes the row-by-row description of the scan one row on. */
  lemma ScannedStep(outs: seq<RowOutcome>, i: nat, st: Scan)
    requires 1 <= i < |outs| && ScannedTo(outs, i, st) && !outs[i].Aborting?
    ensures Apply(outs[i], i, st).Next? && ScannedTo(outs, i + 1, Apply(outs[i], i, st).scan)
  {
    var r := Apply(outs[i], i, st);
    assert "" !in st.seen by {
      assert FirstRow(outs, "", i).None?;
    }
    StepLists(outs, i, st);
    SeenStep(outs, i, st.seen, r.scan.seen);
    assert FirstOffers(outs, i + 1) == st.customers + NewOffer(outs, i);
    assert Repeats(outs, i + 1) == st.duplicates + NewRepeat(outs, i);
    assert RowErrors(outs, i + 1) == st.errors + NewError(outs, i);
  }

  /** The row-by-row description of where the loop ends, from row `i` on. */
  ghost predicate EndsByRows(outs: seq<RowOutcome>, i: nat, r: Scan)
    requires i <= |outs|
  {
    var e := AbortRow(outs, i);
    r.customers == FirstOffers(outs, e)
    && r.duplicates == Repeats(outs, e)
    && r.errors == RowErrors(outs, e) + (if e < |outs| then [MailWordsWithoutAddress(e + 1)] else [])
    && (r.invalidEmail <==> e < |outs|)
  }

  /** At the end of the sheet or at an aborting row the loop stops where the description does. */
  lemma StopsByRows(outs: seq<RowOutcome>, i: nat, st: Scan)
    requires 1 <= i <= |outs| && ScannedTo(outs, i, st)
    requires i == |outs| || outs[i].Aborting?
    ensures EndsByRows(outs, i, ScanOutcomes(outs, i, st))
  {
    assert AbortRow(outs, i) == i;
    if i == |outs| {
      assert RowErrors(outs, i) + [] == st.errors;
    }
  }

  /** A row that does not abort passes the loop and the end it is heading for on to the next row. */
  lemma PassRow(outs: seq<RowOutcome>, i: nat, st: Scan)
    requires 1 <= i < |outs| && !outs[i].Aborting?
    ensures Apply(outs[i], i, st).Next?
    ensures ScanOutcomes(outs, i, st) == ScanOutcomes(outs, i + 1, Apply(outs[i], i, st).scan)
    ensures AbortRow(outs, i) == AbortRow(outs, i + 1)
    ensures forall r :: EndsByRows(outs, i + 1, r) ==> EndsByRows(outs, i, r)
  {
  }

  /** The loop from row `i` on ends at the first aborting row, with the customers, repeats and
      errors the row-by-row description gives up to there, plus the aborting row's error. */
  lemma {:induction false} ScanOutcomesByRows(outs: seq<RowOutcome>, i: nat, st: Scan)
    requires 1 <= i <= |outs| && ScannedTo(outs, i, st)
    ensures EndsByRows(outs, i, ScanOutcomes(outs, i, st))
    decreases |outs| - i
  {
    if i == |outs| || outs[i].Aborting? {
      StopsByRows(outs, i, st);
    } else {
      var next := Apply(outs[i], i, st).scan;
      ScannedStep(outs, i, st);
      PassRow(outs, i, st);
      ScanOutcomesByRows(outs, i + 1, next);
    }
  }

  /** The whole scan, described row by row: it stops at the first data row whose email cell
      holds no address but talks about mail. Before that row, the kept customers are those the
      rows offer, in row order, each address only from the first row that offers it; every
      later row offering a kept address is listed as a repeat with its 1-based row and the first
      row's; the errors are the rows without a company name, in row order, then the aborting
      row's error. */
  lemma ScanSheetByRows(sheet: seq<seq<Cell>>, cols: Columns, user: string, group: string)
    ensures |sheet| == 0 ==> ScanSheet(sheet, cols, user, group) == EmptyScan
    ensures |sheet| > 0 ==> EndsByRows(Outcomes(sheet, cols, user, group), 1, ScanSheet(sheet, cols, user, group))
  {
    if |sheet| > 0 {
      var outs := Outcomes(sheet, cols, user, group);
      ScanFromOutcomes(sheet, 1, cols, user, group, EmptyScan);
      forall a ensures (a in EmptyScan.seen <==> FirstRow(outs, a, 1).Some?) {
      }
      assert ScannedTo(outs, 1, EmptyScan);
      ScanOutcomesByRows(outs, 1, EmptyScan);
    }
  }
}

=== FILE: like.dfy ===
/**
  PostgreSQL's `LIKE` and `ILIKE` as a PostgREST `like`/`ilike` filter hands them on: `%`
  matches any run of characters, and so does `*`, which PostgREST turns into `%` wherever it
  stands, after a backslash too; `_` matches any one character; a backslash makes the character
  after it literal, so `\*` reaches PostgreSQL as `\%` and stands for a literal `%`. `ILIKE`
  lower-cases both sides first.
 */
module LikePattern {
  import opened Wrappers
  import opened Text

  datatype Elem = AnyRun | AnyOne | Lit(c: char)

  /** The characters with a meaning in a pattern. */
  predicate IsWild(c: char) {
    c == '%' || c == '*' || c == '_' || c == '\\'
  }

  function ElemOf(c: char): Elem {
    if c == '%' || c == '*' then AnyRun else if c == '_' then AnyOne else Lit(c)
  }

  /** The character PostgreSQL receives for `c`: PostgREST writes every `*` as `%`. */
  function StarToPercent(c: char): char {
    if c == '*' then '%' else c
  }

  /** The pattern's elements. PostgreSQL refuses a pattern ending in a lone backslash. */
  function Parse(p: string): Option<seq<Elem>>
    decreases |p|
  {
    if |p| == 0 then Some([])
    else if p[0] == '\\' then
      if |p| == 1 then None
      else match Parse(p[2..])
        case None => None
        case Some(rest) => Some([Lit(StarToPercent(p[1]))] + rest)
    else match Parse(p[1..])
      case None => None
      case Some(rest) => Some([ElemOf(p[0])] + rest)
  }

  /** The pattern as PostgREST hands it on: every `*` written as `%`. */
  function StarsToPercents(p: string): (r: string)
    ensures |r| == |p|
    ensures forall i :: 0 <= i < |p| ==> r[i] == StarToPercent(p[i])
    ensures '*' !in r
  {
    seq(|p|, i requires 0 <= i < |p| => StarToPercent(p[i]))
  }

  /** A pattern means what PostgreSQL makes of it once PostgREST has written its stars as `%`,
      escaped stars included: `a\*b` finds the text `a%b`, not `a*b`. */
  lemma {:induction false} ParseAfterRewrite(p: string)
    ensures Parse(p) == Parse(StarsToPercents(p))
    decreases |p|
  {
    var q := StarsToPercents(p);
    if |p| > 0 {
      if p[0] == '\\' {
        if |p| > 1 {
          assert q[2..] == StarsToPercents(p[2..]);
          ParseAfterRewrite(p[2..]);
        }
      } else {
        assert q[1..] == StarsToPercents(p[1..]);
        ParseAfterRewrite(p[1..]);
      }
    }
  }

  /** A character other than a backslash is one element of its own. */
  lemma ParseStep(c: char, rest: string)
    requires c != '\\' && Parse(rest).Some?
    ensures Parse([c] + rest) == Some([ElemOf(c)] + Parse(rest).value)
  {
    assert ([c] + rest)[1..] == rest;
  }

  /** The whole of `s` matches the elements. */
  predicate MatchElems(s: string, p: seq<Elem>)
    decreases |p|, |s|
  {
    if |p| == 0 then |s| == 0
    else match p[0]
      case AnyRun => MatchElems(s, p[1..]) || (|s| > 0 && MatchElems(s[1..], p))
      case AnyOne => |s| > 0 && MatchElems(s[1..], p[1..])
      case Lit(c) => |s| > 0 && s[0] == c && MatchElems(s[1..], p[1..])
  }

  /** `.ilike(column, '%' + text + '%')`: the value matches the pattern built around `text`,
      ignoring the case of ASCII letters. */
  predicate ContainsLike(s: string, text: string) {
    var p := Parse(Lower("%" + text + "%"));
    p.Some? && MatchElems(Lower(s), p.value)
  }

  /** The pattern `%text%` is always well formed: a backslash at the end of `text` escapes the
      closing `%`, so the query never fails on it. */
  lemma WrappedParses(text: string)
    ensures Parse(Lower("%" + text + "%")).Some?
  {
    LowerWrapped(text);
    assert "%" + Lower(text) + "%" == ['%'] + (Lower(text) + "%");
    ClosedParses(Lower(text));
  }

  lemma LowerWrapped(text: string)
    ensures Lower("%" + text + "%") == "%" + Lower(text) + "%"
  {
  }

  lemma {:induction false} ClosedParses(x: string)
    ensures Parse(x + "%").Some?
    decreases |x|
  {
    if |x| > 0 {
      if x[0] == '\\' && |x| > 1 {
        assert (x + "%")[2..] == x[2..] + "%";
        ClosedParses(x[2..]);
      } else if x[0] != '\\' {
        assert (x + "%")[1..] == x[1..] + "%";
        ClosedParses(x[1..]);
      } else {
        assert (x + "%")[2..] == "";
      }
    }
  }

  /** The literal elements of a text. */
  function Lits(w: string): (r: seq<Elem>)
    ensures |r| == |w|
    ensures forall i :: 0 <= i < |w| ==> r[i] == Lit(w[i])
  {
    seq(|w|, i requires 0 <= i < |w| => Lit(w[i]))
  }

  /** A text without pattern characters stands for itself. */
  lemma {:induction false} ParsePlain(w: string, rest: string)
    requires forall i :: 0 <= i < |w| ==> !IsWild(w[i])
    requires Parse(rest).Some?
    ensures Parse(w + rest) == Some(Lits(w) + Parse(rest).value)
    decreases |w|
  {
    if |w| == 0 {
      assert w + rest == rest;
      assert Lits(w) + Parse(rest).value == Parse(rest).value;
    } else {
      ParsePlain(w[1..], rest);
      ParseStep(w[0], w[1..] + rest);
      assert w + rest == [w[0]] + (w[1..] + rest);
      assert ElemOf(w[0]) == Lit(w[0]) by {
        assert !IsWild(w[0]);
      }
      assert Lits(w) == [Lit(w[0])] + Lits(w[1..]);
      assert [Lit(w[0])] + (Lits(w[1..]) + Parse(rest).value) == Lits(w) + Parse(rest).value;
    }
  }

  /** Lower-casing never makes a pattern character. */
  lemma LowerPlain(w: string)
    requires forall i :: 0 <= i < |w| ==> !IsWild(w[i])
    ensures forall i :: 0 <= i < |Lower(w)| ==> !IsWild(Lower(w)[i])
  {
  }

  /** A lone `%` matches anything. */
  lemma {:induction false} RunMatchesAll(s: string, q: seq<Elem>)
    requires q == [AnyRun]
    ensures MatchElems(s, q)
    decreases |s|
  {
    if |s| > 0 {
      RunMatchesAll(s[1..], q);
    } else {
      assert MatchElems(s, q[1..]);
    }
  }

  /** Literals followed by `%` match exactly the values that start with the literals. */
  lemma {:induction false} PrefixMatch(s: string, w: string)
    ensures MatchElems(s, Lits(w) + [AnyRun]) <==> StartsWith(s, w)
    decreases |w|
  {
    var p := Lits(w) + [AnyRun];
    if |w| == 0 {
      assert p == [AnyRun];
      RunMatchesAll(s, p);
    } else {
      assert p[0] == Lit(w[0]);
      assert p[1..] == Lits(w[1..]) + [AnyRun];
      if |s| > 0 {
        PrefixMatch(s[1..], w[1..]);
        assert StartsWith(s, w) <==> s[0] == w[0] && StartsWith(s[1..], w[1..]) by {
          if |w| <= |s| {
            assert s[..|w|] == [s[0]] + s[1..][..|w| - 1];
            assert w == [w[0]] + w[1..];
          }
        }
      }
    }
  }

  /** A leading `%` lets the rest match any suffix. */
  lemma {:induction false} RunThen(s: string, q: seq<Elem>)
    ensures MatchElems(s, [AnyRun] + q) <==> exists k :: 0 <= k <= |s| && MatchElems(s[k..], q)
    decreases |s|
  {
    var p := [AnyRun] + q;
    assert p[1..] == q;
    assert s[0..] == s;
    if |s| > 0 {
      RunThen(s[1..], q);
      forall k | 1 <= k <= |s| ensures s[1..][k - 1..] == s[k..] {
      }
      if exists k :: 0 <= k <= |s| && MatchElems(s[k..], q) {
        var k :| 0 <= k <= |s| && MatchElems(s[k..], q);
        if k > 0 {
          assert MatchElems(s[1..][k - 1..], q);
        }
      }
      if MatchElems(s[1..], p) {
        var k :| 0 <= k <= |s[1..]| && MatchElems(s[1..][k..], q);
        assert s[1..][k..] == s[k + 1..];
      }
    }
  }

  /** A filter text without pattern characters matches exactly the values holding it, ignoring
      the case of ASCII letters: then `ilike` is a substring test. */
  lemma ContainsLikePlain(s: string, text: string)
    requires forall i :: 0 <= i < |text| ==> !IsWild(text[i])
    ensures ContainsLike(s, text) <==> Contains(Lower(s), Lower(text))
  {
    var w := Lower(text);
    var t := Lower(s);
    var q := Lits(w) + [AnyRun];
    PlainPattern(text);
    RunThen(t, q);
    forall k | 0 <= k <= |t| ensures MatchElems(t[k..], q) <==> StartsWith(t[k..], w) {
      PrefixMatch(t[k..], w);
    }
    ContainsSomewhere(t, w);
  }

  /** Containment is starting with the text at some position. */
  lemma ContainsSomewhere(t: string, w: string)
    ensures Contains(t, w) <==> exists k :: 0 <= k <= |t| && StartsWith(t[k..], w)
  {
    if Contains(t, w) {
      var k := IndexOf(t, w).value;
      assert StartsWith(t[k..], w);
    }
    if exists k :: 0 <= k <= |t| && StartsWith(t[k..], w) {
      var k :| 0 <= k <= |t| && StartsWith(t[k..], w);
      assert t[k..][..|w|] == t[k..k + |w|];
      ContainsAt(t, w, k);
    }
  }

  /** The pattern built around a plain text: a run, the text's letters, a run. */
  lemma PlainPattern(text: string)
    requires forall i :: 0 <= i < |text| ==> !IsWild(text[i])
    ensures Parse(Lower("%" + text + "%")) == Some([AnyRun] + (Lits(Lower(text)) + [AnyRun]))
  {
    var w := Lower(text);
    LowerWrapped(text);
    LowerPlain(text);
    ParseOne('%');
    assert "%" == ['%'];
    ParsePlain(w, "%");
    assert "%" + w + "%" == ['%'] + (w + "%");
    ParseStep('%', w + "%");
  }

  lemma ParseOne(c: char)
    requires c != '\\'
    ensures Parse([c]) == Some([ElemOf(c)])
  {
    var e: seq<Elem> := [];
    assert [c][1..] == [];
    assert Parse([c][1..]) == Some(e);
    assert [ElemOf(c)] + e == [ElemOf(c)];
  }

  lemma ParseThree(a: char, b: char, c: char)
    requires a != '\\' && b != '\\' && c != '\\'
    ensures Parse([a, b, c]) == Some([ElemOf(a), ElemOf(b), ElemOf(c)])
  {
    ParseOne(c);
    ParseStep(b, [c]);
    assert [b] + [c] == [b, c];
    assert [ElemOf(b)] + [ElemOf(c)] == [ElemOf(b), ElemOf(c)];
    ParseStep(a, [b, c]);
    assert [a] + [b, c] == [a, b, c];
    assert [ElemOf(a)] + [ElemOf(b), ElemOf(c)] == [ElemOf(a), ElemOf(b), ElemOf(c)];
  }

  /** A filter of `%` alone matches every value, where a substring test would keep only the
      values holding `%`. */
  lemma PercentMatchesAll(s: string)
    ensures ContainsLike(s, "%")
  {
    LowerWrapped("%");
    assert Lower("%") == "%";
    ParseThree('%', '%', '%');
    var q := [AnyRun, AnyRun];
    RunMatchesAll(Lower(s), [AnyRun]);
    assert MatchElems(Lower(s), q[1..]);
    assert MatchElems(Lower(s), q);
    assert [AnyRun, AnyRun, AnyRun][1..] == q;
  }

  /** A filter of `_` matches every non-empty value. */
  lemma UnderscoreMatchesAny(s: string)
    requires |s| > 0
    ensures ContainsLike(s, "_")
  {
    LowerWrapped("_");
    assert Lower("_") == "_";
    ParseThree('%', '_', '%');
    var t := Lower(s);
    var p := [AnyRun, AnyOne, AnyRun];
    RunMatchesAll(t[1..], [AnyRun]);
    assert MatchElems(t, p[1..]);
  }
}

=== FILE: mail_store.dfy ===
/**
  The tables behind the email routes: users, approval requests and the outgoing queue; the
  bearer authentication every route starts with; and the life cycle of one queued email, from
  `pending` through `processing` to `sent` or `failed`.
 */
module MailStore {
  import opened Wrappers
  import opened Text
  import opened Seqs
  import opened Sorting

  datatype User = User(id: string, username: string, email: string, role: string)

  const AdminRole := "admin"

  predicate IsAdmin(u: User) {
    u.role == AdminRole
  }

  /** The `status` column of `email_approvals`. */
  datatype ApprovalStatus = AwaitingReview | Approved | Rejected

  datatype Approval = Approval(
    applicant: string,
    approver: Option<string>,
    subject: string,
    content: string,
    recipients: seq<string>,
    status: ApprovalStatus,
    createdAt: int)

  /** The `status` column of `email_queue`. */
  datatype QueueStatus = Pending | Processing | Sent | Failed

  datatype QueueItem = QueueItem(
    approval: nat,
    recipient: string,
    subject: string,
    content: string,
    status: QueueStatus,
    retryCount: nat,
    createdAt: int,
    processedAt: Option<int>)

  /** The three tables. An approval's id is its position in `approvals` and a queue item's id its
      position in `queue`; user ids are the `users` primary key, so no two users share one. */
  datatype Store = Store(users: seq<User>, approvals: seq<Approval>, queue: seq<QueueItem>)

  /* ---------------------------------------------------------------- authentication */

  /** The user id a request claims: the header with its first `Bearer ` removed. */
  function ClaimedId(header: string): string {
    ReplaceFirst(header, "Bearer ", "")
  }

  /** `.from('users').eq('id', id).single()`: the user with that id, if there is one. */
  function FindUser(users: seq<User>, id: string): (r: Option<User>)
    ensures r.Some? ==> r.value in users && r.value.id == id
    ensures r.None? <==> forall k :: 0 <= k < |users| ==> users[k].id != id
  {
    if |users| == 0 then None
    else if users[0].id == id then Some(users[0])
    else
      var r := FindUser(users[1..], id);
      assert forall k :: 1 <= k < |users| ==> users[k] == users[1..][k - 1];
      r
  }

  /** The outcome of the authentication prologue: the caller, or the HTTP status of the refusal. */
  datatype Access = Granted(user: User) | Denied(status: int)

  /** A missing or empty `authorization` header, or an id no user has, is refused with 401. */
  function Authenticate(users: seq<User>, header: Option<string>): (r: Access)
    ensures r.Denied? ==> r.status == 401
    ensures r.Granted? <==>
      header.Some? && header.value != "" && FindUser(users, ClaimedId(header.value)).Some?
    ensures r.Granted? ==> r.user in users && r.user.id == ClaimedId(header.value)
  {
    if header.None? || header.value == "" then Denied(401)
    else
      match FindUser(users, ClaimedId(header.value))
      case None => Denied(401)
      case Some(u) => Granted(u)
  }

  /** The administrator-only routes additionally refuse an authenticated non-administrator with
      403. */
  function AuthenticateAdmin(users: seq<User>, header: Option<string>): (r: Access)
    ensures r.Granted? <==> Authenticate(users, header).Granted? && IsAdmin(Authenticate(users, header).user)
    ensures r.Granted? ==> r.user == Authenticate(users, header).user
    ensures r.Denied? ==> (r.status == 403 <==> Authenticate(users, header).Granted?)
    ensures r.Denied? ==> r.status == 401 || r.status == 403
  {
    match Authenticate(users, header)
    case Denied(s) => Denied(s)
    case Granted(u) => if IsAdmin(u) then Granted(u) else Denied(403)
  }

  /* ---------------------------------------------------------------- the life of a queue item */

  /** The status changes the routes make: a pending item is claimed, a claimed item ends sent or
      failed, and a claim older than five minutes is given back to the queue. */
  predicate Step(a: QueueStatus, b: QueueStatus) {
    (a == Pending && b == Processing) ||
    (a == Processing && (b == Sent || b == Failed || b == Pending))
  }

  /** No route changes a sent or failed item again. */
  predicate Terminal(s: QueueStatus) {
    s == Sent || s == Failed
  }

  /** Items whose retry count exceeds this are never selected again. */
  const MaxRetries := 3

  /** `.eq('status', 'pending').lte('retry_count', 3)`. */
  predicate Eligible(it: QueueItem) {
    it.status == Pending && it.retryCount <= MaxRetries
  }

  /** Marks an item `processing` at time `now`. */
  function Claim(it: QueueItem, now: int): QueueItem {
    it.(status := Processing, processedAt := Some(now))
  }

  /** Records the outcome of a send: `sent`, or `failed` with one more retry counted. */
  function Settle(it: QueueItem, delivered: bool, now: int): QueueItem {
    if delivered then it.(status := Sent, processedAt := Some(now))
    else it.(status := Failed, retryCount := it.retryCount + 1, processedAt := Some(now))
  }

  /** One attempt at a queued email: claim it, send it, settle it. Any exception on the way counts
      as a failed send, so `delivered` is false for those too. */
  function Attempt(it: QueueItem, delivered: bool, now: int): (r: QueueItem)
    ensures it.status == Pending ==> Step(it.status, Claim(it, now).status) && Step(Claim(it, now).status, r.status)
    ensures Terminal(r.status)
    ensures r.status == Sent <==> delivered
    ensures r.retryCount == if delivered then it.retryCount else it.retryCount + 1
    ensures r.processedAt == Some(now)
    ensures r.(status := it.status, retryCount := it.retryCount, processedAt := it.processedAt) == it
  {
    Settle(Claim(it, now), delivered, now)
  }

  /** The number of the items `ids` whose send succeeds. */
  function CountDelivered(ids: seq<nat>, delivered: nat -> bool): (n: nat)
    ensures n <= |ids|
  {
    if |ids| == 0 then 0 else (if delivered(ids[0]) then 1 else 0) + CountDelivered(ids[1..], delivered)
  }

  /** The queue after a pass over some of its items, and the pass's success and failure counts. */
  datatype Pass = Pass(queue: seq<QueueItem>, sent: nat, failed: nat)

  /** `for (const email of pendingEmails)`: attempts the items `ids` in order, the send of item `i`
      succeeding exactly when `delivered(i)`, at the time `clock(i)`. */
  function Run(q: seq<QueueItem>, ids: seq<nat>, delivered: nat -> bool, clock: nat -> int): (r: Pass)
    requires forall k :: 0 <= k < |ids| ==> ids[k] < |q|
    requires Distinct(ids)
    ensures |r.queue| == |q|
    ensures r.sent + r.failed == |ids|
    ensures r.sent == CountDelivered(ids, delivered)
    ensures forall i :: 0 <= i < |q| && i !in ids ==> r.queue[i] == q[i]
    ensures forall k :: 0 <= k < |ids| ==> r.queue[ids[k]] == Attempt(q[ids[k]], delivered(ids[k]), clock(ids[k]))
    decreases |ids|
  {
    if |ids| == 0 then Pass(q, 0, 0)
    else
      var i := ids[0];
      var q1 := q[i := Attempt(q[i], delivered(i), clock(i))];
      assert forall k :: 1 <= k < |ids| ==> ids[k] == ids[1..][k - 1] && ids[k] != i;
      var rest := Run(q1, ids[1..], delivered, clock);
      RunStep(q, ids, delivered, clock, rest.queue);
      if delivered(i) then Pass(rest.queue, rest.sent + 1, rest.failed)
      else Pass(rest.queue, rest.sent, rest.failed + 1)
  }

  /** Attempting the first item and then the rest touches exactly the items `ids`, each once. */
  lemma RunStep(q: seq<QueueItem>, ids: seq<nat>, delivered: nat -> bool, clock: nat -> int, after: seq<QueueItem>)
    requires |ids| > 0 && (forall k :: 0 <= k < |ids| ==> ids[k] < |q|) && Distinct(ids)
    requires var q1 := q[ids[0] := Attempt(q[ids[0]], delivered(ids[0]), clock(ids[0]))];
      |after| == |q1|
      && (forall i :: 0 <= i < |q1| && i !in ids[1..] ==> after[i] == q1[i])
      && (forall k :: 0 <= k < |ids[1..]| ==> after[ids[1..][k]] == Attempt(q1[ids[1..][k]], delivered(ids[1..][k]), clock(ids[1..][k])))
    ensures forall i :: 0 <= i < |q| && i !in ids ==> after[i] == q[i]
    ensures forall k :: 0 <= k < |ids| ==> after[ids[k]] == Attempt(q[ids[k]], delivered(ids[k]), clock(ids[k]))
  {
    var i := ids[0];
    var q1 := q[i := Attempt(q[i], delivered(i), clock(i))];
    assert i !in ids[1..];
    forall k | 0 <= k < |ids| ensures after[ids[k]] == Attempt(q[ids[k]], delivered(ids[k]), clock(ids[k])) {
      if k > 0 {
        assert ids[k] == ids[1..][k - 1] && ids[k] != i;
      }
    }
  }

  /** A pass over items that are all pending leaves every one of them sent or failed and changes
      nothing else. */
  lemma RunSettles(q: seq<QueueItem>, ids: seq<nat>, delivered: nat -> bool, clock: nat -> int)
    requires forall k :: 0 <= k < |ids| ==> ids[k] < |q| && q[ids[k]].status == Pending
    requires Distinct(ids)
    ensures forall i :: 0 <= i < |q| ==>
      var r := Run(q, ids, delivered, clock).queue[i];
      (i in ids ==> Terminal(r.status) && Step(Pending, Processing) && Step(Processing, r.status)) &&
      (i !in ids ==> r == q[i])
  {
    var r := Run(q, ids, delivered, clock);
    forall i | 0 <= i < |q| && i in ids
      ensures Terminal(r.queue[i].status) && Step(Processing, r.queue[i].status)
    {
      var k :| 0 <= k < |ids| && ids[k] == i;
      assert r.queue[i] == Attempt(q[i], delivered(i), clock(i));
    }
  }

  /* ---------------------------------------------------------------- selecting work */

  /** The `created_at` of the item with id `i`. */
  function CreatedAt(q: seq<QueueItem>): nat -> int {
    (i: nat) => if i < |q| then q[i].createdAt else 0
  }

  /** `.eq('status', 'pending').lte('retry_count', 3).order('created_at').limit(limit)`: the ids
      of at most `limit` eligible items, oldest first, none of them younger than an eligible item
      left behind, and all of them when there are fewer than `limit`. */
  function SelectOldest(q: seq<QueueItem>, limit: nat): (r: seq<nat>)
    ensures |r| <= limit
    ensures forall k :: 0 <= k < |r| ==> r[k] < |q| && Eligible(q[r[k]])
    ensures Distinct(r)
    ensures forall j, k :: 0 <= j < k < |r| ==> q[r[j]].createdAt <= q[r[k]].createdAt
    ensures |r| < limit ==> forall i :: 0 <= i < |q| && Eligible(q[i]) ==> i in r
    ensures forall i, k :: 0 <= i < |q| && Eligible(q[i]) && i !in r && 0 <= k < |r| ==>
      q[r[k]].createdAt <= q[i].createdAt
  {
    SelectedEligible(q, Where(q, Eligible, 0), Chosen(q, limit));
    SelectedOldestFirst(q, limit);
    SelectedAll(q, limit);
    Chosen(q, limit)
  }

  /** The query itself: the eligible ids in table order, cut to the `limit` oldest. */
  function Chosen(q: seq<QueueItem>, limit: nat): seq<nat> {
    SmallestN(Where(q, Eligible, 0), CreatedAt(q), limit)
  }

  lemma SelectedEligible(q: seq<QueueItem>, s: seq<nat>, r: seq<nat>)
    requires s == Where(q, Eligible, 0) && multiset(r) <= multiset(s)
    ensures forall k :: 0 <= k < |r| ==> r[k] < |q| && Eligible(q[r[k]])
    ensures Distinct(r)
  {
    AscendingDistinct(s);
    SubDistinct(s, r);
    forall k | 0 <= k < |r| ensures r[k] in s {
      assert r[k] in multiset(r);
    }
  }

  lemma SelectedOldestFirst(q: seq<QueueItem>, limit: nat)
    ensures var r := Chosen(q, limit);
      forall j, k :: 0 <= j < k < |r| && r[j] < |q| && r[k] < |q| ==> q[r[j]].createdAt <= q[r[k]].createdAt
    ensures var r := Chosen(q, limit);
      forall i, k :: 0 <= i < |q| && Eligible(q[i]) && i !in r && 0 <= k < |r| && r[k] < |q| ==>
        q[r[k]].createdAt <= q[i].createdAt
  {
    var r := Chosen(q, limit);
    SelectedEligible(q, Where(q, Eligible, 0), r);
    SelectedSorted(q, r);
    forall i, k | 0 <= i < |q| && Eligible(q[i]) && i !in r && 0 <= k < |r|
      ensures q[r[k]].createdAt <= q[i].createdAt
    {
      LeftBehindNotOlder(q, limit, i, r[k]);
    }
  }

  lemma SelectedSorted(q: seq<QueueItem>, r: seq<nat>)
    requires SortedBy(r, CreatedAt(q))
    requires forall k :: 0 <= k < |r| ==> r[k] < |q|
    ensures forall j, k :: 0 <= j < k < |r| ==> q[r[j]].createdAt <= q[r[k]].createdAt
  {
    forall j, k | 0 <= j < k < |r| ensures q[r[j]].createdAt <= q[r[k]].createdAt {
      assert CreatedAt(q)(r[j]) <= CreatedAt(q)(r[k]);
    }
  }

  lemma LeftBehindNotOlder(q: seq<QueueItem>, limit: nat, i: nat, x: nat)
    ensures i < |q| && Eligible(q[i]) && i !in Chosen(q, limit) && x in Chosen(q, limit) && x < |q| ==>
      q[x].createdAt <= q[i].createdAt
  {
    var s := Where(q, Eligible, 0);
    var r := SmallestN(s, CreatedAt(q), limit);
    if i < |q| && Eligible(q[i]) && i !in r && x in r && x < |q| {
      assert i in s;
      assert i in multiset(s) - multiset(r);
      SmallestNFirst(s, CreatedAt(q), limit, x, i);
      assert CreatedAt(q)(x) <= CreatedAt(q)(i);
    }
  }

  lemma SelectedAll(q: seq<QueueItem>, limit: nat)
    ensures |Chosen(q, limit)| < limit ==> forall i :: 0 <= i < |q| && Eligible(q[i]) ==> i in Chosen(q, limit)
  {
    var s, r := Where(q, Eligible, 0), Chosen(q, limit);
    if |r| < limit {
      forall i | 0 <= i < |q| && Eligible(q[i]) ensures i in r {
        assert i in s;
        assert i in multiset(s);
      }
    }
  }

  /** A sub-multiset of a duplicate-free sequence is duplicate-free. */
  lemma SubDistinct<T>(s: seq<T>, r: seq<T>)
    requires Distinct(s) && multiset(r) <= multiset(s)
    ensures Distinct(r)
  {
    DistinctCounts(s);
    DistinctCounts(r);
  }

  /* ---------------------------------------------------------------- counting */

  /** The number of `items` with status `s`. */
  function CountStatus(items: seq<QueueItem>, s: QueueStatus): (n: nat)
    ensures n <= |items|
  {
    if |items| == 0 then 0 else (if items[0].status == s then 1 else 0) + CountStatus(items[1..], s)
  }

  /** Every item has one of the four statuses, so the four counts add up to the total. */
  lemma {:induction false} CountsCover(items: seq<QueueItem>)
    ensures CountStatus(items, Pending) + CountStatus(items, Processing)
      + CountStatus(items, Sent) + CountStatus(items, Failed) == |items|
  {
    if |items| > 0 {
      CountsCover(items[1..]);
    }
  }

  /** Counting distributes over concatenation. */
  lemma {:induction false} CountStatusAppend(a: seq<QueueItem>, b: seq<QueueItem>, s: QueueStatus)
    ensures CountStatus(a + b, s) == CountStatus(a, s) + CountStatus(b, s)
    decreases |a|
  {
    if |a| == 0 {
      assert a + b == b;
    } else {
      assert (a + b)[1..] == a[1..] + b;
      CountStatusAppend(a[1..], b, s);
    }
  }

  /** A status count does not depend on the order of the items: lists holding the same items the
      same number of times have the same counts. */
  lemma {:induction false} CountStatusPermutation(a: seq<QueueItem>, b: seq<QueueItem>, s: QueueStatus)
    requires multiset(a) == multiset(b)
    ensures CountStatus(a, s) == CountStatus(b, s)
    decreases |a|
  {
    if |a| == 0 {
      assert |b| == |multiset(b)| == 0;
    } else {
      assert a[0] in multiset(b) by {
        assert a[0] in a;
      }
      var j :| 0 <= j < |b| && b[j] == a[0];
      var rest := b[..j] + b[j + 1..];
      WithoutHead(a);
      WithoutAt(b, j);
      CountStatusPermutation(a[1..], rest, s);
      CountStatusAt(b, j, s);
    }
  }

  lemma WithoutHead<T>(a: seq<T>)
    requires |a| > 0
    ensures multiset(a[1..]) == multiset(a) - multiset{a[0]}
  {
    assert a == [a[0]] + a[1..];
  }

  lemma WithoutAt<T>(b: seq<T>, j: nat)
    requires j < |b|
    ensures multiset(b[..j] + b[j + 1..]) == multiset(b) - multiset{b[j]}
  {
    assert b == b[..j] + [b[j]] + b[j + 1..];
  }

  /** The count of `b` is the count of item `j` plus the count of the others. */
  lemma CountStatusAt(b: seq<QueueItem>, j: nat, s: QueueStatus)
    requires j < |b|
    ensures CountStatus(b, s) == (if b[j].status == s then 1 else 0) + CountStatus(b[..j] + b[j + 1..], s)
  {
    assert b == b[..j] + ([b[j]] + b[j + 1..]);
    CountStatusAppend(b[..j], [b[j]] + b[j + 1..], s);
    CountStatusAppend(b[..j], b[j + 1..], s);
    assert ([b[j]] + b[j + 1..])[1..] == b[j + 1..];
  }
}

=== FILE: merge.dfy ===
/**
  The export merge of `merge_pages.py`: the page files (or the files several patterns match) are
  read in sorted name order, the readable ones concatenated, and rows with an already seen `URL`
  dropped, keeping the first.
 */
module Merge {
  import opened Wrappers
  import opened Text
  import opened Seqs
  import opened Sorting
  import opened Scraper

  /** Reading one CSV file either yields its rows or fails. */
  datatype FileRead = ReadOk(rows: seq<Company>) | ReadFailed

  /** A written merge: the kept rows, and the row counts before and after deduplication. */
  datatype Merged = Merged(rows: seq<Company>, before: nat, after: nat)

  const PagePrefix: string := "gai-rou_companies_pages_"
  const PageSuffix: string := ".csv"

  /** The file name matches the glob `gai-rou_companies_pages_*.csv`. */
  predicate IsPageFile(name: string) {
    |PagePrefix| + |PageSuffix| <= |name| && StartsWith(name, PagePrefix) && EndsWith(name, PageSuffix)
  }

  /** The directory entries matching the page-file glob, in listing order. */
  function PageFiles(dir: seq<string>): (r: seq<string>)
    ensures forall f :: f in r <==> f in dir && IsPageFile(f)
  {
    if |dir| == 0 then []
    else if IsPageFile(dir[0]) then [dir[0]] + PageFiles(dir[1..])
    else PageFiles(dir[1..])
  }

  /** The rows of each file that could be read, in file order; failed files are skipped. */
  function ReadAll(files: seq<string>, read: string -> FileRead): (r: seq<seq<Company>>)
    ensures |r| <= |files|
    ensures |r| == 0 <==> forall i :: 0 <= i < |files| ==> read(files[i]).ReadFailed?
  {
    if |files| == 0 then []
    else
      var rest := ReadAll(files[1..], read);
      assert forall i :: 1 <= i < |files| ==> files[i] == files[1..][i - 1];
      match read(files[0])
      case ReadOk(rows) => [rows] + rest
      case ReadFailed => rest
  }

  /** The key the merge deduplicates on. */
  function Url(c: Company): string {
    c.url
  }

  /** Reads `files` in the given order, concatenates what was read and drops every row whose URL
      already appeared. Nothing is produced without files or without a readable file. */
  function MergeFiles(files: seq<string>, read: string -> FileRead): (r: Option<Merged>)
    ensures r.None? <==> |files| == 0 || forall i :: 0 <= i < |files| ==> read(files[i]).ReadFailed?
    ensures r.Some? ==> var all := Flatten(ReadAll(files, read));
      && r.value.rows == DedupBy(all, Url, {})
      && r.value.before == |all| && r.value.after == |r.value.rows| <= r.value.before
      && Keys(r.value.rows, Url) == Keys(all, Url)
      && (forall i, j :: 0 <= i < j < |r.value.rows| ==> r.value.rows[i].url != r.value.rows[j].url)
  {
    if |files| == 0 then None
    else
      var frames := ReadAll(files, read);
      if |frames| == 0 then None
      else
        var all := Flatten(frames);
        var rows := DedupBy(all, Url, {});
        Some(Merged(rows, |all|, |rows|))
  }

  /** Re-merging a merged output removes nothing. */
  lemma MergeIdempotent(m: Merged, files: seq<string>, read: string -> FileRead)
    requires MergeFiles(files, read) == Some(m)
    ensures DedupBy(m.rows, Url, {}) == m.rows
  {
    DedupByDistinct(m.rows, Url, {});
  }

  /** Every kept row is the first row with its URL in the concatenation of the files read. */
  lemma MergeKeepsFirst(m: Merged, files: seq<string>, read: string -> FileRead, k: nat)
    requires MergeFiles(files, read) == Some(m) && k < |m.rows|
    ensures exists i :: IsFirstWithKey(Flatten(ReadAll(files, read)), Url, i) && Flatten(ReadAll(files, read))[i] == m.rows[k]
  {
    var all := Flatten(ReadAll(files, read));
    assert m.rows == DedupBy(all, Url, {});
    DedupByKeepsFirst(all, Url, {}, k);
  }

  /** Rows from an earlier file come before rows of a later one: merging the files of `a` then `b`
      keeps `a`'s merge and adds only rows of `b` whose URL `a` did not have. */
  lemma MergeAppend(a: seq<string>, b: seq<string>, read: string -> FileRead)
    ensures ReadAll(a + b, read) == ReadAll(a, read) + ReadAll(b, read)
    ensures var fa := Flatten(ReadAll(a, read));
      DedupBy(Flatten(ReadAll(a + b, read)), Url, {})
      == DedupBy(fa, Url, {}) + DedupBy(Flatten(ReadAll(b, read)), Url, Keys(fa, Url))
  {
    ReadAllAppend(a, b, read);
    FlattenAppend(ReadAll(a, read), ReadAll(b, read));
    DedupByAppend(Flatten(ReadAll(a, read)), Flatten(ReadAll(b, read)), Url, {});
    assert {} + Keys(Flatten(ReadAll(a, read)), Url) == Keys(Flatten(ReadAll(a, read)), Url);
  }

  lemma {:induction false} ReadAllAppend(a: seq<string>, b: seq<string>, read: string -> FileRead)
    ensures ReadAll(a + b, read) == ReadAll(a, read) + ReadAll(b, read)
    decreases |a|
  {
    if |a| == 0 {
      assert a + b == b;
    } else {
      assert (a + b)[1..] == a[1..] + b;
      ReadAllAppend(a[1..], b, read);
    }
  }

  /** The page files of the directory in ascending name order. */
  function SortedPageFiles(dir: seq<string>): (r: seq<string>)
    ensures StrSorted(r)
    ensures multiset(r) == multiset(PageFiles(dir))
    ensures forall f :: f in r <==> f in dir && IsPageFile(f)
  {
    SortStrings(PageFiles(dir))
  }

  /** `merge_page_files`: the page files of the directory, sorted by name, merged. Nothing is
      produced when no page file exists or none can be read. */
  function MergePageFiles(dir: seq<string>, read: string -> FileRead): (r: Option<Merged>)
    ensures r.None? <==> forall f :: f in dir && IsPageFile(f) ==> read(f).ReadFailed?
    ensures r == MergeFiles(SortedPageFiles(dir), read)
  {
    var files := SortedPageFiles(dir);
    assert |files| > 0 ==> files[0] in files;
    MergeFiles(files, read)
  }

  /** The files the patterns match, each once, in sorted order. */
  function PatternFiles(patterns: seq<string>, glob: string -> seq<string>): (r: seq<string>)
    ensures StrSorted(r) && Distinct(r)
    ensures forall f :: f in r <==> exists i :: 0 <= i < |patterns| && f in glob(patterns[i])
  {
    var parts := seq(|patterns|, i requires 0 <= i < |patterns| => glob(patterns[i]));
    forall f ensures f in Flatten(parts) <==> exists i :: 0 <= i < |parts| && f in parts[i] {
      FlattenMember(parts, f);
    }
    assert forall i :: 0 <= i < |patterns| ==> parts[i] == glob(patterns[i]);
    SortStrings(Dedup(Flatten(parts)))
  }

  /** `merge_specific_files`: the matched files, each once, sorted by name, merged. */
  function MergeSpecificFiles(patterns: seq<string>, glob: string -> seq<string>, read: string -> FileRead): (r: Option<Merged>)
    ensures (forall i :: 0 <= i < |patterns| ==> |glob(patterns[i])| == 0) ==> r.None?
    ensures r == MergeFiles(PatternFiles(patterns, glob), read)
  {
    var files := PatternFiles(patterns, glob);
    assert |files| > 0 ==> files[0] in files;
    MergeFiles(files, read)
  }

  /** The written table: the header in column order, then each kept row's cells. */
  function OutputTable(m: Merged): (r: seq<seq<string>>)
    ensures |r| == |m.rows| + 1 && r[0] == Columns
    ensures forall i :: 0 <= i < |m.rows| ==> |r[i + 1]| == |Columns| && r[i + 1][4] == m.rows[i].url
  {
    [Columns] + seq(|m.rows|, i requires 0 <= i < |m.rows| => Cells(m.rows[i]))
  }
}

=== FILE: outgoing_mail.dfy ===
/**
  The message the queue sends (`app/api/email-queue/process/route.ts`): the subject as an
  RFC 2047 encoded-word when it is not plain ASCII, the fixed header lines, an empty line and
  the HTML body joined with CRLF (RFC 5322, section 2.1), and the whole message as unpadded
  base64url (RFC 4648, section 5) in the API's `raw` field.

  The sender address, the Message-ID and the date come from the environment, a random number
  and the clock; they are fields of the envelope.
 */
module OutgoingMail {
  import opened Wrappers
  import opened Text
  import opened Utf8
  import Base64
  import opened HeaderText

  // ---------------------------------------------------------------------------------------------
  // The subject

  const WordPrefix: string := "=?UTF-8?B?"
  const WordSuffix: string := "?="

  /** `/[^\x00-\x7F]/.test(s)` */
  predicate HasNonAscii(s: string) {
    exists i :: 0 <= i < |s| && !IsAsciiChar(s[i])
  }

  /** `encodeSubject`: an ASCII subject as it is; any other as one encoded-word with the 'B'
      encoding of its UTF-8 bytes (sections 2 and 4.1 of RFC 2047). */
  function EncodeSubject(subject: string): (r: string)
    ensures !HasNonAscii(subject) ==> r == subject
    ensures HasNonAscii(subject) ==> StartsWith(r, WordPrefix) && EndsWith(r, WordSuffix)
    ensures HasNonAscii(subject) ==> |r| == |WordPrefix| + |WordSuffix| + 4 * ((|Utf8.Encode(subject)| + 2) / 3)
  {
    if HasNonAscii(subject) then
      var r := WordPrefix + Base64.Encode(Utf8.Encode(subject)) + WordSuffix;
      assert r[..|WordPrefix|] == WordPrefix;
      assert r[|r| - |WordSuffix|..] == WordSuffix;
      r
    else subject
  }

  /** How a reader decodes a header value that is one `B`-encoded UTF-8 encoded-word; nothing
      when the value is not one. */
  function DecodeWord(h: string): (r: Option<string>)
  {
    if |h| >= |WordPrefix| + |WordSuffix| && StartsWith(h, WordPrefix) && EndsWith(h, WordSuffix) then
      match Base64.Decode(h[|WordPrefix|..|h| - |WordSuffix|])
      case None => None
      case Some(bs) => Utf8.Decode(bs)
    else None
  }

  /** What a reader shows for a `Subject:` value. */
  function ShownSubject(h: string): string {
    match DecodeWord(h)
    case Some(s) => s
    case None => h
  }

  /** The encoded text holds only base64 characters, so no `?`, no space and no line break, as
      section 2 of RFC 2047 requires of an encoded-word. */
  lemma EncodedTextIsToken(subject: string, i: nat)
    requires HasNonAscii(subject)
    requires |WordPrefix| <= i < |EncodeSubject(subject)| - |WordSuffix|
    ensures Base64.IsStandardChar(EncodeSubject(subject)[i])
  {
    var e := Base64.Encode(Utf8.Encode(subject));
    Base64.EncodeChars(Utf8.Encode(subject));
    EncodedWord(subject);
    WordCharAt(e, i);
  }

  lemma EncodedWord(subject: string)
    requires HasNonAscii(subject)
    ensures EncodeSubject(subject) == WordPrefix + Base64.Encode(Utf8.Encode(subject)) + WordSuffix
  {
  }

  lemma WordCharAt(e: string, i: nat)
    requires |WordPrefix| <= i < |WordPrefix| + |e|
    ensures (WordPrefix + e + WordSuffix)[i] == e[i - |WordPrefix|]
  {
  }

  /** A reader shows the subject that was given: an encoded subject decodes back to it, and an
      ASCII subject is shown as it is unless it is itself an encoded-word. */
  lemma SubjectRoundTrip(subject: string)
    requires HasNonAscii(subject) || DecodeWord(subject).None?
    ensures ShownSubject(EncodeSubject(subject)) == subject
  {
    if HasNonAscii(subject) {
      var bs := Utf8.Encode(subject);
      var h := EncodeSubject(subject);
      assert h[|WordPrefix|..|h| - |WordSuffix|] == Base64.Encode(bs);
      Base64.EncodeIff(bs, Base64.Encode(bs));
      Utf8.DecodeEncode(subject);
    }
  }

  // ---------------------------------------------------------------------------------------------
  // The body

  /** `encodeContent`: the content through UTF-8 and back, which leaves every string of
      scalar values as it was. */
  function EncodeContent(content: string): (r: string)
    ensures r == content
  {
    Utf8.DecodeEncode(content);
    Utf8.Decode(Utf8.Encode(content)).value
  }

  // ---------------------------------------------------------------------------------------------
  // The message

  const Crlf: string := "\r\n"

  datatype Envelope = Envelope(from: string, to: string, subject: string, messageId: string, date: string)

  /** The header lines, in the order `sendSingleEmail` writes them. */
  function HeaderLines(e: Envelope): seq<string> {
    [ FromName + e.from,
      ToName + e.to,
      SubjectName + EncodeSubject(e.subject),
      MessageIdName + e.messageId,
      DateName + e.date,
      MimeVersion,
      Mailer,
      ContentType,
      TransferEncoding ]
  }

  /** `headers.join('\r\n')` over the header lines, an empty line and the body. */
  function Message(e: Envelope, html: string): (r: string)
    ensures r == Join(HeaderLines(e), Crlf) + Crlf + Crlf + html
  {
    var lines := HeaderLines(e) + ["", EncodeContent(html)];
    JoinAppend(HeaderLines(e), ["", html], Crlf);
    Join(lines, Crlf)
  }

  lemma {:induction false} JoinAppend(a: seq<string>, b: seq<string>, sep: string)
    requires |a| > 0 && |b| > 0
    ensures Join(a + b, sep) == Join(a, sep) + sep + Join(b, sep)
    decreases |a|
  {
    if |a| == 1 {
      assert (a + b)[1..] == b;
    } else {
      assert (a + b)[1..] == a[1..] + b;
      JoinAppend(a[1..], b, sep);
    }
  }

  /** How a reader separates a message: the header section up to the first empty line, and
      the body after it (section 2.1 of RFC 5322). */
  function SplitMessage(m: string): (r: Option<(string, string)>)
  {
    match IndexOf(m, Crlf + Crlf)
    case None => None
    case Some(i) => Some((m[..i], m[i + 4..]))
  }

  /** When the envelope's fields hold no line break, a reader finds exactly the header lines and
      the body that were written, whatever the body holds. */
  lemma MessageRoundTrip(e: Envelope, html: string)
    requires NoLineBreak(e.from) && NoLineBreak(e.to) && NoLineBreak(e.subject)
    requires NoLineBreak(e.messageId) && NoLineBreak(e.date)
    ensures SplitMessage(Message(e, html)) == Some((Join(HeaderLines(e), Crlf), html))
  {
    HeaderLinesClean(e);
    CrInJoin(HeaderLines(e));
    SplitAtBlankLine(Join(HeaderLines(e), Crlf), html);
  }

  /** Every header line is non-empty and free of line breaks when the fields are. */
  lemma HeaderLinesClean(e: Envelope)
    requires NoLineBreak(e.from) && NoLineBreak(e.to) && NoLineBreak(e.subject)
    requires NoLineBreak(e.messageId) && NoLineBreak(e.date)
    ensures forall k :: 0 <= k < |HeaderLines(e)| ==> |HeaderLines(e)[k]| > 0 && NoLineBreak(HeaderLines(e)[k])
  {
    SubjectNoLineBreak(e.subject);
    FixedTextClean();
    var lines := HeaderLines(e);
  }

  /** A header section without an empty line is split off at the blank line that follows it. */
  lemma SplitAtBlankLine(h: string, html: string)
    requires CrOnlySeparates(h)
    ensures SplitMessage(h + Crlf + Crlf + html) == Some((h, html))
  {
    var m := h + Crlf + Crlf + html;
    assert m[|h|..|h| + 4] == Crlf + Crlf;
    forall j | 0 <= j < |h| ensures !StartsWith(m[j..], Crlf + Crlf) {
      assert m[j..][0] == h[j];
      if h[j] == '\r' {
        assert m[j..][2] == h[j + 2];
        NotStartsWith(m[j..], Crlf + Crlf, 2);
      } else {
        NotStartsWith(m[j..], Crlf + Crlf, 0);
      }
    }
    IndexOfFirst(m, Crlf + Crlf, |h|);
    assert m[..|h|] == h && m[|h| + 4..] == html;
  }

  lemma SubjectNoLineBreak(subject: string)
    requires NoLineBreak(subject)
    ensures NoLineBreak(EncodeSubject(subject))
  {
    if HasNonAscii(subject) {
      var h := EncodeSubject(subject);
      forall i | 0 <= i < |h| ensures h[i] != '\r' && h[i] != '\n' {
        if i < |WordPrefix| {
          assert h[i] == WordPrefix[i];
        } else if i >= |h| - |WordSuffix| {
          assert h[i] == WordSuffix[i - (|h| - |WordSuffix|)];
        } else {
          EncodedTextIsToken(subject, i);
        }
      }
    }
  }

  /** Every carriage return in `h` is followed by a line feed and then by something other than
      a carriage return, so `h` holds no empty line. */
  predicate CrOnlySeparates(h: string) {
    forall j :: 0 <= j < |h| && h[j] == '\r' ==> j + 2 < |h| && h[j + 1] == '\n' && h[j + 2] != '\r'
  }

  /** In lines joined with CRLF, a carriage return is always a separator: a line feed follows,
      and then the first character of a non-empty line. */
  lemma {:induction false} CrInJoin(lines: seq<string>)
    requires |lines| > 0
    requires forall k :: 0 <= k < |lines| ==> |lines[k]| > 0 && NoLineBreak(lines[k])
    ensures CrOnlySeparates(Join(lines, Crlf))
    decreases |lines|
  {
    if |lines| > 1 {
      var rest := Join(lines[1..], Crlf);
      CrInJoin(lines[1..]);
      var h := Join(lines, Crlf);
      assert h == lines[0] + Crlf + rest;
      var n := |lines[0]|;
      assert |rest| > 0 by {
        JoinFirst(lines[1..]);
      }
      JoinFirst(lines[1..]);
      forall j | 0 <= j < |h| ensures h[j] == '\r' ==> j + 2 < |h| && h[j + 1] == '\n' && h[j + 2] != '\r' {
        if j < n {
          assert h[j] == lines[0][j];
        } else if j > n + 1 {
          assert h[j] == rest[j - n - 2];
          if h[j] == '\r' {
            assert h[j + 1] == rest[j - n - 1] && h[j + 2] == rest[j - n];
          }
        }
      }
    }
  }

  /** A join of non-empty lines starts with the first line's first character. */
  lemma JoinFirst(lines: seq<string>)
    requires |lines| > 0 && |lines[0]| > 0
    ensures |Join(lines, Crlf)| > 0 && Join(lines, Crlf)[0] == lines[0][0]
  {
  }

  // ---------------------------------------------------------------------------------------------
  // The `raw` field

  /** `s.replace(/c/g, d)` for one character. */
  function ReplaceAll(s: string, c: char, d: char): (r: string)
    ensures |r| == |s|
    ensures forall i :: 0 <= i < |s| ==> r[i] == if s[i] == c then d else s[i]
    decreases |s|
  {
    if |s| == 0 then "" else [if s[0] == c then d else s[0]] + ReplaceAll(s[1..], c, d)
  }

  /** `s.replace(/c+$/, '')`: the longest run of `c` at the end removed. */
  function TrimTrailing(s: string, c: char): (r: string)
    ensures |r| <= |s| && r == s[..|r|]
    ensures |r| > 0 ==> r[|r| - 1] != c
    ensures forall i :: |r| <= i < |s| ==> s[i] == c
    decreases |s|
  {
    if |s| > 0 && s[|s| - 1] == c then TrimTrailing(s[..|s| - 1], c) else s
  }

  /** The `raw` value: the message's UTF-8 bytes in base64, `+` and `/` replaced, trailing
      `=` removed. */
  function Raw(m: string): (r: string)
    ensures r == Base64.EncodeUrl(Utf8.Encode(m))
    ensures forall i :: 0 <= i < |r| ==> r[i] != '+' && r[i] != '/' && r[i] != '='
  {
    var bs := Utf8.Encode(m);
    RawIsUrlSafe(bs);
    TrimTrailing(ReplaceAll(ReplaceAll(Base64.Encode(bs), '+', '-'), '/', '_'), '=')
  }

  /** The three replacements turn the padded standard encoding into the unpadded URL-safe
      one. */
  lemma RawIsUrlSafe(bs: seq<byte>)
    ensures TrimTrailing(ReplaceAll(ReplaceAll(Base64.Encode(bs), '+', '-'), '/', '_'), '=') == Base64.EncodeUrl(bs)
  {
    var vs := Base64.Pack(bs);
    var std := Base64.Symbols(Base64.Standard, vs);
    var url := Base64.Symbols(Base64.UrlSafe, vs);
    var pad := Base64.Padding(|bs|);
    var t := ReplaceAll(ReplaceAll(std + pad, '+', '-'), '/', '_');
    SymbolsSwap(vs);
    Base64.SymbolsInAlphabet(Base64.UrlSafe, vs);
    assert t == url + pad;
    assert |url| > 0 ==> url[|url| - 1] != '=';
    TrimPadding(url, pad);
  }

  /** Replacing `+` by `-` and `/` by `_` maps Table 1 characters to Table 2 characters. */
  lemma SymbolsSwap(vs: seq<Base64.sextet>)
    ensures ReplaceAll(ReplaceAll(Base64.Symbols(Base64.Standard, vs), '+', '-'), '/', '_') == Base64.Symbols(Base64.UrlSafe, vs)
  {
    var std := Base64.Symbols(Base64.Standard, vs);
    var url := Base64.Symbols(Base64.UrlSafe, vs);
    forall i | 0 <= i < |vs| ensures std[i] == Base64.Symbol(Base64.Standard, vs[i]) && url[i] == Base64.Symbol(Base64.UrlSafe, vs[i]) {
      SymbolAt(Base64.Standard, vs, i);
      SymbolAt(Base64.UrlSafe, vs, i);
    }
  }

  lemma {:induction false} SymbolAt(a: Base64.Alphabet, vs: seq<Base64.sextet>, i: nat)
    requires i < |vs|
    ensures Base64.Symbols(a, vs)[i] == Base64.Symbol(a, vs[i])
    decreases i
  {
    if i > 0 {
      SymbolAt(a, vs[1..], i - 1);
    }
  }

  lemma {:induction false} TrimPadding(body: string, pad: string)
    requires |body| > 0 ==> body[|body| - 1] != '='
    requires forall i :: 0 <= i < |pad| ==> pad[i] == '='
    ensures TrimTrailing(body + pad, '=') == body
    decreases |pad|
  {
    if |pad| == 0 {
      assert body + pad == body;
    } else {
      var shorter := pad[..|pad| - 1];
      assert (body + pad)[..|body + pad| - 1] == body + shorter;
      TrimPadding(body, shorter);
    }
  }

  /** The receiving side gets the message back from `raw`: decoding the base64url text gives
      the UTF-8 bytes, and those decode to the message. */
  lemma RawRoundTrip(m: string)
    ensures match Base64.DecodeUrl(Raw(m))
      case Some(bs) => Utf8.Decode(bs) == Some(m)
      case None => false
  {
    Base64.EncodeUrlIff(Utf8.Encode(m), Raw(m));
    Utf8.DecodeEncode(m);
  }
}

=== FILE: paging.dfy ===
/**
  Paged listings, as the admin lists of approval requests and unsubscriptions read them: the rows
  a filter keeps, newest first, cut to the window `.range(from, to)` of one page.
 */
module Paging {
  import opened Seqs
  import opened Sorting

  const DefaultPage := 1
  const DefaultPageSize := 50

  /** `.range(from, to)`: the rows at positions `from` through `to` that exist. */
  function Window<T>(s: seq<T>, from: int, to: int): (r: seq<T>)
    ensures |r| <= if to < from then 0 else to - from + 1
    ensures 0 <= from ==> forall k :: 0 <= k < |r| ==> from + k < |s| && r[k] == s[from + k]
    ensures 0 <= from <= to < |s| ==> |r| == to - from + 1
  {
    var lo := if from < 0 then 0 else if from > |s| then |s| else from;
    var hi := if to + 1 < lo then lo else if to + 1 > |s| then |s| else to + 1;
    s[lo..hi]
  }

  /** Page `page` of `size` rows: `from = (page - 1) * pageSize`, `to = from + pageSize - 1`. */
  function Page<T>(s: seq<T>, page: int, size: int): seq<T> {
    Window(s, (page - 1) * size, (page - 1) * size + size - 1)
  }

  /** PostgREST reads `.range(from, to)` as the offset `from` and the row count `to - from + 1`,
      and refuses either when it is negative: the query fails, and the listing routes answer 500. */
  predicate RangeAccepted(page: int, size: int) {
    (page - 1) * size >= 0 && size >= 0
  }

  /** A page is accepted exactly when its size is zero, or positive with the page number at least
      one: `page=0` or a negative `pageSize` fails the query. */
  lemma RangeAcceptedWhen(page: int, size: int)
    ensures RangeAccepted(page, size) <==> size == 0 || (size > 0 && page >= 1)
  {
    if size > 0 && page < 1 {
      assert (page - 1) * size < 0 by {
        assert (1 - page) * size > 0;
      }
    }
    if size > 0 && page >= 1 {
      assert (page - 1) * size >= 0;
    }
  }

  /** Pages one to `m`, one after the other. */
  function FirstPages<T>(s: seq<T>, size: int, m: nat): seq<T> {
    if m == 0 then [] else FirstPages(s, size, m - 1) + Page(s, m, size)
  }

  /** The pages tile the list: read in order, the first `m` pages are exactly its first `m * size`
      rows, so no row is shown twice and none is skipped. */
  lemma {:induction false} PagesTile<T>(s: seq<T>, size: nat, m: nat)
    requires size >= 1
    ensures FirstPages(s, size, m) == s[..Min(m * size, |s|)]
  {
    if m > 0 {
      PagesTile(s, size, m - 1);
      assert (m - 1) * size + size == m * size;
      var lo := Min((m - 1) * size, |s|);
      var hi := Min(m * size, |s|);
      assert Page(s, m, size) == s[lo..hi];
      assert s[..lo] + s[lo..hi] == s[..hi];
    }
  }

  /** Every row of a window is a row of the list. */
  lemma WindowMembers<T>(s: seq<T>, from: int, to: int)
    ensures forall x :: x in Window(s, from, to) ==> x in s
  {
  }

  /** `.order('created_at', { ascending: false })`: the key that puts newer rows first. */
  function NewerFirst<T>(s: seq<T>, created: T -> int): nat -> int {
    (i: nat) => if i < |s| then -created(s[i]) else 0
  }

  /** The positions of the rows that `keep` keeps, newest first: a filtered query ordered by
      creation time, descending, before the range is applied. */
  function NewestMatching<T>(s: seq<T>, keep: T -> bool, created: T -> int): (r: seq<nat>)
    ensures forall i: nat :: i in r <==> i < |s| && keep(s[i])
    ensures |r| == |Where(s, keep, 0)|
    ensures forall k :: 0 <= k < |r| ==> r[k] < |s|
    ensures forall j, k :: 0 <= j < k < |r| ==> created(s[r[k]]) <= created(s[r[j]])
  {
    var ids := Where(s, keep, 0);
    var r := SortBy(ids, NewerFirst(s, created));
    MatchingMembers(s, keep, ids, r);
    NewerFirstOrder(s, created, r);
    r
  }

  lemma MatchingMembers<T>(s: seq<T>, keep: T -> bool, ids: seq<nat>, r: seq<nat>)
    requires ids == Where(s, keep, 0)
    requires multiset(ids) == multiset(r)
    ensures forall i: nat :: i in r <==> i < |s| && keep(s[i])
    ensures forall k :: 0 <= k < |r| ==> r[k] < |s|
  {
    SameMembers(ids, r);
    forall k | 0 <= k < |r| ensures r[k] < |s| {
      assert r[k] in ids;
    }
  }

  lemma NewerFirstOrder<T>(s: seq<T>, created: T -> int, r: seq<nat>)
    requires SortedBy(r, NewerFirst(s, created))
    requires forall k :: 0 <= k < |r| ==> r[k] < |s|
    ensures forall j, k :: 0 <= j < k < |r| ==> created(s[r[k]]) <= created(s[r[j]])
  {
    forall j, k | 0 <= j < k < |r| ensures created(s[r[k]]) <= created(s[r[j]]) {
      assert NewerFirst(s, created)(r[j]) <= NewerFirst(s, created)(r[k]);
    }
  }
}

=== FILE: queue_routes.dfy ===
/**
  The queue routes. `POST /api/email-queue` puts an approval request's recipients on the queue
  and marks the request approved; `GET /api/email-queue` reports how far the delivery of one
  request has got; `POST /api/email-queue/process` sends the ten oldest pending emails.
 */
module QueueRoutes {
  import opened Wrappers
  import opened Seqs
  import opened Sorting
  import opened MailStore

  /* ---------------------------------------------------------------- POST /api/email-queue */

  /** One pending queue item per recipient of approval `id`, in recipient order, created at
      `now`. The retry count is the column default, zero. */
  function NewItems(id: nat, a: Approval, now: int): (r: seq<QueueItem>)
    ensures |r| == |a.recipients|
    ensures forall k :: 0 <= k < |r| ==> r[k].recipient == a.recipients[k]
    ensures forall k :: 0 <= k < |r| ==>
      Eligible(r[k]) && r[k].approval == id && r[k].subject == a.subject && r[k].content == a.content
  {
    seq(|a.recipients|, k requires 0 <= k < |a.recipients| =>
      QueueItem(id, a.recipients[k], a.subject, a.content, Pending, 0, now, None))
  }

  /** The reply of a route that may change the store: its HTTP status, the store afterwards and
      the number of emails queued. */
  datatype Reply = Reply(status: int, store: Store, count: nat)

  /** Whether approval `id` exists and is still awaiting review. */
  predicate Reviewable(st: Store, id: int) {
    0 <= id < |st.approvals| && st.approvals[id].status == AwaitingReview
  }

  /** The approval after an administrator has approved it. */
  function ApprovedBy(a: Approval, approver: string): Approval {
    a.(status := Approved, approver := Some(approver))
  }

  /** Queues approval `approvalId` on behalf of an administrator. The queue insert happens before
      the approval is updated, so a failed update leaves the emails queued and the request still
      awaiting review. */
  function Enqueue(st: Store, header: Option<string>, approvalId: int, now: int, insertFails: bool, updateFails: bool): (r: Reply)
    ensures AuthenticateAdmin(st.users, header).Denied? ==>
      r.status == AuthenticateAdmin(st.users, header).status && r.store == st
    ensures AuthenticateAdmin(st.users, header).Granted? && !(0 <= approvalId < |st.approvals|) ==>
      r.status == 404 && r.store == st
    ensures (AuthenticateAdmin(st.users, header).Granted? && 0 <= approvalId < |st.approvals| &&
      !Reviewable(st, approvalId)) ==> r.status == 400 && r.store == st
    ensures r.status == 200 <==>
      AuthenticateAdmin(st.users, header).Granted? && Reviewable(st, approvalId) && !insertFails && !updateFails
    ensures r.status == 200 ==>
      var a := st.approvals[approvalId];
      r.store.users == st.users &&
      r.store.queue == st.queue + NewItems(approvalId, a, now) &&
      r.store.approvals == st.approvals[approvalId := ApprovedBy(a, AuthenticateAdmin(st.users, header).user.id)] &&
      r.count == |a.recipients|
    ensures r.status != 200 ==> r.store.approvals == st.approvals && r.count == 0
  {
    match AuthenticateAdmin(st.users, header)
    case Denied(s) => Reply(s, st, 0)
    case Granted(caller) =>
      if !(0 <= approvalId < |st.approvals|) then Reply(404, st, 0)
      else
        var a := st.approvals[approvalId];
        if a.status != AwaitingReview then Reply(400, st, 0)
        else if insertFails then Reply(500, st, 0)
        else
          var queued := st.(queue := st.queue + NewItems(approvalId, a, now));
          if updateFails then Reply(500, queued, 0)
          else
            Reply(200, queued.(approvals := st.approvals[approvalId := ApprovedBy(a, caller.id)]), |a.recipients|)
  }

  /** A request that has been queued is no longer awaiting review, so queueing it again is
      refused with 400 and changes nothing. */
  lemma EnqueueOnce(st: Store, header: Option<string>, id: int, now: int, now': int, insertFails: bool, updateFails: bool)
    requires Enqueue(st, header, id, now, false, false).status == 200
    ensures var st' := Enqueue(st, header, id, now, false, false).store;
      Enqueue(st', header, id, now', insertFails, updateFails) == Reply(400, st', 0)
  {
    var st' := Enqueue(st, header, id, now, false, false).store;
    assert st'.users == st.users;
    assert st'.approvals[id].status == Approved;
  }

  /** When the status update fails after the insert, the emails stay queued while the request
      still awaits review; queueing it again then puts a second copy of every email on the
      queue. */
  lemma EnqueueRetryDuplicates(st: Store, header: Option<string>, id: int, now: int, now': int)
    requires AuthenticateAdmin(st.users, header).Granted? && Reviewable(st, id)
    ensures var first := Enqueue(st, header, id, now, false, true);
      var second := Enqueue(first.store, header, id, now', false, false);
      var a := st.approvals[id];
      first.status == 500 && Reviewable(first.store, id) &&
      second.status == 200 &&
      second.store.queue == st.queue + NewItems(id, a, now) + NewItems(id, a, now')
  {
    var first := Enqueue(st, header, id, now, false, true);
    assert first.store.users == st.users && first.store.approvals == st.approvals;
  }

  /* ---------------------------------------------------------------- GET /api/email-queue */

  /** `Math.round(completed / total * 100)`, or 0 for an empty queue: the whole percentage
      nearest to the share completed, a half rounded up. */
  function Progress(completed: nat, total: nat): (p: nat)
    ensures completed <= total ==> p <= 100
    ensures 0 < total && completed == total ==> p == 100
    ensures completed == 0 ==> p == 0
  {
    if total == 0 then 0
    else
      ProgressAtMost(completed, total);
      ProgressEnds(completed, total);
      (200 * completed + total) / (2 * total)
  }

  lemma ProgressEnds(completed: nat, total: nat)
    requires 0 < total
    ensures completed == total ==> (200 * completed + total) / (2 * total) == 100
    ensures completed == 0 ==> (200 * completed + total) / (2 * total) == 0
  {
    if completed == total {
      DivIff(201 * total, 2 * total, 100);
    }
    if completed == 0 {
      DivIff(total, 2 * total, 0);
    }
  }

  lemma ProgressAtMost(completed: nat, total: nat)
    requires 0 < total
    ensures completed <= total ==> (200 * completed + total) / (2 * total) <= 100
  {
    if completed <= total {
      DivBelow(200 * completed + total, 2 * total, 101);
    }
  }

  lemma DivBelow(a: int, b: int, m: int)
    requires b > 0 && a < b * m
    ensures a / b < m
  {
    var d := a / b;
    if d >= m {
      MulMonotone(b, m, d);
    }
  }

  /** `q` is the quotient of `a` by `b` exactly when `b * q <= a < b * q + b`. */
  lemma DivIff(a: int, b: int, q: int)
    requires b > 0
    ensures a / b == q <==> b * q <= a < b * q + b
  {
    var d := a / b;
    assert b * d <= a < b * d + b;
    if b * q <= a < b * q + b {
      if q < d {
        MulMonotone(b, q + 1, d);
      } else if d < q {
        MulMonotone(b, d + 1, q);
      }
    }
  }

  lemma MulMonotone(b: int, x: int, y: int)
    requires b > 0 && x <= y
    ensures b * x <= b * y
  {
  }

  /** Rounding half up: the progress is the `p` with `p - 1/2 <= 100 * completed / total < p + 1/2`,
      and it is the only such integer. */
  lemma ProgressNearest(completed: nat, total: nat, p: int)
    requires total > 0
    ensures Progress(completed, total) == p <==>
      2 * total * p - total <= 200 * completed < 2 * total * p + total
  {
    DivIff(200 * completed + total, 2 * total, p);
  }

  /** The `stats` object of the reply. */
  datatype Stats = Stats(total: nat, pending: nat, processing: nat, sent: nat, failed: nat, completed: nat, progress: nat)

  function StatsOf(items: seq<QueueItem>): (r: Stats)
    ensures r.pending == CountStatus(items, Pending) && r.processing == CountStatus(items, Processing)
    ensures r.sent == CountStatus(items, Sent) && r.failed == CountStatus(items, Failed)
    ensures r.progress == Progress(r.completed, r.total)
    ensures r.pending + r.processing + r.sent + r.failed == r.total == |items|
    ensures r.completed == r.sent + r.failed && r.progress <= 100
    ensures r.total > 0 && r.completed == r.total ==> r.progress == 100
    ensures r.completed == 0 ==> r.progress == 0
  {
    CountsCover(items);
    var sent := CountStatus(items, Sent);
    var failed := CountStatus(items, Failed);
    Stats(|items|, CountStatus(items, Pending), CountStatus(items, Processing), sent, failed,
      sent + failed, Progress(sent + failed, |items|))
  }

  /** The items with the ids `ids`, in that order. */
  function Pick(q: seq<QueueItem>, ids: seq<nat>): (r: seq<QueueItem>)
    requires forall k :: 0 <= k < |ids| ==> ids[k] < |q|
    ensures |r| == |ids| && forall k :: 0 <= k < |ids| ==> r[k] == q[ids[k]]
  {
    seq(|ids|, k requires 0 <= k < |ids| => q[ids[k]])
  }

  /** The filter `.eq('approval_id', id)`. */
  function OfApproval(id: nat): QueueItem -> bool {
    (it: QueueItem) => it.approval == id
  }

  function Created(it: QueueItem): int {
    it.createdAt
  }

  /** `.eq('approval_id', id).order('created_at')`: the items of approval `id`, oldest first. */
  function ItemsOf(q: seq<QueueItem>, id: nat): (r: seq<QueueItem>)
    ensures forall it :: it in r ==> it in q && it.approval == id
    ensures forall it :: it in q && it.approval == id ==> it in r
    ensures |r| == |Where(q, OfApproval(id), 0)|
    ensures multiset(r) == multiset(Pick(q, Where(q, OfApproval(id), 0)))
    ensures SortedBy(r, Created)
  {
    var ids := Where(q, OfApproval(id), 0);
    var items := Pick(q, ids);
    var r := SortBy(items, Created);
    SameMembers(items, r);
    PickedMatches(q, OfApproval(id), ids, items);
    r
  }

  /** The ordering by creation time does not change the statistics: they are those of the
      request's items read in table order. */
  lemma StatsIgnoreOrder(q: seq<QueueItem>, id: nat)
    ensures StatsOf(ItemsOf(q, id)) == StatsOf(Pick(q, Where(q, OfApproval(id), 0)))
  {
    var a := ItemsOf(q, id);
    var b := Pick(q, Where(q, OfApproval(id), 0));
    CountStatusPermutation(a, b, Pending);
    CountStatusPermutation(a, b, Processing);
    CountStatusPermutation(a, b, Sent);
    CountStatusPermutation(a, b, Failed);
  }

  /** The items picked by `Where` are exactly the items of `q` that satisfy `p`. */
  lemma PickedMatches(q: seq<QueueItem>, p: QueueItem -> bool, ids: seq<nat>, items: seq<QueueItem>)
    requires ids == Where(q, p, 0)
    requires items == Pick(q, ids)
    ensures forall it :: it in items <==> it in q && p(it)
  {
    forall it | it in q && p(it) ensures it in items {
      var i :| 0 <= i < |q| && q[i] == it;
      assert i in ids;
      var k :| 0 <= k < |ids| && ids[k] == i;
      assert items[k] == it;
    }
  }

  /** Every item of `items` has status `s`. */
  lemma {:induction false} CountAll(items: seq<QueueItem>, s: QueueStatus)
    requires forall it :: it in items ==> it.status == s
    ensures CountStatus(items, s) == |items|
  {
    if |items| > 0 {
      assert forall it :: it in items[1..] ==> it in items;
      CountAll(items[1..], s);
    }
  }

  datatype StatusReply = StatusRefused(status: int) | StatusReport(items: seq<QueueItem>, stats: Stats)

  /** Any authenticated user may ask; a missing or empty `approvalId` is refused with 400. */
  function QueueStatus(st: Store, header: Option<string>, approvalId: Option<nat>, fetchFails: bool): (r: StatusReply)
    ensures Authenticate(st.users, header).Denied? ==> r == StatusRefused(401)
    ensures Authenticate(st.users, header).Granted? && approvalId.None? ==> r == StatusRefused(400)
    ensures r.StatusReport? <==> Authenticate(st.users, header).Granted? && approvalId.Some? && !fetchFails
    ensures r.StatusReport? ==> r.stats == StatsOf(r.items)
    ensures r.StatusReport? ==> forall it :: it in r.items ==> it in st.queue && it.approval == approvalId.value
    ensures r.StatusReport? ==> forall it :: it in st.queue && it.approval == approvalId.value ==> it in r.items
    ensures r.StatusReport? ==> r.items == ItemsOf(st.queue, approvalId.value)
  {
    match Authenticate(st.users, header)
    case Denied(s) => StatusRefused(s)
    case Granted(_) =>
      if approvalId.None? then StatusRefused(400)
      else if fetchFails then StatusRefused(500)
      else
        var items := ItemsOf(st.queue, approvalId.value);
        StatusReport(items, StatsOf(items))
  }

  /* ---------------------------------------------------------------- POST /api/email-queue/process */

  /** How many pending emails one call sends at most. */
  const ProcessLimit := 10

  /** One entry of the reply's `results`: the item id, its recipient and whether the send
      succeeded. */
  datatype Outcome = Outcome(id: nat, recipient: string, success: bool)

  datatype ProcessReply =
    | ProcessRefused(status: int)
    | Processed(queue: seq<QueueItem>, processed: nat, sent: nat, failed: nat, results: seq<Outcome>)

  function Outcomes(q: seq<QueueItem>, ids: seq<nat>, delivered: nat -> bool): (r: seq<Outcome>)
    requires forall k :: 0 <= k < |ids| ==> ids[k] < |q|
    ensures |r| == |ids|
    ensures forall k :: 0 <= k < |ids| ==> r[k] == Outcome(ids[k], q[ids[k]].recipient, delivered(ids[k]))
  {
    seq(|ids|, k requires 0 <= k < |ids| => Outcome(ids[k], q[ids[k]].recipient, delivered(ids[k])))
  }

  /** Sends the oldest eligible emails, ten at most, each once; `delivered(i)` says whether the
      send of item `i` succeeds and `clock(i)` when it is handled. */
  function ProcessQueue(st: Store, header: Option<string>, fetchFails: bool, delivered: nat -> bool, clock: nat -> int): (r: ProcessReply)
    ensures AuthenticateAdmin(st.users, header).Denied? ==>
      r == ProcessRefused(AuthenticateAdmin(st.users, header).status)
    ensures AuthenticateAdmin(st.users, header).Granted? && fetchFails ==> r == ProcessRefused(500)
    ensures r.Processed? <==> AuthenticateAdmin(st.users, header).Granted? && !fetchFails
    ensures r.Processed? ==> r.processed <= ProcessLimit
    ensures r.Processed? ==> r == Deliver(st.queue, SelectOldest(st.queue, ProcessLimit), delivered, clock)
  {
    match AuthenticateAdmin(st.users, header)
    case Denied(s) => ProcessRefused(s)
    case Granted(_) =>
      if fetchFails then ProcessRefused(500)
      else Deliver(st.queue, SelectOldest(st.queue, ProcessLimit), delivered, clock)
  }

  /** The sending loop over the selected items `ids`: each is attempted once and ends sent or
      failed, the successes are counted, every result reports its own send, and every other item
      is left as it was. */
  function Deliver(q: seq<QueueItem>, ids: seq<nat>, delivered: nat -> bool, clock: nat -> int): (r: ProcessReply)
    requires forall k :: 0 <= k < |ids| ==> ids[k] < |q| && q[ids[k]].status == Pending
    requires Distinct(ids)
    ensures r.Processed? && |r.queue| == |q|
    ensures r.processed == |ids| == |r.results| && r.sent + r.failed == r.processed
    ensures r.sent == CountDelivered(ids, delivered)
    ensures forall k :: 0 <= k < |r.results| ==>
      r.results[k].id == ids[k] && r.results[k].success == delivered(ids[k])
    ensures forall k :: 0 <= k < |ids| ==> Terminal(r.queue[ids[k]].status)
    ensures forall i :: 0 <= i < |q| && i !in ids ==> r.queue[i] == q[i]
  {
    if |ids| == 0 then Processed(q, 0, 0, 0, [])
    else
      var pass := Run(q, ids, delivered, clock);
      Processed(pass.queue, |ids|, pass.sent, pass.failed, Outcomes(q, ids, delivered))
  }

  /** The route works oldest first: an email it sent or failed was queued no later than any
      eligible email it left pending. */
  lemma ProcessOldestFirst(st: Store, header: Option<string>, delivered: nat -> bool, clock: nat -> int, i: nat, j: nat)
    ensures var r := ProcessQueue(st, header, false, delivered, clock);
      r.Processed? && i < |st.queue| && Eligible(st.queue[i]) && j < |st.queue| && st.queue[j].status == Pending &&
      r.queue[i].status == Pending && Terminal(r.queue[j].status)
      ==> st.queue[j].createdAt <= st.queue[i].createdAt
  {
    var ids := SelectOldest(st.queue, ProcessLimit);
    var r := Deliver(st.queue, ids, delivered, clock);
    if ProcessQueue(st, header, false, delivered, clock).Processed? && i < |st.queue| && j < |st.queue| {
      assert ProcessQueue(st, header, false, delivered, clock) == r;
      DeliverTouches(st.queue, ids, delivered, clock, i);
      DeliverTouches(st.queue, ids, delivered, clock, j);
    }
  }

  /** After the sending loop an item is settled if it was selected and unchanged otherwise. */
  lemma DeliverTouches(q: seq<QueueItem>, ids: seq<nat>, delivered: nat -> bool, clock: nat -> int, x: nat)
    requires forall k :: 0 <= k < |ids| ==> ids[k] < |q| && q[ids[k]].status == Pending
    requires Distinct(ids) && x < |q|
    ensures x in ids ==> Terminal(Deliver(q, ids, delivered, clock).queue[x].status)
    ensures x !in ids ==> Deliver(q, ids, delivered, clock).queue[x] == q[x]
  {
    if x in ids {
      var k :| 0 <= k < |ids| && ids[k] == x;
    }
  }

  /** Queueing and reporting agree: right after a request is queued, the status report counts one
      email per recipient, all of them pending, and no progress. */
  lemma EnqueueThenStatus(st: Store, header: Option<string>, id: nat, now: int, asker: Option<string>)
    requires Enqueue(st, header, id, now, false, false).status == 200
    requires forall it :: it in st.queue ==> it.approval != id
    requires Authenticate(st.users, asker).Granted?
    ensures var r := QueueStatus(Enqueue(st, header, id, now, false, false).store, asker, Some(id), false);
      r.StatusReport? && r.stats.total == r.stats.pending == |st.approvals[id].recipients| && r.stats.progress == 0
  {
    var st' := Enqueue(st, header, id, now, false, false).store;
    var added := NewItems(id, st.approvals[id], now);
    assert st'.users == st.users;
    AppendedAllPending(st.queue, added, id);
    AppendedCount(st.queue, added, id);
  }

  /** After items of a new approval are appended, its items are all pending. */
  lemma AppendedAllPending(q: seq<QueueItem>, added: seq<QueueItem>, id: nat)
    requires forall it :: it in q ==> it.approval != id
    requires forall it :: it in added ==> it.status == Pending
    ensures CountStatus(ItemsOf(q + added, id), Pending) == |ItemsOf(q + added, id)|
  {
    var items := ItemsOf(q + added, id);
    forall it | it in items ensures it.status == Pending {
      assert it in q + added;
    }
    CountAll(items, Pending);
  }

  /** After items of a new approval are appended, they are the only items it has. */
  lemma AppendedCount(q: seq<QueueItem>, added: seq<QueueItem>, id: nat)
    requires forall it :: it in q ==> it.approval != id
    requires forall it :: it in added ==> it.approval == id
    ensures |ItemsOf(q + added, id)| == |added|
  {
    WhereOfAppended(q, added, OfApproval(id));
  }
}

=== FILE: scraper.dfy ===
/**
  The directory scraper of `getCompanyInfo_stable.py`: link extraction from a listing page,
  field resolution on a detail page, the bounded retry loops around both fetches, and the
  aggregation of records. Parsed HTML is abstract data; each fetch attempt's outcome is an input.
 */
module Scraper {
  import opened Wrappers
  import opened Text
  import opened Seqs

  const BaseUrl: string := "https://www.gai-rou.com"

  /** A fetch is tried at most this many times. */
  const MaxAttempts: nat := 3

  // ---------------------------------------------------------------------------------------------
  // Listing pages

  /** A parsed listing page: for every `div.box_dantai_list`, the `href` of each anchor inside it
      that has one, in document order. */
  datatype ListingPage = ListingPage(containers: seq<seq<string>>)

  /** What one attempt to fetch a listing page produced. */
  datatype ListingAttempt = ListingRaised | ListingResponse(status: int, page: ListingPage)

  /** Only links into the directory's detail pages are collected. */
  predicate IsDetailHref(href: string) {
    Contains(href, "/kanri/")
  }

  /** Makes a site-relative or bare path absolute; absolute `http…` links are kept. */
  function Normalize(href: string): (r: string)
    ensures StartsWith(r, "http")
    ensures EndsWith(r, href)
    ensures StartsWith(href, "/") ==> r == BaseUrl + href
    ensures StartsWith(href, "http") ==> r == href
    ensures !StartsWith(href, "/") && !StartsWith(href, "http") ==> r == BaseUrl + "/" + href
  {
    assert StartsWith(href, "http") ==> href[0] == 'h';
    if StartsWith(href, "/") then BaseUrl + href
    else if StartsWith(href, "http") then href
    else BaseUrl + "/" + href
  }

  /** A normalised link is left alone by normalisation. */
  lemma NormalizeIdempotent(href: string)
    ensures Normalize(Normalize(href)) == Normalize(href)
  {
    var r := Normalize(href);
    assert r[0] == 'h';
    assert !StartsWith(r, "/");
  }

  /** A normalised detail link still contains the `/kanri/` segment. */
  lemma NormalizeKeepsDetail(href: string)
    requires IsDetailHref(href)
    ensures IsDetailHref(Normalize(href))
  {
    var r := Normalize(href);
    var pre := r[..|r| - |href|];
    assert r == pre + href + "";
    ContainsWiden(pre, href, "", "/kanri/");
  }

  /** The normalised detail links of one container, in order, duplicates included. */
  function ContainerLinks(hrefs: seq<string>): (r: seq<string>)
    ensures forall u :: u in r <==> exists j :: 0 <= j < |hrefs| && IsDetailHref(hrefs[j]) && u == Normalize(hrefs[j])
  {
    if |hrefs| == 0 then []
    else
      var rest := ContainerLinks(hrefs[1..]);
      assert forall j :: 1 <= j < |hrefs| ==> hrefs[j] == hrefs[1..][j - 1];
      if IsDetailHref(hrefs[0]) then [Normalize(hrefs[0])] + rest else rest
  }

  /** The links of a container are collected in document order: those of `a + b` are those of
      `a` followed by those of `b`, and a single anchor gives its normalised link or nothing. */
  lemma {:induction false} ContainerLinksInOrder(a: seq<string>, b: seq<string>)
    ensures ContainerLinks(a + b) == ContainerLinks(a) + ContainerLinks(b)
    ensures |a| == 1 ==> ContainerLinks(a) == if IsDetailHref(a[0]) then [Normalize(a[0])] else []
    decreases |a|
  {
    if |a| == 0 {
      assert a + b == b;
    } else {
      assert (a + b)[0] == a[0];
      assert (a + b)[1..] == a[1..] + b;
      ContainerLinksInOrder(a[1..], b);
      if |a| == 1 {
        assert a[1..] == [];
      }
    }
  }

  /** `u` is the normalised form of some detail link inside some container of `page`. */
  predicate IsListingLink(page: ListingPage, u: string) {
    exists i, j :: 0 <= i < |page.containers| && 0 <= j < |page.containers[i]|
      && IsDetailHref(page.containers[i][j]) && u == Normalize(page.containers[i][j])
  }

  /** The links of all containers, in order, duplicates included. */
  function PageLinks(containers: seq<seq<string>>): (r: seq<string>)
    ensures forall u :: u in r <==> IsListingLink(ListingPage(containers), u)
  {
    if |containers| == 0 then []
    else
      var first := ContainerLinks(containers[0]);
      var rest := PageLinks(containers[1..]);
      assert forall i :: 1 <= i < |containers| ==> containers[i] == containers[1..][i - 1];
      forall u | IsListingLink(ListingPage(containers), u) ensures u in first + rest {
        var i, j :| 0 <= i < |containers| && 0 <= j < |containers[i]|
          && IsDetailHref(containers[i][j]) && u == Normalize(containers[i][j]);
        if i > 0 {
          assert containers[1..][i - 1][j] == containers[i][j];
          assert IsListingLink(ListingPage(containers[1..]), u);
        }
      }
      forall u | u in rest ensures IsListingLink(ListingPage(containers), u) {
        var i, j :| 0 <= i < |containers[1..]| && 0 <= j < |containers[1..][i]|
          && IsDetailHref(containers[1..][i][j]) && u == Normalize(containers[1..][i][j]);
        assert containers[i + 1][j] == containers[1..][i][j];
      }
      first + rest
  }

  /** The links a successfully fetched listing page yields: every normalised detail link of every
      container, each once. Their order is that of a Python `set` and is not significant. */
  function ExtractLinks(page: ListingPage): (r: seq<string>)
    ensures Distinct(r)
    ensures forall u :: u in r <==> IsListingLink(page, u)
    ensures forall u :: u in r ==> StartsWith(u, "http") && IsDetailHref(u)
  {
    var all := PageLinks(page.containers);
    var r := Dedup(all);
    forall u | u in r ensures StartsWith(u, "http") && IsDetailHref(u) {
      var i, j :| 0 <= i < |page.containers| && 0 <= j < |page.containers[i]|
        && IsDetailHref(page.containers[i][j]) && u == Normalize(page.containers[i][j]);
      NormalizeKeepsDetail(page.containers[i][j]);
    }
    r
  }

  /** The attempt succeeded: a response with status 200. */
  predicate ListingOk(a: ListingAttempt) {
    a.ListingResponse? && a.status == 200
  }

  /** The links found and the number of attempts made. */
  datatype LinksResult = LinksResult(links: seq<string>, attempts: nat)

  /** `get_company_links`: tries attempts `attempt`, `attempt + 1`, … up to the third. A raised
      exception or a status other than 200 is retried, except on the third attempt, which then
      gives the empty list. The first 200 response's links are returned. */
  function FetchLinks(outcome: nat -> ListingAttempt, attempt: nat): (r: LinksResult)
    requires attempt < MaxAttempts
    ensures attempt < r.attempts <= MaxAttempts
    ensures forall k :: attempt <= k < r.attempts - 1 ==> !ListingOk(outcome(k))
    ensures ListingOk(outcome(r.attempts - 1)) ==> r.links == ExtractLinks(outcome(r.attempts - 1).page)
    ensures !ListingOk(outcome(r.attempts - 1)) ==> r.links == [] && r.attempts == MaxAttempts
    decreases MaxAttempts - attempt
  {
    if ListingOk(outcome(attempt)) then LinksResult(ExtractLinks(outcome(attempt).page), attempt + 1)
    else if attempt < MaxAttempts - 1 then FetchLinks(outcome, attempt + 1)
    else LinksResult([], attempt + 1)
  }

  /** Whatever the attempts produce, the returned links are distinct absolute detail links. */
  lemma FetchLinksShape(outcome: nat -> ListingAttempt)
    ensures var r := FetchLinks(outcome, 0);
      Distinct(r.links) && forall u :: u in r.links ==> StartsWith(u, "http") && IsDetailHref(u)
  {
  }

  // ---------------------------------------------------------------------------------------------
  // Detail pages

  /** A parsed `dd`: its full text, its direct string children, and the `href` of each anchor
      inside it that has one. */
  datatype Dd = Dd(text: string, directStrings: seq<string>, hrefs: seq<string>)

  /** A parsed `dl.dl_dantai_list`: the full text of its first `dt`, and its first `dd`. */
  datatype Dl = Dl(dt: Option<string>, dd: Option<Dd>)

  /** What one attempt to fetch a detail page produced; the response status is never looked at. */
  datatype DetailAttempt = DetailRaised | DetailPage(dls: seq<Dl>)

  /** A label with its value and whether the `dd` links to Google Maps. */
  datatype Pair = Pair(heading: string, value: string, maps: bool)

  /** The `dd` holds an anchor whose `href` mentions `maps.google.com`. */
  predicate HasMapsLink(dd: Dd) {
    exists j :: 0 <= j < |dd.hrefs| && Contains(dd.hrefs[j], "maps.google.com")
  }

  /** The text of an address `dd`: its direct strings, each stripped, joined by single spaces,
      then stripped. Text inside nested elements is not part of it. */
  function AddressText(dd: Dd): string {
    PyStrip(Join(seq(|dd.directStrings|, i requires 0 <= i < |dd.directStrings| => PyStrip(dd.directStrings[i])), " "))
  }

  /** The label/value pair of a `dl`, when it has both a `dt` and a `dd`. */
  function PairOf(dl: Dl): (r: Option<Pair>)
    ensures r.Some? <==> dl.dt.Some? && dl.dd.Some?
    ensures r.Some? ==> r.value.heading == PyStrip(dl.dt.value) && r.value.maps == HasMapsLink(dl.dd.value)
    ensures r.Some? && Contains(r.value.heading, "住所") ==> r.value.value == AddressText(dl.dd.value)
    ensures r.Some? && !Contains(r.value.heading, "住所") ==> r.value.value == PyStrip(dl.dd.value.text)
  {
    if dl.dt.Some? && dl.dd.Some? then
      var heading := PyStrip(dl.dt.value);
      var dd := dl.dd.value;
      var value := if Contains(heading, "住所") then AddressText(dd) else PyStrip(dd.text);
      Some(Pair(heading, value, HasMapsLink(dd)))
    else None
  }

  /** The address of a `dd` depends only on its direct strings. */
  lemma AddressIgnoresNested(a: Dd, b: Dd)
    requires a.directStrings == b.directStrings
    ensures AddressText(a) == AddressText(b)
  {
  }

  /** The pairs of the `dl`s that have both a `dt` and a `dd`, in order. */
  function Pairs(dls: seq<Dl>): (r: seq<Pair>)
    ensures |r| <= |dls|
  {
    if |dls| == 0 then []
    else match PairOf(dls[0])
      case Some(p) => [p] + Pairs(dls[1..])
      case None => Pairs(dls[1..])
  }

  /** The four fields found so far. */
  datatype Found = Found(name: Option<string>, address: Option<string>, fax: Option<string>, mail: Option<string>)

  const NameMarker: string := "団体名"
  const AddressMarker: string := "住所"
  const FaxMarker: string := "FAX番号"
  const MailMarker: string := "メールアドレス"

  /** One step of the `if/elif` chain: the first branch whose marker is in the label and whose
      field is still unset takes the pair. The address branch takes it even without a Maps link,
      and then stores nothing. */
  function Step(f: Found, p: Pair): Found {
    if Contains(p.heading, NameMarker) && f.name.None? then f.(name := Some(p.value))
    else if Contains(p.heading, AddressMarker) && f.address.None? then
      (if p.maps then f.(address := Some(p.value)) else f)
    else if Contains(p.heading, FaxMarker) && f.fax.None? then f.(fax := Some(p.value))
    else if Contains(p.heading, MailMarker) && f.mail.None? then f.(mail := Some(p.value))
    else f
  }

  /** Runs the chain over the pairs in document order. */
  function Resolve(f: Found, ps: seq<Pair>): Found
    decreases |ps|
  {
    if |ps| == 0 then f else Resolve(Step(f, ps[0]), ps[1..])
  }

  /** The position of the first pair satisfying `p`. */
  function FirstIndex(ps: seq<Pair>, p: Pair -> bool): (r: Option<nat>)
    ensures r.Some? ==> r.value < |ps| && p(ps[r.value]) && forall j :: 0 <= j < r.value ==> !p(ps[j])
    ensures r.None? ==> forall j :: 0 <= j < |ps| ==> !p(ps[j])
  {
    if |ps| == 0 then None
    else if p(ps[0]) then Some(0)
    else
      assert forall j :: 1 <= j < |ps| ==> ps[j] == ps[1..][j - 1];
      match FirstIndex(ps[1..], p)
      case None => None
      case Some(k) => Some(k + 1)
  }

  /** The value of the first pair satisfying `p`. */
  function FirstValue(ps: seq<Pair>, p: Pair -> bool): (r: Option<string>)
    ensures r.Some? <==> exists i :: 0 <= i < |ps| && p(ps[i])
  {
    match FirstIndex(ps, p)
    case None => None
    case Some(i) => Some(ps[i].value)
  }

  /** A set field is never overwritten by later pairs. */
  lemma {:induction false} ResolveKeeps(f: Found, ps: seq<Pair>)
    ensures f.name.Some? ==> Resolve(f, ps).name == f.name
    ensures f.address.Some? ==> Resolve(f, ps).address == f.address
    ensures f.fax.Some? ==> Resolve(f, ps).fax == f.fax
    ensures f.mail.Some? ==> Resolve(f, ps).mail == f.mail
    decreases |ps|
  {
    if |ps| > 0 {
      ResolveKeeps(Step(f, ps[0]), ps[1..]);
    }
  }

  predicate HasName(p: Pair) {
    Contains(p.heading, NameMarker)
  }

  /** The name is the value of the first pair whose label mentions 団体名, whatever else the
      labels mention. */
  lemma {:induction false} ResolveName(f: Found, ps: seq<Pair>)
    requires f.name.None?
    ensures Resolve(f, ps).name == FirstValue(ps, HasName)
    decreases |ps|
  {
    if |ps| > 0 {
      var g := Step(f, ps[0]);
      if HasName(ps[0]) {
        ResolveKeeps(g, ps[1..]);
      } else {
        ResolveName(g, ps[1..]);
      }
    }
  }

  /** Each label mentions at most one of the four markers. */
  predicate SingleMarker(p: Pair) {
    (if Contains(p.heading, NameMarker) then 1 else 0) + (if Contains(p.heading, AddressMarker) then 1 else 0)
    + (if Contains(p.heading, FaxMarker) then 1 else 0) + (if Contains(p.heading, MailMarker) then 1 else 0) <= 1
  }

  predicate IsMapsAddress(p: Pair) {
    Contains(p.heading, AddressMarker) && p.maps
  }

  predicate HasFax(p: Pair) {
    Contains(p.heading, FaxMarker)
  }

  predicate HasMail(p: Pair) {
    Contains(p.heading, MailMarker)
  }

  /** When labels mention one marker each, the address is the value of the first 住所 pair that
      links to Google Maps: an earlier 住所 pair without the link neither sets nor blocks it. */
  lemma {:induction false} ResolveAddress(f: Found, ps: seq<Pair>)
    requires f.address.None?
    requires forall i :: 0 <= i < |ps| ==> SingleMarker(ps[i])
    ensures Resolve(f, ps).address == FirstValue(ps, IsMapsAddress)
    decreases |ps|
  {
    if |ps| > 0 {
      var g := Step(f, ps[0]);
      if IsMapsAddress(ps[0]) {
        ResolveKeeps(g, ps[1..]);
      } else {
        ResolveAddress(g, ps[1..]);
      }
    }
  }

  /** When labels mention one marker each, the fax number is the value of the first FAX番号 pair. */
  lemma {:induction false} ResolveFax(f: Found, ps: seq<Pair>)
    requires f.fax.None?
    requires forall i :: 0 <= i < |ps| ==> SingleMarker(ps[i])
    ensures Resolve(f, ps).fax == FirstValue(ps, HasFax)
    decreases |ps|
  {
    if |ps| > 0 {
      var g := Step(f, ps[0]);
      if HasFax(ps[0]) {
        ResolveKeeps(g, ps[1..]);
      } else {
        ResolveFax(g, ps[1..]);
      }
    }
  }

  /** When labels mention one marker each, the address is the value of the first
      メールアドレス pair. */
  lemma {:induction false} ResolveMail(f: Found, ps: seq<Pair>)
    requires f.mail.None?
    requires forall i :: 0 <= i < |ps| ==> SingleMarker(ps[i])
    ensures Resolve(f, ps).mail == FirstValue(ps, HasMail)
    decreases |ps|
  {
    if |ps| > 0 {
      var g := Step(f, ps[0]);
      if HasMail(ps[0]) {
        ResolveKeeps(g, ps[1..]);
      } else {
        ResolveMail(g, ps[1..]);
      }
    }
  }

  /** One scraped company, with every field present; missing ones are the empty string. */
  datatype Company = Company(name: string, address: string, fax: string, mail: string, url: string)

  const NoneFound := Found(None, None, None, None)

  /** The record built from a fetched detail page. */
  function BuildCompany(url: string, dls: seq<Dl>): (r: Company)
    ensures r.url == url
    ensures r.name == FirstValue(Pairs(dls), HasName).GetOr("")
  {
    var f := Resolve(NoneFound, Pairs(dls));
    ResolveName(NoneFound, Pairs(dls));
    Company(f.name.GetOr(""), f.address.GetOr(""), f.fax.GetOr(""), f.mail.GetOr(""), url)
  }

  /** A page whose labels carry no address marker yields an empty address. */
  lemma NoAddressMarker(url: string, dls: seq<Dl>)
    requires forall i :: 0 <= i < |Pairs(dls)| ==> SingleMarker(Pairs(dls)[i]) && !Contains(Pairs(dls)[i].heading, AddressMarker)
    ensures BuildCompany(url, dls).address == ""
  {
    var ps := Pairs(dls);
    ResolveAddress(NoneFound, ps);
    var r := FirstValue(ps, IsMapsAddress);
    if r.Some? {
      assert false;
    }
  }

  /** The first attempt from `attempt` on that does not raise, or `MaxAttempts` if all raise. */
  function FirstPage(outcome: nat -> DetailAttempt, attempt: nat): (k: nat)
    requires attempt <= MaxAttempts
    ensures attempt <= k <= MaxAttempts
    ensures forall j :: attempt <= j < k ==> outcome(j).DetailRaised?
    ensures k < MaxAttempts ==> outcome(k).DetailPage?
    decreases MaxAttempts - attempt
  {
    if attempt == MaxAttempts || outcome(attempt).DetailPage? then attempt
    else FirstPage(outcome, attempt + 1)
  }

  /** `get_company_info`: the first attempt that does not raise gives the record; after three
      raised attempts there is none. */
  function FetchCompany(url: string, outcome: nat -> DetailAttempt, attempt: nat): (r: Option<Company>)
    requires attempt < MaxAttempts
    ensures r.None? <==> forall k :: attempt <= k < MaxAttempts ==> outcome(k).DetailRaised?
    ensures r.Some? ==> r.value.url == url
    ensures var k := FirstPage(outcome, attempt);
      k < MaxAttempts ==> r == Some(BuildCompany(url, outcome(k).dls))
    decreases MaxAttempts - attempt
  {
    if outcome(attempt).DetailPage? then Some(BuildCompany(url, outcome(attempt).dls))
    else if attempt < MaxAttempts - 1 then FetchCompany(url, outcome, attempt + 1)
    else None
  }

  // ---------------------------------------------------------------------------------------------
  // Aggregation

  /** The shared state: collected records, their count, and the number of links found so far. */
  datatype Aggregate = Aggregate(companies: seq<Company>, processedCount: nat, totalCount: nat)

  predicate Counted(a: Aggregate) {
    a.processedCount == |a.companies|
  }

  /** `process_company`: a found record is appended and counted in the same step. */
  function ProcessCompany(a: Aggregate, info: Option<Company>): (r: Aggregate)
    ensures Counted(a) ==> Counted(r)
    ensures info.Some? ==> r.companies == a.companies + [info.value]
    ensures info.None? ==> r == a
    ensures r.totalCount == a.totalCount
  {
    match info
    case None => a
    case Some(c) => Aggregate(a.companies + [c], a.processedCount + 1, a.totalCount)
  }

  /** Processes each link of a page with its fetch outcomes, in order. */
  function ProcessLinks(a: Aggregate, links: seq<string>, detail: string -> (nat -> DetailAttempt)): (r: Aggregate)
    ensures Counted(a) ==> Counted(r)
    ensures a.companies <= r.companies && |r.companies| <= |a.companies| + |links|
    ensures r.totalCount == a.totalCount
    decreases |links|
  {
    if |links| == 0 then a
    else ProcessLinks(ProcessCompany(a, FetchCompany(links[0], detail(links[0]), 0)), links[1..], detail)
  }

  /** The main loop: each page's links are processed, then added to the total. */
  function ProcessPages(a: Aggregate, pages: seq<nat -> ListingAttempt>, detail: string -> (nat -> DetailAttempt)): (r: Aggregate)
    decreases |pages|
  {
    if |pages| == 0 then a
    else ProcessPages(ProcessPage(a, pages[0], detail), pages[1..], detail)
  }

  /** One page: its links are processed, then added to the total. */
  function ProcessPage(a: Aggregate, page: nat -> ListingAttempt, detail: string -> (nat -> DetailAttempt)): (r: Aggregate)
    ensures Counted(a) ==> Counted(r)
    ensures a.companies <= r.companies
    ensures |a.companies| <= a.totalCount ==> |r.companies| <= r.totalCount
  {
    var links := FetchLinks(page, 0).links;
    var b := ProcessLinks(a, links, detail);
    b.(totalCount := b.totalCount + |links|)
  }

  /** Starting from the empty state, the count equals the number of records, and no more records
      are collected than links were found. */
  lemma {:induction false} ProcessPagesCounted(a: Aggregate, pages: seq<nat -> ListingAttempt>, detail: string -> (nat -> DetailAttempt))
    requires Counted(a) && |a.companies| <= a.totalCount
    ensures Counted(ProcessPages(a, pages, detail))
    ensures |ProcessPages(a, pages, detail).companies| <= ProcessPages(a, pages, detail).totalCount
    ensures a.companies <= ProcessPages(a, pages, detail).companies
    decreases |pages|
  {
    if |pages| > 0 {
      ProcessPagesCounted(ProcessPage(a, pages[0], detail), pages[1..], detail);
    }
  }

  /** The CSV column order. */
  const Columns: seq<string> := [NameMarker, AddressMarker, FaxMarker, MailMarker, "URL"]

  /** The value of the named column of a record. */
  function Field(c: Company, column: string): string {
    if column == NameMarker then c.name
    else if column == AddressMarker then c.address
    else if column == FaxMarker then c.fax
    else if column == MailMarker then c.mail
    else c.url
  }

  /** A record's cells in column order. */
  function Cells(c: Company): (r: seq<string>)
    ensures |r| == |Columns|
    ensures forall i :: 0 <= i < |Columns| ==> r[i] == Field(c, Columns[i])
  {
    [c.name, c.address, c.fax, c.mail, c.url]
  }

  /** `save_progress`: nothing is written without records; otherwise a header row in column
      order and one row per record, in collection order. */
  function SaveRows(companies: seq<Company>): (r: Option<seq<seq<string>>>)
    ensures r.None? <==> |companies| == 0
    ensures r.Some? ==> |r.value| == |companies| + 1 && r.value[0] == Columns
    ensures r.Some? ==> forall i :: 0 <= i < |companies| ==> r.value[i + 1] == Cells(companies[i])
  {
    if |companies| == 0 then None
    else Some([Columns] + seq(|companies|, i requires 0 <= i < |companies| => Cells(companies[i])))
  }
}

=== FILE: seqs.dfy ===
/** Sequence helpers shared by the model: distinctness, keep-first deduplication and fixed-size chunking. */
module Seqs {

  /** No two positions of `s` hold the same value. */
  predicate Distinct<T(==)>(s: seq<T>) {
    forall i, j :: 0 <= i < j < |s| ==> s[i] != s[j]
  }

  /** A sequence is duplicate-free exactly when no value occurs in it twice. */
  lemma {:induction false} DistinctCounts<T>(s: seq<T>)
    ensures Distinct(s) <==> forall x :: multiset(s)[x] <= 1
    decreases |s|
  {
    if |s| > 0 {
      DistinctCounts(s[1..]);
      assert s == [s[0]] + s[1..];
      assert multiset(s) == multiset{s[0]} + multiset(s[1..]);
      if Distinct(s) {
        assert s[0] !in s[1..];
        assert Distinct(s[1..]);
      } else {
        var i, j :| 0 <= i < j < |s| && s[i] == s[j];
        if i == 0 {
          assert s[j] in s[1..];
          assert multiset(s)[s[0]] >= 2;
        } else {
          assert !Distinct(s[1..]) by {
            assert s[1..][i - 1] == s[1..][j - 1];
          }
          var x :| multiset(s[1..])[x] > 1;
          assert multiset(s)[x] > 1;
        }
      }
    }
  }

  /** The keys of the elements of `s`. */
  function Keys<T, K>(s: seq<T>, key: T -> K): set<K> {
    set i | 0 <= i < |s| :: key(s[i])
  }

  /** The keys of a sequence with one more element in front. */
  lemma KeysCons<T, K>(x: T, s: seq<T>, key: T -> K)
    ensures Keys([x] + s, key) == {key(x)} + Keys(s, key)
  {
    var c := [x] + s;
    forall k | k in Keys(c, key) ensures k in {key(x)} + Keys(s, key) {
      var i :| 0 <= i < |c| && key(c[i]) == k;
      if i > 0 {
        assert c[i] == s[i - 1];
      }
    }
    forall k | k in Keys(s, key) ensures k in Keys(c, key) {
      var i :| 0 <= i < |s| && key(s[i]) == k;
      assert c[i + 1] == s[i];
    }
    assert key(c[0]) == key(x);
  }

  /** Position `i` holds the first element of `s` with its key. */
  predicate IsFirstWithKey<T, K(==)>(s: seq<T>, key: T -> K, i: int) {
    0 <= i < |s| && forall j :: 0 <= j < i ==> key(s[j]) != key(s[i])
  }

  /** Keep-first deduplication by key: an element is kept when no earlier element and no key in
      `seen` has its key. This is pandas' `drop_duplicates(subset=…, keep='first')` with `seen = {}`. */
  function DedupBy<T, K(==)>(s: seq<T>, key: T -> K, seen: set<K>): (r: seq<T>)
    ensures |r| <= |s|
    ensures forall i, j :: 0 <= i < j < |r| ==> key(r[i]) != key(r[j])
    ensures forall i :: 0 <= i < |r| ==> key(r[i]) !in seen
    ensures Keys(r, key) == Keys(s, key) - seen
    decreases |s|
  {
    if |s| == 0 then []
    else if key(s[0]) in seen then
      var r := DedupBy(s[1..], key, seen);
      KeysCons(s[0], s[1..], key);
      assert [s[0]] + s[1..] == s;
      r
    else
      var rest := DedupBy(s[1..], key, seen + {key(s[0])});
      var r := [s[0]] + rest;
      KeysCons(s[0], s[1..], key);
      assert [s[0]] + s[1..] == s;
      KeysCons(s[0], rest, key);
      r
  }

  /** Every element the deduplication keeps is, in its input, the first element with its key. */
  lemma {:induction false} DedupByKeepsFirst<T, K>(s: seq<T>, key: T -> K, seen: set<K>, k: int)
    requires 0 <= k < |DedupBy(s, key, seen)|
    ensures exists i :: IsFirstWithKey(s, key, i) && s[i] == DedupBy(s, key, seen)[k]
    decreases |s|
  {
    var r := DedupBy(s, key, seen);
    if key(s[0]) in seen {
      DedupByKeepsFirst(s[1..], key, seen, k);
      var i :| IsFirstWithKey(s[1..], key, i) && s[1..][i] == r[k];
      assert key(r[k]) !in seen;
      assert IsFirstWithKey(s, key, i + 1);
    } else if k == 0 {
      assert IsFirstWithKey(s, key, 0);
    } else {
      var rest := DedupBy(s[1..], key, seen + {key(s[0])});
      assert r[k] == rest[k - 1];
      DedupByKeepsFirst(s[1..], key, seen + {key(s[0])}, k - 1);
      var i :| IsFirstWithKey(s[1..], key, i) && s[1..][i] == rest[k - 1];
      assert key(rest[k - 1]) != key(s[0]);
      assert IsFirstWithKey(s, key, i + 1);
    }
  }

  /** Deduplicating the concatenation of two sequences deduplicates the first one, then the second
      one against the keys already kept: earlier input always comes first in the output. */
  lemma {:induction false} DedupByAppend<T, K>(a: seq<T>, b: seq<T>, key: T -> K, seen: set<K>)
    ensures DedupBy(a + b, key, seen) == DedupBy(a, key, seen) + DedupBy(b, key, seen + Keys(a, key))
    decreases |a|
  {
    if |a| == 0 {
      assert a + b == b;
      assert Keys(a, key) == {};
      assert seen + Keys(a, key) == seen;
    } else {
      assert (a + b)[1..] == a[1..] + b;
      KeysCons(a[0], a[1..], key);
      assert [a[0]] + a[1..] == a;
      if key(a[0]) in seen {
        DedupByAppend(a[1..], b, key, seen);
        assert seen + Keys(a[1..], key) == seen + Keys(a, key);
      } else {
        DedupByAppend(a[1..], b, key, seen + {key(a[0])});
        assert seen + {key(a[0])} + Keys(a[1..], key) == seen + Keys(a, key);
      }
    }
  }

  /** Keep-first deduplication of an output that already has distinct keys removes nothing. */
  lemma {:induction false} DedupByDistinct<T, K>(s: seq<T>, key: T -> K, seen: set<K>)
    requires forall i, j :: 0 <= i < j < |s| ==> key(s[i]) != key(s[j])
    requires forall i :: 0 <= i < |s| ==> key(s[i]) !in seen
    ensures DedupBy(s, key, seen) == s
    decreases |s|
  {
    if |s| > 0 {
      DedupByDistinct(s[1..], key, seen + {key(s[0])});
    }
  }

  /** Keep-first deduplication of whole values. */
  function Dedup<T(==,!new)>(s: seq<T>): (r: seq<T>)
    ensures Distinct(r)
    ensures forall x :: x in r <==> x in s
  {
    var r := DedupBy(s, x => x, {});
    assert forall x :: x in r <==> x in Keys(r, x => x);
    assert forall x :: x in s <==> x in Keys(s, x => x);
    r
  }

  /** The concatenation of a sequence of sequences. */
  function Flatten<T>(ss: seq<seq<T>>): seq<T> {
    if |ss| == 0 then [] else ss[0] + Flatten(ss[1..])
  }

  /** Flattening distributes over concatenation. */
  lemma {:induction false} FlattenAppend<T>(a: seq<seq<T>>, b: seq<seq<T>>)
    ensures Flatten(a + b) == Flatten(a) + Flatten(b)
    decreases |a|
  {
    if |a| == 0 {
      assert a + b == b;
    } else {
      assert (a + b)[1..] == a[1..] + b;
      FlattenAppend(a[1..], b);
    }
  }

  /** A value occurs in a flattening exactly when it occurs in one of the parts. */
  lemma {:induction false} FlattenMember<T>(ss: seq<seq<T>>, x: T)
    ensures x in Flatten(ss) <==> exists i :: 0 <= i < |ss| && x in ss[i]
    decreases |ss|
  {
    if |ss| > 0 {
      FlattenMember(ss[1..], x);
      assert Flatten(ss) == ss[0] + Flatten(ss[1..]);
      if x in Flatten(ss[1..]) {
        var i :| 0 <= i < |ss[1..]| && x in ss[1..][i];
        assert ss[1..][i] == ss[i + 1];
      }
      if exists i :: 0 <= i < |ss| && x in ss[i] {
        var i :| 0 <= i < |ss| && x in ss[i];
        if i > 0 {
          assert ss[1..][i - 1] == ss[i];
        }
      }
    }
  }

  /** The slices `s[i .. i+n]` for `i = 0, n, 2n, …`: the loop `for (i = 0; i < s.length; i += n)
      s.slice(i, i + n)`. */
  function Chunk<T>(s: seq<T>, n: nat): (r: seq<seq<T>>)
    requires n > 0
    ensures |r| == CeilDiv(|s|, n)
    decreases |s|
  {
    if |s| == 0 then []
    else if |s| <= n then [s]
    else
      var rest := Chunk(s[n..], n);
      CeilDivStep(|s| - n, n);
      [s[..n]] + rest
  }

  /** The chunks in order are exactly the original sequence. */
  lemma {:induction false} ChunkFlatten<T>(s: seq<T>, n: nat)
    requires n > 0
    ensures Flatten(Chunk(s, n)) == s
    decreases |s|
  {
    if |s| == 0 {
    } else if |s| <= n {
      FlattenStep(s, [], Chunk(s, n));
    } else {
      ChunkFlatten(s[n..], n);
      ChunkFlattenStep(s, n);
    }
  }

  lemma ChunkFlattenStep<T>(s: seq<T>, n: nat)
    requires 0 < n < |s| && Flatten(Chunk(s[n..], n)) == s[n..]
    ensures Flatten(Chunk(s, n)) == s
  {
    FlattenStep(s[..n], Chunk(s[n..], n), Chunk(s, n));
    assert s[..n] + s[n..] == s;
  }

  lemma FlattenStep<T>(a: seq<T>, rest: seq<seq<T>>, c: seq<seq<T>>)
    requires c == [a] + rest
    ensures Flatten(c) == a + Flatten(rest)
  {
    assert c[1..] == rest;
  }

  /** `Math.ceil(m / n)` on naturals. */
  function CeilDiv(m: nat, n: nat): nat
    requires n > 0
  {
    if m == 0 then 0 else if m <= n then 1 else 1 + CeilDiv(m - n, n)
  }

  lemma CeilDivStep(m: nat, n: nat)
    requires n > 0 && m > 0
    ensures CeilDiv(m + n, n) == CeilDiv(m, n) + 1
  {
  }

  /** `CeilDiv` is the least number of `n`-sized slices that cover `m` elements. */
  lemma {:induction false} CeilDivBounds(m: nat, n: nat)
    requires n > 0
    ensures (CeilDiv(m, n) - 1) * n < m <= CeilDiv(m, n) * n || (m == 0 && CeilDiv(m, n) == 0)
    decreases m
  {
    if m > n {
      CeilDivBounds(m - n, n);
      var q := CeilDiv(m - n, n);
      assert (q + 1 - 1) * n == q * n;
      assert (q + 1) * n == q * n + n;
      assert (q - 1) * n + n == q * n;
    }
  }

  /** Chunk `k` is the slice of `s` that starts at `k * n` and holds at most `n` elements. */
  lemma ChunkAt<T>(s: seq<T>, n: nat, k: nat)
    requires n > 0 && k < |Chunk(s, n)|
    ensures k * n < |s|
    ensures Chunk(s, n)[k] == s[k * n..Min(k * n + n, |s|)]
    ensures 0 < |Chunk(s, n)[k]| <= n
  {
    ChunkAtOffset(s, n, k);
    OffsetMul(k, n);
  }

  /** `k * n`, written as repeated addition so that proofs about it stay linear. */
  function Offset(k: nat, n: nat): nat {
    if k == 0 then 0 else Offset(k - 1, n) + n
  }

  lemma {:induction false} OffsetMul(k: nat, n: nat)
    ensures Offset(k, n) == k * n
  {
    if k > 0 {
      OffsetMul(k - 1, n);
      MulSucc(k - 1, n);
    }
  }

  lemma {:induction false} ChunkAtOffset<T>(s: seq<T>, n: nat, k: nat)
    requires n > 0 && k < |Chunk(s, n)|
    ensures Offset(k, n) < |s|
    ensures Chunk(s, n)[k] == s[Offset(k, n)..Min(Offset(k, n) + n, |s|)]
    decreases |s|
  {
    if k == 0 {
      ChunkHead(s, n);
    } else {
      ChunkTail(s, n, k);
      ChunkAtOffset(s[n..], n, k - 1);
      OffsetSlice(s, n, k, Chunk(s[n..], n)[k - 1]);
    }
  }

  /** The slice at offset `k - 1` of `s[n..]` is the slice at offset `k` of `s`. */
  lemma OffsetSlice<T>(s: seq<T>, n: nat, k: nat, x: seq<T>)
    requires 0 < k && n < |s| && Offset(k - 1, n) < |s[n..]|
    requires x == s[n..][Offset(k - 1, n)..Min(Offset(k - 1, n) + n, |s[n..]|)]
    ensures Offset(k, n) < |s|
    ensures x == s[Offset(k, n)..Min(Offset(k, n) + n, |s|)]
  {
    ShiftSlice(s, n, Offset(k - 1, n), x);
  }

  /** The first chunk is the first `n` elements, or all of them. */
  lemma ChunkHead<T>(s: seq<T>, n: nat)
    requires n > 0 && 0 < |Chunk(s, n)|
    ensures Chunk(s, n)[0] == s[0..Min(n, |s|)]
  {
    if |s| <= n {
      assert Chunk(s, n) == [s];
      assert s[0..|s|] == s;
    } else {
      assert Chunk(s, n)[0] == s[..n];
    }
  }

  /** Every later chunk is a chunk of what follows the first. */
  lemma ChunkTail<T>(s: seq<T>, n: nat, k: nat)
    requires n > 0 && 0 < k < |Chunk(s, n)|
    ensures n < |s| && k - 1 < |Chunk(s[n..], n)|
    ensures Chunk(s, n)[k] == Chunk(s[n..], n)[k - 1]
  {
  }

  /** A slice of `s[n..]` at offset `a` is the slice of `s` at offset `a + n`. */
  lemma ShiftSlice<T>(s: seq<T>, n: nat, a: nat, x: seq<T>)
    requires n <= |s| && a < |s| - n
    requires x == s[n..][a..Min(a + n, |s| - n)]
    ensures a + n < |s|
    ensures x == s[a + n..Min(a + n + n, |s|)]
  {
    var e := Min(a + n, |s| - n);
    SliceShift(s, n, a, e);
  }

  lemma SliceShift<T>(s: seq<T>, n: nat, i: nat, j: nat)
    requires n <= |s| && i <= j <= |s| - n
    ensures s[n..][i..j] == s[n + i..n + j]
  {
  }

  /* ---------------------------------------------------------------- filtered positions */

  /** The ids, in ascending order, of the elements from position `from` on that satisfy `p`: a
      filtered query without an `order` clause, taken in table order. */
  function Where<T>(q: seq<T>, p: T -> bool, from: nat): (r: seq<nat>)
    requires from <= |q|
    ensures forall i: nat :: i in r <==> from <= i < |q| && p(q[i])
    ensures forall k :: 0 <= k < |r| ==> from <= r[k] < |q| && p(q[r[k]])
    ensures forall j, k :: 0 <= j < k < |r| ==> r[j] < r[k]
    decreases |q| - from
  {
    if from == |q| then []
    else
      var rest := Where(q, p, from + 1);
      if p(q[from]) then [from] + rest else rest
  }

  /** Counting the matches of `p` from `from` on, when they are exactly the positions from `m` on. */
  lemma {:induction false} WhereSuffix<T>(q: seq<T>, p: T -> bool, from: nat, m: nat)
    requires from <= m <= |q|
    requires forall i :: from <= i < |q| ==> (p(q[i]) <==> m <= i)
    ensures |Where(q, p, from)| == |q| - m
    decreases |q| - from
  {
    if from < |q| {
      WhereSuffix(q, p, from + 1, if m == from then from + 1 else m);
      if m == from {
        if from + 1 <= |q| {
          assert |Where(q, p, from)| == 1 + |Where(q, p, from + 1)|;
        }
      }
    }
  }

  /** Appending an element adds its position to the matches exactly when it satisfies `p`. */
  lemma {:induction false} WhereAppend<T>(s: seq<T>, x: T, p: T -> bool, from: nat)
    requires from <= |s|
    ensures Where(s + [x], p, from) == Where(s, p, from) + (if p(x) then [|s|] else [])
    decreases |s| - from
  {
    var s' := s + [x];
    if from == |s| {
      assert Where(s', p, from + 1) == [];
    } else {
      assert s'[from] == s[from];
      WhereAppend(s, x, p, from + 1);
    }
  }

  /** After elements that satisfy `p` are appended to elements that do not, the matches are
      exactly the appended positions. */
  lemma WhereOfAppended<T>(s: seq<T>, added: seq<T>, p: T -> bool)
    requires forall x :: x in s ==> !p(x)
    requires forall x :: x in added ==> p(x)
    ensures |Where(s + added, p, 0)| == |added|
    ensures forall i :: |s| <= i < |s| + |added| ==> i in Where(s + added, p, 0)
  {
    var q := s + added;
    forall i | 0 <= i < |q| ensures p(q[i]) <==> |s| <= i {
      if i < |s| {
        assert q[i] == s[i];
        assert s[i] in s;
      } else {
        assert q[i] == added[i - |s|];
        assert added[i - |s|] in added;
      }
    }
    WhereSuffix(q, p, 0, |s|);
  }

  /** Strictly ascending ids are distinct. */
  lemma AscendingDistinct(r: seq<nat>)
    requires forall j, k :: 0 <= j < k < |r| ==> r[j] < r[k]
    ensures Distinct(r)
  {
  }

  /** Two sequences with the same multiset have the same members. */
  lemma SameMembers<T>(a: seq<T>, b: seq<T>)
    requires multiset(a) == multiset(b)
    ensures forall x :: x in a <==> x in b
  {
    forall x ensures x in a <==> x in b {
      assert x in a <==> x in multiset(a);
      assert x in b <==> x in multiset(b);
    }
  }

  /** `a` is `b` with some elements left out and the others kept in their order. */
  predicate IsSubseq<T(==)>(a: seq<T>, b: seq<T>)
    decreases |b|
  {
    if |a| == 0 then true
    else if |b| == 0 then false
    else (a[0] == b[0] && IsSubseq(a[1..], b[1..])) || IsSubseq(a, b[1..])
  }

  lemma {:induction false} SubseqRefl<T>(a: seq<T>)
    ensures IsSubseq(a, a)
    decreases |a|
  {
    if |a| > 0 {
      SubseqRefl(a[1..]);
    }
  }

  /** Keeping or dropping a first element keeps a subsequence one. */
  lemma SubseqCons<T>(x: T, a: seq<T>, b: seq<T>)
    requires IsSubseq(a, b)
    ensures IsSubseq([x] + a, [x] + b) && IsSubseq(a, [x] + b)
  {
    assert ([x] + a)[1..] == a;
    assert ([x] + b)[1..] == b;
  }

  /** Subsequences of two parts make a subsequence of the whole. */
  lemma {:induction false} SubseqAppend<T>(a1: seq<T>, b1: seq<T>, a2: seq<T>, b2: seq<T>)
    requires IsSubseq(a1, b1) && IsSubseq(a2, b2)
    ensures IsSubseq(a1 + a2, b1 + b2)
    decreases |b1|
  {
    if |b1| == 0 {
      assert a1 + a2 == a2 && b1 + b2 == b2;
    } else {
      assert (b1 + b2)[1..] == b1[1..] + b2;
      if |a1| > 0 && a1[0] == b1[0] && IsSubseq(a1[1..], b1[1..]) {
        SubseqAppend(a1[1..], b1[1..], a2, b2);
        assert (a1 + a2)[1..] == a1[1..] + a2;
      } else {
        SubseqAppend(a1, b1[1..], a2, b2);
      }
    }
  }

  function Min(a: int, b: int): int {
    if a <= b then a else b
  }

  lemma MulSucc(k: nat, n: nat)
    ensures (k + 1) * n == k * n + n
  {
  }
}

=== FILE: sorting.dfy ===
/**
  Ordering helpers: insertion sort by an integer key (a database `order by … ascending`) and
  insertion sort of strings by code point (Python's `sorted` on file names).
 */
module Sorting {
  import opened Seqs

  /** Every element's key is at most the key of every later element. */
  predicate SortedBy<T>(s: seq<T>, key: T -> int) {
    forall i, j :: 0 <= i < j < |s| ==> key(s[i]) <= key(s[j])
  }

  /** The number of leading elements of `s` whose key is not larger than `x`'s. */
  function InsertIndex<T>(x: T, s: seq<T>, key: T -> int): (k: nat)
    ensures k <= |s|
    ensures forall i :: 0 <= i < k ==> key(s[i]) <= key(x)
    ensures k < |s| ==> key(x) < key(s[k])
  {
    if |s| == 0 || key(x) < key(s[0]) then 0 else 1 + InsertIndex(x, s[1..], key)
  }

  /** Inserts `x` after every element whose key is not larger and before the rest. */
  function InsertBy<T>(x: T, s: seq<T>, key: T -> int): (r: seq<T>)
    requires SortedBy(s, key)
    ensures SortedBy(r, key)
    ensures multiset(r) == multiset(s) + multiset{x}
    ensures |r| == |s| + 1
  {
    var k := InsertIndex(x, s, key);
    var r := s[..k] + [x] + s[k..];
    InsertAtSorted(x, s, key, k);
    assert s == s[..k] + s[k..];
    r
  }

  lemma InsertAtSorted<T>(x: T, s: seq<T>, key: T -> int, k: nat)
    requires SortedBy(s, key) && k <= |s|
    requires forall i :: 0 <= i < k ==> key(s[i]) <= key(x)
    requires k < |s| ==> key(x) < key(s[k])
    ensures SortedBy(s[..k] + [x] + s[k..], key)
  {
    var r := s[..k] + [x] + s[k..];
    forall i, j | 0 <= i < j < |r| ensures key(r[i]) <= key(r[j]) {
      var a := if i < k then s[i] else if i == k then x else s[i - 1];
      var b := if j < k then s[j] else if j == k then x else s[j - 1];
      assert r[i] == a && r[j] == b;
      if i < k && j > k {
        assert key(s[i]) <= key(s[k]) <= key(s[j - 1]);
      } else if i == k && j > k {
        assert key(s[k]) <= key(s[j - 1]);
      }
    }
  }

  /** A permutation of `s` in ascending key order. */
  function SortBy<T>(s: seq<T>, key: T -> int): (r: seq<T>)
    ensures SortedBy(r, key)
    ensures multiset(r) == multiset(s)
    ensures |r| == |s|
  {
    if |s| == 0 then []
    else
      assert s == [s[0]] + s[1..];
      InsertBy(s[0], SortBy(s[1..], key), key)
  }

  /** The first `n` elements of the ascending order: an `order by key limit n` query. */
  function SmallestN<T>(s: seq<T>, key: T -> int, n: nat): (r: seq<T>)
    ensures |r| == if |s| < n then |s| else n
    ensures SortedBy(r, key)
    ensures multiset(r) <= multiset(s)
    ensures |s| <= n ==> multiset(r) == multiset(s)
  {
    var sorted := SortBy(s, key);
    var r := sorted[..if |s| < n then |s| else n];
    assert sorted == r + sorted[|r|..];
    r
  }

  /** No element left out by `SmallestN` has a smaller key than one it kept. */
  lemma SmallestNFirst<T>(s: seq<T>, key: T -> int, n: nat, x: T, y: T)
    requires x in SmallestN(s, key, n)
    requires y in multiset(s) - multiset(SmallestN(s, key, n))
    ensures key(x) <= key(y)
  {
    var sorted := SortBy(s, key);
    var r := SmallestN(s, key, n);
    SmallestNPrefix(s, key, n);
    var rest := sorted[|r|..];
    assert sorted == sorted[..|r|] + rest;
    assert multiset(sorted) == multiset(r) + multiset(rest);
    SortedSplit(r, rest, key, x, y);
  }

  /** `SmallestN` is a prefix of the sorted sequence. */
  lemma SmallestNPrefix<T>(s: seq<T>, key: T -> int, n: nat)
    ensures |SmallestN(s, key, n)| <= |SortBy(s, key)|
    ensures SmallestN(s, key, n) == SortBy(s, key)[..|SmallestN(s, key, n)|]
  {
  }

  lemma SortedSplit<T>(r: seq<T>, rest: seq<T>, key: T -> int, x: T, y: T)
    requires SortedBy(r + rest, key)
    requires x in r && y in multiset(rest)
    ensures key(x) <= key(y)
  {
    var i :| 0 <= i < |r| && r[i] == x;
    var j :| 0 <= j < |rest| && rest[j] == y;
    assert (r + rest)[i] == x;
    assert (r + rest)[|r| + j] == y;
  }

  /** Code-point lexicographic order on strings, as Python compares `str` values. */
  predicate StrLe(a: string, b: string) {
    |a| == 0 || (|b| > 0 && (a[0] < b[0] || (a[0] == b[0] && StrLe(a[1..], b[1..]))))
  }

  /** Any two strings are comparable. */
  lemma {:induction false} StrLeTotal(a: string, b: string)
    ensures StrLe(a, b) || StrLe(b, a)
    decreases |a|
  {
    if |a| > 0 && |b| > 0 && a[0] == b[0] {
      StrLeTotal(a[1..], b[1..]);
    }
  }

  /** Strings that precede each other are equal. */
  lemma {:induction false} StrLeAntisymmetric(a: string, b: string)
    requires StrLe(a, b) && StrLe(b, a)
    ensures a == b
    decreases |a|
  {
    if |a| > 0 {
      StrLeAntisymmetric(a[1..], b[1..]);
      assert a == [a[0]] + a[1..];
      assert b == [b[0]] + b[1..];
    }
  }

  /** Each string precedes or equals its successor. */
  predicate StrSorted(s: seq<string>) {
    forall i :: 0 < i < |s| ==> StrLe(s[i - 1], s[i])
  }

  function InsertStr(x: string, s: seq<string>): (r: seq<string>)
    requires StrSorted(s)
    ensures StrSorted(r)
    ensures multiset(r) == multiset(s) + multiset{x}
    ensures |r| > 0 && (r[0] == x || (|s| > 0 && r[0] == s[0]))
  {
    if |s| == 0 || StrLe(x, s[0]) then [x] + s
    else
      StrLeTotal(x, s[0]);
      var rest := InsertStr(x, s[1..]);
      assert s == [s[0]] + s[1..];
      [s[0]] + rest
  }

  /** Python's `sorted` on a list of strings. */
  function SortStrings(s: seq<string>): (r: seq<string>)
    ensures StrSorted(r)
    ensures multiset(r) == multiset(s)
    ensures forall y :: y in r <==> y in s
    ensures Distinct(s) ==> Distinct(r)
  {
    var r := if |s| == 0 then [] else
      assert s == [s[0]] + s[1..];
      InsertStr(s[0], SortStrings(s[1..]));
    assert forall y :: y in r <==> y in multiset(r);
    assert forall y :: y in s <==> y in multiset(s);
    DistinctCounts(s);
    DistinctCounts(r);
    r
  }
}

=== FILE: subscription.dfy ===
/**
  `POST /api/unsubscribe`, the unsubscribe link (`GET /api/unsubscribe?email=…`), the
  administrators' list of unsubscriptions (`GET /api/unsubscribe` with an `Authorization` header)
  and `POST /api/resubscribe`. An address is unsubscribed while `email_unsubscriptions` holds a
  record for it; records are keyed by the lower-cased address, and the `unsubscribe` flag of the
  matching customers follows the records.
 */
module Subscription {
  import opened Wrappers
  import opened Text
  import opened Seqs
  import opened EmailPattern
  import opened MailStore
  import opened Paging
  import opened LikePattern

  /* ---------------------------------------------------------------- the tables */

  /** A row of `email_unsubscriptions`. */
  datatype Unsubscription = Unsubscription(email: string, companyName: Option<string>, reason: Option<string>,
                                           ipAddress: string, userAgent: string, createdAt: int)

  /** The subscription columns of a `customers` row. */
  datatype Subscriber = Subscriber(email: string, unsubscribed: bool, unsubscribedAt: Option<int>)

  datatype Lists = Lists(records: seq<Unsubscription>, customers: seq<Subscriber>)

  /** The request headers `x-forwarded-for`, `x-real-ip` and `user-agent`. */
  datatype Client = Client(forwardedFor: Option<string>, realIp: Option<string>, userAgent: Option<string>)

  /** The reason recorded for an unsubscription made through the link. */
  const LinkReason := "通过邮件链接退订"

  const Unknown := "unknown"

  /** JavaScript's `a || b` for an optional string `a`: a missing or empty `a` gives `b`. */
  function Or(a: Option<string>, b: string): string {
    if a.Some? && a.value != "" then a.value else b
  }

  /** `a || null`. */
  function OrNull(a: Option<string>): (r: Option<string>)
    ensures r.Some? ==> r.value != ""
  {
    if a.Some? && a.value != "" then a else None
  }

  function IpAddress(c: Client): string {
    Or(c.forwardedFor, Or(c.realIp, Unknown))
  }

  /** The address as the routes store and look it up. */
  function Key(email: string): string {
    Lower(email)
  }

  /** The addresses that have an unsubscription on record. */
  function Unsubscribed(records: seq<Unsubscription>): set<string> {
    set u | u in records :: u.email
  }

  /** How many records the address has. */
  function CountFor(records: seq<Unsubscription>, key: string): nat {
    if |records| == 0 then 0
    else (if records[0].email == key then 1 else 0) + CountFor(records[1..], key)
  }

  /** At most one record per address: the invariant the routes keep. */
  predicate OnePerAddress(records: seq<Unsubscription>) {
    forall i, j :: 0 <= i < j < |records| ==> records[i].email != records[j].email
  }

  /** Under the invariant an address has one record when it is unsubscribed and none otherwise. */
  lemma {:induction false} CountForOne(records: seq<Unsubscription>, key: string)
    requires OnePerAddress(records)
    ensures CountFor(records, key) == if key in Unsubscribed(records) then 1 else 0
  {
    if |records| > 0 {
      var rest := records[1..];
      assert OnePerAddress(rest) by {
        forall i, j | 0 <= i < j < |rest| ensures rest[i].email != rest[j].email {
          assert rest[i] == records[i + 1] && rest[j] == records[j + 1];
        }
      }
      CountForOne(rest, key);
      assert records == [records[0]] + rest;
      assert Unsubscribed(records) == {records[0].email} + Unsubscribed(rest);
      if records[0].email == key {
        forall u | u in rest ensures u.email != key {
          var j :| 0 <= j < |rest| && rest[j] == u;
          assert records[j + 1] == u;
        }
      }
    }
  }

  /** `.eq('email', key).single()`: the record, when the address has exactly one. */
  function Existing(records: seq<Unsubscription>, key: string): (r: Option<Unsubscription>)
    ensures r.Some? <==> CountFor(records, key) == 1
    ensures r.Some? ==> r.value in records && r.value.email == key
  {
    if CountFor(records, key) == 1 then FirstFor(records, key) else None
  }

  function FirstFor(records: seq<Unsubscription>, key: string): (r: Option<Unsubscription>)
    ensures r.Some? ==> r.value in records && r.value.email == key
    ensures r.None? <==> CountFor(records, key) == 0
  {
    if |records| == 0 then None
    else if records[0].email == key then Some(records[0])
    else FirstFor(records[1..], key)
  }

  /** `.update({ unsubscribe: on, unsubscribe_at: at }).eq('email', key)` on `customers`. */
  function SetFlag(customers: seq<Subscriber>, key: string, on: bool, at: Option<int>): seq<Subscriber> {
    seq(|customers|, i requires 0 <= i < |customers| =>
      if customers[i].email == key then customers[i].(unsubscribed := on, unsubscribedAt := at) else customers[i])
  }

  /* ---------------------------------------------------------------- validation */

  /** `!email` or a failed format test: both answered with 400. */
  predicate Rejected(email: Option<string>) {
    email.None? || email.value == "" || !IsEmailFormat(email.value)
  }

  /** Lower-casing moves no white space, `@` or `.`, so an address and its key pass or fail the
      format test together. */
  lemma FormatIgnoresCase(s: string)
    ensures IsEmailFormat(Key(s)) <==> IsEmailFormat(s)
  {
    var t := Key(s);
    forall j | 0 <= j < |s| ensures (s[j] == '@' <==> t[j] == '@') && (s[j] == '.' <==> t[j] == '.') &&
      (IsJsSpace(s[j]) <==> IsJsSpace(t[j]))
    {
      assert t[j] == LowerChar(s[j]);
    }
    SameFirst(s, t, '@');
    match IndexOfChar(s, '@')
    case None =>
    case Some(a) =>
      if 0 < a && a + 3 < |s| {
        SameIn(s, t, '@', a + 1, |s|);
        SameIn(s, t, '.', a + 2, |s| - 1);
      }
  }

  /** Two strings with `c` at the same places find its first occurrence at the same place. */
  lemma SameFirst(s: string, t: string, c: char)
    requires |s| == |t|
    requires forall j :: 0 <= j < |s| ==> (s[j] == c <==> t[j] == c)
    ensures IndexOfChar(s, c) == IndexOfChar(t, c)
  {
    var x, y := IndexOfChar(s, c), IndexOfChar(t, c);
    if x.Some? {
      assert t[x.value] == c;
      assert c in t;
      forall k | 0 <= k < y.value ensures t[k] != c {
        assert t[..y.value][k] == t[k];
      }
      forall k | 0 <= k < x.value ensures s[k] != c {
        assert s[..x.value][k] == s[k];
      }
    } else {
      forall k | 0 <= k < |t| ensures t[k] != c {
        assert s[k] in s;
      }
    }
  }

  lemma SameIn(s: string, t: string, c: char, lo: nat, hi: nat)
    requires |s| == |t| && lo <= hi <= |s|
    requires forall j :: 0 <= j < |s| ==> (s[j] == c <==> t[j] == c)
    ensures c in s[lo..hi] <==> c in t[lo..hi]
  {
    if c in s[lo..hi] {
      var k :| 0 <= k < hi - lo && s[lo..hi][k] == c;
      assert t[lo..hi][k] == c;
    }
    if c in t[lo..hi] {
      var k :| 0 <= k < hi - lo && t[lo..hi][k] == c;
      assert s[lo..hi][k] == c;
    }
  }

  /* ---------------------------------------------------------------- unsubscribing */

  datatype UnsubReply =
    | UnsubRefused(status: int)
    | AlreadyUnsubscribed(since: int)
    | UnsubscribedNow(lists: Lists, id: nat)

  /** The unsubscription both the form and the link perform. A second request for an address on
      record changes nothing; a new record also marks the matching customers, and a failure of
      that update is ignored. */
  function Unsubscribe(st: Lists, email: Option<string>, companyName: Option<string>, reason: Option<string>,
                       client: Client, now: int, insertFails: bool, updateFails: bool): (r: UnsubReply)
    ensures r == UnsubRefused(400) <==> Rejected(email)
    ensures r.AlreadyUnsubscribed? <==> !Rejected(email) && CountFor(st.records, Key(email.value)) == 1
    ensures r == UnsubRefused(500) <==> !Rejected(email) && CountFor(st.records, Key(email.value)) != 1 && insertFails
    ensures r.UnsubscribedNow? ==>
      var key := Key(email.value);
      r.id == |st.records| &&
      r.lists.records == st.records + [Unsubscription(key, companyName, reason, IpAddress(client), Or(client.userAgent, Unknown), now)] &&
      Unsubscribed(r.lists.records) == Unsubscribed(st.records) + {key} &&
      |r.lists.customers| == |st.customers| &&
      forall i :: 0 <= i < |st.customers| ==>
        (if updateFails || st.customers[i].email != key then r.lists.customers[i] == st.customers[i]
         else (r.lists.customers[i].unsubscribed && r.lists.customers[i].unsubscribedAt == Some(now) &&
               r.lists.customers[i].email == key))
  {
    if Rejected(email) then UnsubRefused(400)
    else
      var key := Key(email.value);
      match Existing(st.records, key)
      case Some(u) => AlreadyUnsubscribed(u.createdAt)
      case None =>
        if insertFails then UnsubRefused(500)
        else
          var u := Unsubscription(key, companyName, reason, IpAddress(client), Or(client.userAgent, Unknown), now);
          var customers := if updateFails then st.customers else SetFlag(st.customers, key, true, Some(now));
          UnsubscribedNow(Lists(st.records + [u], customers), |st.records|)
  }

  /** `POST /api/unsubscribe`: the company name and reason are stored when given and non-empty. */
  function UnsubscribeForm(st: Lists, email: Option<string>, companyName: Option<string>, reason: Option<string>,
                           client: Client, now: int, insertFails: bool, updateFails: bool): (r: UnsubReply)
    ensures r.UnsubscribedNow? ==> (|r.lists.records| == |st.records| + 1 &&
      var u := r.lists.records[|st.records|];
      (u.companyName.Some? <==> companyName.Some? && companyName.value != "") &&
      (u.companyName.Some? ==> u.companyName == companyName) &&
      (u.reason.Some? <==> reason.Some? && reason.value != "") &&
      (u.reason.Some? ==> u.reason == reason))
  {
    Unsubscribe(st, email, OrNull(companyName), OrNull(reason), client, now, insertFails, updateFails)
  }

  /** Whatever the request, an unsubscription keeps at most one record per address. */
  lemma UnsubscribeKeepsOnePerAddress(st: Lists, email: Option<string>, companyName: Option<string>,
                                      reason: Option<string>, client: Client, now: int, updateFails: bool)
    requires OnePerAddress(st.records)
    ensures var r := Unsubscribe(st, email, companyName, reason, client, now, false, updateFails);
      r.UnsubscribedNow? ==> OnePerAddress(r.lists.records)
  {
    var r := Unsubscribe(st, email, companyName, reason, client, now, false, updateFails);
    if r.UnsubscribedNow? {
      var key := Key(email.value);
      CountForOne(st.records, key);
      var rs := r.lists.records;
      forall i, j | 0 <= i < j < |rs| ensures rs[i].email != rs[j].email {
        if j == |st.records| {
          assert rs[i] == st.records[i];
          assert st.records[i] in st.records;
        }
      }
    }
  }

  /** Unsubscribing is idempotent: asking again, in any letter case, reports the earlier record
      and changes nothing. */
  lemma UnsubscribeIdempotent(st: Lists, email: string, again: string, companyName: Option<string>,
                              reason: Option<string>, client: Client, now: int, updateFails: bool)
    requires OnePerAddress(st.records)
    requires Unsubscribe(st, Some(email), companyName, reason, client, now, false, updateFails).UnsubscribedNow?
    requires Key(again) == Key(email)
    ensures var st' := Unsubscribe(st, Some(email), companyName, reason, client, now, false, updateFails).lists;
      forall companyName', reason', client', now', insertFails', updateFails' ::
        Unsubscribe(st', Some(again), companyName', reason', client', now', insertFails', updateFails') ==
          AlreadyUnsubscribed(now)
  {
    var st' := Unsubscribe(st, Some(email), companyName, reason, client, now, false, updateFails).lists;
    var key := Key(email);
    UnsubscribeKeepsOnePerAddress(st, Some(email), companyName, reason, client, now, updateFails);
    FormatIgnoresCase(email);
    FormatIgnoresCase(again);
    LowerIdempotent(email);
    assert |again| == |Key(again)| == |email| > 0;
    CountForOne(st'.records, key);
    var e := Existing(st'.records, key);
    assert e.Some?;
    var last := |st.records|;
    assert st'.records[last].email == key;
    forall k | 0 <= k < last ensures st'.records[k].email != key {
      assert st'.records[k].email != st'.records[last].email;
    }
    var k :| 0 <= k < |st'.records| && st'.records[k] == e.value;
    assert k == last;
  }

  /** The address is the subscriber: two spellings that differ only in letter case are the same
      request. */
  lemma UnsubscribeIgnoresCase(st: Lists, a: string, b: string, companyName: Option<string>, reason: Option<string>,
                               client: Client, now: int, insertFails: bool, updateFails: bool)
    requires Key(a) == Key(b) && a != "" && b != ""
    ensures Unsubscribe(st, Some(a), companyName, reason, client, now, insertFails, updateFails) ==
      Unsubscribe(st, Some(b), companyName, reason, client, now, insertFails, updateFails)
  {
    FormatIgnoresCase(a);
    FormatIgnoresCase(b);
  }

  /* ---------------------------------------------------------------- GET /api/unsubscribe */

  /** The query string of the administrators' list: `page`, `pageSize`, `startDate`, `endDate`;
      the `email` parameter is the filter. Missing or empty values are `None`. */
  datatype ListQuery = ListQuery(page: Option<int>, pageSize: Option<int>, startDate: Option<int>, endDate: Option<int>)

  /** The list's filters: `.ilike('email', '%' + filter + '%')`, `.gte('created_at', startDate)`
      and `.lte('created_at', endDate)`, each applied only when its parameter is given. The
      filter is a pattern: `%`, `*`, `_` and `\` in it act as pattern characters. */
  predicate Shown(u: Unsubscription, filter: Option<string>, q: ListQuery) {
    (filter.None? || filter.value == "" || ContainsLike(u.email, filter.value)) &&
    (q.startDate.None? || q.startDate.value <= u.createdAt) &&
    (q.endDate.None? || u.createdAt <= q.endDate.value)
  }

  function ShownBy(filter: Option<string>, q: ListQuery): Unsubscription -> bool {
    (u: Unsubscription) => Shown(u, filter, q)
  }

  function RecordTime(u: Unsubscription): int {
    u.createdAt
  }

  datatype GetReply =
    | ListRefused(status: int)
    | RecordList(ids: seq<nat>, total: nat, page: int, pageSize: int)
    | LinkReply(reply: UnsubReply)

  /** An `Authorization` header asks for the list, which only administrators may read (an unknown
      user is refused with 403 as well); without one the request is the unsubscribe link, which
      records the fixed link reason and no company name. A range PostgREST refuses fails the
      query with 500. */
  function UnsubscribeGet(st: Lists, users: seq<User>, header: Option<string>, email: Option<string>, q: ListQuery,
                          client: Client, now: int, queryFails: bool, insertFails: bool, updateFails: bool): (r: GetReply)
    ensures r.LinkReply? <==> header.None? || header.value == ""
    ensures r.LinkReply? ==> r.reply == Unsubscribe(st, email, None, Some(LinkReason), client, now, insertFails, updateFails)
    ensures r == ListRefused(403) <==> (header.Some? && header.value != "" &&
      (FindUser(users, ClaimedId(header.value)).None? || !IsAdmin(FindUser(users, ClaimedId(header.value)).value)))
    ensures r == ListRefused(500) <==> (header.Some? && header.value != "" &&
      FindUser(users, ClaimedId(header.value)).Some? && IsAdmin(FindUser(users, ClaimedId(header.value)).value) &&
      (queryFails || !RangeAccepted(q.page.GetOr(DefaultPage), q.pageSize.GetOr(DefaultPageSize))))
    ensures r.RecordList? ==>
      var all := NewestMatching(st.records, ShownBy(email, q), RecordTime);
      r.page == q.page.GetOr(DefaultPage) && r.pageSize == q.pageSize.GetOr(DefaultPageSize) &&
      RangeAccepted(r.page, r.pageSize) &&
      r.total == |Where(st.records, ShownBy(email, q), 0)| &&
      r.ids == Page(all, r.page, r.pageSize) &&
      |r.ids| <= (if r.pageSize < 0 then 0 else r.pageSize) &&
      forall k :: 0 <= k < |r.ids| ==> r.ids[k] < |st.records| && Shown(st.records[r.ids[k]], email, q)
  {
    if header.Some? && header.value != "" then
      match FindUser(users, ClaimedId(header.value))
      case None => ListRefused(403)
      case Some(u) =>
        if !IsAdmin(u) then ListRefused(403)
        else if queryFails || !RangeAccepted(q.page.GetOr(DefaultPage), q.pageSize.GetOr(DefaultPageSize)) then ListRefused(500)
        else RecordPage(st.records, email, q)
    else LinkReply(Unsubscribe(st, email, None, Some(LinkReason), client, now, insertFails, updateFails))
  }

  function RecordPage(records: seq<Unsubscription>, filter: Option<string>, q: ListQuery): (r: GetReply)
    ensures r.RecordList?
    ensures r.page == q.page.GetOr(DefaultPage) && r.pageSize == q.pageSize.GetOr(DefaultPageSize)
    ensures r.total == |Where(records, ShownBy(filter, q), 0)|
    ensures r.ids == Page(NewestMatching(records, ShownBy(filter, q), RecordTime), r.page, r.pageSize)
    ensures |r.ids| <= if r.pageSize < 0 then 0 else r.pageSize
    ensures forall k :: 0 <= k < |r.ids| ==> r.ids[k] < |records| && Shown(records[r.ids[k]], filter, q)
  {
    var p := q.page.GetOr(DefaultPage);
    var n := q.pageSize.GetOr(DefaultPageSize);
    var all := NewestMatching(records, ShownBy(filter, q), RecordTime);
    var ids := Page(all, p, n);
    PageShown(records, filter, q, all, ids, p, n);
    RecordList(ids, |all|, p, n)
  }

  lemma PageShown(records: seq<Unsubscription>, filter: Option<string>, q: ListQuery, all: seq<nat>, ids: seq<nat>,
                  p: int, n: int)
    requires all == NewestMatching(records, ShownBy(filter, q), RecordTime)
    requires ids == Page(all, p, n)
    ensures forall k :: 0 <= k < |ids| ==> ids[k] < |records| && Shown(records[ids[k]], filter, q)
  {
    WindowMembers(all, (p - 1) * n, (p - 1) * n + n - 1);
    forall k | 0 <= k < |ids| ensures ids[k] < |records| && Shown(records[ids[k]], filter, q) {
      assert ids[k] in all;
      assert ShownBy(filter, q)(records[ids[k]]);
    }
  }

  /* ---------------------------------------------------------------- POST /api/resubscribe */

  datatype ResubReply = ResubRefused(status: int) | AlreadySubscribed | Resubscribed(lists: Lists)

  /** The records of every address but `key`, in table order. */
  function Without(records: seq<Unsubscription>, key: string): (r: seq<Unsubscription>)
    ensures forall u :: u in r <==> u in records && u.email != key
  {
    if |records| == 0 then []
    else
      var rest := Without(records[1..], key);
      assert forall u :: u in records[1..] ==> u in records;
      if records[0].email == key then rest else [records[0]] + rest
  }

  /** Removing an address keeps one record per address. */
  lemma {:induction false} WithoutKeepsOnePerAddress(records: seq<Unsubscription>, key: string)
    ensures OnePerAddress(records) ==> OnePerAddress(Without(records, key))
  {
    if |records| > 0 && OnePerAddress(records) {
      OnePerAddressTail(records);
      WithoutKeepsOnePerAddress(records[1..], key);
      var rest := Without(records[1..], key);
      if records[0].email != key {
        forall u | u in rest ensures u.email != records[0].email {
          var j :| 0 <= j < |records[1..]| && records[1..][j] == u;
          assert records[j + 1] == u;
        }
        OnePerAddressCons(records[0], rest);
      }
    }
  }

  lemma OnePerAddressTail(records: seq<Unsubscription>)
    requires OnePerAddress(records) && |records| > 0
    ensures OnePerAddress(records[1..])
  {
    forall i, j | 0 <= i < j < |records[1..]| ensures records[1..][i].email != records[1..][j].email {
      assert records[1..][i] == records[i + 1] && records[1..][j] == records[j + 1];
    }
  }

  lemma OnePerAddressCons(x: Unsubscription, rest: seq<Unsubscription>)
    requires OnePerAddress(rest) && forall u :: u in rest ==> u.email != x.email
    ensures OnePerAddress([x] + rest)
  {
    var r := [x] + rest;
    forall i, j | 0 <= i < j < |r| ensures r[i].email != r[j].email {
      if i == 0 {
        assert r[j] == rest[j - 1] && rest[j - 1] in rest;
      } else {
        assert r[i] == rest[i - 1] && r[j] == rest[j - 1];
      }
    }
  }

  /** Removes the address's records and clears the flag of the matching customers. When the
      address is not on record (exactly one record, as `.single()` reads it) nothing changes;
      a failed delete is a 500 and a failed customer update is ignored. */
  function Resubscribe(st: Lists, email: Option<string>, deleteFails: bool, updateFails: bool): (r: ResubReply)
    ensures r == ResubRefused(400) <==> Rejected(email)
    ensures r == AlreadySubscribed <==> !Rejected(email) && CountFor(st.records, Key(email.value)) != 1
    ensures r == ResubRefused(500) <==> !Rejected(email) && CountFor(st.records, Key(email.value)) == 1 && deleteFails
    ensures r.Resubscribed? ==>
      var key := Key(email.value);
      (forall u :: u in r.lists.records <==> u in st.records && u.email != key) &&
      Unsubscribed(r.lists.records) == Unsubscribed(st.records) - {key} &&
      |r.lists.customers| == |st.customers| &&
      forall i :: 0 <= i < |st.customers| ==>
        (if updateFails || st.customers[i].email != key then r.lists.customers[i] == st.customers[i]
         else (!r.lists.customers[i].unsubscribed && r.lists.customers[i].unsubscribedAt.None? &&
               r.lists.customers[i].email == key))
    ensures r.Resubscribed? && OnePerAddress(st.records) ==> OnePerAddress(r.lists.records)
  {
    if Rejected(email) then ResubRefused(400)
    else
      var key := Key(email.value);
      if Existing(st.records, key).None? then AlreadySubscribed
      else if deleteFails then ResubRefused(500)
      else
        var customers := if updateFails then st.customers else SetFlag(st.customers, key, false, None);
        WithoutKeepsOnePerAddress(st.records, key);
        Resubscribed(Lists(Without(st.records, key), customers))
  }

  /** Resubscribing undoes unsubscribing: after an unsubscription, a resubscription in any letter
      case leaves the address off the list and every other address as it was before. */
  lemma ResubscribeUndoesUnsubscribe(st: Lists, email: string, again: string, companyName: Option<string>,
                                     reason: Option<string>, client: Client, now: int, updateFails: bool)
    requires OnePerAddress(st.records)
    requires Unsubscribe(st, Some(email), companyName, reason, client, now, false, updateFails).UnsubscribedNow?
    requires Key(again) == Key(email)
    ensures var st' := Unsubscribe(st, Some(email), companyName, reason, client, now, false, updateFails).lists;
      var r := Resubscribe(st', Some(again), false, false);
      r.Resubscribed? && Key(email) !in Unsubscribed(r.lists.records) &&
      Unsubscribed(r.lists.records) == Unsubscribed(st.records) - {Key(email)}
  {
    var st' := Unsubscribe(st, Some(email), companyName, reason, client, now, false, updateFails).lists;
    UnsubscribeIdempotent(st, email, again, companyName, reason, client, now, updateFails);
    assert Unsubscribe(st', Some(again), None, None, client, now, false, false) == AlreadyUnsubscribed(now);
  }
}

=== FILE: text.dfy ===
/**
  String helpers shared by the model: the whitespace sets of JavaScript and
  Python, trimming, ASCII case mapping, substring search, splitting and joining.
  Strings are sequences of Unicode scalar values.
 */
module Text {
  import opened Wrappers

  /** The characters JavaScript's `\s` and `String.prototype.trim` treat as white space
      (the WhiteSpace and LineTerminator productions). */
  predicate IsJsSpace(c: char) {
    var n := c as int;
    n == 0x09 || n == 0x0A || n == 0x0B || n == 0x0C || n == 0x0D || n == 0x20
    || n == 0xA0 || n == 0x1680 || (0x2000 <= n <= 0x200A) || n == 0x2028 || n == 0x2029
    || n == 0x202F || n == 0x205F || n == 0x3000 || n == 0xFEFF
  }

  /** The characters Python's `str.strip()` removes (those for which `str.isspace` holds). */
  predicate IsPySpace(c: char) {
    var n := c as int;
    (0x09 <= n <= 0x0D) || (0x1C <= n <= 0x20) || n == 0x85 || n == 0xA0 || n == 0x1680
    || (0x2000 <= n <= 0x200A) || n == 0x2028 || n == 0x2029 || n == 0x202F || n == 0x205F
    || n == 0x3000
  }

  /** Drops the leading characters satisfying `ws`. */
  function TrimStart(s: string, ws: char -> bool): (r: string)
    ensures |r| <= |s| && r == s[|s| - |r|..]
    ensures |r| > 0 ==> !ws(r[0])
    ensures forall i :: 0 <= i < |s| - |r| ==> ws(s[i])
    decreases |s|
  {
    if |s| > 0 && ws(s[0]) then TrimStart(s[1..], ws) else s
  }

  /** Drops the trailing characters satisfying `ws`. */
  function TrimEnd(s: string, ws: char -> bool): (r: string)
    ensures |r| <= |s| && r == s[..|r|]
    ensures |r| > 0 ==> !ws(r[|r| - 1])
    ensures forall i :: |r| <= i < |s| ==> ws(s[i])
    decreases |s|
  {
    if |s| > 0 && ws(s[|s| - 1]) then TrimEnd(s[..|s| - 1], ws) else s
  }

  /** Drops leading and trailing characters satisfying `ws`. */
  function Strip(s: string, ws: char -> bool): (r: string)
    ensures |r| <= |s|
    ensures |r| > 0 ==> !ws(r[0]) && !ws(r[|r| - 1])
  {
    TrimEnd(TrimStart(s, ws), ws)
  }

  /** `String.prototype.trim`. */
  function JsTrim(s: string): string {
    Strip(s, IsJsSpace)
  }

  /** Python's `str.strip()` with no argument. */
  function PyStrip(s: string): string {
    Strip(s, IsPySpace)
  }

  /** Strip yields the empty string exactly when every character is white space. */
  lemma StripEmptyIff(s: string, ws: char -> bool)
    ensures Strip(s, ws) == [] <==> forall i :: 0 <= i < |s| ==> ws(s[i])
  {
    var t := TrimStart(s, ws);
    if Strip(s, ws) == [] {
      if |t| > 0 {
        assert false;
      }
    } else {
      assert !ws(t[0]);
      assert t[0] == s[|s| - |t|];
    }
  }

  /** Stripping twice removes nothing more. */
  lemma StripIdempotent(s: string, ws: char -> bool)
    ensures Strip(Strip(s, ws), ws) == Strip(s, ws)
  {
    var r := Strip(s, ws);
    if |r| > 0 {
      assert TrimStart(r, ws) == r;
      assert TrimEnd(r, ws) == r;
    }
  }

  /** The end of the longest run of `p`-characters starting at `i`: where a greedy `p+` stops. */
  function RunEnd(t: string, i: nat, p: char -> bool): (j: nat)
    requires i <= |t|
    ensures i <= j <= |t|
    ensures forall m :: i <= m < j ==> p(t[m])
    ensures j < |t| ==> !p(t[j])
    decreases |t| - i
  {
    if i < |t| && p(t[i]) then RunEnd(t, i + 1, p) else i
  }

  /** The lower-case form of an ASCII upper-case letter; every other character is unchanged. */
  function LowerChar(c: char): char {
    if 'A' <= c <= 'Z' then (c as int + 32) as char else c
  }

  /** `String.prototype.toLowerCase` restricted to ASCII letters. */
  function Lower(s: string): (r: string)
    ensures |r| == |s|
    ensures forall i :: 0 <= i < |s| ==> r[i] == LowerChar(s[i])
  {
    seq(|s|, i requires 0 <= i < |s| => LowerChar(s[i]))
  }

  /** Lower-casing is idempotent, so a lower-cased key is its own key. */
  lemma LowerIdempotent(s: string)
    ensures Lower(Lower(s)) == Lower(s)
  {
  }

  /** `s` begins with `p`. */
  predicate StartsWith(s: string, p: string) {
    |p| <= |s| && s[..|p|] == p
  }

  /** `s` ends with `p`. */
  predicate EndsWith(s: string, p: string) {
    |p| <= |s| && s[|s| - |p|..] == p
  }

  /** The first index at which `p` occurs in `s`: `String.prototype.indexOf` and `str.find`. */
  function IndexOf(s: string, p: string): (r: Option<nat>)
    ensures r.Some? ==> r.value + |p| <= |s| && s[r.value..r.value + |p|] == p
    ensures r.Some? ==> forall j :: 0 <= j < r.value ==> !StartsWith(s[j..], p)
    ensures r.None? ==> forall j :: 0 <= j <= |s| ==> !StartsWith(s[j..], p)
    decreases |s|
  {
    if StartsWith(s, p) then Some(0)
    else if |s| == 0 then None
    else
      var rest := IndexOf(s[1..], p);
      forall j | 1 <= j <= |s| ensures StartsWith(s[j..], p) == StartsWith(s[1..][j - 1..], p) {
        assert s[j..] == s[1..][j - 1..];
      }
      match rest
      case Some(k) => Some(k + 1)
      case None => None
  }

  /** One differing position is enough for `s` not to start with `p`. */
  lemma NotStartsWith(s: string, p: string, k: nat)
    requires k < |p| && (k < |s| ==> s[k] != p[k])
    ensures !StartsWith(s, p)
  {
    if |p| <= |s| {
      assert s[..|p|][k] == s[k];
    }
  }

  /** An occurrence with none before it is the one `IndexOf` finds. */
  lemma {:induction false} IndexOfFirst(s: string, p: string, i: nat)
    requires i + |p| <= |s| && s[i..i + |p|] == p
    requires forall j :: 0 <= j < i ==> !StartsWith(s[j..], p)
    ensures IndexOf(s, p) == Some(i)
    decreases i
  {
    if i == 0 {
      assert StartsWith(s, p);
    } else {
      assert s[0..] == s;
      assert s[1..][i - 1..i - 1 + |p|] == p;
      forall j | 0 <= j < i - 1 ensures !StartsWith(s[1..][j..], p) {
        assert s[1..][j..] == s[j + 1..];
      }
      IndexOfFirst(s[1..], p, i - 1);
    }
  }

  /** `p` occurs in `s`: JavaScript's `includes` and Python's `in` on strings. */
  predicate Contains(s: string, p: string) {
    IndexOf(s, p).Some?
  }

  /** A witness occurrence is enough for `Contains`. */
  lemma ContainsAt(s: string, p: string, i: nat)
    requires i + |p| <= |s| && s[i..i + |p|] == p
    ensures Contains(s, p)
  {
    assert StartsWith(s[i..], p);
  }

  /** Searching for a one-character string is membership of the character. */
  lemma ContainsChar(s: string, c: char)
    ensures Contains(s, [c]) <==> c in s
  {
    if c in s {
      var i :| 0 <= i < |s| && s[i] == c;
      assert s[i..i + 1] == [c];
      ContainsAt(s, [c], i);
    }
    if Contains(s, [c]) {
      var i := IndexOf(s, [c]).value;
      assert s[i..i + 1][0] == s[i];
    }
  }

  /** `Contains` is preserved when text is added on either side. */
  lemma ContainsWiden(a: string, s: string, b: string, p: string)
    requires Contains(s, p)
    ensures Contains(a + s + b, p)
  {
    var i := IndexOf(s, p).value;
    assert (a + s + b)[|a| + i..|a| + i + |p|] == s[i..i + |p|];
    ContainsAt(a + s + b, p, |a| + i);
  }

  /** `String.prototype.replace` with a string pattern: only the first occurrence is replaced. */
  function ReplaceFirst(s: string, p: string, rep: string): string {
    match IndexOf(s, p)
    case None => s
    case Some(i) => s[..i] + rep + s[i + |p|..]
  }

  /** The position of the first `c` in `s`, if any. */
  function IndexOfChar(s: string, c: char): (r: Option<nat>)
    ensures r.Some? ==> r.value < |s| && s[r.value] == c && c !in s[..r.value]
    ensures r.None? ==> c !in s
  {
    if |s| == 0 then None
    else if s[0] == c then Some(0)
    else
      match IndexOfChar(s[1..], c)
      case None => None
      case Some(k) =>
        assert s[..k + 1] == [s[0]] + s[1..][..k];
        Some(k + 1)
  }

  /** `s.split(sep)` with a one-character separator, in JavaScript and in Python. */
  function Split(s: string, sep: char): (r: seq<string>)
    ensures |r| >= 1
    ensures forall i :: 0 <= i < |r| ==> sep !in r[i]
    decreases |s|
  {
    match IndexOfChar(s, sep)
    case None => [s]
    case Some(i) => [s[..i]] + Split(s[i + 1..], sep)
  }

  /** `parts.join(sep)` (JavaScript) and `sep.join(parts)` (Python). */
  function Join(parts: seq<string>, sep: string): string {
    if |parts| == 0 then ""
    else if |parts| == 1 then parts[0]
    else parts[0] + sep + Join(parts[1..], sep)
  }

  /** Splitting on a character and joining with it again gives back the text. */
  lemma {:induction false} JoinSplit(s: string, c: char)
    ensures Join(Split(s, c), [c]) == s
    decreases |s|
  {
    match IndexOfChar(s, c)
    case None =>
    case Some(i) =>
      var tail := Split(s[i + 1..], c);
      JoinSplit(s[i + 1..], c);
      assert Split(s, c) == [s[..i]] + tail;
      assert s == s[..i] + [c] + s[i + 1..];
  }

  /** The first `c` in `a + [c] + b` is the one after `a`, when `a` has none. */
  lemma IndexOfCharAfter(a: string, c: char, b: string)
    requires c !in a
    ensures IndexOfChar(a + [c] + b, c) == Some(|a|)
  {
    var s := a + [c] + b;
    assert s[|a|] == c;
    assert s[|a|] in s;
    var x := IndexOfChar(s, c);
    forall k | 0 <= k < |a| ensures s[k] != c {
      assert s[k] == a[k];
      assert a[k] in a;
    }
    forall k | 0 <= k < x.value ensures s[k] != c {
      assert s[..x.value][k] == s[k];
    }
  }

  /** Joining pieces that do not contain `c` with `c` and splitting again gives the pieces back. */
  lemma {:induction false} SplitJoin(parts: seq<string>, c: char)
    requires |parts| >= 1
    requires forall i :: 0 <= i < |parts| ==> c !in parts[i]
    ensures Split(Join(parts, [c]), c) == parts
  {
    if |parts| == 1 {
      var s := parts[0];
      forall k | 0 <= k < |s| ensures s[k] != c {
        assert s[k] in s;
      }
    } else {
      var rest := Join(parts[1..], [c]);
      var s := parts[0] + [c] + rest;
      assert Join(parts, [c]) == s;
      IndexOfCharAfter(parts[0], c, rest);
      assert s[..|parts[0]|] == parts[0];
      assert s[|parts[0]| + 1..] == rest;
      SplitJoin(parts[1..], c);
      assert parts == [parts[0]] + parts[1..];
    }
  }

  /** The concatenation of a sequence of strings. */
  function Concat(parts: seq<string>): string {
    if |parts| == 0 then "" else parts[0] + Concat(parts[1..])
  }

  /** A character occurs in a concatenation only if it occurs in one of the parts. */
  lemma InConcat(parts: seq<string>, c: char)
    requires c in Concat(parts)
    ensures exists k :: 0 <= k < |parts| && c in parts[k]
  {
    if c !in parts[0] {
      InConcat(parts[1..], c);
      var k :| 0 <= k < |parts[1..]| && c in parts[1..][k];
      assert parts[k + 1] == parts[1..][k];
    }
  }

  function DigitChar(d: nat): char
    requires d < 10
  {
    ('0' as int + d) as char
  }

  predicate IsDigitChar(c: char) {
    '0' <= c <= '9'
  }

  /** The decimal numeral of `n`, without leading zeros. */
  function Decimal(n: nat): (r: string)
    ensures |r| > 0 && forall i :: 0 <= i < |r| ==> IsDigitChar(r[i])
    ensures r[0] == '0' ==> n == 0
    decreases n
  {
    if n < 10 then [DigitChar(n)] else Decimal(n / 10) + [DigitChar(n % 10)]
  }

  /** Reads a numeral back. */
  function ParseDecimal(s: string): nat
    requires forall i :: 0 <= i < |s| ==> IsDigitChar(s[i])
  {
    if |s| == 0 then 0
    else
      assert IsDigitChar(s[|s| - 1]);
      ParseDecimal(s[..|s| - 1]) * 10 + (s[|s| - 1] as int - '0' as int)
  }

  /** The numeral names the number it was made from. */
  lemma {:induction false} DecimalRoundTrip(n: nat)
    ensures ParseDecimal(Decimal(n)) == n
    decreases n
  {
    if n >= 10 {
      DecimalRoundTrip(n / 10);
      var s := Decimal(n);
      assert s[..|s| - 1] == Decimal(n / 10);
    }
  }
}

=== FILE: utf8.dfy ===
/**
  UTF-8 (RFC 3629, section 3) over Unicode scalar values, the encoding `Buffer.from(s, 'utf-8')`
  applies to a string before it is base64-encoded. The decoder is strict: it accepts exactly the
  shortest encodings of scalar values, so encoding and decoding are inverse in both directions.
 */
module Utf8 {
  import opened Wrappers

  type byte = x: int | 0 <= x < 256

  /** A character of the range `[\x00-\x7F]`. */
  predicate IsAsciiChar(c: char) {
    c as int < 0x80
  }

  predicate IsAscii(s: string) {
    forall i :: 0 <= i < |s| ==> IsAsciiChar(s[i])
  }

  /** The bytes of one scalar value: one to four bytes by the value's range. */
  function EncodeChar(c: char): (r: seq<byte>)
    ensures 1 <= |r| <= 4
    ensures |r| == 1 <==> IsAsciiChar(c)
  {
    var n := c as int;
    if n < 0x80 then [n]
    else if n < 0x800 then [0xC0 + n / 64, 0x80 + n % 64]
    else if n < 0x10000 then [0xE0 + n / 4096, 0x80 + n / 64 % 64, 0x80 + n % 64]
    else [0xF0 + n / 0x40000, 0x80 + n / 4096 % 64, 0x80 + n / 64 % 64, 0x80 + n % 64]
  }

  function Encode(s: string): (r: seq<byte>)
    ensures |s| <= |r| <= 4 * |s|
    ensures |r| == |s| <==> IsAscii(s)
  {
    if |s| == 0 then [] else EncodeChar(s[0]) + Encode(s[1..])
  }

  predicate IsCont(b: byte) {
    0x80 <= b < 0xC0
  }

  /** The character the bytes of `bs` start with and how many bytes it takes; nothing for a
      stray continuation byte, a truncated sequence, an overlong form, a surrogate or a value
      beyond U+10FFFF. */
  function DecodeFirst(bs: seq<byte>): (r: Option<(char, nat)>)
    requires |bs| > 0
    ensures r.Some? ==> 1 <= r.value.1 <= |bs| && r.value.1 <= 4
  {
    var b0: int := bs[0];
    if b0 < 0x80 then Some((b0 as char, 1))
    else if b0 < 0xC2 then None
    else if b0 < 0xE0 then
      if 2 <= |bs| && IsCont(bs[1]) then Some((Value2(b0, bs[1]) as char, 2)) else None
    else if b0 < 0xF0 then
      if 3 <= |bs| && IsCont(bs[1]) && IsCont(bs[2]) then
        var n := Value3(b0, bs[1], bs[2]);
        if n < 0x800 || (0xD800 <= n < 0xE000) then None else Some((n as char, 3))
      else None
    else if b0 < 0xF5 then
      if 4 <= |bs| && IsCont(bs[1]) && IsCont(bs[2]) && IsCont(bs[3]) then
        var n := Value4(b0, bs[1], bs[2], bs[3]);
        if n < 0x10000 || n > 0x10FFFF then None else Some((n as char, 4))
      else None
    else None
  }

  /** The value carried by a two-, three- or four-byte sequence: the lead byte's low bits, then
      six bits from each continuation byte. */
  function Value2(b0: int, b1: int): (n: int)
    requires 0xC2 <= b0 < 0xE0 && 0x80 <= b1 < 0xC0
    ensures 0x80 <= n < 0x800
  {
    (b0 - 0xC0) * 64 + (b1 - 0x80)
  }

  function Value3(b0: int, b1: int, b2: int): (n: int)
    requires 0xE0 <= b0 < 0xF0 && 0x80 <= b1 < 0xC0 && 0x80 <= b2 < 0xC0
    ensures 0 <= n < 0x10000
  {
    (b0 - 0xE0) * 4096 + (b1 - 0x80) * 64 + (b2 - 0x80)
  }

  function Value4(b0: int, b1: int, b2: int, b3: int): (n: int)
    requires 0xF0 <= b0 < 0xF5 && 0x80 <= b1 < 0xC0 && 0x80 <= b2 < 0xC0 && 0x80 <= b3 < 0xC0
    ensures 0 <= n < 0x140000
  {
    (b0 - 0xF0) * 0x40000 + (b1 - 0x80) * 4096 + (b2 - 0x80) * 64 + (b3 - 0x80)
  }

  function Decode(bs: seq<byte>): (r: Option<string>)
    decreases |bs|
  {
    if |bs| == 0 then Some("")
    else match DecodeFirst(bs)
      case None => None
      case Some((c, k)) =>
        match Decode(bs[k..])
        case None => None
        case Some(rest) => Some([c] + rest)
  }

  /** A character's encoding, followed by anything, decodes to that character first. */
  lemma DecodeEncodedChar(c: char, rest: seq<byte>)
    ensures DecodeFirst(EncodeChar(c) + rest) == Some((c, |EncodeChar(c)|))
  {
    var n := c as int;
    if n < 0x80 {
    } else if n < 0x800 {
      Split2(n);
    } else if n < 0x10000 {
      Split3(n);
    } else {
      Split4(n);
    }
  }

  lemma Split2(n: int)
    requires 0x80 <= n < 0x800
    ensures 0xC2 <= 0xC0 + n / 64 < 0xE0 && Value2(0xC0 + n / 64, 0x80 + n % 64) == n
  {
  }

  lemma Split3(n: int)
    requires 0x800 <= n < 0x10000
    ensures 0xE0 <= 0xE0 + n / 4096 < 0xF0 && Value3(0xE0 + n / 4096, 0x80 + n / 64 % 64, 0x80 + n % 64) == n
  {
    assert n / 64 == (n / 4096) * 64 + n / 64 % 64;
  }

  lemma Split4(n: int)
    requires 0x10000 <= n < 0x110000
    ensures 0xF0 <= 0xF0 + n / 0x40000 < 0xF5
    ensures Value4(0xF0 + n / 0x40000, 0x80 + n / 4096 % 64, 0x80 + n / 64 % 64, 0x80 + n % 64) == n
  {
    assert n / 4096 == (n / 0x40000) * 64 + n / 4096 % 64;
    assert n / 64 == (n / 4096) * 64 + n / 64 % 64;
  }

  /** Whatever the decoder reads first is the encoding of what it returns. */
  lemma DecodedCharEncodes(bs: seq<byte>)
    requires |bs| > 0 && DecodeFirst(bs).Some?
    ensures bs[..DecodeFirst(bs).value.1] == EncodeChar(DecodeFirst(bs).value.0)
  {
    var k := DecodeFirst(bs).value.1;
    if k == 2 {
      Join2(bs[0], bs[1]);
    } else if k == 3 {
      Join3(bs[0], bs[1], bs[2]);
    } else if k == 4 {
      Join4(bs[0], bs[1], bs[2], bs[3]);
    }
  }

  lemma Join2(b0: int, b1: int)
    requires 0xC2 <= b0 < 0xE0 && 0x80 <= b1 < 0xC0
    ensures var n := Value2(b0, b1); 0xC0 + n / 64 == b0 && 0x80 + n % 64 == b1
  {
  }

  lemma Join3(b0: int, b1: int, b2: int)
    requires 0xE0 <= b0 < 0xF0 && 0x80 <= b1 < 0xC0 && 0x80 <= b2 < 0xC0
    ensures var n := Value3(b0, b1, b2); 0xE0 + n / 4096 == b0 && 0x80 + n / 64 % 64 == b1 && 0x80 + n % 64 == b2
  {
    var n := Value3(b0, b1, b2);
    assert n / 64 == (b0 - 0xE0) * 64 + (b1 - 0x80);
  }

  lemma Join4(b0: int, b1: int, b2: int, b3: int)
    requires 0xF0 <= b0 < 0xF5 && 0x80 <= b1 < 0xC0 && 0x80 <= b2 < 0xC0 && 0x80 <= b3 < 0xC0
    ensures var n := Value4(b0, b1, b2, b3);
      0xF0 + n / 0x40000 == b0 && 0x80 + n / 4096 % 64 == b1 && 0x80 + n / 64 % 64 == b2 && 0x80 + n % 64 == b3
  {
    var n := Value4(b0, b1, b2, b3);
    var m := (b0 - 0xF0) * 64 + (b1 - 0x80);
    assert n / 64 == m * 64 + (b2 - 0x80);
    assert n / 4096 == m;
  }

  /** Decoding undoes encoding. */
  lemma {:induction false} DecodeEncode(s: string)
    ensures Decode(Encode(s)) == Some(s)
    decreases |s|
  {
    if |s| > 0 {
      var e := EncodeChar(s[0]);
      DecodeEncodedChar(s[0], Encode(s[1..]));
      assert (e + Encode(s[1..]))[|e|..] == Encode(s[1..]);
      DecodeEncode(s[1..]);
      assert s == [s[0]] + s[1..];
    }
  }

  /** The decoder accepts only what the encoder produces. */
  lemma {:induction false} EncodeDecode(bs: seq<byte>, s: string)
    requires Decode(bs) == Some(s)
    ensures Encode(s) == bs
    decreases |bs|
  {
    if |bs| > 0 {
      var (c, k) := DecodeFirst(bs).value;
      var rest := Decode(bs[k..]).value;
      assert s == [c] + rest;
      DecodedCharEncodes(bs);
      EncodeDecode(bs[k..], rest);
      assert s[1..] == rest;
      assert bs == bs[..k] + bs[k..];
    }
  }

  /** Encoding and decoding are inverse: `bs` is the encoding of `s` exactly when it decodes to
      `s`. */
  lemma EncodeIff(s: string, bs: seq<byte>)
    ensures Encode(s) == bs <==> Decode(bs) == Some(s)
  {
    if Encode(s) == bs {
      DecodeEncode(s);
    }
    if Decode(bs) == Some(s) {
      EncodeDecode(bs, s);
    }
  }

  /** An ASCII string encodes to its own character codes. */
  lemma {:induction false} EncodeAscii(s: string)
    requires IsAscii(s)
    ensures |Encode(s)| == |s|
    ensures forall i :: 0 <= i < |s| ==> Encode(s)[i] == s[i] as int
    decreases |s|
  {
    if |s| > 0 {
      assert IsAscii(s[1..]) by {
        assert forall i :: 0 <= i < |s[1..]| ==> s[1..][i] == s[i + 1];
      }
      EncodeAscii(s[1..]);
    }
  }
}

=== FILE: webhook.dfy ===
/**
  The test endpoint `/api/webhook/test-inbound`. Each `POST` classifies the parsed request by a
  fixed priority chain of field checks and user-agent checks, and keeps the result in an
  in-memory history that holds the fifty newest requests, newest first. `GET` reads the history
  with its distribution of types, or clears it.
 */
module Webhook {
  import opened Wrappers
  import opened Text
  import opened Seqs

  /* ---------------------------------------------------------------- JavaScript values */

  /** The values a parsed request field can hold: a JSON body gives the first six (numbers are
      integers here), a form body strings and uploaded files. */
  datatype JsValue = Undefined | Null | Bool(b: bool) | Num(n: int) | Str(s: string) | Arr(items: seq<JsValue>) | Object | File

  predicate Truthy(v: JsValue) {
    match v
    case Undefined => false
    case Null => false
    case Bool(b) => b
    case Num(n) => n != 0
    case Str(s) => s != ""
    case Arr(_) => true
    case Object => true
    case File => true
  }

  /** `String(v)`, as a template literal converts a value. */
  function JsString(v: JsValue): string
    decreases v, 1, 0
  {
    match v
    case Undefined => "undefined"
    case Null => "null"
    case Bool(b) => if b then "true" else "false"
    case Num(n) => if n < 0 then "-" + Decimal(-n) else Decimal(n)
    case Str(s) => s
    case Arr(items) => JoinFrom(v, 0)
    case Object => "[object Object]"
    case File => "[object File]"
  }

  /** `items.join(',')` from element `k` on: `null` and `undefined` elements print as nothing. */
  function JoinFrom(v: JsValue, k: nat): string
    requires v.Arr? && k <= |v.items|
    decreases v, 0, |v.items| - k
  {
    if k == |v.items| then ""
    else
      var e := v.items[k];
      var head := if e.Undefined? || e.Null? then "" else JsString(e);
      if k + 1 == |v.items| then head else head + "," + JoinFrom(v, k + 1)
  }

  /** An array interpolates as its elements joined by commas, an empty one as nothing at all
      although it is truthy; an uploaded file as `[object File]`. */
  lemma CompositeStrings(a: string, b: string)
    ensures Truthy(Arr([])) && JsString(Arr([])) == ""
    ensures JsString(Arr([Str(a)])) == a
    ensures JsString(Arr([Str(a), Null, Str(b)])) == a + ",," + b
    ensures Truthy(File) && JsString(File) == "[object File]"
  {
    assert JoinFrom(Arr([Str(a)]), 0) == a;
    var v := Arr([Str(a), Null, Str(b)]);
    assert JoinFrom(v, 2) == b;
    assert JoinFrom(v, 1) == "," + b;
  }


  /** `data[key]`: a field the request does not have reads as `undefined`. */
  function Field(data: map<string, JsValue>, key: string): JsValue {
    if key in data then data[key] else Undefined
  }

  /** `data[k1] || data[k2] || …`: some listed field is truthy. */
  predicate AnyTruthy(data: map<string, JsValue>, keys: seq<string>) {
    exists i :: 0 <= i < |keys| && Truthy(Field(data, keys[i]))
  }

  /** `${data[k1] || … || '未知'}`: the first truthy listed field, or "unknown". */
  function Pick(data: map<string, JsValue>, keys: seq<string>): (r: string)
    ensures !AnyTruthy(data, keys) ==> r == UnknownText
    ensures forall i :: (0 <= i < |keys| && Truthy(Field(data, keys[i])) &&
                         (forall j :: 0 <= j < i ==> !Truthy(Field(data, keys[j])))) ==>
      r == JsString(Field(data, keys[i]))
  {
    if |keys| == 0 then UnknownText
    else if Truthy(Field(data, keys[0])) then JsString(Field(data, keys[0]))
    else
      var r := Pick(data, keys[1..]);
      assert forall i :: 1 <= i < |keys| ==> keys[i] == keys[1..][i - 1];
      r
  }

  const UnknownText := "未知"

  /* ---------------------------------------------------------------- the classifier */

  datatype Kind = Email | Alert | Lead | Error | UnknownKind

  /** A classification; the confidence is a whole percentage. */
  datatype Analysis = Analysis(kind: Kind, confidence: nat, summary: string)

  const EmailKeys := ["from", "to", "subject", "message-id"]
  const AlertKeys := ["alert", "warning", "critical", "severity"]
  const LeadKeys := ["lead", "contact", "customer", "name", "email"]
  const ErrorKeys := ["error", "exception", "failure"]

  predicate LooksLikeError(data: map<string, JsValue>) {
    AnyTruthy(data, ErrorKeys) || Field(data, "status") == Str("error")
  }

  /** `headers['user-agent']?.includes(word)`. */
  predicate AgentSays(headers: map<string, string>, word: string) {
    "user-agent" in headers && Contains(headers["user-agent"], word)
  }

  /** `analyzeWebhookType`: the first branch whose test holds decides, in the order email fields,
      alert fields, lead fields, error fields, a SendGrid user agent, a GitHub user agent. */
  function Analyze(data: map<string, JsValue>, headers: map<string, string>): (r: Analysis)
    ensures (r.kind == Email && r.confidence == 90) <==> AnyTruthy(data, EmailKeys)
    ensures (r.kind == Alert && r.confidence == 80) <==> !AnyTruthy(data, EmailKeys) && AnyTruthy(data, AlertKeys)
    ensures r.kind == Lead <==>
      !AnyTruthy(data, EmailKeys) && !AnyTruthy(data, AlertKeys) && AnyTruthy(data, LeadKeys)
    ensures r.kind == Error <==>
      !AnyTruthy(data, EmailKeys) && !AnyTruthy(data, AlertKeys) && !AnyTruthy(data, LeadKeys) && LooksLikeError(data)
    ensures r.confidence == 60 <==>
      !AnyTruthy(data, EmailKeys) && !AnyTruthy(data, AlertKeys) && !AnyTruthy(data, LeadKeys) &&
      !LooksLikeError(data) && (AgentSays(headers, "SendGrid") || AgentSays(headers, "GitHub"))
    ensures r.confidence == 60 ==> (r.kind == Email <==> AgentSays(headers, "SendGrid"))
    ensures r == Analysis(UnknownKind, 0, "") <==> r.kind == UnknownKind
    ensures r.kind == Lead ==> r.confidence == 70
    ensures r.kind == Error ==> r.confidence == 80
    ensures r.kind != UnknownKind ==> r.summary != ""
  {
    if AnyTruthy(data, EmailKeys) then
      Analysis(Email, 90, "邮件webhook - 发件人: " + Pick(data, ["from"]) + ", 收件人: " + Pick(data, ["to"]))
    else if AnyTruthy(data, AlertKeys) then
      Analysis(Alert, 80, "告警webhook - 级别: " + Pick(data, ["severity", "alert"]))
    else if AnyTruthy(data, LeadKeys) then
      Analysis(Lead, 70, "潜在客户webhook - 联系人: " + Pick(data, ["name", "email"]))
    else if LooksLikeError(data) then
      Analysis(Error, 80, "错误webhook - 错误: " + Pick(data, ["error", "exception"]))
    else if AgentSays(headers, "SendGrid") then
      Analysis(Email, 60, "SendGrid邮件webhook (基于User-Agent)")
    else if AgentSays(headers, "GitHub") then
      Analysis(Alert, 60, "GitHub webhook (基于User-Agent)")
    else Analysis(UnknownKind, 0, "")
  }

  /** The first branch wins: a request with a truthy email field stays an email whatever other
      fields it also carries. */
  lemma EmailFieldsWin(data: map<string, JsValue>, extra: map<string, JsValue>, headers: map<string, string>)
    requires AnyTruthy(data, EmailKeys)
    requires forall k :: k in extra ==> k !in data
    ensures Analyze(data + extra, headers).kind == Email && Analyze(data + extra, headers).confidence == 90
  {
    var i :| 0 <= i < |EmailKeys| && Truthy(Field(data, EmailKeys[i]));
    assert Field(data + extra, EmailKeys[i]) == Field(data, EmailKeys[i]);
  }

  /* ---------------------------------------------------------------- the history */

  const MaxHistory := 50

  /** A history entry. Entries made by `POST` always carry an analysis. */
  datatype Entry = Entry(id: string, analysis: Option<Analysis>)

  /** `unshift` then `slice(0, MAX_HISTORY)` when too long. */
  function Record(history: seq<Entry>, e: Entry): (r: seq<Entry>)
    ensures |r| == Min(|history| + 1, MaxHistory)
    ensures r[0] == e
    ensures forall k :: 1 <= k < |r| ==> r[k] == history[k - 1]
  {
    var h := [e] + history;
    if |h| > MaxHistory then h[..MaxHistory] else h
  }

  /** The history after recording `es` in order. */
  function Replay(history: seq<Entry>, es: seq<Entry>): seq<Entry> {
    if |es| == 0 then history else Record(Replay(history, es[..|es| - 1]), es[|es| - 1])
  }

  /** The history holds the fifty newest requests, newest first. */
  lemma {:induction false} ReplayNewestFirst(es: seq<Entry>)
    ensures |Replay([], es)| == Min(|es|, MaxHistory)
    ensures forall k :: 0 <= k < |Replay([], es)| ==> Replay([], es)[k] == es[|es| - 1 - k]
  {
    if |es| > 0 {
      var init := es[..|es| - 1];
      ReplayNewestFirst(init);
      var h := Replay([], init);
      var r := Replay([], es);
      assert r == Record(h, es[|es| - 1]);
      forall k | 1 <= k < |r| ensures r[k] == es[|es| - 1 - k] {
        assert r[k] == h[k - 1] == init[|init| - 1 - (k - 1)];
      }
    }
  }

  /* ---------------------------------------------------------------- the distribution */

  /** How many entries carry an analysis of kind `k`. */
  function Count(history: seq<Entry>, k: Kind): nat {
    if |history| == 0 then 0
    else (if history[0].analysis.Some? && history[0].analysis.value.kind == k then 1 else 0) + Count(history[1..], k)
  }

  /** How many entries carry an analysis. */
  function Analysed(history: seq<Entry>): nat {
    if |history| == 0 then 0 else (if history[0].analysis.Some? then 1 else 0) + Analysed(history[1..])
  }

  function Tallied(m: map<Kind, nat>, k: Kind): nat {
    if k in m then m[k] else 0
  }

  function Total(m: map<Kind, nat>): nat {
    Tallied(m, Email) + Tallied(m, Alert) + Tallied(m, Lead) + Tallied(m, Error) + Tallied(m, UnknownKind)
  }

  /** `distribution[type] = (distribution[type] || 0) + 1` over the entries, in order. */
  function Tally(acc: map<Kind, nat>, history: seq<Entry>): (r: map<Kind, nat>)
    ensures forall k :: Tallied(r, k) == Tallied(acc, k) + Count(history, k)
    ensures forall k :: k in r <==> k in acc || Count(history, k) > 0
    decreases |history|
  {
    if |history| == 0 then acc
    else if history[0].analysis.None? then Tally(acc, history[1..])
    else
      var k := history[0].analysis.value.kind;
      Tally(acc[k := Tallied(acc, k) + 1], history[1..])
  }

  /** `getTypeDistribution`: a count for every type that occurs, and the counts add up to the
      number of analysed entries. */
  function Distribution(history: seq<Entry>): (r: map<Kind, nat>)
    ensures forall k :: k in r <==> Count(history, k) > 0
    ensures forall k :: k in r ==> r[k] == Count(history, k)
    ensures Total(r) == Analysed(history)
  {
    CountsCover(history);
    Tally(map[], history)
  }

  lemma {:induction false} CountsCover(history: seq<Entry>)
    ensures Count(history, Email) + Count(history, Alert) + Count(history, Lead) + Count(history, Error) +
      Count(history, UnknownKind) == Analysed(history)
  {
    if |history| > 0 {
      CountsCover(history[1..]);
    }
  }

  /** Every entry carries an analysis. */
  predicate AllAnalysed(history: seq<Entry>) {
    forall k :: 0 <= k < |history| ==> history[k].analysis.Some?
  }

  lemma {:induction false} AllAnalysedCount(history: seq<Entry>)
    ensures AllAnalysed(history) ==> Analysed(history) == |history|
  {
    if |history| > 0 {
      AllAnalysedCount(history[1..]);
      assert AllAnalysed(history) ==> AllAnalysed(history[1..]);
    }
  }

  /* ---------------------------------------------------------------- the handlers */

  /** The parsed request: an object's fields, a body without fields (text, a number, an array),
      JSON `null`, on which reading a field throws, or a body whose parse throws (an
      `application/json` body that is not JSON, a `multipart/form-data` body that is not a form).
      In the last case the body has already been read, so the fallback `request.text()` in the
      catch throws as well: a body can be read only once. */
  datatype Body = Fields(fields: map<string, JsValue>) | NoFields | NullBody | ParseFailed

  datatype PostReply =
    | PostFailed
    | PostOk(analysis: Analysis, totalReceived: nat, distribution: map<Kind, nat>)

  /** `POST`: classify the request and record it. A `null` body, or one whose parse throws, fails
      with 500 and is not recorded. */
  function Post(history: seq<Entry>, id: string, body: Body, headers: map<string, string>): (r: (PostReply, seq<Entry>))
    ensures r.0.PostFailed? <==> body.NullBody? || body.ParseFailed?
    ensures r.0.PostFailed? ==> r.1 == history
    ensures r.0.PostOk? ==>
      r.1 == Record(history, Entry(id, Some(r.0.analysis))) &&
      r.0.analysis == Analyze(if body.Fields? then body.fields else map[], headers) &&
      r.0.totalReceived == |r.1| <= MaxHistory &&
      r.0.distribution == Distribution(r.1)
    ensures r.0.PostOk? && AllAnalysed(history) ==> AllAnalysed(r.1) && Total(r.0.distribution) == r.0.totalReceived
  {
    if body.NullBody? || body.ParseFailed? then (PostFailed, history)
    else
      var a := Analyze(if body.Fields? then body.fields else map[], headers);
      var h := Record(history, Entry(id, Some(a)));
      AllAnalysedCount(h);
      (PostOk(a, |h|, Distribution(h)), h)
  }

  /** `POST` with the fallback the catch block intends: a body whose parse throws is kept as its
      raw text, which has no fields, and recorded like any other text body. */
  function PostCorrected(history: seq<Entry>, id: string, body: Body, headers: map<string, string>): (r: (PostReply, seq<Entry>))
    ensures r.0.PostFailed? <==> body.NullBody?
    ensures r.0.PostFailed? ==> r.1 == history
    ensures r.0.PostOk? ==>
      r.1 == Record(history, Entry(id, Some(r.0.analysis))) &&
      r.0.analysis == Analyze(if body.Fields? then body.fields else map[], headers) &&
      r.0.totalReceived == |r.1| <= MaxHistory
    ensures !body.ParseFailed? ==> r == Post(history, id, body, headers)
  {
    Post(history, id, if body.ParseFailed? then NoFields else body, headers)
  }

  /** As written, a body that fails to parse is lost: the reply is a 500 and the history is
      unchanged, where the intended fallback records it. */
  lemma UnparsedBodyLost(history: seq<Entry>, id: string, headers: map<string, string>)
    ensures Post(history, id, ParseFailed, headers) == (PostFailed, history)
    ensures PostCorrected(history, id, ParseFailed, headers).0.PostOk?
  {
  }

  /** With the fallback, a body that fails to parse is recorded first in the history, analysed as
      a body without fields. */
  lemma UnparsedBodyRecorded(history: seq<Entry>, id: string, headers: map<string, string>)
    ensures var r := PostCorrected(history, id, ParseFailed, headers);
      r.0.PostOk? && |r.1| > 0 && r.1[0] == Entry(id, Some(Analyze(map[], headers))) &&
      r.1[1..] == history[..Min(|history|, MaxHistory - 1)]
  {
  }

  datatype GetReply = HistoryReply(history: seq<Entry>, total: nat, distribution: map<Kind, nat>) | Cleared | Info

  /** `GET`: `action=history` reads the history, `action=clear` empties it, anything else
      describes the endpoint. */
  function Inspect(history: seq<Entry>, action: Option<string>): (r: (GetReply, seq<Entry>))
    ensures action == Some("history") ==>
      r.0.HistoryReply? && r.1 == history && r.0.history == history && r.0.total == |history| &&
      Total(r.0.distribution) == Analysed(history)
    ensures action == Some("clear") ==> r == (Cleared, [])
    ensures action != Some("history") && action != Some("clear") ==> r == (Info, history)
  {
    if action == Some("history") then (HistoryReply(history, |history|, Distribution(history)), history)
    else if action == Some("clear") then (Cleared, [])
    else (Info, history)
  }
}

=== FILE: wrappers.dfy ===
/** Failure-carrying values shared by every module of the model. */
module Wrappers {

  /** A value that may be absent: JavaScript's `undefined`/`null` and Python's `None`. */
  datatype Option<+T> = None | Some(value: T) {

    /** The wrapped value, or `default` when there is none. */
    function GetOr(default: T): T {
      match this
      case Some(v) => v
      case None => default
    }
  }
}
